=== FILE: README.md ===
# Corundum host driver core, modelled in Dafny

Corundum is an FPGA-based network interface. Its host side has three parts, and this project models each of them:

- the Python driver model that the FPGA testbenches drive (`fpga/common/tb/mqnic.py`);
- the round-robin transmit scheduler of the Linux kernel driver (`modules/mqnic/mqnic_scheduler.c`);
- the scheduler open/close of the user-space library (`lib/mqnic/mqnic_scheduler.c`).

The model is pure and functional. Every driver object is an immutable datatype. Every operation is a function or method that returns the new state and the register writes it issues, in the order issued. There is one exception: `open` programs the scheduler's channel registers and enable bit (`fpga/common/tb/mqnic.py:1491-1500`) into the scheduler's register map, and these writes do not appear in the log (see `NetDevice.Configure` under "Left out"). A Python exception, including a failed `assert`, an `IndexError`, a `KeyError` and a division by zero, becomes an `Err` carrying one `Common.Error` code.

Modules, in the order of the driver's structure:

- `Bits`: bit-level arithmetic (`&`, `|`, shifts, `bit_length`) on unbounded naturals.
- `Common`: `Option`, `Result`, the error codes, bytes and register writes.
- `Resource`: the index pools (`Resource`) of event, completion, transmit and receive queues.
- `RegBlocks`: the register-block chain walk (`RegBlockList.enumerate_reg_blocks`) and lookup (`find`).
- `Ring`: ring geometry, slot indices, the phase bit, the drain of valid records, and the 16-bit pointer register.
- `Csr`: the queue, completion-queue and event-queue command words.
- `Packets`: the driver's packet-buffer allocator (`alloc_pkt`/`free_pkt`).
- `EventQueue`: `Eq` open, close, attach/detach, arm and `process_eq`.
- `CompletionQueue`: `Cq` open, close, arm and the completion records waiting on it.
- `Queues`: the transmit and receive rings (`Txq`/`Rxq`), i.e. open, close, enable, `free_buf`, the transmit enqueue of `start_xmit`, and receive refill. It also covers the descriptor blocks and what the hardware gathers through them.
- `Completion`: the completion handlers `process_tx_cq` and `process_rx_cq`.
- `Scheduler`: `BaseScheduler`, `SchedulerRoundRobin` and `SchedulerPort` of the Python model, and the kernel's `mqnic_scheduler_*` functions. This includes the enable count, per-channel registers with their flow-control scaling, command words and status bits.
- `SchedLib`: `mqnic_sched_open` and `mqnic_sched_close` of the library.
- `Interface`: the interface state. It holds the scheduler-port pool, the per-device queue counts and indirection table, the `NetDev` constructor, and the invariant shared by every operation.
- `NetDevice`: `NetDev.open`, `start_xmit` and `recv_nowait`.
- `Driver`: `Driver.interrupt_handler` and the event-queue service it runs.

Register values read from hardware, DMA addresses and the decision of the memory allocator are parameters. Time, interrupts and `await` are absent: each operation runs to completion in program order.

## Model

| member | source | states |
|---|---|---|
| Resource.Range | fpga/common/tb/mqnic.py:376 | `list(range(n))` is sorted and holds exactly the naturals below n. |
| Resource.NewPool | fpga/common/tb/mqnic.py:370-376 | A new pool satisfies the pool invariant. Its free list holds exactly the indices below count. |
| Resource.Alloc | fpga/common/tb/mqnic.py:378-379 | Fails with ResourceExhausted iff the free list is empty. Otherwise it hands out an index that was free and is the smallest free one on a sorted list. It removes exactly that index and keeps the invariant. |
| Resource.Claim | fpga/common/tb/mqnic.py:378-392 | `alloc` then `get_window`: the lowest free index with its window, failing only on an empty pool. |
| Resource.Free | fpga/common/tb/mqnic.py:381-383 | The index joins the free list with multiplicity, since a double free is not detected. Freeing an index below count keeps the invariant. |
| Resource.Insert | fpga/common/tb/mqnic.py:382-383 | `append` followed by `sort` adds exactly one copy of x and nothing else. |
| Resource.InsertSorted | fpga/common/tb/mqnic.py:382-383 | The free list stays sorted after a free. |
| Resource.SortedUnique | fpga/common/tb/mqnic.py:382-383 | Two sorted lists with the same elements are equal, so the insertion is exactly what `sort` produces. |
| Resource.GetWindow | fpga/common/tb/mqnic.py:388-392 | Index i's window starts at i * stride and is stride long. It is cached, and nothing else of the pool changes. |
| Resource.FreeThenAlloc | fpga/common/tb/mqnic.py:378-383 | Freeing an index below every free one and allocating again returns it and restores the pool. |
| Resource.FreshPoolAllocatesInOrder | fpga/common/tb/mqnic.py:370-379 | The k-th allocation from a fresh pool returns k. |
| Resource.AllocNFromRange | fpga/common/tb/mqnic.py:370-379 | k allocations from a fresh pool leave exactly `range(count)[k:]` free. |
| Resource.WindowsDisjoint | fpga/common/tb/mqnic.py:388-392 | Windows of distinct indices do not overlap. |
| Resource.GetWindowIdempotent | fpga/common/tb/mqnic.py:388-392 | Asking for a window twice returns the cached one and changes nothing more. |
| RegBlocks.Enumerate | fpga/common/tb/mqnic.py:406-420 | Fails only with NotAligned or BlockLoop. On success the result extends the list with a chain read from the registers: headers at each offset, nonzero, aligned and unvisited next pointers, and a zero pointer last. The walk always terminates. |
| RegBlocks.ChainIsEnumerated | fpga/common/tb/mqnic.py:406-420 | Conversely, any such chain in the registers is exactly what the walk returns. |
| RegBlocks.Matching | fpga/common/tb/mqnic.py:422-429 | A block matches iff it has the type and, when a nonzero version is given, the version. |
| RegBlocks.Find | fpga/common/tb/mqnic.py:422-429 | Returns the index-th match in discovery order, counting a negative index as 0, or None when there are fewer matches. |
| Ring.Geom | fpga/common/tb/mqnic.py:720-726 | A request of 0 fails with BadSize. Otherwise the size is a power of two with size <= req < 2 * size, the mask is size - 1 and the full mark is half the size. |
| Ring.GeomIsLargestPowerOfTwo | fpga/common/tb/mqnic.py:720-723 | No larger power of two fits the request. |
| Ring.Index | fpga/common/tb/mqnic.py:809 | `ptr & size_mask` is `ptr mod size`. |
| Ring.Empty | fpga/common/tb/mqnic.py:789-790 | A ring is empty iff its producer and consumer pointers are equal; `Rxq.empty` (mqnic.py:976-977) is the same test. |
| Ring.Full | fpga/common/tb/mqnic.py:792-793 | A ring is full iff `full_size` or more entries are outstanding; for a valid ring of two or more slots that is half its size or more. `Rxq.full` (mqnic.py:979-980) is the same test. |
| Ring.EmptyNotFull | fpga/common/tb/mqnic.py:789-793 | An empty ring is not full, except a one-slot ring, whose full mark of 0 makes it full from the start. |
| Ring.NotFullSlotFree | fpga/common/tb/mqnic.py:789-793 | While the ring is not full, the producer's next slot is none of the slots outstanding entries still hold. |
| Ring.Phase | fpga/common/tb/mqnic.py:570 | `bool(ptr & size)` is the parity of the pass. |
| Ring.SlotValid | fpga/common/tb/mqnic.py:570 | A record is valid iff bit 31 of its tail word differs from the parity of the consumer's pass. |
| Ring.PhaseFlips | fpga/common/tb/mqnic.py:570 | One pass later a slot's validity test is inverted, so a record is seen once per pass. |
| Ring.DrainEnd | fpga/common/tb/mqnic.py:561-581 | A drain from cons consumes a run of valid records and stops at the first invalid one, at most one ring later. |
| Ring.DrainEndUnique | fpga/common/tb/mqnic.py:561-581 | The drain end is the only pointer with that property. |
| Ring.ReadConsPtr | fpga/common/tb/mqnic.py:795-797 | The new consumer pointer never moves back, moves less than 2^16, and agrees with the hardware's 16 bits. |
| Ring.ReadConsPtrIsLeast | fpga/common/tb/mqnic.py:795-797 | It is the least such pointer. |
| Ring.ReadConsPtrIdempotent | fpga/common/tb/mqnic.py:795-797 | Reading the same register twice changes nothing the second time. |
| Ring.PtrWord | fpga/common/tb/mqnic.py:307-313 | The pointer register holds the producer pointer in bits 0-15 and the consumer pointer in bits 16-31. |
| Ring.ReadConsPtrOfRegister | fpga/common/tb/mqnic.py:795-797 | `read_cons_ptr` recovers the consumer half whatever the producer half holds. |
| Csr.FlagCmd | fpga/common/tb/mqnic.py:773-787 | `SET_ENABLE \| flag` adds the flag bit to the opcode. |
| Csr.PtrCmd | fpga/common/tb/mqnic.py:799-800 | The pointer command keeps the opcode's upper half and carries the pointer's low 16 bits, both readable back. |
| Csr.QueueSizeCmd | fpga/common/tb/mqnic.py:748 | The size command is the opcode plus the block-size log at bits 8-15 plus the ring-size log at bits 0-7. |
| Csr.CmdFields | fpga/common/tb/mqnic.py:748-751 | An operand below 2^k OR-ed into an opcode with its low k bits clear can be read back, and the opcode's upper part is kept. |
| Csr.BaseAddrWrites | fpga/common/tb/mqnic.py:746-747 | The low word carries bits 12-31 of the DMA address with bits 0-11 cleared, and the high word the bits from 32 up. |
| Packets.Alloc | fpga/common/tb/mqnic.py:2158-2163 | Returns the oldest freed buffer and removes it from the queue. With none queued, returns a new zeroed buffer of `pkt_buf_size` bytes. Keeps the allocator invariant. |
| Packets.NewPackets | fpga/common/tb/mqnic.py:2034-2036 | A new allocator is valid, has handed out nothing and has nothing queued for reuse. |
| Packets.Free | fpga/common/tb/mqnic.py:2165-2168 | Fails with NullPacket on None and ForeignPacket on a buffer never handed out. Otherwise the buffer goes to the back of the reuse queue and nothing else changes. |
| Packets.FreeThenAllocReturnsIt | fpga/common/tb/mqnic.py:2158-2168 | With nothing queued, free then alloc returns the freed buffer and restores the allocator. |
| Packets.AllocDrainsInOrder | fpga/common/tb/mqnic.py:2158-2168 | The reuse queue is first in, first out. |
| Packets.DoubleFreeAccepted | fpga/common/tb/mqnic.py:2165-2168 | Freeing one buffer twice is accepted, and two later allocations both return it. |
| Packets.Store | fpga/common/tb/mqnic.py:1592 | Writes data at the offset of one buffer. The bytes of that buffer before and after the slice are kept, and every other buffer is as it was. |
| Packets.Prefix | fpga/common/tb/mqnic.py:1059 | `pkt[:length]` is clipped at the end of the buffer. |
| EventQueue.ZeroedIsEmpty | fpga/common/tb/mqnic.py:506-508 | A zeroed ring holds no valid event. |
| EventQueue.NewEq | fpga/common/tb/mqnic.py:463-486 | A new event queue is closed and disabled, with no index, interrupt, attached completion queues or buffer. |
| EventQueue.OpenWrites | fpga/common/tb/mqnic.py:516-523 | Eight writes in source order: disable, the two base-address words, the size, the interrupt number, the producer and consumer pointers at 0, and enable. |
| EventQueue.Open | fpga/common/tb/mqnic.py:488-525 | Errors in order: AlreadyOpen, then ResourceExhausted, then BadSize for size 0. On success it takes the lowest free index, sizes the ring to the largest power of two not above the request, and starts with nothing pending. Its writes are `EventQueue.OpenWrites`. |
| EventQueue.Close | fpga/common/tb/mqnic.py:527-542 | A no-op when closed. Otherwise it disables the queue, returns the index to the pool and keeps the table of attached completion queues. |
| EventQueue.Attach | fpga/common/tb/mqnic.py:544-545 | Registers the number and changes nothing else. |
| EventQueue.Detach | fpga/common/tb/mqnic.py:547-548 | Fails with UnknownCq iff the number is not registered. Otherwise it removes exactly that number. |
| EventQueue.DetachUndoesAttach | fpga/common/tb/mqnic.py:544-548 | Detach undoes an attach of a new number. |
| EventQueue.Arm | fpga/common/tb/mqnic.py:553-557 | One arm command iff the queue is open. |
| EventQueue.WriteConsPtr | fpga/common/tb/mqnic.py:550-551 | Reports the consumer pointer's low 16 bits with the `SET_CONS_PTR` opcode. |
| EventQueue.Dispatch | fpga/common/tb/mqnic.py:566-581 | The completion queues served are the event sources in order, up to the first unregistered one. The pass fails iff some source is unregistered. |
| EventQueue.ProcessEq | fpga/common/tb/mqnic.py:559-583 | Serves the sources of every valid event up to the drain end. When all are registered, it moves the consumer there and reports it. On an unregistered source it changes nothing and writes nothing. |
| EventQueue.ProcessEqDrains | fpga/common/tb/mqnic.py:559-583 | A successful pass advances by exactly the number of pending events and leaves none pending. |
| EventQueue.ProcessEqConsumesValidRun | fpga/common/tb/mqnic.py:566-571 | Every consumed slot held a valid event, and the slot where the pass stopped did not. |
| CompletionQueue.Completions | fpga/common/tb/mqnic.py:830-847 | The records a handler visits are the ring slots from the consumer pointer to the drain end, in order. |
| CompletionQueue.CompletionsAreNew | fpga/common/tb/mqnic.py:836 | Each visited record carries a new phase, and the one after the last does not. |
| CompletionQueue.ZeroedIsEmpty | fpga/common/tb/mqnic.py:631-633 | A zeroed ring holds no completion. |
| CompletionQueue.NewCq | fpga/common/tb/mqnic.py:587-611 | A new completion queue is closed and disabled, with no index, event queue, ring or buffer. |
| CompletionQueue.OpenWrites | fpga/common/tb/mqnic.py:641-648 | Eight writes in source order: disable, the two base-address words, the size, the event queue number, the producer and consumer pointers at 0, and enable. |
| CompletionQueue.Open | fpga/common/tb/mqnic.py:613-649 | Errors in order: AlreadyOpen, ResourceExhausted, BadSize, then NotOpen for an event queue without a number. On success it takes the lowest free index, sizes the ring to a power of two, starts empty, and attaches to the event queue. |
| CompletionQueue.Close | fpga/common/tb/mqnic.py:651-667 | A no-op when closed. Fails with UnknownCq iff it is not attached to its event queue. Otherwise it disables the queue, detaches it, returns the index and keeps the ring link. |
| CompletionQueue.OpenThenClose | fpga/common/tb/mqnic.py:613-667 | Closing a fresh completion queue restores the event queue's table and the pool's free indices. |
| CompletionQueue.Arm | fpga/common/tb/mqnic.py:672-677 | One arm command iff the queue is open. |
| CompletionQueue.WriteConsPtr | fpga/common/tb/mqnic.py:669-670 | Reports the consumer pointer's low 16 bits. |
| Queues.IndexDistinct | fpga/common/tb/mqnic.py:809 | Pointers less than one ring apart name distinct slots. |
| Queues.Segs | fpga/common/tb/mqnic.py:1607-1610 | The descriptors after the first cover exactly the remaining bytes. |
| Queues.SegsShape | fpga/common/tb/mqnic.py:1607-1610 | Only the last descriptor may exceed 4 KiB. An empty descriptor has address 0. Every address lies in the buffer's data. |
| Queues.SegsGather | fpga/common/tb/mqnic.py:1604-1610 | Following the descriptors yields exactly the described bytes, once and in order. |
| Queues.TxSegs | fpga/common/tb/mqnic.py:1599-1610 | The transmit block describes the packet at offset 10, with a first descriptor of at most 42 bytes when the block has more than one. |
| Queues.TxSegsGather | fpga/common/tb/mqnic.py:1599-1610 | The hardware reads back exactly the packet data. |
| Queues.RxSegs | fpga/common/tb/mqnic.py:1000-1012 | A receive block describes the whole buffer. |
| Queues.RxSegsGather | fpga/common/tb/mqnic.py:1000-1012 | A receive block covers every byte of its buffer. |
| Queues.Advance | fpga/common/tb/mqnic.py:850-861 | Cleanup passes only slots that own nothing and stops at the producer or at the first owned slot. |
| Queues.AdvanceUnique | fpga/common/tb/mqnic.py:850-861 | The cleanup pointer is the only one with that property. |
| Queues.AdvanceKeepsValid | fpga/common/tb/mqnic.py:850-861 | Releasing buffers and then cleaning up keeps the ring invariant. |
| Queues.ReadConsPtr | fpga/common/tb/mqnic.py:795-797 | The ring's consumer pointer follows `Ring.ReadConsPtr`, and nothing else changes. |
| Queues.WriteProdPtr | fpga/common/tb/mqnic.py:799-800 | Reports the producer pointer's low 16 bits. |
| Queues.NewQueue | fpga/common/tb/mqnic.py:679-710 | A new ring of the given kind is closed and disabled, with no index, device or completion queue, pointers at 0, no slots and zero counters. |
| Queues.OpenWrites | fpga/common/tb/mqnic.py:745-751 | Seven writes in source order with the ring disabled: disable, the two base-address words, the size word with both logs, the completion queue number, and the producer and consumer pointers at 0. |
| Queues.Open | fpga/common/tb/mqnic.py:712-751 | Errors in order: AlreadyOpen, ResourceExhausted, BadSize, NotOpen. On success it takes the lowest free index, sizes the ring and descriptor block to powers of two, and claims the completion queue. It keeps the enable flag. A receive ring of at least 8 slots is then filled. The writes are `OpenWrites` followed by the refill's producer write, and the allocator is the one the refill leaves. |
| Queues.Setup | fpga/common/tb/mqnic.py:720-751 | What `open` does once the index is claimed: BadSize or NotOpen as in `open`, otherwise the sized, owned ring with `OpenWrites` and the refill's writes and allocations. |
| Queues.Populate | fpga/common/tb/mqnic.py:938 | A receive ring is refilled and a transmit ring is left empty. |
| Queues.Close | fpga/common/tb/mqnic.py:753-771 | A no-op when closed. Otherwise it disables the ring, releases the completion queue and returns the index. Owned buffers stay owned. |
| Queues.Enable | fpga/common/tb/mqnic.py:773-779 | Fails with NotOpen on a closed ring. Otherwise it sets only the flag and writes one enable. |
| Queues.Disable | fpga/common/tb/mqnic.py:781-787 | A no-op on a closed ring. Otherwise it clears only the flag. |
| Queues.EnableThenDisable | fpga/common/tb/mqnic.py:773-787 | The pair restores the ring apart from the flag. The two commands differ in bit 0 only. |
| Queues.FreeDesc | fpga/common/tb/mqnic.py:802-805 | Fails iff the slot owns no allocated buffer. Otherwise the buffer goes back to the allocator and the slot is cleared. |
| Queues.FreeBuf | fpga/common/tb/mqnic.py:807-811 | Succeeds iff every in-flight slot owns a buffer. Then it frees those buffers in ring order and leaves the ring empty, owning nothing. |
| Queues.EmptyUnowned | fpga/common/tb/mqnic.py:789-790 | An open ring with nothing in flight owns no buffer. |
| Queues.CsumCmd | fpga/common/tb/mqnic.py:1594-1597 | The checksum command is 0 unless both start and offset are given. |
| Queues.CsumCmdFields | fpga/common/tb/mqnic.py:1597 | Bit 15 enables the checksum, bits 8-14 hold the offset and bits 0-7 the start. |
| Queues.Xmit | fpga/common/tb/mqnic.py:1570-1614 | Blocks iff the ring is at its full mark. Fails iff the packet overflows its buffer or the checksum field. The slot is never found busy. Otherwise it takes the allocator's next buffer, stores the packet at offset 10, and fills one slot. The descriptors gather exactly the data. The producer advances by one and the counters grow. Everything else is unchanged. |
| Queues.Enqueue | fpga/common/tb/mqnic.py:1581-1612 | Fills the producer slot and advances the producer pointer. |
| Queues.EnqueueStores | fpga/common/tb/mqnic.py:1586-1610 | The new buffer holds the packet, its descriptors lead back to exactly those bytes, and no other buffer changes. |
| Queues.XmitKeepsValid | fpga/common/tb/mqnic.py:1581-1612 | Filling the producer slot keeps the ring invariant. |
| Queues.PrepareDesc | fpga/common/tb/mqnic.py:1000-1012 | Gives the producer slot a fresh buffer and a block lending all of it. |
| Queues.Fill | fpga/common/tb/mqnic.py:1020-1023 | n rounds of `prepare_desc` post n new slots and keep the older ones. |
| Queues.Refill | fpga/common/tb/mqnic.py:1014-1025 | Does nothing when fewer than 8 slots are missing. Otherwise it fills the ring to one full size and reports the new producer pointer. |
| Queues.SmallRingNeverRefilled | fpga/common/tb/mqnic.py:1017-1018 | A ring of fewer than 8 slots is never refilled. |
| Completion.Timestamp | fpga/common/tb/mqnic.py:1061 | The exact count of 2^-16 ns gives back the 16-bit fraction, the whole nanoseconds and, with in-range fields, the seconds and nanoseconds. |
| Completion.Slots | fpga/common/tb/mqnic.py:832 | Each record names slot `index & size_mask`. |
| Completion.Owners | fpga/common/tb/mqnic.py:842 | The buffers the named slots own, in record order. |
| Completion.Received | fpga/common/tb/mqnic.py:1054-1062 | The delivered packet is the buffer clipped to the record's length, tagged with the ring, timestamp and checksum. |
| Completion.Consume | fpga/common/tb/mqnic.py:1043-1073 | Succeeds iff the records name distinct slots that each own an allocated buffer. It fails only with NullPacket or ForeignPacket. |
| Completion.ConsumeFrees | fpga/common/tb/mqnic.py:842 | The batch's buffers are freed in record order after those already queued. |
| Completion.ConsumeReleases | fpga/common/tb/mqnic.py:842 | Exactly the named slots are released. |
| Completion.ConsumeReceives | fpga/common/tb/mqnic.py:1054-1069 | Transmit delivers nothing. Receive delivers one packet per record, in order, cut from the slot's buffer. |
| Completion.ClaimableStep | fpga/common/tb/mqnic.py:842 | A batch is claimable iff its first slot is owned and the rest is claimable once that slot is released. |
| Completion.ProcessCq | fpga/common/tb/mqnic.py:813-863 | Does nothing while the port is down. Otherwise it succeeds iff the waiting completions are claimable, failing only with NullPacket or ForeignPacket. Then it drains the completion queue and reports its pointer. A transmit ring writes nothing and delivers nothing, and a receive ring is left above its refill mark. |
| Completion.ProcessCqEffect | fpga/common/tb/mqnic.py:813-863 | With the port up, the ring's slots named by the batch are released and its consumer moves past them to the first still-owned slot. The batch's buffers are freed in record order. A receive ring is then exactly refilled and delivers one packet per record. |
| Completion.ConsumeFinish | fpga/common/tb/mqnic.py:842-863 | The record loop followed by the ring half releases the batch, frees its buffers in order and, for receive, refills and delivers the packets in order. |
| Completion.ConsumeEffect | fpga/common/tb/mqnic.py:842 | The record loop releases exactly the batch's slots and queues exactly its buffers, in order, behind those already queued. |
| Completion.Cleaned | fpga/common/tb/mqnic.py:850-861 | Releasing slots and moving the consumer over them keeps the ring open and valid. |
| Completion.Finish | fpga/common/tb/mqnic.py:850-863 | Cleans up the consumer over released slots. A transmit ring changes nothing else. A receive ring is exactly `Refill` of the cleaned ring: above its refill mark, with the producer never moved back. |
| Completion.ProcessCqDrains | fpga/common/tb/mqnic.py:827-848 | After a handler no completion is waiting. |
| Completion.ProcessTxCqIdempotent | fpga/common/tb/mqnic.py:813-863 | A second transmit pass with no new completions only re-reports the pointer. |
| Scheduler.DecodeConfig | fpga/common/tb/mqnic.py:1233-1237 | The counts are bytes, the channel count is their product, and the scale is at least 1. |
| Scheduler.ConfigRoundTrip | fpga/common/tb/mqnic.py:1233-1237 | Decoding recovers every field of the configuration word whatever its top byte holds. The scale is a power of two. |
| Scheduler.Init | fpga/common/tb/mqnic.py:1222-1242 | The queue count is clamped to 32 and the count starts at 0. It creates one port per hardware port, numbered in order. |
| Scheduler.Create | modules/mqnic/mqnic_scheduler.c:18-64 | Fails with OutOfMemory iff the record allocation fails (`-ENOMEM`). Otherwise the hardware is left disabled with count 0, and the configuration is decoded with unbounded integers; see Left out for the C shift. |
| Scheduler.InitReadsConfig | fpga/common/tb/mqnic.py:1225-1237 | Both initialisations read the same offset, stride and configuration. Only Python clamps the queue count. |
| Scheduler.Destroy | modules/mqnic/mqnic_scheduler.c:66-71 | Leaves the control register at 0. |
| Scheduler.Enable | modules/mqnic/mqnic_scheduler.c:73-81 | Counts up and writes 1 only on the first enable. |
| Scheduler.Disable | modules/mqnic/mqnic_scheduler.c:84-90 | Counts down and writes 0 only when the count reaches 0. |
| Scheduler.EnableThenDisable | fpga/common/tb/mqnic.py:1191-1202 | A balanced pair restores the count and the hardware state. |
| Scheduler.UnmatchedDisable | modules/mqnic/mqnic_scheduler.c:84-90 | An unmatched disable drives the count to -1. The next enable then writes nothing, so the hardware stays disabled. |
| Scheduler.ChannelUnique | fpga/common/tb/mqnic.py:1299-1301 | Distinct (port, traffic class) pairs name distinct channels below the channel count. |
| Scheduler.Channel | fpga/common/tb/mqnic.py:1299-1300 | Channel `port * tc_count + tc` decodes back to its port and traffic class by division and remainder. |
| Scheduler.FieldOffset | fpga/common/tb/mqnic.py:255-264 | Every channel field lies inside one channel's register stride. |
| Scheduler.ChRegUnique | fpga/common/tb/mqnic.py:255-264 | No two channel registers share an address, and none hits a global register. |
| Scheduler.CeilDiv | modules/mqnic/mqnic_scheduler.c:133 | Rounds up to whole units of the scale. |
| Scheduler.SetChannel | modules/mqnic/mqnic_scheduler.c:93-166 | A channel set keeps the configuration, count and control register. |
| Scheduler.GetChannel | modules/mqnic/mqnic_scheduler.c:113-167 | A count field reads below its register width. A byte field reads a multiple of the scale below width times scale. |
| Scheduler.SetThenGet | modules/mqnic/mqnic_scheduler.c:131-141 | A count field reads back as set. A byte field reads back rounded up to the scale, exactly iff it was a multiple of it, provided it fits the register. |
| Scheduler.CeilExact | modules/mqnic/mqnic_scheduler.c:133 | Rounding up is exact iff the value is a multiple of the scale. |
| Scheduler.SetTruncates | modules/mqnic/mqnic_scheduler.c:131-135 | A value too wide for its register is silently truncated and reads back smaller. |
| Scheduler.SetKeepsOthers | fpga/common/tb/mqnic.py:1303-1347 | Setting one field of one channel leaves every other field and channel unchanged. |
| Scheduler.DataBudgetExample | fpga/common/tb/mqnic.py:1327-1330 | With scale 64, a budget of 9000 is stored as 141 and reads back as 9024. |
| Scheduler.ParseCommandWord | fpga/common/tb/mqnic.py:1256-1291 | Every queue and port command word parses back to its command, so the encoding is unambiguous. |
| Scheduler.ParsePortTc | fpga/common/tb/mqnic.py:1279-1280 | The traffic class command keeps only the class's low three bits. |
| Scheduler.ParsePortFlag | fpga/common/tb/mqnic.py:1262-1273 | Port enable and pause commands parse back exactly. |
| Scheduler.ParseQueueFlag | fpga/common/tb/mqnic.py:1256-1260 | Queue enable and pause commands parse back exactly. |
| Scheduler.QueueCtrl | fpga/common/tb/mqnic.py:1352-1353 | The command goes to `queue * 4` and parses back to the command sent. |
| Scheduler.QueueCtrlStride | modules/mqnic/mqnic_scheduler.c:169-180 | The kernel uses `queue_stride * queue` and the same words, and agrees with Python at stride 4. |
| Scheduler.SetPause | modules/mqnic/mqnic_scheduler.c:183-186 | Any nonzero value pauses. |
| Scheduler.GetPause | modules/mqnic/mqnic_scheduler.c:189-192 | Returns 0 or 1, which is bit 7 of the control word. |
| Scheduler.GetQueuePortEnable | fpga/common/tb/mqnic.py:1268-1270 | True iff bit 6 (queue enable) and bit `8 * port + 3` (that port's enable) are both set. |
| Scheduler.GetQueuePortPause | fpga/common/tb/mqnic.py:1275-1277 | True iff bit `8 * port + 4` (that port's pause) is set. |
| Scheduler.PortEnableQueue | fpga/common/tb/mqnic.py:1117-1119 | Queue enable then port enable, both to the queue's word. |
| Scheduler.PortDisableQueue | fpga/common/tb/mqnic.py:1121-1123 | Port disable then queue disable, both to the queue's word. |
| Scheduler.DisableAllQueues | fpga/common/tb/mqnic.py:1286-1288 | One queue-disable command per queue, in queue order. |
| Scheduler.StatusRoundTrip | fpga/common/tb/mqnic.py:1268-1277 | The getters read back the status word's flags: the pause flag, queue-and-port enable, and port pause. |
| Scheduler.StatusBits | fpga/common/tb/mqnic.py:266-272 | Each status flag sits at its constant's bit. |
| Scheduler.EnabledQueueStatus | fpga/common/tb/mqnic.py:1268-1270 | Status 0x48 (queue and port 0 enabled) reads as enabled and not paused. |
| SchedLib.Open | lib/mqnic/mqnic_scheduler.c:11-49 | Succeeds iff a record is allocated and the queue window starts before the interface's end. It copies the block's geometry and decodes the configuration. A failure leaks no record. |
| SchedLib.Close | lib/mqnic/mqnic_scheduler.c:51-57 | Releases the record, and closing nothing is a no-op. |
| SchedLib.OpenThenClose | lib/mqnic/mqnic_scheduler.c:11-57 | Open then close leaves no record behind either way. |
| SchedLib.NoLowerBound | lib/mqnic/mqnic_scheduler.c:27-31 | A window before the interface's registers is accepted: only the upper bound is checked. |
| SchedLib.AgreesWithKernel | lib/mqnic/mqnic_scheduler.c:38-42 | The library and the kernel decode the configuration and offset alike. |
| Interface.EmptyPool | fpga/common/tb/mqnic.py:1948-1959 | The empty port pool is valid. |
| Interface.RegisterPort | fpga/common/tb/mqnic.py:1948-1950 | The port becomes known and free. A new port keeps the pool valid. |
| Interface.RegisterAll | fpga/common/tb/mqnic.py:1239-1242 | A scheduler's ports are registered in order. |
| Interface.AllocPort | fpga/common/tb/mqnic.py:1952-1953 | Fails iff no port is free. Otherwise it takes the oldest free port, which was registered and is no longer free. |
| Interface.FreePort | fpga/common/tb/mqnic.py:1955-1959 | Fails with NullSchedPort, NotRegistered or AlreadyFree. Otherwise the port goes to the back of the free list. |
| Interface.AllocThenFree | fpga/common/tb/mqnic.py:1952-1959 | Alloc then free moves the port from the front to the back. |
| Interface.FreeTwice | fpga/common/tb/mqnic.py:1955-1959 | A second free of the same port fails with AlreadyFree. |
| Interface.AllocInOrder | fpga/common/tb/mqnic.py:1948-1953 | Ports are handed out in registration order. |
| Interface.QueueCount | fpga/common/tb/mqnic.py:1430-1431 | A port count of 0 fails with NoPorts. |
| Interface.QueueCountFair | fpga/common/tb/mqnic.py:1430-1431 | The count is at most 4, every port can have it at once, and it is the largest such share below 4. |
| Interface.IndirTable | fpga/common/tb/mqnic.py:1434 | Fails iff the table is non-empty and there are no receive queues. Otherwise every entry names a receive queue. |
| Interface.IndirRoundRobin | fpga/common/tb/mqnic.py:1434 | The table names each queue in turn and repeats with the queue count as period. |
| Interface.NewNetDev | fpga/common/tb/mqnic.py:1421-1443 | A new device is down, with no rings or packets. It has fair queue counts and the default table, and fails exactly where the divisions fail. |
| NetDevice.OpenCq | fpga/common/tb/mqnic.py:1455-1456 | Succeeds iff a completion queue index is free, the event queue is open and the size is nonzero. The queue is open, sized to the request and attached to that event queue, whose table gains its number. One index is spent, and the writes are `CompletionQueue.OpenWrites` with the event queue's number. |
| NetDevice.OpenQueue | fpga/common/tb/mqnic.py:1458-1459 | Succeeds iff a ring index is free and both sizes are nonzero. The ring is open on the device and the completion queue, sized to the requests, and one index is spent. Its writes are `Queues.OpenWrites` with the completion queue's number followed by the refill's, and the allocator is the one the refill leaves. |
| NetDevice.OpenRing | fpga/common/tb/mqnic.py:1454-1468 | Fails with NoEventQueue when there are none. It succeeds iff the pools have room and event queue `k % len` is open. Then it appends one ready ring of the device and one completion queue linked to it and to event queue `k % len`, whose table gains the queue's number. A receive ring takes 1024 buffers. The log is the queue's open writes and arm, then the ring's open and refill writes. |
| NetDevice.RingAdded | fpga/common/tb/mqnic.py:1455-1460 | Given the opened completion queue and event queue (the event queue being the old one with the new number attached) and the opened ring, it keeps the invariant. It extends the device by one ready ring, appends the queue, attaches it, takes the refill's allocator and spends one index of each pool. |
| NetDevice.PassLogged | fpga/common/tb/mqnic.py:1455-1460 | The log of one pass is the completion queue's open writes and arm, then the ring's open and refill writes, as read back from the interface it leaves. |
| NetDevice.LoopWritesSnoc | fpga/common/tb/mqnic.py:1454-1468 | The writes of k + 1 passes are those of k passes followed by pass k's. |
| NetDevice.LoopLogged | fpga/common/tb/mqnic.py:1454-1468 | A ring loop's log after one more pass is its log so far followed by that pass's writes. |
| NetDevice.OpenRings | fpga/common/tb/mqnic.py:1454-1468 | Succeeds iff every pass fits: an open event queue at each `k % len`, and enough completion queue and ring indices. Then count passes append count ready rings of the device and count completion queues, pass j's attached to event queue `j % len`. The allocator gives 1024 buffers to each receive ring, and the log is every pass's writes in order. |
| NetDevice.RingsOpenedStep | fpga/common/tb/mqnic.py:1454-1468 | One more successful pass keeps the loop invariant with one more ring. |
| NetDevice.RingsShort | fpga/common/tb/mqnic.py:1454-1468 | A failing pass shows the whole loop could not fit. |
| NetDevice.TakeSchedPort | fpga/common/tb/mqnic.py:1452 | The device takes the first free port, and fails iff none is free. |
| NetDevice.SteerWrites | fpga/common/tb/mqnic.py:1616-1623 | The RSS mask is all ones and the app mask 0. Then one entry per table slot names the selected ring's hardware index. |
| NetDevice.SteerWritesSame | fpga/common/tb/mqnic.py:1616-1623 | The steering writes depend on the rings only through their hardware indices. |
| NetDevice.Steer | fpga/common/tb/mqnic.py:1470-1474 | Rebuilds the default table, failing iff it would divide by zero, and programs it. |
| NetDevice.EnableList | fpga/common/tb/mqnic.py:1477-1481 | Sets the enable flag of the listed rings and changes nothing else. It writes one enable command per listed ring. |
| NetDevice.EnableRings | fpga/common/tb/mqnic.py:1477-1481 | Only enable flags change, and exactly the device's rings gain them. |
| NetDevice.EnableAll | fpga/common/tb/mqnic.py:1477-1481 | Receive rings then transmit rings are enabled, one command each, in list order. |
| NetDevice.QueueWritesAt | fpga/common/tb/mqnic.py:1487-1488 | Each transmit ring gets queue enable then port enable. |
| NetDevice.ProgramChannel | fpga/common/tb/mqnic.py:1491-1497 | Programming a channel keeps the geometry and count. |
| NetDevice.ProgramChannelReadsBack | fpga/common/tb/mqnic.py:1491-1500 | After programming and enabling, the channel reads back as set: destination, budgets rounded to the scale, and limits. |
| NetDevice.ProgramChannelKeepsOthers | fpga/common/tb/mqnic.py:1491-1500 | Every other channel is untouched. |
| NetDevice.Schedule | fpga/common/tb/mqnic.py:1486-1500 | Only the device's scheduler changes. Its transmit rings are enabled on the port and traffic class 0's channel is programmed. |
| NetDevice.BringUpRings | fpga/common/tb/mqnic.py:1452-1468 | Fails with ResourceExhausted without a free port, and with NoEventQueue when rings are needed but there is no event queue. It succeeds iff a port is free and both ring loops fit. Then it adds the device's receive rings then its transmit rings, all ready, each with its own completion queue attached to event queue `k % len`. The log is the receive loop's writes then the transmit loop's. |
| NetDevice.RingLoops | fpga/common/tb/mqnic.py:1454-1468 | The two ring loops, run after the port step, succeed iff both fit. Then the rings, the completion queue links and the allocator are as in `BringUpRings`, and the log is the receive loop's writes then the transmit loop's. |
| NetDevice.RingPhaseComposed | fpga/common/tb/mqnic.py:1452-1468 | The port step, the receive loop and the transmit loop compose: the invariant holds, the rings are up and linked, and the two logs concatenate to the ring phase's writes. |
| NetDevice.RingPhaseLinked | fpga/common/tb/mqnic.py:1454-1468 | After both loops, every new completion queue is linked to its ring and to event queue `k % len`, each event queue's table gained exactly the numbers attached to it, and each receive ring took 1024 buffers. |
| NetDevice.TxFitsAfterRx | fpga/common/tb/mqnic.py:1454-1468 | After the receive loop, the transmit loop fits iff the whole ring phase does. |
| NetDevice.RingPhaseDone | fpga/common/tb/mqnic.py:1452-1468 | The port step and the two ring loops compose to the ring phase's result. |
| NetDevice.EnableWrites | fpga/common/tb/mqnic.py:1477-1481 | One enable per receive ring, then one per transmit ring, each in list order. |
| NetDevice.Configure | fpga/common/tb/mqnic.py:1470-1508 | Fails iff the table would divide by zero. Otherwise every ring is enabled, the table is set, the scheduler is programmed and the device is up. The log is, in order: the masks and table entries, the receive then transmit enables, transmit on, the queue commands, and receive on. |
| NetDevice.ConfigureKeepsRings | fpga/common/tb/mqnic.py:1470-1508 | The configuration phase keeps the completion queues, event queues and allocator, so the ring links and the ring phase's writes read the same after it. |
| NetDevice.ConfigureDone | fpga/common/tb/mqnic.py:1470-1508 | The steering, enable, scheduler and port steps compose: the result is valid and configured, and the log is the configuration writes in source order. |
| NetDevice.Open | fpga/common/tb/mqnic.py:1448-1508 | A device that is up is left alone. Otherwise the errors come in source order, and it succeeds iff the ring phase fits and the table can be built. On success the device holds the first free port and its new rings, enabled and sized as asked, each with its completion queue attached to event queue `k % len`, and is up. The log is the ring phase's writes, pass by pass, then the configuration writes in source order. |
| NetDevice.OpenedFrom | fpga/common/tb/mqnic.py:1448-1508 | The ring phase followed by the configuration phase gives `Opened`. |
| NetDevice.OpenDown | fpga/common/tb/mqnic.py:1450-1508 | `open` on a device that is down: the same errors, success condition, final state and log as `Open` states for that case. |
| NetDevice.OpenComposed | fpga/common/tb/mqnic.py:1448-1508 | The ring phase's log followed by the configuration's is the log `OpenLogged` names, with the configuration writes last. |
| NetDevice.TxRing | fpga/common/tb/mqnic.py:1565-1570 | The ring index follows Python list indexing: an index from -len up to len exclusive is accepted, and a negative one counts from the end. |
| NetDevice.NegativeRing | fpga/common/tb/mqnic.py:1570 | Ring -k is ring len-k. |
| NetDevice.StartXmit | fpga/common/tb/mqnic.py:1557-1614 | Does nothing when the port is down. Fails with TooLong iff the packet is not shorter than the MTU. Fails with NoSuchRing iff the index is bad. Reports RingFull iff the ring is full. Otherwise it is the ring's Xmit, and only that ring and the allocator change. |
| NetDevice.XmitAfterOpen | fpga/common/tb/mqnic.py:1448-1570 | After open, a short packet sent with no ring named reaches ring 0. |
| NetDevice.RecvNowait | fpga/common/tb/mqnic.py:1631-1634 | Returns and removes the oldest received packet, or None with nothing changed. |
| NetDevice.RecvInOrder | fpga/common/tb/mqnic.py:1631-1634 | Packets come out in the order they were queued. |
| NetDevice.DrainEmpty | fpga/common/tb/mqnic.py:1631-1634 | Once empty, `recv_nowait` returns nothing and changes nothing. |
| Driver.FindCq | fpga/common/tb/mqnic.py:575 | Finds the open completion queue with that number, or reports that none has it. |
| Driver.FindRing | fpga/common/tb/mqnic.py:816-820 | Finds the open ring with that hardware index, or reports that none has it. |
| Driver.RouteOf | fpga/common/tb/mqnic.py:574-576 | An unknown number fails with UnknownCq and a queue without a ring fails with NoHandler. Otherwise the route leads to the open ring the completion queue serves. |
| Driver.AfterHandler | fpga/common/tb/mqnic.py:574-576 | A handler only replaces its queues and the allocator, and extends the device's received packets. |
| Driver.AfterHandlerValid | fpga/common/tb/mqnic.py:574-576 | A handler keeps the interface invariant. |
| Driver.HandleCq | fpga/common/tb/mqnic.py:573-576 | Runs the ring's handler with its device's `port_up`, then arms the completion queue. It fails exactly where routing or the handler fails. |
| Driver.HandleAll | fpga/common/tb/mqnic.py:566-581 | A successful pass keeps the invariant and only services completion queues; an empty event list changes nothing. |
| Driver.HandleAllSingle | fpga/common/tb/mqnic.py:566-581 | A one-event list is exactly that event's `HandleCq`. |
| Driver.HandleAllAppend | fpga/common/tb/mqnic.py:566-581 | The handlers of `a + b` are those of `a`, then those of `b` on the state `a` left, with the logs concatenated; a failure in `a` ends the pass. |
| Driver.HandleAllCons | fpga/common/tb/mqnic.py:566-581 | A pass is the first event's `HandleCq` followed by the rest of the list on the state it left; when the first handler fails, the pass fails with its error. |
| Driver.HandleAllErr | fpga/common/tb/mqnic.py:566-581 | Once a prefix of the list has failed, the events after it do not change the outcome. |
| Driver.HandleAllFirstFailure | fpga/common/tb/mqnic.py:566-581 | The pass fails with the error of the first handler that fails, after the events before it succeeded. |
| Driver.ProcessedDrained | fpga/common/tb/mqnic.py:559-583 | A pass with no unknown source drains its event queue. |
| Driver.ServiceEq | fpga/common/tb/mqnic.py:2153-2155 | It succeeds iff no event names an unknown queue and the handlers succeed; a handler failure is returned as is. On success the state is the one `HandleAll` left with the event queue replaced by its drained copy, and the log is the handlers' log followed by the pointer report and the arm. The other event queues are unchanged and the invariant holds. |
| Driver.EqOutcome | fpga/common/tb/mqnic.py:559-583 | A handler failure is returned as is, an unknown source fails with UnknownCq, and otherwise the result is the handlers' state with the drained queue in place and their log followed by the queue's writes and arm. |
| Driver.IrqStep | fpga/common/tb/mqnic.py:2151-2155 | A queue not wired to the interrupt is skipped. A wired one is serviced, its arm joins the log, and the earlier queues stay drained and armed. |
| Driver.Interrupted | fpga/common/tb/mqnic.py:2151-2155 | After the first e queues, the wired ones are drained and armed and the rest untouched, and the run equals `ServiceFold` over the wired positions below e. |
| Driver.WiredExactly | fpga/common/tb/mqnic.py:2151-2152 | `Wired` lists exactly the positions below e whose event queue is on the interrupt, each once, in increasing order. |
| Driver.WiredNone | fpga/common/tb/mqnic.py:2151-2152 | With no queue on the interrupt, no position is listed. |
| Driver.IterateIsFold | fpga/common/tb/mqnic.py:2151-2155 | A step that services the wired positions and skips the others, iterated over the first e positions, equals the fold of the service over the wired positions, and keeps its invariant. |
| Driver.StepOfServices | fpga/common/tb/mqnic.py:2151-2155 | One handler step services a wired queue, skips the others, and keeps the handler's bookkeeping. |
| Driver.IrqStepServices | fpga/common/tb/mqnic.py:2153-2155 | A step on a wired queue is that queue's `ServiceNext`. |
| Driver.ArmedService | fpga/common/tb/mqnic.py:2155 | Appending a service log that ends with the queue's arm adds that queue to the armed ones. |
| Driver.InterruptHandler | fpga/common/tb/mqnic.py:2149-2156 | Drains and re-arms every event queue wired to the interrupt, leaves the others unchanged, and keeps the invariant. An interrupt with no queue changes nothing. The result is the services of the wired queues in list order, each on the state the one before left, with their logs (each `ServiceEq`'s) concatenated. |

## Left out

- Concurrency: the `await` points, `clean_event` and `pkt_rx_sync` of the Python model are not modelled. Each operation runs to completion, and a transmit ring at its full mark reports `Blocked`/`RingFull` instead of waiting for `clean_event`.
- DMA memory: `alloc_region`, buffer addresses and the descriptor ring's byte layout are not modelled. Addresses are parameters, descriptors are records, and the packet allocator's buffers are byte sequences of `pkt_buf_size` bytes.
- Logging (`self.log`) and the flushing `read_dword(0)` at the end of `open` are left out. They have no effect on state.
- Completion.Timestamp: receive timestamps are kept as an exact count of 2^-16 ns. Python's `Decimal` sum uses a 28-digit context, so once `sec * 10^9 + ns` has 13 or more digits, as any real PTP time has, Python's value is rounded and differs from the exact count.
- `NetDev.close` is not modelled. It calls `self.ports[...]` and `self.hw_regs`, which `NetDev` does not have, so it cannot run. `NetDev.recv` only waits and then calls `recv_nowait`.
- Four `SchedulerPort` forwarders are not modelled, because none of them can do what its name says (mqnic.py:1128-1138). `set_queue_pause` and `set_queue_tc` call `set_queue_port_pause`/`set_queue_port_tc` on the port itself, which has no such methods. `get_queue_puase` (misspelt) calls `get_queue_port_puase`, which `SchedulerRoundRobin` does not define. `get_queue_tc` forwards to `get_queue_port_tc`, which returns a bool rather than a traffic class. The remaining forwarders (mqnic.py:1105-1126 and 1140-1168) are modelled. `SchedulerRoundRobin.get_queue_port_tc` returns a bool from an `&` test, which is not a traffic class. It is not modelled.
- `SchedulerControlTdma`, `SchedulerBlock`, `Port`, `Interface.init` register discovery, `Driver.init_*` and MTU setting are left out. Only the pieces open and the handlers use are modelled: the port pool, queue counts, the indirection table and the `NetDev` constructor.
- NetDevice.Configure: its log holds the steering, ring-enable, port and scheduler queue-enable writes in source order. The channel writes (`set_ch_dest`, the budgets and limits, `enable_ch`) and `sched_port.enable()` are modelled as their effect on the scheduler's register map (`SchedProgrammed`), not as entries of the log. The log therefore does not say where they fall between the queue enables and receive on.
- Several interfaces per driver are not modelled. `interrupt_handler` loops over all interfaces and the model serves one.
- A failing operation returns only its error. The Python state mutated before the raise, including the effect of handlers that ran before a failing one, is not carried along.
- Packets.Free: a double free is not detected, and no claim is made that it is (see `Packets.DoubleFreeAccepted`).
- Resource.Free: likewise accepts an index already free, duplicating it on the free list.
- RegBlocks.Enumerate: reads the headers through a pure register function. The read through the parent window and its address translation are not modelled.
- Scheduler.SetChannel: models register widths by truncating to 16 or 32 bits. The C `int` arguments are taken as non-negative.
- Scheduler.Create: the fc scale is `2^e` for the 8-bit field e with unbounded integers. The C `1 << e` on an `int` overflows for e = 31 and is undefined for e >= 32; the model gives 2^e there.
- Scheduler.CeilDiv: the C `val + fc_scale - 1` is `int` arithmetic and overflows once val exceeds 2^31 - fc_scale. The model does not wrap.
- Scheduler.SetThenGet: the C getters return `(int)reg * fc_scale`, which overflows once the product reaches 2^31 (with scale 64, a data-limit register of 0x0200_0000). The model returns the unbounded product, as Python does.
- Scheduler.GetChannel: likewise returns the unbounded product for the byte fields.
- SchedLib.Open: the library's `1 << e` for the fc scale overflows for e >= 31 in the same way as the kernel's. The model gives 2^e.
- SchedLib.Open: the allocator's success is a parameter (`gotRecord`), and the record holds only the fields `mqnic_sched_open` copies.
- `utils/`, the kernel's bulk-send path and the testbenches are not part of this model.

=== FILE: bits.dfy ===
/** Python integer bit operations on non-negative integers.

    The driver manipulates unbounded Python integers with `&`, `|`, `<<`,
    `>>` and `int.bit_length()`.  This module defines those operators on
    `nat` exactly (bit by bit) and proves the arithmetic facts the rest of the
    model relies on: masking with `2^k - 1` is a remainder, testing one bit is
    a division, and OR of non-overlapping fields is addition. */
module Bits {

  /** `1 << k` */
  function Pow2(k: nat): (r: nat)
    ensures r >= 1
  {
    if k == 0 then 1 else 2 * Pow2(k - 1)
  }

  /** Python `int.bit_length()` of a non-negative integer. */
  function BitLength(n: nat): (r: nat)
    ensures n == 0 <==> r == 0
    ensures n > 0 ==> Pow2(r - 1) <= n < Pow2(r)
  {
    if n == 0 then 0 else 1 + BitLength(n / 2)
  }

  /** Bitwise AND. */
  function And(a: nat, b: nat): nat
  {
    if a == 0 || b == 0 then 0
    else 2 * And(a / 2, b / 2) + (if a % 2 == 1 && b % 2 == 1 then 1 else 0)
  }

  /** Bitwise OR. */
  function Or(a: nat, b: nat): nat
    decreases a + b
  {
    if a == 0 then b
    else if b == 0 then a
    else 2 * Or(a / 2, b / 2) + (if a % 2 == 1 || b % 2 == 1 then 1 else 0)
  }

  /** `a >> k` */
  function Shr(a: nat, k: nat): nat
  {
    var d := Pow2(k);
    assert a / d >= 0 by {
      DivNonNegative(a, d);
    }
    a / d
  }

  lemma DivNonNegative(a: nat, d: nat)
    requires d >= 1
    ensures a / d >= 0
  {
  }

  /** `a << k` */
  function Shl(a: nat, k: nat): nat
  {
    a * Pow2(k)
  }

  /** The powers of two the register layouts use. */
  lemma Pow2Values()
    ensures Pow2(8) == 0x100 && Pow2(12) == 0x1000 && Pow2(16) == 0x1_0000
    ensures Pow2(31) == 0x8000_0000 && Pow2(32) == 0x1_0000_0000
  {
    assert Pow2(4) == 16;
    assert Pow2(8) == 0x100;
    assert Pow2(12) == 0x1000;
    assert Pow2(16) == 0x1_0000;
    assert Pow2(20) == 0x10_0000;
    assert Pow2(24) == 0x100_0000;
    assert Pow2(28) == 0x1000_0000;
    assert Pow2(31) == 0x8000_0000;
  }

  lemma Pow2Add(a: nat, b: nat)
    ensures Pow2(a + b) == Pow2(a) * Pow2(b)
  {
    if a > 0 {
      Pow2Add(a - 1, b);
    }
  }

  lemma Pow2Monotone(a: nat, b: nat)
    requires a <= b
    ensures Pow2(a) <= Pow2(b)
  {
    if a < b {
      Pow2Monotone(a, b - 1);
    }
  }

  /** x mod 2p splits into the lowest bit and the rest shifted down. */
  lemma ModDouble(x: nat, p: nat)
    requires p >= 1
    ensures x % (2 * p) == 2 * ((x / 2) % p) + x % 2
  {
    var q := (x / 2) / p;
    var r := (x / 2) % p;
    assert x / 2 == q * p + r;
    assert x == 2 * (x / 2) + x % 2;
    assert x == q * (2 * p) + (2 * r + x % 2);
    assert 0 <= 2 * r + x % 2 < 2 * p;
    DivModUnique(x, 2 * p, q, 2 * r + x % 2);
  }

  /** x / 2p is (x / 2) / p. */
  lemma DivDouble(x: nat, p: nat)
    requires p >= 1
    ensures x / (2 * p) == (x / 2) / p
  {
    var q := (x / 2) / p;
    var r := (x / 2) % p;
    assert x == q * (2 * p) + (2 * r + x % 2);
    DivModUnique(x, 2 * p, q, 2 * r + x % 2);
  }

  /** Shifting right by `a` and then by `b` is shifting by `a + b`. */
  lemma {:induction false} DivPow2(x: nat, a: nat, b: nat)
    ensures (x / Pow2(a)) / Pow2(b) == x / Pow2(a + b)
  {
    if a > 0 {
      DivDouble(x, Pow2(a - 1));
      DivDouble(x, Pow2(a - 1 + b));
      DivPow2(x / 2, a - 1, b);
    }
  }

  lemma MulAtLeast(a: int, d: int)
    requires a >= 1 && d >= 0
    ensures a * d >= d
  {
    if a > 1 {
      MulAtLeast(a - 1, d);
      assert a * d == (a - 1) * d + d;
    }
  }

  /** Two numbers less than `d` apart have different residues. */
  lemma ResiduesDiffer(a: int, b: int, d: int)
    requires d > 0 && a < b < a + d
    ensures a % d != b % d
  {
    if a % d == b % d {
      var q := b / d - a / d;
      assert a == (a / d) * d + a % d;
      assert b == (b / d) * d + b % d;
      assert b - a == q * d;
      if q >= 1 {
        MulAtLeast(q, d);
      }
      assert false;
    }
  }

  lemma DivModUnique(x: int, d: int, q: int, r: int)
    requires d > 0 && 0 <= r < d && x == q * d + r
    ensures x / d == q && x % d == r
  {
    var q' := x / d;
    var r' := x % d;
    assert x == q' * d + r';
    if q > q' {
      MulAtLeast(q - q', d);
      assert false;
    } else if q < q' {
      MulAtLeast(q' - q, d);
      assert false;
    }
  }

  lemma AndUnfold(a: nat, b: nat)
    requires a > 0 && b > 0
    ensures And(a, b) == 2 * And(a / 2, b / 2) + (if a % 2 == 1 && b % 2 == 1 then 1 else 0)
  {
  }

  lemma HalfOfMask(p: nat)
    requires p >= 1
    ensures (2 * p - 1) % 2 == 1 && (2 * p - 1) / 2 == p - 1
  {
  }

  lemma HalfOfPow2(k: nat)
    requires k > 0
    ensures Pow2(k) == 2 * Pow2(k - 1) && Pow2(k) % 2 == 0 && Pow2(k) / 2 == Pow2(k - 1)
  {
  }

  /** `x & (2^k - 1) == x % 2^k` */
  lemma {:induction false} AndLowMask(x: nat, k: nat)
    ensures And(x, Pow2(k) - 1) == x % Pow2(k)
  {
    if k == 0 {
      assert Pow2(k) == 1;
    } else if x == 0 {
      assert And(x, Pow2(k) - 1) == 0;
    } else {
      HalfOfPow2(k);
      AndLowMask(x / 2, k - 1);
      LowMaskStep(x, Pow2(k - 1), Pow2(k));
    }
  }

  /** One bit of `AndLowMask`: masking x with 2p - 1 keeps its lowest bit
      and masks x / 2 with p - 1. */
  lemma LowMaskStep(x: nat, p: nat, pk: nat)
    requires x > 0 && p >= 1 && pk == 2 * p
    requires And(x / 2, p - 1) == (x / 2) % p
    ensures And(x, pk - 1) == x % pk
  {
    HalfOfMask(p);
    AndUnfold(x, 2 * p - 1);
    ModDouble(x, p);
  }

  /** `x & (2^j - 2^k)` keeps bits k to j - 1 of x and clears the rest. */
  lemma {:induction false} AndMidMask(x: nat, k: nat, j: nat)
    requires k <= j && Pow2(k) <= Pow2(j)
    ensures And(x, Pow2(j) - Pow2(k)) == x % Pow2(j) - x % Pow2(k)
  {
    if k == 0 {
      AndLowMask(x, j);
    } else if x == 0 || k == j {
      assert And(x, Pow2(j) - Pow2(k)) == 0;
    } else {
      Pow2Monotone(k - 1, j - 1);
      AndMidMask(x / 2, k - 1, j - 1);
      MidMaskStep(x, k, j);
    }
  }

  /** One bit of `AndMidMask`: the mask is even, so bit 0 of x is cleared
      and the rest is x / 2 masked with half the mask. */
  lemma MidMaskStep(x: nat, k: nat, j: nat)
    requires x > 0 && 0 < k < j && Pow2(k - 1) <= Pow2(j - 1)
    requires And(x / 2, Pow2(j - 1) - Pow2(k - 1)) == (x / 2) % Pow2(j - 1) - (x / 2) % Pow2(k - 1)
    ensures Pow2(k) <= Pow2(j)
    ensures And(x, Pow2(j) - Pow2(k)) == x % Pow2(j) - x % Pow2(k)
  {
    var pk, pj := Pow2(k - 1), Pow2(j - 1);
    HalfOfPow2(k);
    HalfOfPow2(j);
    Pow2Monotone(k, j - 1);
    MidMaskBit(x, pk, pj);
  }

  lemma MidMaskBit(x: nat, pk: nat, pj: nat)
    requires x > 0 && 1 <= pk < pj
    requires And(x / 2, pj - pk) == (x / 2) % pj - (x / 2) % pk
    ensures And(x, 2 * pj - 2 * pk) == x % (2 * pj) - x % (2 * pk)
  {
    AndUnfold(x, 2 * pj - 2 * pk);
    assert (2 * pj - 2 * pk) / 2 == pj - pk && (2 * pj - 2 * pk) % 2 == 0;
    ModDouble(x, pj);
    ModDouble(x, pk);
  }

  /** `x & 2^k` is `2^k` when bit k of x is set and 0 otherwise. */
  lemma {:induction false} AndSingleBit(x: nat, k: nat)
    ensures And(x, Pow2(k)) == Pow2(k) * ((x / Pow2(k)) % 2)
  {
    if k == 0 {
      if x > 0 {
        AndUnfold(x, 1);
      }
    } else if x > 0 {
      var p := Pow2(k - 1);
      assert And(x, Pow2(k)) == 2 * And(x / 2, p) by {
        HalfOfPow2(k);
        AndUnfold(x, 2 * p);
      }
      assert And(x / 2, p) == p * (((x / 2) / p) % 2) by {
        AndSingleBit(x / 2, k - 1);
      }
      assert x / Pow2(k) == (x / 2) / p by {
        HalfOfPow2(k);
        DivDouble(x, p);
      }
      assert Pow2(k) == 2 * p by {
        HalfOfPow2(k);
      }
    }
  }

  /** OR of a value whose low k bits are clear with a value below 2^k is their sum. */
  lemma {:induction false} OrDisjoint(a: nat, b: nat, k: nat)
    requires a % Pow2(k) == 0 && b < Pow2(k)
    ensures Or(a, b) == a + b
  {
    if k > 0 && a != 0 && b != 0 {
      HalfOfPow2(k);
      ModDouble(a, Pow2(k - 1));
      OrDisjoint(a / 2, b / 2, k - 1);
    }
  }

  /** `x & (2^k - 1)` is below 2^k, so testing bit k of the result is false. */
  lemma MaskBelow(x: nat, k: nat)
    ensures And(x, Pow2(k) - 1) < Pow2(k)
  {
    AndLowMask(x, k);
  }

  /** Bit k of x, as Python's `bool(x & (1 << k))`. */
  function TestBit(x: nat, k: nat): (r: bool)
    ensures r <==> (x / Pow2(k)) % 2 == 1
  {
    AndSingleBit(x, k);
    And(x, Pow2(k)) != 0
  }

  /** Field of `width` bits starting at bit `lo`, as `(x >> lo) & (2^width - 1)`. */
  function Field(x: nat, lo: nat, width: nat): (r: nat)
    ensures r == (x / Pow2(lo)) % Pow2(width)
    ensures r < Pow2(width)
  {
    AndLowMask(Shr(x, lo), width);
    And(Shr(x, lo), Pow2(width) - 1)
  }
}

=== FILE: common.dfy ===
/** Result and error types shared by every part of the driver model.

    The Python driver reports failures by raising (an explicit `raise`, a
    failed `assert`, or an `IndexError`/`KeyError` from a container).  Each
    such failure becomes one `Error` constructor here. */
module Common {

  datatype Option<+T> = None | Some(value: T)

  datatype Error =
    | AlreadyOpen          // open() on a queue that already holds its registers
    | NotOpen              // enable() on a queue that was never opened
    | ResourceExhausted    // pop(0) on an empty free list
    | NotAligned           // register block next pointer with low bits set
    | BlockLoop            // register block next pointer already visited
    | UnknownCq            // cq_table lookup or delete of an unregistered CQ number
    | NullPacket           // free_pkt(None): a descriptor slot that owns no buffer
    | ForeignPacket        // free_pkt of a buffer the allocator never handed out
    | NoSuchRing           // txq[ring_index] out of range
    | TooLong              // packet not shorter than the interface's maximum TX MTU
    | SlotBusy             // start_xmit found its slot still owned
    | NotRegistered        // free_sched_port of a port that was never registered
    | AlreadyFree          // free_sched_port of a port already on the free list
    | NoEventQueue         // k % len(eq) with no event queues
    | OutOfRange           // scheduler registers beyond the interface window
    | BadSize              // a ring or descriptor-block size request of 0 (bit_length() - 1 == -1)
    | NoHandler            // an event for a CQ that no ring has claimed (its handler is None)
    | FieldOverflow        // struct.pack_into of a value wider than its descriptor field
    | NullSchedPort        // free_sched_port(None)
    | NoPorts              // a per-port share computed with a port count of 0
    | NoRxQueues           // k % rxq_count with no receive queues
    | OutOfMemory          // a kernel allocation that returned NULL (-ENOMEM)

  datatype Result<+T> = Ok(value: T) | Err(error: Error)

  /** One byte of packet data. */
  newtype Byte = x: int | 0 <= x < 0x100

  /** A transmit or receive queue, named by its index in its own pool. */
  datatype QueueRef = TxRef(index: nat) | RxRef(index: nat)

  function Min(a: nat, b: nat): (r: nat)
    ensures r <= a && r <= b && (r == a || r == b)
  {
    if a <= b then a else b
  }

  /** One register access issued to a queue's or block's register window,
      at a byte offset within that window. */
  datatype RegWrite =
    | Write32(offset: nat, value: nat)
    | Write16(offset: nat, value: nat)
}

=== FILE: completion.dfy ===
/** The completion handlers `process_tx_cq` and `process_rx_cq`.

    A handler walks the new records of its completion queue.  Each record
    names a descriptor slot of the ring (`index & size_mask`); the slot's
    buffer goes back to the allocator and, on receive, the first `len`
    bytes of it become a received packet.  The handler then reports the
    new consumer pointer, moves the ring's consumer pointer past every slot
    that no longer owns a buffer, and a receive ring refills itself. */
module Completion {
  import opened Common
  import Ring
  import Bits
  import Packets
  import CompletionQueue
  import Queues

  /** A received packet as it reaches `pkt_rx_queue`: the bytes, the index
      of the receive ring, the timestamp in units of 2^-16 ns, and the
      hardware checksum. */
  datatype RxPacket = RxPacket(data: seq<Byte>, queue: nat, timestamp: nat, rxCsum: nat)

  const FNS_PER_NS: nat := 0x1_0000
  const NS_PER_SEC: nat := 1_000_000_000

  /** `sec * 10^9 + ns + fns / 2^16` nanoseconds, kept exact as a count of
      2^-16 ns.  With in-range fields nothing is lost: seconds, nanoseconds
      and the 16-bit fraction all read back from it. */
  function Timestamp(c: CompletionQueue.Cpl): (t: nat)
    ensures c.tsFns < FNS_PER_NS ==>
      t / FNS_PER_NS == c.tsSec * NS_PER_SEC + c.tsNs && t % FNS_PER_NS == c.tsFns
    ensures c.tsFns < FNS_PER_NS && c.tsNs < NS_PER_SEC ==>
      (t / FNS_PER_NS) / NS_PER_SEC == c.tsSec && (t / FNS_PER_NS) % NS_PER_SEC == c.tsNs
  {
    var whole := c.tsSec * NS_PER_SEC + c.tsNs;
    var t := whole * FNS_PER_NS + c.tsFns;
    assert c.tsFns < FNS_PER_NS ==> t / FNS_PER_NS == whole && t % FNS_PER_NS == c.tsFns by {
      if c.tsFns < FNS_PER_NS {
        Bits.DivModUnique(t, FNS_PER_NS, whole, c.tsFns);
      }
    }
    assert c.tsNs < NS_PER_SEC ==> whole / NS_PER_SEC == c.tsSec && whole % NS_PER_SEC == c.tsNs by {
      if c.tsNs < NS_PER_SEC {
        Bits.DivModUnique(whole, NS_PER_SEC, c.tsSec, c.tsNs);
      }
    }
    t
  }

  /** The ring slot each record names: `index & size_mask`. */
  function Slots(g: Ring.Geometry, cpls: seq<CompletionQueue.Cpl>): (r: seq<nat>)
    requires g.Valid()
    ensures |r| == |cpls|
    ensures forall j :: 0 <= j < |cpls| ==> r[j] == Ring.Index(g, cpls[j].index) && r[j] < g.size
  {
    seq(|cpls|, j requires 0 <= j < |cpls| => Ring.Index(g, cpls[j].index))
  }

  predicate Distinct(s: seq<nat>)
  {
    forall i, j :: 0 <= i < j < |s| ==> s[i] != s[j]
  }

  /** A batch of records can be handled: they name distinct slots, and
      each of those slots owns a buffer the allocator handed out. */
  predicate Claimable(g: Ring.Geometry, info: seq<Option<nat>>, count: nat, cpls: seq<CompletionQueue.Cpl>)
    requires g.Valid() && |info| == g.size
  {
    var s := Slots(g, cpls);
    && Distinct(s)
    && (forall j :: 0 <= j < |s| ==> info[s[j]].Some? && info[s[j]].value < count)
  }

  /** The buffers the slots of a batch own, in record order. */
  function Owners(g: Ring.Geometry, info: seq<Option<nat>>, cpls: seq<CompletionQueue.Cpl>): (r: seq<Option<nat>>)
    requires g.Valid() && |info| == g.size
    ensures |r| == |cpls|
    ensures forall j :: 0 <= j < |cpls| ==> r[j] == info[Slots(g, cpls)[j]]
  {
    var s := Slots(g, cpls);
    seq(|cpls|, j requires 0 <= j < |cpls| => info[s[j]])
  }

  /** The ring's slot ownership once a batch is handled: the batch's slots
      own nothing, every other slot is as before. */
  function Release(g: Ring.Geometry, info: seq<Option<nat>>, cpls: seq<CompletionQueue.Cpl>): (r: seq<Option<nat>>)
    requires g.Valid() && |info| == g.size
    ensures |r| == |info|
    ensures forall i :: 0 <= i < |info| ==> r[i] == (if i in Slots(g, cpls) then None else info[i])
  {
    var s := Slots(g, cpls);
    seq(|info|, i requires 0 <= i < |info| => if i in s then None else info[i])
  }

  /** The buffers a claimable batch hands back, in record order. */
  function Buffers(g: Ring.Geometry, info: seq<Option<nat>>, cpls: seq<CompletionQueue.Cpl>): (r: seq<nat>)
    requires g.Valid() && |info| == g.size
    requires forall j :: 0 <= j < |cpls| ==> info[Slots(g, cpls)[j]].Some?
    ensures Queues.Wrap(r) == Owners(g, info, cpls)
  {
    var s := Slots(g, cpls);
    seq(|cpls|, j requires 0 <= j < |cpls| => info[s[j]].value)
  }

  /** The packet a receive record describes: `pkt[:length]` of the slot's
      buffer, tagged with the ring index, timestamp and checksum. */
  function Received(pkts: Packets.Packets, pkt: nat, queue: nat, c: CompletionQueue.Cpl): (p: RxPacket)
    requires Packets.Valid(pkts) && pkt < pkts.count
    ensures p.data == pkts.mem[pkt][..Min(c.len, Packets.PKT_BUF_SIZE)]
    ensures p.queue == queue && p.rxCsum == c.rxCsum
    ensures p.timestamp == Timestamp(c)
  {
    RxPacket(Packets.Prefix(pkts, pkt, c.len), queue, Timestamp(c), c.rxCsum)
  }

  /** What the record loop of a handler leaves behind. */
  datatype Consumed = Consumed(info: seq<Option<nat>>, pkts: Packets.Packets, rx: seq<RxPacket>)

  /** The record loop: for each record, in order, (receive only) build the
      packet from the slot's buffer, then `free_desc` the slot.  A slot that
      owns nothing fails (`pkt[:length]` or `free_pkt(None)`), and so does a
      buffer the allocator never handed out. */
  function Consume(kind: Queues.Kind, queue: nat, g: Ring.Geometry, info: seq<Option<nat>>,
                   pkts: Packets.Packets, cpls: seq<CompletionQueue.Cpl>): (r: Result<Consumed>)
    requires g.Valid() && |info| == g.size && Packets.Valid(pkts)
    ensures r.Ok? <==> Claimable(g, info, pkts.count, cpls)
    ensures r.Err? ==> r.error == NullPacket || r.error == ForeignPacket
    decreases |cpls|
  {
    if cpls == [] then Ok(Consumed(info, pkts, []))
    else
      var slot := Ring.Index(g, cpls[0].index);
      ClaimableStep(g, info, pkts.count, cpls);
      if info[slot].None? then Err(NullPacket)
      else if info[slot].value >= pkts.count then Err(ForeignPacket)
      else
        var pkt := info[slot].value;
        match Consume(kind, queue, g, info[slot := None], pkts.(free := pkts.free + [pkt]), cpls[1..])
        case Err(e) => Err(e)
        case Ok(c) =>
          if kind == Queues.Rx then Ok(Consumed(c.info, c.pkts, [Received(pkts, pkt, queue, cpls[0])] + c.rx))
          else Ok(c)
  }

  /** The record loop hands the batch's buffers back to the allocator in
      record order, after everything already queued, and touches nothing
      else of the allocator. */
  lemma {:induction false} ConsumeFrees(kind: Queues.Kind, queue: nat, g: Ring.Geometry, info: seq<Option<nat>>,
                                        pkts: Packets.Packets, cpls: seq<CompletionQueue.Cpl>)
    requires g.Valid() && |info| == g.size && Packets.Valid(pkts) && Claimable(g, info, pkts.count, cpls)
    ensures var c := Consume(kind, queue, g, info, pkts, cpls).value;
      && Packets.Valid(c.pkts) && c.pkts == pkts.(free := c.pkts.free)
      && |c.pkts.free| >= |pkts.free| && c.pkts.free[..|pkts.free|] == pkts.free
      && Queues.Wrap(c.pkts.free[|pkts.free|..]) == Owners(g, info, cpls)
    decreases |cpls|
  {
    if cpls == [] {
      assert pkts.free[|pkts.free|..] == [];
    } else {
      var slot := Ring.Index(g, cpls[0].index);
      ClaimableStep(g, info, pkts.count, cpls);
      var pkts1 := pkts.(free := pkts.free + [info[slot].value]);
      var info1 := info[slot := None];
      ConsumeFrees(kind, queue, g, info1, pkts1, cpls[1..]);
      var c := Consume(kind, queue, g, info1, pkts1, cpls[1..]).value;
      assert Consume(kind, queue, g, info, pkts, cpls).value.pkts == c.pkts;
      RestAvoidsHead(g, info, pkts.count, cpls);
      SlotsCons(g, cpls);
      assert c.pkts.free[..|pkts1.free|][..|pkts.free|] == c.pkts.free[..|pkts.free|];
      FreedStep(g, info, cpls, |pkts.free|, c.pkts.free);
    }
  }

  /** The record loop releases exactly the slots the batch names. */
  lemma {:induction false} ConsumeReleases(kind: Queues.Kind, queue: nat, g: Ring.Geometry, info: seq<Option<nat>>,
                                           pkts: Packets.Packets, cpls: seq<CompletionQueue.Cpl>)
    requires g.Valid() && |info| == g.size && Packets.Valid(pkts) && Claimable(g, info, pkts.count, cpls)
    ensures var c := Consume(kind, queue, g, info, pkts, cpls).value;
      && |c.info| == |info|
      && forall i :: 0 <= i < |info| ==> c.info[i] == (if i in Slots(g, cpls) then None else info[i])
    decreases |cpls|
  {
    if cpls != [] {
      var slot := Ring.Index(g, cpls[0].index);
      ClaimableStep(g, info, pkts.count, cpls);
      var pkts1 := pkts.(free := pkts.free + [info[slot].value]);
      var info1 := info[slot := None];
      ConsumeReleases(kind, queue, g, info1, pkts1, cpls[1..]);
      var c := Consume(kind, queue, g, info1, pkts1, cpls[1..]).value;
      assert Consume(kind, queue, g, info, pkts, cpls).value.info == c.info;
      SlotsCons(g, cpls);
      ReleasedStep(g, info, cpls, c.info);
    }
  }

  /** A transmit handler receives nothing; a receive handler delivers one
      packet per record, in record order, each cut from the buffer its slot
      owned. */
  lemma {:induction false} ConsumeReceives(kind: Queues.Kind, queue: nat, g: Ring.Geometry, info: seq<Option<nat>>,
                                           pkts: Packets.Packets, cpls: seq<CompletionQueue.Cpl>)
    requires g.Valid() && |info| == g.size && Packets.Valid(pkts) && Claimable(g, info, pkts.count, cpls)
    ensures var c := Consume(kind, queue, g, info, pkts, cpls).value;
      && (kind == Queues.Tx ==> c.rx == [])
      && (kind == Queues.Rx ==>
            && |c.rx| == |cpls|
            && forall j :: 0 <= j < |cpls| ==>
                 c.rx[j] == Received(pkts, info[Slots(g, cpls)[j]].value, queue, cpls[j]))
    decreases |cpls|
  {
    if cpls != [] {
      var slot := Ring.Index(g, cpls[0].index);
      ClaimableStep(g, info, pkts.count, cpls);
      var pkts1 := pkts.(free := pkts.free + [info[slot].value]);
      var info1 := info[slot := None];
      ConsumeReceives(kind, queue, g, info1, pkts1, cpls[1..]);
      var c := Consume(kind, queue, g, info1, pkts1, cpls[1..]).value;
      RestAvoidsHead(g, info, pkts.count, cpls);
      SlotsCons(g, cpls);
      if kind == Queues.Rx {
        ReceivedStep(g, info, pkts, queue, cpls, c.rx);
      }
    }
  }

  /** The record loop's effect on the ring and the allocator, in one
      piece: the batch's slots released, its buffers freed in order. */
  lemma ConsumeEffect(kind: Queues.Kind, queue: nat, g: Ring.Geometry, info: seq<Option<nat>>,
                      pkts: Packets.Packets, cpls: seq<CompletionQueue.Cpl>)
    requires g.Valid() && |info| == g.size && Packets.Valid(pkts) && Claimable(g, info, pkts.count, cpls)
    ensures var c := Consume(kind, queue, g, info, pkts, cpls).value;
      && c.info == Release(g, info, cpls)
      && c.pkts == pkts.(free := pkts.free + Buffers(g, info, cpls))
      && Packets.Valid(c.pkts)
  {
    var c := Consume(kind, queue, g, info, pkts, cpls).value;
    ConsumeReleases(kind, queue, g, info, pkts, cpls);
    ConsumeFrees(kind, queue, g, info, pkts, cpls);
    var b := Buffers(g, info, cpls);
    var tail := c.pkts.free[|pkts.free|..];
    WrapInjective(tail, b);
    assert c.pkts.free == c.pkts.free[..|pkts.free|] + tail;
  }

  lemma WrapInjective(a: seq<nat>, b: seq<nat>)
    requires Queues.Wrap(a) == Queues.Wrap(b)
    ensures a == b
  {
    assert |a| == |b|;
    forall j | 0 <= j < |a| ensures a[j] == b[j] {
      assert Queues.Wrap(a)[j] == Queues.Wrap(b)[j];
    }
  }

  /** A batch is claimable exactly when its first slot is owned and the
      rest of the batch is claimable once that slot is released. */
  lemma ClaimableStep(g: Ring.Geometry, info: seq<Option<nat>>, count: nat, cpls: seq<CompletionQueue.Cpl>)
    requires g.Valid() && |info| == g.size && |cpls| > 0
    ensures var slot := Ring.Index(g, cpls[0].index);
      Claimable(g, info, count, cpls) <==>
        info[slot].Some? && info[slot].value < count && Claimable(g, info[slot := None], count, cpls[1..])
  {
    var slot := Ring.Index(g, cpls[0].index);
    var s := Slots(g, cpls);
    var t := Slots(g, cpls[1..]);
    assert forall j :: 0 <= j < |t| ==> t[j] == s[j + 1];
    if Claimable(g, info, count, cpls) {
      forall j | 0 <= j < |t|
        ensures info[slot := None][t[j]] == info[t[j]]
      {
        assert s[0] != s[j + 1];
      }
    }
    if info[slot].Some? && info[slot].value < count && Claimable(g, info[slot := None], count, cpls[1..]) {
      forall i, j | 0 <= i < j < |s|
        ensures s[i] != s[j]
      {
        if i > 0 {
          assert t[i - 1] != t[j - 1];
        } else {
          assert info[slot := None][t[j - 1]].Some?;
        }
      }
      forall j | 0 <= j < |s|
        ensures info[s[j]].Some? && info[s[j]].value < count
      {
        if j > 0 {
          assert info[slot := None][t[j - 1]].Some?;
        }
      }
    }
  }

  /** The later records of a claimable batch avoid the first one's slot. */
  lemma RestAvoidsHead(g: Ring.Geometry, info: seq<Option<nat>>, count: nat, cpls: seq<CompletionQueue.Cpl>)
    requires g.Valid() && |info| == g.size && |cpls| > 0
    requires Claimable(g, info[Ring.Index(g, cpls[0].index) := None], count, cpls[1..])
    ensures forall j :: 0 <= j < |cpls| - 1 ==> Slots(g, cpls[1..])[j] != Ring.Index(g, cpls[0].index)
  {
    var t := Slots(g, cpls[1..]);
    forall j | 0 <= j < |t|
      ensures t[j] != Ring.Index(g, cpls[0].index)
    {
      assert info[Ring.Index(g, cpls[0].index) := None][t[j]].Some?;
    }
  }

  /** The slots of a batch are the first record's slot and those of the rest. */
  lemma SlotsCons(g: Ring.Geometry, cpls: seq<CompletionQueue.Cpl>)
    requires g.Valid() && |cpls| > 0
    ensures forall j :: 0 <= j < |cpls| - 1 ==> Slots(g, cpls[1..])[j] == Slots(g, cpls)[j + 1]
    ensures forall i :: i in Slots(g, cpls) <==> i == Ring.Index(g, cpls[0].index) || i in Slots(g, cpls[1..])
  {
    var s := Slots(g, cpls);
    var t := Slots(g, cpls[1..]);
    assert s == [s[0]] + t;
  }

  /** Freeing the first record's buffer and then the rest's frees the
      whole batch's buffers in record order. */
  lemma FreedStep(g: Ring.Geometry, info: seq<Option<nat>>, cpls: seq<CompletionQueue.Cpl>, n0: nat, f: seq<nat>)
    requires g.Valid() && |info| == g.size && |cpls| > 0
    requires info[Ring.Index(g, cpls[0].index)].Some?
    requires forall j :: 0 <= j < |cpls| - 1 ==> Slots(g, cpls[1..])[j] != Ring.Index(g, cpls[0].index)
    requires forall j :: 0 <= j < |cpls| - 1 ==> Slots(g, cpls[1..])[j] == Slots(g, cpls)[j + 1]
    requires |f| > n0 && f[n0] == info[Ring.Index(g, cpls[0].index)].value
    requires Queues.Wrap(f[n0 + 1..]) == Owners(g, info[Ring.Index(g, cpls[0].index) := None], cpls[1..])
    ensures Queues.Wrap(f[n0..]) == Owners(g, info, cpls)
  {
    var info1 := info[Ring.Index(g, cpls[0].index) := None];
    var a := Queues.Wrap(f[n0..]);
    var b := Owners(g, info, cpls);
    forall j | 0 <= j < |b|
      ensures a[j] == b[j]
    {
      if j > 0 {
        assert f[n0 + j] == f[n0 + 1..][j - 1];
        assert Queues.Wrap(f[n0 + 1..])[j - 1] == Owners(g, info1, cpls[1..])[j - 1];
      }
    }
  }

  /** Releasing the first record's slot and then the rest's releases
      exactly the batch's slots. */
  lemma ReleasedStep(g: Ring.Geometry, info: seq<Option<nat>>, cpls: seq<CompletionQueue.Cpl>, out: seq<Option<nat>>)
    requires g.Valid() && |info| == g.size && |cpls| > 0 && |out| == |info|
    requires forall i :: i in Slots(g, cpls) <==> i == Ring.Index(g, cpls[0].index) || i in Slots(g, cpls[1..])
    requires forall i :: 0 <= i < |info| ==>
      out[i] == (if i in Slots(g, cpls[1..]) then None else info[Ring.Index(g, cpls[0].index) := None][i])
    ensures forall i :: 0 <= i < |info| ==> out[i] == (if i in Slots(g, cpls) then None else info[i])
  {
  }

  /** The packets of the first record and then the rest's are the batch's
      packets in record order. */
  lemma ReceivedStep(g: Ring.Geometry, info: seq<Option<nat>>, pkts: Packets.Packets, queue: nat,
                     cpls: seq<CompletionQueue.Cpl>, rest: seq<RxPacket>)
    requires g.Valid() && |info| == g.size && Packets.Valid(pkts) && |cpls| > 0
    requires info[Ring.Index(g, cpls[0].index)].Some? && info[Ring.Index(g, cpls[0].index)].value < pkts.count
    requires forall j :: 0 <= j < |cpls| - 1 ==> Slots(g, cpls[1..])[j] != Ring.Index(g, cpls[0].index)
    requires forall j :: 0 <= j < |cpls| - 1 ==> Slots(g, cpls[1..])[j] == Slots(g, cpls)[j + 1]
    requires Claimable(g, info[Ring.Index(g, cpls[0].index) := None], pkts.count, cpls[1..])
    requires |rest| == |cpls| - 1
    requires forall j :: 0 <= j < |cpls| - 1 ==>
      rest[j] == Received(pkts, info[Ring.Index(g, cpls[0].index) := None][Slots(g, cpls[1..])[j]].value,
                          queue, cpls[1..][j])
    ensures var all := [Received(pkts, info[Ring.Index(g, cpls[0].index)].value, queue, cpls[0])] + rest;
      forall j :: 0 <= j < |cpls| ==> all[j] == Received(pkts, info[Slots(g, cpls)[j]].value, queue, cpls[j])
  {
    var info1 := info[Ring.Index(g, cpls[0].index) := None];
    var s := Slots(g, cpls);
    var t := Slots(g, cpls[1..]);
    var all := [Received(pkts, info[Ring.Index(g, cpls[0].index)].value, queue, cpls[0])] + rest;
    forall j | 0 <= j < |cpls|
      ensures all[j] == Received(pkts, info[s[j]].value, queue, cpls[j])
    {
      if j > 0 {
        assert info1[t[j - 1]].Some?;
        assert all[j] == rest[j - 1];
        assert cpls[1..][j - 1] == cpls[j];
      }
    }
  }

  /** What a completion handler leaves behind: both queues, the allocator,
      the register writes to the completion queue and to the ring, and the
      packets delivered to `pkt_rx_queue`. */
  datatype Handled = Handled(cq: CompletionQueue.Cq, q: Queues.Queue, pkts: Packets.Packets,
                             cqWrites: seq<RegWrite>, qWrites: seq<RegWrite>, rx: seq<RxPacket>)

  /** `process_tx_cq` / `process_rx_cq` for completion queue `cq` and the
      ring `q` that owns it.  Nothing happens while the port is down. */
  function ProcessCq(cq: CompletionQueue.Cq, q: Queues.Queue, pkts: Packets.Packets, portUp: bool)
    : (r: Result<Handled>)
    requires CompletionQueue.IsOpen(cq) && CompletionQueue.Valid(cq)
    requires Queues.IsOpen(q) && Queues.Valid(q) && Packets.Valid(pkts)
    ensures !portUp ==> r == Ok(Handled(cq, q, pkts, [], [], []))
    ensures portUp ==> (r.Ok? <==> Claimable(q.geom, q.info, pkts.count, CompletionQueue.Completions(cq)))
    ensures r.Err? ==> r.error == NullPacket || r.error == ForeignPacket
    ensures portUp && r.Ok? ==> var h := r.value;
      && h.cq == cq.(cons := CompletionQueue.End(cq))
      && h.cqWrites == [CompletionQueue.WriteConsPtr(h.cq)]
      && Queues.IsOpen(h.q) && Queues.Valid(h.q) && Packets.Valid(h.pkts)
      && h.q.kind == q.kind && h.q.index == q.index && h.q.geom == q.geom && h.q.ndev == q.ndev
      && (q.kind == Queues.Tx ==> h.rx == [] && h.qWrites == [] && h.q.prod == q.prod)
      && (q.kind == Queues.Rx ==> h.q.prod - h.q.cons > q.geom.size - Queues.RX_REFILL_MIN)
  {
    if !portUp then Ok(Handled(cq, q, pkts, [], [], []))
    else
      var cpls := CompletionQueue.Completions(cq);
      match Consume(q.kind, q.index.value, q.geom, q.info, pkts, cpls)
      case Err(e) => Err(e)
      case Ok(c) =>
        ConsumeFinish(q, pkts, cpls);
        var cq' := cq.(cons := CompletionQueue.End(cq));
        var (q', pkts', w) := Finish(q, c.info, c.pkts);
        Ok(Handled(cq', q', pkts', [CompletionQueue.WriteConsPtr(cq')], w, c.rx))
  }

  /** The record loop followed by the ring half of a handler, stated
      against the batch: the slots released, the buffers freed in order,
      the consumer pointer cleaned up and, for a receive ring, the refill. */
  lemma ConsumeFinish(q: Queues.Queue, pkts: Packets.Packets, cpls: seq<CompletionQueue.Cpl>)
    requires Queues.IsOpen(q) && Queues.Valid(q) && Packets.Valid(pkts)
    requires Claimable(q.geom, q.info, pkts.count, cpls)
    ensures var c := Consume(q.kind, q.index.value, q.geom, q.info, pkts, cpls).value;
      && |c.info| == |q.info| && Packets.Valid(c.pkts)
      && (forall i :: 0 <= i < |c.info| && q.info[i].None? ==> c.info[i].None?)
      && var (q', pkts', w) := Finish(q, c.info, c.pkts);
      var q1 := Cleaned(q, Release(q.geom, q.info, cpls));
      var pkts1 := pkts.(free := pkts.free + Buffers(q.geom, q.info, cpls));
      && (q.kind == Queues.Tx ==> q' == q1 && pkts' == pkts1 && w == [] && c.rx == [])
      && (q.kind == Queues.Rx ==>
            && (q', pkts', w) == Queues.Refill(q1, pkts1)
            && |c.rx| == |cpls|
            && (forall j :: 0 <= j < |cpls| ==>
                  c.rx[j] == Received(pkts, q.info[Slots(q.geom, cpls)[j]].value, q.index.value, cpls[j])))
  {
    ConsumeEffect(q.kind, q.index.value, q.geom, q.info, pkts, cpls);
    ConsumeReceives(q.kind, q.index.value, q.geom, q.info, pkts, cpls);
  }

  /** What a handler with its port up does to the ring and the allocator:
      the batch's slots released and the consumer pointer moved past them,
      the batch's buffers freed in record order, and, for a receive ring,
      the refill; a transmit handler delivers nothing and writes nothing to
      the ring, a receive handler delivers one packet per record. */
  lemma ProcessCqEffect(cq: CompletionQueue.Cq, q: Queues.Queue, pkts: Packets.Packets)
    requires CompletionQueue.IsOpen(cq) && CompletionQueue.Valid(cq)
    requires Queues.IsOpen(q) && Queues.Valid(q) && Packets.Valid(pkts)
    requires ProcessCq(cq, q, pkts, true).Ok?
    ensures var h := ProcessCq(cq, q, pkts, true).value;
      var cpls := CompletionQueue.Completions(cq);
      && Claimable(q.geom, q.info, pkts.count, cpls)
      && var q1 := Cleaned(q, Release(q.geom, q.info, cpls));
      var pkts1 := pkts.(free := pkts.free + Buffers(q.geom, q.info, cpls));
      && (q.kind == Queues.Tx ==> h.q == q1 && h.pkts == pkts1 && h.qWrites == [] && h.rx == [])
      && (q.kind == Queues.Rx ==>
            && (h.q, h.pkts, h.qWrites) == Queues.Refill(q1, pkts1)
            && |h.rx| == |cpls|
            && (forall j :: 0 <= j < |h.rx| ==>
                  h.rx[j] == Received(pkts, q.info[Slots(q.geom, cpls)[j]].value, q.index.value, cpls[j])))
  {
    ConsumeFinish(q, pkts, CompletionQueue.Completions(cq));
  }

  /** The ring after cleanup: slot ownership replaced by `info`, which
      owns no slot `q` did not, and the consumer pointer moved past the
      released slots. */
  function Cleaned(q: Queues.Queue, info: seq<Option<nat>>): (q': Queues.Queue)
    requires Queues.IsOpen(q) && Queues.Valid(q) && |info| == |q.info|
    requires forall i :: 0 <= i < |info| && q.info[i].None? ==> info[i].None?
    ensures Queues.IsOpen(q') && Queues.Valid(q')
    ensures q' == q.(info := info, cons := Queues.Advance(q.geom, info, q.cons, q.prod))
  {
    Queues.AdvanceKeepsValid(q, info);
    q.(info := info, cons := Queues.Advance(q.geom, info, q.cons, q.prod))
  }

  /** The ring half of a handler: clean up the consumer pointer over the
      released slots, then (receive only) refill. */
  function Finish(q: Queues.Queue, info: seq<Option<nat>>, pkts: Packets.Packets)
    : (r: (Queues.Queue, Packets.Packets, seq<RegWrite>))
    requires Queues.IsOpen(q) && Queues.Valid(q) && Packets.Valid(pkts) && |info| == |q.info|
    requires forall i :: 0 <= i < |info| && q.info[i].None? ==> info[i].None?
    ensures var (q', pkts', w) := r;
      var c := Queues.Advance(q.geom, info, q.cons, q.prod);
      && Queues.IsOpen(q') && Queues.Valid(q') && Packets.Valid(pkts')
      && q'.kind == q.kind && q'.index == q.index && q'.geom == q.geom && q'.ndev == q.ndev && q'.cons == c
      && (q.kind == Queues.Tx ==> q' == q.(info := info, cons := c) && pkts' == pkts && w == [])
      && (q.kind == Queues.Rx ==>
            && r == Queues.Refill(Cleaned(q, info), pkts)
            && q'.prod - q'.cons > q.geom.size - Queues.RX_REFILL_MIN && q'.prod >= q.prod)
  {
    var q1 := Cleaned(q, info);
    if q.kind == Queues.Tx then (q1, pkts, []) else Queues.Refill(q1, pkts)
  }

  /** After a handler runs, its completion queue holds no new record: the
      consumer pointer sits where the drain stopped. */
  lemma ProcessCqDrains(cq: CompletionQueue.Cq, q: Queues.Queue, pkts: Packets.Packets)
    requires CompletionQueue.IsOpen(cq) && CompletionQueue.Valid(cq)
    requires Queues.IsOpen(q) && Queues.Valid(q) && Packets.Valid(pkts)
    requires ProcessCq(cq, q, pkts, true).Ok?
    ensures CompletionQueue.Completions(ProcessCq(cq, q, pkts, true).value.cq) == []
  {
    var cq' := ProcessCq(cq, q, pkts, true).value.cq;
    var e := CompletionQueue.End(cq);
    assert cq' == cq.(cons := e);
    Ring.DrainEndUnique(cq.geom, CompletionQueue.Tails(cq.buf), e, e);
  }

  /** Running the transmit handler a second time with no new completions
      changes nothing but re-reports the consumer pointer. */
  lemma ProcessTxCqIdempotent(cq: CompletionQueue.Cq, q: Queues.Queue, pkts: Packets.Packets)
    requires CompletionQueue.IsOpen(cq) && CompletionQueue.Valid(cq)
    requires Queues.IsOpen(q) && Queues.Valid(q) && Packets.Valid(pkts) && q.kind == Queues.Tx
    requires ProcessCq(cq, q, pkts, true).Ok?
    ensures var h := ProcessCq(cq, q, pkts, true).value;
      ProcessCq(h.cq, h.q, h.pkts, true) == Ok(Handled(h.cq, h.q, h.pkts, [CompletionQueue.WriteConsPtr(h.cq)], [], []))
  {
    var h := ProcessCq(cq, q, pkts, true).value;
    ProcessCqDrains(cq, q, pkts);
    var cpls := CompletionQueue.Completions(h.cq);
    assert Consume(h.q.kind, h.q.index.value, h.q.geom, h.q.info, h.pkts, cpls) == Ok(Consumed(h.q.info, h.pkts, []));
    Queues.AdvanceUnique(h.q.geom, h.q.info, h.q.cons, h.q.prod, h.q.cons);
  }
}

=== FILE: cq.dfy ===
/** `Cq`: a completion queue.

    The hardware writes one completion record per finished transmit or
    receive descriptor into a completion queue, then posts an event naming
    the completion queue on the event queue it is attached to.  The ring
    that owns the completion queue (`src_ring`) supplies its handler. */
module CompletionQueue {
  import opened Common
  import Bits
  import Ring
  import Csr
  import Resource
  import EventQueue

  /** A completion record as the handlers unpack it: the queue and
      descriptor index it completes, the received length, the receive
      timestamp (fractional nanoseconds, nanoseconds, seconds), the receive
      checksum, and the last 32-bit word carrying the phase bit.  Transmit
      completions use only `index` and `tail`. */
  datatype Cpl = Cpl(queue: nat, index: nat, len: nat, tsFns: nat, tsNs: nat, tsSec: nat,
                     rxCsum: nat, tail: nat)

  /** The driver's view of one completion queue.  `eq` is the position of
      the event queue it reports to in the interface's list; `src` is the
      ring whose handler it runs. */
  datatype Cq = Cq(
    regs: Option<Resource.Window>,
    cqn: Option<nat>,
    geom: Ring.Geometry,
    eq: Option<nat>,
    src: Option<QueueRef>,
    cons: nat,
    buf: seq<Cpl>,
    enabled: bool)

  function NewCq(): (c: Cq)
    ensures !IsOpen(c) && !c.enabled && c.cqn.None? && c.eq.None? && c.src.None?
    ensures c.cons == 0 && c.buf == []
  {
    Cq(None, None, Ring.Geometry(0, 0, 0, 0), None, None, 0, [], false)
  }

  predicate IsOpen(cq: Cq)
  {
    cq.regs.Some?
  }

  predicate Valid(cq: Cq)
  {
    IsOpen(cq) ==> cq.geom.Valid() && |cq.buf| == cq.geom.size && cq.cqn.Some? && cq.eq.Some?
  }

  function Tails(buf: seq<Cpl>): (r: seq<nat>)
    ensures |r| == |buf| && forall i :: 0 <= i < |buf| ==> r[i] == buf[i].tail
  {
    seq(|buf|, i requires 0 <= i < |buf| => buf[i].tail)
  }

  function ZeroCpls(n: nat): (r: seq<Cpl>)
    ensures |r| == n && forall i :: 0 <= i < n ==> r[i] == Cpl(0, 0, 0, 0, 0, 0, 0, 0)
  {
    seq(n, i => Cpl(0, 0, 0, 0, 0, 0, 0, 0))
  }

  /** Where a drain of this queue stops. */
  function End(cq: Cq): (e: nat)
    requires IsOpen(cq) && Valid(cq)
    ensures cq.cons <= e <= cq.cons + cq.geom.size
  {
    Ring.DrainEnd(cq.geom, Tails(cq.buf), cq.cons)
  }

  /** The valid completions waiting from the consumer pointer on, in the
      order a handler visits them. */
  function Completions(cq: Cq): (r: seq<Cpl>)
    requires IsOpen(cq) && Valid(cq)
    ensures |r| == End(cq) - cq.cons
    ensures forall j :: 0 <= j < |r| ==> r[j] == cq.buf[Ring.Index(cq.geom, cq.cons + j)]
  {
    Span(cq.geom, cq.buf, cq.cons, End(cq) - cq.cons)
  }

  /** The `n` records from pointer `from` on, in ring order. */
  function Span(g: Ring.Geometry, buf: seq<Cpl>, from: nat, n: nat): (r: seq<Cpl>)
    requires g.Valid() && |buf| == g.size
    ensures |r| == n
    ensures forall j :: 0 <= j < n ==> r[j] == buf[Ring.Index(g, from + j)]
  {
    seq(n, j requires 0 <= j < n => buf[Ring.Index(g, from + j)])
  }

  /** Every completion a handler visits carries the phase of a new record,
      and the record after the last one does not. */
  lemma CompletionsAreNew(cq: Cq, j: nat)
    requires IsOpen(cq) && Valid(cq) && j < |Completions(cq)|
    ensures Ring.SlotValid(cq.geom, Completions(cq)[j].tail, cq.cons + j)
    ensures !Ring.SlotValid(cq.geom, cq.buf[Ring.Index(cq.geom, End(cq))].tail, End(cq))
  {
    var k: nat := cq.cons + j;
    assert Tails(cq.buf)[Ring.Index(cq.geom, k)] == Completions(cq)[j].tail;
    assert Tails(cq.buf)[Ring.Index(cq.geom, End(cq))] == cq.buf[Ring.Index(cq.geom, End(cq))].tail;
  }

  /** A zeroed buffer holds no completion for a consumer at 0. */
  lemma ZeroedIsEmpty(g: Ring.Geometry, buf: seq<Cpl>)
    requires g.Valid() && buf == ZeroCpls(g.size)
    ensures Ring.DrainEnd(g, Tails(buf), 0) == 0
  {
    var tails := Tails(buf);
    assert !Ring.SlotValid(g, tails[Ring.Index(g, 0)], 0) by {
      Bits.AndSingleBit(0, Ring.PHASE_BIT);
    }
    Ring.DrainEndUnique(g, tails, 0, 0);
  }

  /** The register writes of `open`: disabled while it is programmed,
      enabled last. */
  function OpenWrites(g: Ring.Geometry, eqn: nat, dma: nat): (w: seq<RegWrite>)
    ensures |w| == 8
    ensures w[0] == Write32(Csr.CQ_CTRL_STATUS_REG, Csr.CQ_CMD_SET_ENABLE)
    ensures w[1] == Write32(Csr.CQ_BASE_ADDR_VF_REG, dma % 0x1_0000_0000 - dma % 0x1000)
    ensures w[2] == Write32(Csr.CQ_BASE_ADDR_VF_REG + 4, dma / 0x1_0000_0000)
    ensures w[3] == Write32(Csr.CQ_CTRL_STATUS_REG, Csr.Cmd(Csr.CQ_CMD_SET_SIZE, g.logSize))
    ensures w[4] == Write32(Csr.CQ_CTRL_STATUS_REG, Csr.Cmd(Csr.CQ_CMD_SET_EQN, eqn))
    ensures w[5] == Write32(Csr.CQ_CTRL_STATUS_REG, Csr.CQ_CMD_SET_PROD_PTR)
    ensures w[6] == Write32(Csr.CQ_CTRL_STATUS_REG, Csr.CQ_CMD_SET_CONS_PTR)
    ensures w[7] == Write32(Csr.CQ_CTRL_STATUS_REG, Csr.CQ_CMD_SET_ENABLE + 1)
  {
    [Write32(Csr.CQ_CTRL_STATUS_REG, Csr.FlagCmd(Csr.CQ_CMD_SET_ENABLE, false))]
    + Csr.BaseAddrWrites(Csr.CQ_BASE_ADDR_VF_REG, dma)
    + [ Write32(Csr.CQ_CTRL_STATUS_REG, Csr.Cmd(Csr.CQ_CMD_SET_SIZE, g.logSize)),
        Write32(Csr.CQ_CTRL_STATUS_REG, Csr.Cmd(Csr.CQ_CMD_SET_EQN, eqn)),
        Write32(Csr.CQ_CTRL_STATUS_REG, Csr.PtrCmd(Csr.CQ_CMD_SET_PROD_PTR, 0)),
        Write32(Csr.CQ_CTRL_STATUS_REG, Csr.PtrCmd(Csr.CQ_CMD_SET_CONS_PTR, 0)),
        Write32(Csr.CQ_CTRL_STATUS_REG, Csr.FlagCmd(Csr.CQ_CMD_SET_ENABLE, true)) ]
  }

  /** `open(eq, size)`: claim an index, size and zero the buffer, attach to
      the event queue at position `eqPos`, then program the queue with the
      event queue's number.  An event queue without a number (never opened,
      or closed) makes `SET_EQN | None` fail. */
  function Open(cq: Cq, pool: Resource.Pool, eq: EventQueue.Eq, eqPos: nat, req: nat, dma: nat)
    : (r: Result<(Cq, Resource.Pool, EventQueue.Eq, seq<RegWrite>)>)
    ensures IsOpen(cq) ==> r == Err(AlreadyOpen)
    ensures !IsOpen(cq) && |pool.freeList| == 0 ==> r == Err(ResourceExhausted)
    ensures !IsOpen(cq) && |pool.freeList| > 0 && req == 0 ==> r == Err(BadSize)
    ensures !IsOpen(cq) && |pool.freeList| > 0 && req > 0 && eq.eqn.None? ==> r == Err(NotOpen)
    ensures r.Ok? <==> !IsOpen(cq) && |pool.freeList| > 0 && req > 0 && eq.eqn.Some?
    ensures r.Ok? ==> |r.value.1.freeList| + 1 == |pool.freeList|
    ensures r.Ok? ==> var (cq', pool', eq', w) := r.value;
      && IsOpen(cq') && Valid(cq') && cq'.enabled
      && cq'.cqn.value in pool.freeList
      && multiset(pool'.freeList) + multiset{cq'.cqn.value} == multiset(pool.freeList)
      && (Resource.Valid(pool) ==> Resource.Valid(pool'))
      && cq'.geom.size <= req < 2 * cq'.geom.size
      && cq'.eq == Some(eqPos) && cq'.src == cq.src && cq'.cons == 0
      && End(cq') == 0
      && eq' == EventQueue.Attach(eq, cq'.cqn.value)
      && w == OpenWrites(cq'.geom, eq.eqn.value, dma)
  {
    if IsOpen(cq) then Err(AlreadyOpen)
    else match Resource.Claim(pool)
      case Err(e) => Err(e)
      case Ok((pool', cqn, win)) =>
        match Ring.Geom(req)
        case Err(e) => Err(e)
        case Ok(g) =>
          if eq.eqn.None? then Err(NotOpen)
          else
            var buf := ZeroCpls(g.size);
            ZeroedIsEmpty(g, buf);
            var cq' := Cq(Some(win), Some(cqn), g, Some(eqPos), cq.src, 0, buf, true);
            Ok((cq', pool', EventQueue.Attach(eq, cqn), OpenWrites(g, eq.eqn.value, dma)))
  }

  /** `close()`: nothing when not open; otherwise disable it, detach it from
      its event queue (a `KeyError` if it is not attached there) and return
      its index.  The owning ring is not cleared. */
  function Close(cq: Cq, pool: Resource.Pool, eq: EventQueue.Eq)
    : (r: Result<(Cq, Resource.Pool, EventQueue.Eq, seq<RegWrite>)>)
    requires Valid(cq)
    ensures !IsOpen(cq) ==> r == Ok((cq, pool, eq, []))
    ensures IsOpen(cq) ==> (r.Err? <==> cq.cqn.value !in eq.cqTable)
    ensures r.Err? ==> r.error == UnknownCq
    ensures IsOpen(cq) && r.Ok? ==> var (cq', pool', eq', w) := r.value;
      && !IsOpen(cq') && !cq'.enabled && cq'.cqn.None? && cq'.eq.None? && cq'.src == cq.src
      && Ok(eq') == EventQueue.Detach(eq, cq.cqn.value)
      && multiset(pool'.freeList) == multiset(pool.freeList) + multiset{cq.cqn.value}
      && (Resource.Valid(pool) && cq.cqn.value < pool.count ==> Resource.Valid(pool'))
      && w == [Write32(Csr.CQ_CTRL_STATUS_REG, Csr.CQ_CMD_SET_ENABLE)]
  {
    if !IsOpen(cq) then Ok((cq, pool, eq, []))
    else match EventQueue.Detach(eq, cq.cqn.value)
      case Err(e) => Err(e)
      case Ok(eq') =>
        Ok((cq.(regs := None, eq := None, enabled := false, cqn := None),
            Resource.Free(pool, cq.cqn.value), eq',
            [Write32(Csr.CQ_CTRL_STATUS_REG, Csr.FlagCmd(Csr.CQ_CMD_SET_ENABLE, false))]))
  }

  /** Closing a freshly opened completion queue restores the event queue's
      table and the pool's free indices. */
  lemma OpenThenClose(cq: Cq, pool: Resource.Pool, eq: EventQueue.Eq, eqPos: nat, req: nat, dma: nat)
    requires Open(cq, pool, eq, eqPos, req, dma).Ok?
    requires Open(cq, pool, eq, eqPos, req, dma).value.0.cqn.value !in eq.cqTable
    ensures var (cq', pool', eq', _) := Open(cq, pool, eq, eqPos, req, dma).value;
      && Close(cq', pool', eq').Ok?
      && Close(cq', pool', eq').value.2 == eq
      && multiset(Close(cq', pool', eq').value.1.freeList) == multiset(pool.freeList)
  {
    var (cq', pool', eq', _) := Open(cq, pool, eq, eqPos, req, dma).value;
    EventQueue.DetachUndoesAttach(eq, cq'.cqn.value);
  }

  /** `arm()`: nothing when not open. */
  function Arm(cq: Cq): (w: seq<RegWrite>)
    ensures IsOpen(cq) <==> |w| == 1
    ensures IsOpen(cq) ==> w == [Write32(Csr.CQ_CTRL_STATUS_REG, Csr.CQ_CMD_SET_ARM + 1)]
  {
    if IsOpen(cq) then [Write32(Csr.CQ_CTRL_STATUS_REG, Csr.FlagCmd(Csr.CQ_CMD_SET_ARM, true))]
    else []
  }

  /** `write_cons_ptr()`: report the consumer pointer's low 16 bits. */
  function WriteConsPtr(cq: Cq): (w: RegWrite)
    ensures w.Write32? && w.offset == Csr.CQ_CTRL_STATUS_REG
    ensures w.value / 0x1_0000 == Csr.CQ_CMD_SET_CONS_PTR / 0x1_0000
    ensures w.value % 0x1_0000 == cq.cons % 0x1_0000
  {
    Write32(Csr.CQ_CTRL_STATUS_REG, Csr.PtrCmd(Csr.CQ_CMD_SET_CONS_PTR, cq.cons))
  }
}

=== FILE: csr.dfy ===
/** Control/status register layout of the queue managers and the command
    words the driver writes to them.

    Every queue exposes a control register that accepts commands: an opcode
    in the upper bits OR-ed with an operand in the lower bits.  The event
    and completion queues share one set of opcodes, the transmit and receive
    queues another. */
module Csr {
  import opened Common
  import Bits

  // Transmit/receive queue registers and commands.
  const QUEUE_BASE_ADDR_VF_REG: nat := 0x00
  const QUEUE_CTRL_STATUS_REG: nat := 0x08
  const QUEUE_SIZE_CQN_REG: nat := 0x0C
  const QUEUE_PTR_REG: nat := 0x10
  const QUEUE_PROD_PTR_REG: nat := 0x10
  const QUEUE_CONS_PTR_REG: nat := 0x12

  const QUEUE_CMD_SET_VF_ID: nat := 0x8001_0000
  const QUEUE_CMD_SET_SIZE: nat := 0x8002_0000
  const QUEUE_CMD_SET_CQN: nat := 0xC000_0000
  const QUEUE_CMD_SET_PROD_PTR: nat := 0x8080_0000
  const QUEUE_CMD_SET_CONS_PTR: nat := 0x8090_0000
  const QUEUE_CMD_SET_ENABLE: nat := 0x4000_0100

  // Completion queue registers and commands.
  const CQ_BASE_ADDR_VF_REG: nat := 0x00
  const CQ_CTRL_STATUS_REG: nat := 0x08
  const CQ_PTR_REG: nat := 0x0C

  const CQ_CMD_SET_SIZE: nat := 0x8002_0000
  const CQ_CMD_SET_EQN: nat := 0xC000_0000
  const CQ_CMD_SET_PROD_PTR: nat := 0x8080_0000
  const CQ_CMD_SET_CONS_PTR: nat := 0x8090_0000
  const CQ_CMD_SET_CONS_PTR_ARM: nat := 0x8091_0000
  const CQ_CMD_SET_ENABLE: nat := 0x4000_0100
  const CQ_CMD_SET_ARM: nat := 0x4000_0200

  // Event queue registers and commands.
  const EQ_BASE_ADDR_VF_REG: nat := 0x00
  const EQ_CTRL_STATUS_REG: nat := 0x08
  const EQ_PTR_REG: nat := 0x0C

  const EQ_CMD_SET_SIZE: nat := 0x8002_0000
  const EQ_CMD_SET_IRQN: nat := 0xC000_0000
  const EQ_CMD_SET_PROD_PTR: nat := 0x8080_0000
  const EQ_CMD_SET_CONS_PTR: nat := 0x8090_0000
  const EQ_CMD_SET_CONS_PTR_ARM: nat := 0x8091_0000
  const EQ_CMD_SET_ENABLE: nat := 0x4000_0100
  const EQ_CMD_SET_ARM: nat := 0x4000_0200

  /** `op | v` */
  function Cmd(op: nat, v: nat): nat
  {
    Bits.Or(op, v)
  }

  /** A command whose opcode leaves the low `k` bits clear and whose operand
      fits in them is their sum, and both halves can be read back. */
  lemma CmdFields(op: nat, v: nat, k: nat)
    requires op % Bits.Pow2(k) == 0 && v < Bits.Pow2(k)
    ensures Cmd(op, v) == op + v
    ensures Cmd(op, v) % Bits.Pow2(k) == v
    ensures Cmd(op, v) / Bits.Pow2(k) == op / Bits.Pow2(k)
  {
    assert Cmd(op, v) == op + v by {
      Bits.OrDisjoint(op, v, k);
    }
    AddLow(op, v, Bits.Pow2(k));
  }

  /** Adding a value below `p` to a multiple of `p` leaves the quotient
      and sets the remainder. */
  lemma AddLow(op: nat, v: nat, p: nat)
    requires p >= 1 && op % p == 0 && v < p
    ensures (op + v) % p == v && (op + v) / p == op / p
  {
    assert op + v == (op / p) * p + v by {
      assert op == (op / p) * p + op % p;
    }
    Bits.DivModUnique(op + v, p, op / p, v);
  }

  /** `SET_ENABLE | 1` or `SET_ENABLE | 0`; also `SET_ARM | 1`. */
  function FlagCmd(op: nat, on: bool): (r: nat)
    requires op % 0x100 == 0
    ensures r == op + (if on then 1 else 0)
  {
    Bits.Pow2Values();
    CmdFields(op, if on then 1 else 0, 8);
    Cmd(op, if on then 1 else 0)
  }

  /** `SET_PROD_PTR | (ptr & 0xFFFF)` and the other pointer commands: the
      opcode in the upper half, the pointer's low 16 bits in the lower. */
  function PtrCmd(op: nat, ptr: nat): (r: nat)
    requires op % 0x1_0000 == 0
    ensures r == op + ptr % 0x1_0000
    ensures r / 0x1_0000 == op / 0x1_0000 && r % 0x1_0000 == ptr % 0x1_0000
  {
    Bits.Pow2Values();
    Bits.AndLowMask(ptr, 16);
    CmdFields(op, ptr % 0x1_0000, 16);
    Cmd(op, Bits.And(ptr, 0xFFFF))
  }

  /** `SET_SIZE | (log_desc_block_size << 8) | log_queue_size`, evaluated
      left to right as Python does. */
  function QueueSizeCmd(logDbs: nat, logSize: nat): (r: nat)
    ensures logDbs < 0x100 && logSize < 0x100 ==>
      r == QUEUE_CMD_SET_SIZE + logDbs * 0x100 + logSize
  {
    QueueSizeCmdValue(logDbs, logSize);
    Cmd(Cmd(QUEUE_CMD_SET_SIZE, Bits.Shl(logDbs, 8)), logSize)
  }

  lemma QueueSizeCmdValue(logDbs: nat, logSize: nat)
    ensures logDbs < 0x100 && logSize < 0x100 ==>
      Cmd(Cmd(QUEUE_CMD_SET_SIZE, Bits.Shl(logDbs, 8)), logSize)
        == QUEUE_CMD_SET_SIZE + logDbs * 0x100 + logSize
  {
    if logDbs < 0x100 && logSize < 0x100 {
      Bits.Pow2Values();
      var withDbs := Cmd(QUEUE_CMD_SET_SIZE, Bits.Shl(logDbs, 8));
      CmdFields(QUEUE_CMD_SET_SIZE, logDbs * 0x100, 16);
      assert withDbs % Bits.Pow2(8) == 0 by {
        Bits.DivModUnique(withDbs, 0x100, QUEUE_CMD_SET_SIZE / 0x100 + logDbs, 0);
      }
      CmdFields(withDbs, logSize, 8);
    }
  }

  /** The register writes that point a queue at its DMA buffer:
      the low word masked to 4 KiB alignment, then the high word. */
  function BaseAddrWrites(reg: nat, dma: nat): (w: seq<RegWrite>)
    ensures |w| == 2
    ensures w[0] == Write32(reg, dma % 0x1_0000_0000 - dma % 0x1000)
    ensures w[1] == Write32(reg + 4, dma / 0x1_0000_0000)
  {
    BaseAddrFields(dma);
    [Write32(reg, Bits.And(dma, 0xFFFF_F000)), Write32(reg + 4, Bits.Shr(dma, 32))]
  }

  /** The two halves of a DMA address as `open` writes them. */
  lemma BaseAddrFields(dma: nat)
    ensures Bits.And(dma, 0xFFFF_F000) == dma % 0x1_0000_0000 - dma % 0x1000
    ensures Bits.Shr(dma, 32) == dma / 0x1_0000_0000
  {
    Bits.Pow2Values();
    Bits.Pow2Monotone(12, 32);
    Bits.AndMidMask(dma, 12, 32);
  }
}

=== FILE: driver.dfy ===
/** `Driver.interrupt_handler`: on interrupt `irq`, every event queue wired
    to it is processed (`process_eq`) and re-armed, in list order.
    Processing an event queue runs, for every completion event, the
    handler of the completion queue the event names and re-arms that
    completion queue.

    The buffer allocator `alloc_pkt` / `free_pkt` is `Packets.Alloc` and
    `Packets.Free`. */
module Driver {
  import opened Common
  import opened Interface
  import CompletionQueue
  import EventQueue
  import Queues
  import Completion
  import Packets
  import NetDevice
  import Csr

  /** The position of the first true entry. */
  function First(bs: seq<bool>): (r: Option<nat>)
    ensures r.Some? ==> r.value < |bs| && bs[r.value] && forall i :: 0 <= i < r.value ==> !bs[i]
    ensures r.None? <==> forall i :: 0 <= i < |bs| ==> !bs[i]
  {
    if |bs| == 0 then None
    else if bs[0] then Some(0)
    else match First(bs[1..])
      case None => None
      case Some(k) => Some(k + 1)
  }

  /** `cq_table[cqn]`: the open completion queue numbered `cqn`. */
  function FindCq(cqs: seq<CompletionQueue.Cq>, cqn: nat): (r: Option<nat>)
    ensures r.Some? ==> r.value < |cqs| && CompletionQueue.IsOpen(cqs[r.value]) && cqs[r.value].cqn == Some(cqn)
    ensures r.None? <==> forall i :: 0 <= i < |cqs| ==> !(CompletionQueue.IsOpen(cqs[i]) && cqs[i].cqn == Some(cqn))
  {
    var bs := seq(|cqs|, i requires 0 <= i < |cqs| => CompletionQueue.IsOpen(cqs[i]) && cqs[i].cqn == Some(cqn));
    assert forall i :: 0 <= i < |cqs| ==> bs[i] == (CompletionQueue.IsOpen(cqs[i]) && cqs[i].cqn == Some(cqn));
    First(bs)
  }

  /** `cq.src_ring`: the open ring with hardware index `index`. */
  function FindRing(rs: seq<Queues.Queue>, index: nat): (r: Option<nat>)
    ensures r.Some? ==> r.value < |rs| && Queues.IsOpen(rs[r.value]) && rs[r.value].index == Some(index)
    ensures r.None? <==> forall i :: 0 <= i < |rs| ==> !(Queues.IsOpen(rs[i]) && rs[i].index == Some(index))
  {
    var bs := seq(|rs|, i requires 0 <= i < |rs| => Queues.IsOpen(rs[i]) && rs[i].index == Some(index));
    assert forall i :: 0 <= i < |rs| ==> bs[i] == (Queues.IsOpen(rs[i]) && rs[i].index == Some(index));
    First(bs)
  }

  /** Where a completion event for `cqn` leads: the completion queue's
      position, and the direction and position of the ring whose handler it
      runs. */
  datatype Route = Route(cq: nat, kind: Queues.Kind, ring: nat)

  function RouteOf(n: Nic, cqn: nat): (r: Result<Route>)
    ensures FindCq(n.cqs, cqn).None? <==> r == Err(UnknownCq)
    ensures r.Err? ==> r.error == UnknownCq || r.error == NoHandler
    ensures FindCq(n.cqs, cqn).Some? && n.cqs[FindCq(n.cqs, cqn).value].src.None? ==> r == Err(NoHandler)
    ensures r.Ok? ==> var Route(c, kind, i) := r.value;
      && Some(c) == FindCq(n.cqs, cqn)
      && n.cqs[c].src.Some? && i < |Rings(n, kind)| && Queues.IsOpen(Rings(n, kind)[i])
      && Rings(n, kind)[i].index == Some(n.cqs[c].src.value.index)
      && n.cqs[c].src == Some(Queues.Ref(kind, n.cqs[c].src.value.index))
  {
    match FindCq(n.cqs, cqn)
    case None => Err(UnknownCq)
    case Some(c) =>
      match n.cqs[c].src
      case None => Err(NoHandler)
      case Some(src) =>
        var kind := if src.TxRef? then Queues.Tx else Queues.Rx;
        match FindRing(Rings(n, kind), src.index)
        case None => Err(NoHandler)
        case Some(i) =>
          assert Queues.Ref(kind, src.index) == src;
          Ok(Route(c, kind, i))
  }

  /** The interface after a handler: completion queues and rings changed
      in place, every device's received packets only extended at the end;
      event queues, ports, schedulers and parameters untouched. */
  predicate Serviced(n: Nic, n': Nic)
  {
    && n' == n.(cqs := n'.cqs, txqs := n'.txqs, rxqs := n'.rxqs, pkts := n'.pkts, ndevs := n'.ndevs)
    && |n'.cqs| == |n.cqs| && |n'.txqs| == |n.txqs| && |n'.rxqs| == |n.rxqs| && |n'.ndevs| == |n.ndevs|
    && (forall i :: 0 <= i < |n.ndevs| ==>
          && n'.ndevs[i] == n.ndevs[i].(rxPkts := n'.ndevs[i].rxPkts)
          && n.ndevs[i].rxPkts <= n'.ndevs[i].rxPkts)
  }

  lemma ServicedNone(n: Nic)
    ensures Serviced(n, n)
  {
    assert forall i :: 0 <= i < |n.ndevs| ==> n.ndevs[i] == n.ndevs[i].(rxPkts := n.ndevs[i].rxPkts);
  }

  lemma ServicedTrans(n: Nic, n1: Nic, n2: Nic)
    requires Serviced(n, n1) && Serviced(n1, n2)
    ensures Serviced(n, n2)
  {
    forall i | 0 <= i < |n.ndevs| ensures n.ndevs[i].rxPkts <= n2.ndevs[i].rxPkts {
      assert n.ndevs[i].rxPkts <= n1.ndevs[i].rxPkts;
    }
  }

  /** The queues a route leads to are open and well formed, and the ring
      serves an existing device. */
  lemma RouteValid(n: Nic, l: Route)
    requires Valid(n) && l.cq < |n.cqs| && CompletionQueue.IsOpen(n.cqs[l.cq])
    requires l.ring < |Rings(n, l.kind)| && Queues.IsOpen(Rings(n, l.kind)[l.ring])
    ensures CompletionQueue.Valid(n.cqs[l.cq])
    ensures Queues.Valid(Rings(n, l.kind)[l.ring]) && Rings(n, l.kind)[l.ring].ndev.value < |n.ndevs|
  {
    assert RingsValid(n, l.kind);
  }

  /** The state a handler leaves: the completion queue and the ring
      replaced, the allocator replaced, the packets delivered appended to
      the device's receive queue. */
  function AfterHandler(n: Nic, l: Route, dev: nat, h: Completion.Handled): (n': Nic)
    requires l.cq < |n.cqs| && l.ring < |Rings(n, l.kind)| && dev < |n.ndevs|
    ensures Serviced(n, n')
  {
    var d := n.ndevs[dev];
    var n1 := n.(cqs := n.cqs[l.cq := h.cq], pkts := h.pkts,
                 ndevs := n.ndevs[dev := d.(rxPkts := d.rxPkts + h.rx)]);
    var n' := NetDevice.WithRingList(n1, l.kind, Rings(n1, l.kind)[l.ring := h.q], NetDevice.Pool(n1, l.kind));
    assert l.kind == Queues.Tx || l.kind == Queues.Rx;
    assert forall i :: 0 <= i < |n.ndevs| && i != dev ==> n'.ndevs[i] == n.ndevs[i];
    assert n'.ndevs[dev] == d.(rxPkts := d.rxPkts + h.rx);
    n'
  }

  /** A handler keeps the interface invariant. */
  lemma AfterHandlerValid(n: Nic, l: Route, dev: nat, h: Completion.Handled)
    requires Valid(n) && l.cq < |n.cqs| && l.ring < |Rings(n, l.kind)| && dev < |n.ndevs|
    requires var q := Rings(n, l.kind)[l.ring];
      && Queues.IsOpen(q) && Queues.IsOpen(h.q) && Queues.Valid(h.q)
      && h.q.kind == q.kind && h.q.ndev == q.ndev
    requires CompletionQueue.Valid(h.cq) && Packets.Valid(h.pkts)
    ensures Valid(AfterHandler(n, l, dev, h))
  {
    var n' := AfterHandler(n, l, dev, h);
    assert l.kind == Queues.Tx || l.kind == Queues.Rx;
    assert Rings(n', NetDevice.Other(l.kind)) == Rings(n, NetDevice.Other(l.kind));
    assert Rings(n', l.kind) == Rings(n, l.kind)[l.ring := h.q];
    assert RingsValid(n, l.kind) && RingsValid(n, NetDevice.Other(l.kind));
    assert RingsValid(n', l.kind) && RingsValid(n', NetDevice.Other(l.kind));
    assert Rings(n', Queues.Tx) == n'.txqs && Rings(n', Queues.Rx) == n'.rxqs;
    assert Rings(n, Queues.Tx) == n.txqs && Rings(n, Queues.Rx) == n.rxqs;
    DevsKept(n, n');
  }

  /** Devices stay valid when rings only change in place and stay open,
      and devices only gain received packets. */
  lemma DevsKept(n: Nic, n': Nic)
    requires DevsValid(n) && Serviced(n, n')
    requires forall i :: 0 <= i < |n.txqs| && Queues.IsOpen(n.txqs[i]) ==> Queues.IsOpen(n'.txqs[i])
    requires forall i :: 0 <= i < |n.rxqs| && Queues.IsOpen(n.rxqs[i]) ==> Queues.IsOpen(n'.rxqs[i])
    ensures DevsValid(n')
  {
    forall j | 0 <= j < |n'.ndevs| ensures n'.ndevs[j].port == j && DevValid(n', n'.ndevs[j]) {
      assert DevValid(n, n.ndevs[j]);
      forall k | 0 <= k < |n'.ndevs[j].txq| ensures Queues.IsOpen(n'.txqs[n'.ndevs[j].txq[k]]) {
        assert Queues.IsOpen(n.txqs[n.ndevs[j].txq[k]]);
      }
      forall k | 0 <= k < |n'.ndevs[j].rxq| ensures Queues.IsOpen(n'.rxqs[n'.ndevs[j].rxq[k]]) {
        assert Queues.IsOpen(n.rxqs[n.ndevs[j].rxq[k]]);
      }
    }
  }

  /** `await cq.handler(cq); await cq.arm()` for the completion queue a
      completion event names: the ring's handler runs with its device's
      `port_up`; the consumer pointer report, the ring's writes and the arm
      go out in that order. */
  function HandleCq(n: Nic, cqn: nat): (r: Result<(Nic, seq<Io>)>)
    requires Valid(n)
    ensures RouteOf(n, cqn).Err? ==> r == Err(RouteOf(n, cqn).error)
    ensures r.Ok? ==> Valid(r.value.0) && Serviced(n, r.value.0)
    ensures RouteOf(n, cqn).Ok? ==> var l := RouteOf(n, cqn).value;
      && CompletionQueue.IsOpen(n.cqs[l.cq]) && CompletionQueue.Valid(n.cqs[l.cq])
      && var q := Rings(n, l.kind)[l.ring];
      && Queues.IsOpen(q) && Queues.Valid(q) && q.ndev.value < |n.ndevs|
      && var up := n.ndevs[q.ndev.value].portUp;
      && (r.Err? <==> Completion.ProcessCq(n.cqs[l.cq], q, n.pkts, up).Err?)
      && (r.Err? ==> r == Err(Completion.ProcessCq(n.cqs[l.cq], q, n.pkts, up).error))
      && (r.Ok? ==> var h := Completion.ProcessCq(n.cqs[l.cq], q, n.pkts, up).value;
            && r.value.0 == AfterHandler(n, l, q.ndev.value, h)
            && r.value.1 == To(CqRegs(l.cq), h.cqWrites) + To(RingRegs(l.kind, l.ring), h.qWrites)
                            + To(CqRegs(l.cq), CompletionQueue.Arm(h.cq)))
  {
    match RouteOf(n, cqn)
    case Err(x) => Err(x)
    case Ok(l) =>
      RouteValid(n, l);
      var q := Rings(n, l.kind)[l.ring];
      var dev := q.ndev.value;
      match Completion.ProcessCq(n.cqs[l.cq], q, n.pkts, n.ndevs[dev].portUp)
      case Err(x) => Err(x)
      case Ok(h) =>
        AfterHandlerValid(n, l, dev, h);
        Ok((AfterHandler(n, l, dev, h),
            To(CqRegs(l.cq), h.cqWrites) + To(RingRegs(l.kind, l.ring), h.qWrites)
            + To(CqRegs(l.cq), CompletionQueue.Arm(h.cq))))
  }

  /** The result `h` with the writes `io` logged before its own: a
      failure stands as it is. */
  function Extend(io: seq<Io>, h: Result<(Nic, seq<Io>)>): (r: Result<(Nic, seq<Io>)>)
    ensures r.Ok? <==> h.Ok?
    ensures h.Err? ==> r == h
    ensures r.Ok? ==> r.value == (h.value.0, io + h.value.1)
  {
    match h
    case Err(x) => Err(x)
    case Ok((n', io')) => Ok((n', io + io'))
  }

  lemma ExtendNil(h: Result<(Nic, seq<Io>)>)
    ensures Extend([], h) == h
  {
    if h.Ok? {
      assert [] + h.value.1 == h.value.1;
    }
  }

  lemma ExtendExtend(a: seq<Io>, b: seq<Io>, h: Result<(Nic, seq<Io>)>)
    ensures Extend(a, Extend(b, h)) == Extend(a + b, h)
  {
    if h.Ok? {
      assert a + (b + h.value.1) == (a + b) + h.value.1;
    }
  }

  /** The handler of `cqn` run after handlers that ended in `prev`: an
      earlier failure stands, a failure of this handler ends the pass, and
      otherwise its writes follow the earlier ones. */
  function HandleNext(prev: Result<(Nic, seq<Io>)>, cqn: nat): (r: Result<(Nic, seq<Io>)>)
    requires prev.Ok? ==> Valid(prev.value.0)
    ensures prev.Err? ==> r == prev
    ensures r.Ok? ==> prev.Ok? && Valid(r.value.0) && Serviced(prev.value.0, r.value.0)
  {
    match prev
    case Err(x) => Err(x)
    case Ok((n1, io1)) => Extend(io1, HandleCq(n1, cqn))
  }

  /** The handlers of one `process_eq` pass, in event order: the handler
      of the last event runs on the state the ones before it left, and
      its writes follow theirs. */
  function HandleAll(n: Nic, cqns: seq<nat>): (r: Result<(Nic, seq<Io>)>)
    requires Valid(n)
    ensures r.Ok? ==> Valid(r.value.0) && Serviced(n, r.value.0)
    ensures cqns == [] ==> r == Ok((n, []))
    decreases |cqns|
  {
    if |cqns| == 0 then
      ServicedNone(n);
      Ok((n, []))
    else
      var prev := HandleAll(n, cqns[..|cqns| - 1]);
      var r := HandleNext(prev, cqns[|cqns| - 1]);
      if r.Ok? then
        ServicedTrans(n, prev.value.0, r.value.0);
        r
      else r
  }

  /** The handlers of the events `cqns` run after a pass that ended in
      `prev`, their writes logged after its own. */
  function Then(prev: Result<(Nic, seq<Io>)>, cqns: seq<nat>): (r: Result<(Nic, seq<Io>)>)
    requires prev.Ok? ==> Valid(prev.value.0)
    ensures prev.Err? ==> r == prev
  {
    match prev
    case Err(x) => Err(x)
    case Ok((n1, io1)) => Extend(io1, HandleAll(n1, cqns))
  }

  lemma NextExtend(io: seq<Io>, h: Result<(Nic, seq<Io>)>, c: nat)
    requires h.Ok? ==> Valid(h.value.0)
    ensures HandleNext(Extend(io, h), c) == Extend(io, HandleNext(h, c))
  {
    if h.Ok? {
      ExtendExtend(io, h.value.1, HandleCq(h.value.0, c));
    }
  }

  /** A pass over `a + b` is the pass over `a` followed by the pass over
      `b` on the state it left. */
  lemma {:induction false} HandleAllAppend(n: Nic, a: seq<nat>, b: seq<nat>)
    requires Valid(n)
    ensures HandleAll(n, a + b) == Then(HandleAll(n, a), b)
    decreases |b|
  {
    if |b| == 0 {
      assert a + b == a;
      if HandleAll(n, a).Ok? {
        assert HandleAll(n, a).value.1 + [] == HandleAll(n, a).value.1;
      }
    } else {
      var b', c := b[..|b| - 1], b[|b| - 1];
      assert (a + b)[..|a + b| - 1] == a + b' && (a + b)[|a + b| - 1] == c;
      assert b[..|b| - 1] == b' && b[|b| - 1] == c;
      HandleAllAppend(n, a, b');
      if HandleAll(n, a).Ok? {
        var (n1, io1) := HandleAll(n, a).value;
        NextExtend(io1, HandleAll(n1, b'), c);
      }
    }
  }

  /** A pass of one event is that event's handler. */
  lemma HandleAllSingle(n: Nic, c: nat)
    requires Valid(n)
    ensures HandleAll(n, [c]) == HandleCq(n, c)
  {
    assert [c][..0] == [];
    ExtendNil(HandleCq(n, c));
  }

  /** A pass runs the first event's handler, then the rest of the pass on
      the state it left, logging its writes first; a failure of the first
      handler is the pass's failure. */
  lemma HandleAllCons(n: Nic, c: nat, cqns: seq<nat>)
    requires Valid(n)
    ensures HandleAll(n, [c] + cqns) == Then(HandleCq(n, c), cqns)
    ensures HandleCq(n, c).Err? ==> HandleAll(n, [c] + cqns) == Err(HandleCq(n, c).error)
  {
    HandleAllAppend(n, [c], cqns);
    HandleAllSingle(n, c);
  }

  /** Once a pass has failed on a prefix, the rest of the events change
      nothing. */
  lemma {:induction false} HandleAllErr(n: Nic, cqns: seq<nat>, j: nat)
    requires Valid(n) && j <= |cqns| && HandleAll(n, cqns[..j]).Err?
    ensures HandleAll(n, cqns) == HandleAll(n, cqns[..j])
    decreases |cqns|
  {
    if j < |cqns| {
      var init := cqns[..|cqns| - 1];
      assert init[..j] == cqns[..j];
      HandleAllErr(n, init, j);
    } else {
      assert cqns[..j] == cqns;
    }
  }

  /** When the handlers of the first `k` events succeed and that of event
      `k` fails, the pass fails with that handler's error: no later
      handler counts. */
  lemma HandleAllFirstFailure(n: Nic, cqns: seq<nat>, k: nat)
    requires Valid(n) && k < |cqns| && HandleAll(n, cqns[..k]).Ok?
    requires HandleCq(HandleAll(n, cqns[..k]).value.0, cqns[k]).Err?
    ensures HandleAll(n, cqns) == Err(HandleCq(HandleAll(n, cqns[..k]).value.0, cqns[k]).error)
  {
    var p := cqns[..k + 1];
    assert p[..|p| - 1] == cqns[..k] && p[|p| - 1] == cqns[k];
    HandleAllStep(n, p);
    HandleNextFails(HandleAll(n, cqns[..k]), cqns[k]);
    HandleAllErr(n, cqns, k + 1);
  }

  lemma HandleAllStep(n: Nic, cqns: seq<nat>)
    requires Valid(n) && |cqns| > 0
    ensures HandleAll(n, cqns) == HandleNext(HandleAll(n, cqns[..|cqns| - 1]), cqns[|cqns| - 1])
  {
  }

  lemma HandleNextFails(prev: Result<(Nic, seq<Io>)>, c: nat)
    requires prev.Ok? && Valid(prev.value.0) && HandleCq(prev.value.0, c).Err?
    ensures HandleNext(prev, c) == Err(HandleCq(prev.value.0, c).error)
  {
  }

  /** What servicing leaves an event queue as: consumed up to where its
      valid events end, every completion event's source registered. */
  predicate Drained(eq: EventQueue.Eq, eq': EventQueue.Eq)
  {
    && EventQueue.IsOpen(eq) && EventQueue.Valid(eq)
    && eq' == eq.(cons := eq.cons + EventQueue.Pending(eq))
    && EventQueue.Pending(eq') == 0
    && forall c :: c in EventQueue.Sources(eq, eq.cons, eq.cons + EventQueue.Pending(eq)) ==> c in eq.cqTable
  }

  /** A pass that met no unknown completion queue drains its queue. */
  lemma ProcessedDrained(eq: EventQueue.Eq)
    requires EventQueue.IsOpen(eq) && EventQueue.Valid(eq) && !EventQueue.ProcessEq(eq).unknown
    ensures Drained(eq, EventQueue.ProcessEq(eq).eq)
  {
    EventQueue.ProcessEqDrains(eq);
  }

  /** Replacing an event queue by itself with another consumer pointer
      keeps the interface invariant. */
  lemma EqConsValid(n: Nic, e: nat, c: nat)
    requires Valid(n) && e < |n.eqs|
    ensures Valid(n.(eqs := n.eqs[e := n.eqs[e].(cons := c)]))
  {
    var n' := n.(eqs := n.eqs[e := n.eqs[e].(cons := c)]);
    assert Rings(n', Queues.Tx) == Rings(n, Queues.Tx) && Rings(n', Queues.Rx) == Rings(n, Queues.Rx);
    forall j | 0 <= j < |n'.ndevs| ensures n'.ndevs[j].port == j && DevValid(n', n'.ndevs[j]) {
      assert DevValid(n, n.ndevs[j]);
    }
  }

  /** What servicing event queue `e` leaves: the invariant kept, that
      queue drained, the other event queues untouched, the rest changed
      only as handlers change it, and the arm of the queue last in the
      log. */
  predicate EqServiced(n: Nic, e: nat, n': Nic, io: seq<Io>)
    requires e < |n.eqs|
  {
    && Valid(n') && |n'.eqs| == |n.eqs|
    && Drained(n.eqs[e], n'.eqs[e])
    && (forall i :: 0 <= i < |n.eqs| && i != e ==> n'.eqs[i] == n.eqs[i])
    && Serviced(n, n'.(eqs := n.eqs))
    && |io| >= 2 && io[|io| - 1] == Io(EqRegs(e), EventQueue.Arm(n.eqs[e])[0])
  }

  /** `await eq.process_eq(); await eq.arm()` for event queue `e`: the
      handlers of its completion events in order, then its consumer
      pointer report and its arm.  An event for a completion queue not in
      its table fails once the handlers before it have run. */
  function ServiceEq(n: Nic, e: nat): (r: Result<(Nic, seq<Io>)>)
    requires Valid(n) && e < |n.eqs| && EventQueue.IsOpen(n.eqs[e])
    ensures r.Ok? ==> EqServiced(n, e, r.value.0, r.value.1)
    ensures EventQueue.Valid(n.eqs[e]) && var p := EventQueue.ProcessEq(n.eqs[e]); var h := HandleAll(n, p.cqns);
      && (r.Ok? <==> !p.unknown && h.Ok?)
      && (h.Ok? && p.unknown ==> r == Err(UnknownCq))
      && (h.Err? ==> r == Err(h.error))
      && (r.Ok? ==> r.value == (h.value.0.(eqs := h.value.0.eqs[e := p.eq]),
                                h.value.1 + To(EqRegs(e), p.writes + EventQueue.Arm(p.eq))))
  {
    assert EventQueue.Valid(n.eqs[e]);
    var p := EventQueue.ProcessEq(n.eqs[e]);
    EqOutcome(n, e, p, HandleAll(n, p.cqns))
  }

  /** The end of `ServiceEq` once the handlers of pass `p` ended in `h`:
      their failure, else the unknown completion queue, else their state
      with event queue `e` drained and their log followed by the consumer
      pointer report and the arm. */
  function EqOutcome(n: Nic, e: nat, p: EventQueue.Processed, h: Result<(Nic, seq<Io>)>): (r: Result<(Nic, seq<Io>)>)
    requires e < |n.eqs| && EventQueue.IsOpen(n.eqs[e]) && EventQueue.Valid(n.eqs[e])
    requires p == EventQueue.ProcessEq(n.eqs[e])
    requires h.Ok? ==> Valid(h.value.0) && Serviced(n, h.value.0)
    ensures r.Ok? ==> EqServiced(n, e, r.value.0, r.value.1)
    ensures r.Ok? <==> !p.unknown && h.Ok?
    ensures h.Ok? && p.unknown ==> r == Err(UnknownCq)
    ensures h.Err? ==> r == Err(h.error)
    ensures r.Ok? ==> r.value == (h.value.0.(eqs := h.value.0.eqs[e := p.eq]),
                                  h.value.1 + To(EqRegs(e), p.writes + EventQueue.Arm(p.eq)))
  {
    match h
    case Err(x) => Err(x)
    case Ok((n1, io1)) =>
      if p.unknown then Err(UnknownCq)
      else
        ProcessedDrained(n.eqs[e]);
        var n2 := n1.(eqs := n1.eqs[e := p.eq]);
        EqConsValid(n1, e, p.eq.cons);
        assert n2.(eqs := n.eqs) == n1;
        Ok((n2, io1 + To(EqRegs(e), p.writes + EventQueue.Arm(p.eq))))
  }

  /** The state `interrupt_handler(irq)` has reached after the first `e`
      event queues: those wired to `irq` drained, the rest untouched. */
  predicate Progress(n: Nic, cur: Nic, irq: nat, e: nat)
  {
    && e <= |n.eqs| && Valid(cur) && |cur.eqs| == |n.eqs|
    && (forall i :: e <= i < |n.eqs| ==> cur.eqs[i] == n.eqs[i])
    && (forall i :: 0 <= i < e && n.eqs[i].irq != Some(irq) ==> cur.eqs[i] == n.eqs[i])
    && (forall i :: 0 <= i < e && n.eqs[i].irq == Some(irq) ==> Drained(n.eqs[i], cur.eqs[i]))
    && Serviced(n, cur.(eqs := n.eqs))
  }

  lemma ProgressSkip(n: Nic, cur: Nic, irq: nat, e: nat)
    requires Progress(n, cur, irq, e) && e < |n.eqs| && n.eqs[e].irq != Some(irq)
    ensures Progress(n, cur, irq, e + 1)
  {
  }

  lemma ProgressService(n: Nic, cur: Nic, next: Nic, irq: nat, e: nat)
    requires Progress(n, cur, irq, e) && e < |n.eqs| && n.eqs[e].irq == Some(irq)
    requires Valid(next) && |next.eqs| == |cur.eqs|
    requires Drained(cur.eqs[e], next.eqs[e])
    requires forall i :: 0 <= i < |cur.eqs| && i != e ==> next.eqs[i] == cur.eqs[i]
    requires Serviced(cur, next.(eqs := cur.eqs))
    ensures Progress(n, next, irq, e + 1)
  {
    assert cur.(eqs := n.eqs).(eqs := cur.eqs) == cur;
    assert next.(eqs := cur.eqs).(eqs := n.eqs) == next.(eqs := n.eqs);
    ServicedShift(cur, next.(eqs := cur.eqs), n.eqs);
    ServicedTrans(n, cur.(eqs := n.eqs), next.(eqs := n.eqs));
  }

  /** `Serviced` does not look at the event queues. */
  lemma ServicedShift(n: Nic, n': Nic, eqs: seq<EventQueue.Eq>)
    requires Serviced(n, n')
    ensures Serviced(n.(eqs := eqs), n'.(eqs := eqs))
  {
  }

  /** The arm command of event queue `e`, as it appears in the log. */
  function ArmOf(e: nat): Io
  {
    Io(EqRegs(e), Write32(Csr.EQ_CTRL_STATUS_REG, Csr.EQ_CMD_SET_ARM + 1))
  }

  /** Every event queue among the first `e` that is wired to `irq` has
      its arm command in the log `io`. */
  predicate Armed(n: Nic, irq: nat, e: nat, io: seq<Io>)
  {
    forall i :: 0 <= i < e && i < |n.eqs| && n.eqs[i].irq == Some(irq) ==> ArmOf(i) in io
  }

  lemma ArmedSkip(n: Nic, irq: nat, e: nat, io: seq<Io>)
    requires Armed(n, irq, e, io) && e < |n.eqs| && n.eqs[e].irq != Some(irq)
    ensures Armed(n, irq, e + 1, io)
  {
  }

  /** Servicing event queue `e` appends a log that ends with its arm. */
  lemma ArmedService(n: Nic, irq: nat, e: nat, io: seq<Io>, io': seq<Io>)
    requires Armed(n, irq, e, io) && e < |n.eqs| && EventQueue.IsOpen(n.eqs[e])
    requires |io'| >= 1 && io'[|io'| - 1] == Io(EqRegs(e), EventQueue.Arm(n.eqs[e])[0])
    ensures Armed(n, irq, e + 1, io + io')
  {
    assert (io + io')[|io| + |io'| - 1] == ArmOf(e);
    forall i | 0 <= i < e && n.eqs[i].irq == Some(irq) ensures ArmOf(i) in io + io' {
      var k :| 0 <= k < |io| && io[k] == ArmOf(i);
      assert (io + io')[k] == ArmOf(i);
    }
  }

  /** Step `e` of `interrupt_handler(irq)` after the earlier steps ended
      in `prev`: event queue `e` is serviced when it is wired to `irq`
      and skipped otherwise; the log grows by the service's writes, and an
      earlier failure stands. */
  function IrqStep(n: Nic, irq: nat, e: nat, prev: Result<(Nic, seq<Io>)>): (r: Result<(Nic, seq<Io>)>)
    requires Valid(n) && e < |n.eqs|
    requires prev.Ok? ==> Progress(n, prev.value.0, irq, e) && Armed(n, irq, e, prev.value.1)
    ensures r.Ok? ==> Progress(n, r.value.0, irq, e + 1) && Armed(n, irq, e + 1, r.value.1)
    ensures prev.Err? || n.eqs[e].irq != Some(irq) ==> r == prev
  {
    match prev
    case Err(x) => Err(x)
    case Ok((cur, io)) =>
      if n.eqs[e].irq != Some(irq) then
        ProgressSkip(n, cur, irq, e);
        ArmedSkip(n, irq, e, io);
        prev
      else
        assert EqsValid(cur) && cur.eqs[e] == n.eqs[e];
        var h := ServiceEq(cur, e);
        if h.Ok? then
          ProgressService(n, cur, h.value.0, irq, e);
          ArmedService(n, irq, e, io, h.value.1);
          Extend(io, h)
        else Extend(io, h)
  }

  /** The first `e` steps of `interrupt_handler(irq)`: `IrqStep` on each
      of the event queues `0 .. e - 1` in turn.  Together they service
      exactly the wired queues, in list order. */
  function Interrupted(n: Nic, irq: nat, e: nat): (r: Run)
    requires Valid(n) && e <= |n.eqs|
    ensures r.Ok? ==> Progress(n, r.value.0, irq, e)
    ensures (forall i :: 0 <= i < e ==> n.eqs[i].irq != Some(irq)) ==> r == Ok((n, []))
    ensures r.Ok? ==> Armed(n, irq, e, r.value.1)
    ensures r == ServiceFold(n, Wired(n, irq, e))
  {
    StepOfAll(n, irq, e);
    IterateIsFold(n, irq, StepOf(n, irq), ServiceNext, Reached(n, irq), Ok((n, [])), e);
    WiredNone(n, irq, e);
    Iterate(StepOf(n, irq), Ok((n, [])), e)
  }

  /** `interrupt_handler(irq)`: service, in list order, every event queue
      wired to `irq`.  The others are not touched. */
  function InterruptHandler(n: Nic, irq: nat): (r: Result<(Nic, seq<Io>)>)
    requires Valid(n)
    ensures (forall i :: 0 <= i < |n.eqs| ==> n.eqs[i].irq != Some(irq)) ==> r == Ok((n, []))
    ensures r.Ok? ==> Valid(r.value.0) && |r.value.0.eqs| == |n.eqs|
    ensures r.Ok? ==> forall i :: 0 <= i < |n.eqs| && n.eqs[i].irq != Some(irq) ==> r.value.0.eqs[i] == n.eqs[i]
    ensures r.Ok? ==> forall i :: 0 <= i < |n.eqs| && n.eqs[i].irq == Some(irq) ==> Drained(n.eqs[i], r.value.0.eqs[i])
    ensures r.Ok? ==> Serviced(n, r.value.0.(eqs := n.eqs))
    ensures r.Ok? ==> Armed(n, irq, |n.eqs|, r.value.1)
    ensures r == ServiceFold(n, Wired(n, irq, |n.eqs|))
  {
    Interrupted(n, irq, |n.eqs|)
  }

  /** The positions, in list order, of the first `e` event queues wired
      to `irq`. */
  function Wired(n: Nic, irq: nat, e: nat): (es: seq<nat>)
    requires e <= |n.eqs|
    ensures |es| <= e
    decreases e
  {
    if e == 0 then []
    else Wired(n, irq, e - 1) + (if n.eqs[e - 1].irq == Some(irq) then [e - 1] else [])
  }

  /** `Wired(n, irq, e)` holds exactly the positions below `e` whose
      event queue is wired to `irq`, each once and in increasing order. */
  lemma {:induction false} WiredExactly(n: Nic, irq: nat, e: nat)
    requires e <= |n.eqs|
    ensures forall j :: 0 <= j < |Wired(n, irq, e)| ==> Wired(n, irq, e)[j] < e
    ensures forall i :: i in Wired(n, irq, e) <==> 0 <= i < e && n.eqs[i].irq == Some(irq)
    ensures forall j, k :: 0 <= j < k < |Wired(n, irq, e)| ==> Wired(n, irq, e)[j] < Wired(n, irq, e)[k]
    decreases e
  {
    if e > 0 {
      WiredExactly(n, irq, e - 1);
      WiredStep(n, irq, e);
    }
  }

  /** With no event queue below `e` wired to `irq`, none is serviced. */
  lemma WiredNone(n: Nic, irq: nat, e: nat)
    requires e <= |n.eqs|
    ensures (forall i :: 0 <= i < e ==> n.eqs[i].irq != Some(irq)) ==> Wired(n, irq, e) == []
  {
    WiredExactly(n, irq, e);
    if |Wired(n, irq, e)| > 0 {
      assert Wired(n, irq, e)[0] in Wired(n, irq, e);
    }
  }

  /** Event queue `e` serviced after the services that ended in `prev`:
      an earlier failure stands, and the queue must be open. */
  function ServiceNext(prev: Result<(Nic, seq<Io>)>, e: nat): (r: Result<(Nic, seq<Io>)>)
    ensures prev.Err? ==> r == prev
  {
    match prev
    case Err(x) => Err(x)
    case Ok((cur, io)) =>
      if !(Valid(cur) && e < |cur.eqs| && EventQueue.IsOpen(cur.eqs[e])) then Err(NotOpen)
      else Extend(io, ServiceEq(cur, e))
  }

  /** A partial run of the interrupt handler: the state so far and the
      writes logged so far, or the failure that ended it. */
  type Run = Result<(Nic, seq<Io>)>

  /** `g` folded from the left over `es`, starting from `base`. */
  function FoldOver(g: (Run, nat) -> Run, base: Run, es: seq<nat>): Run
    decreases |es|
  {
    if |es| == 0 then base
    else g(FoldOver(g, base, es[..|es| - 1]), es[|es| - 1])
  }

  lemma FoldOverSnoc(g: (Run, nat) -> Run, base: Run, es: seq<nat>, e: nat)
    ensures FoldOver(g, base, es + [e]) == g(FoldOver(g, base, es), e)
  {
    assert (es + [e])[..|es|] == es;
  }

  /** `f` applied to the positions `0 .. e - 1` in turn, starting from `base`. */
  function Iterate(f: (nat, Run) -> Run, base: Run, e: nat): Run
    decreases e
  {
    if e == 0 then base else f(e - 1, Iterate(f, base, e - 1))
  }

  /** The services of the event queues `es`, in order, as a left fold:
      each on the state the one before it left, their logs concatenated,
      the first failure ending the run. */
  function ServiceFold(n: Nic, es: seq<nat>): (r: Run)
    ensures es == [] ==> r == Ok((n, []))
  {
    FoldOver(ServiceNext, Ok((n, [])), es)
  }

  /** The bookkeeping `interrupt_handler(irq)` keeps after `e` steps. */
  function Reached(n: Nic, irq: nat): (nat, Run) -> bool
  {
    (e: nat, x: Run) => x.Ok? ==> Progress(n, x.value.0, irq, e) && Armed(n, irq, e, x.value.1)
  }

  /** `IrqStep` as a total step: outside its precondition the run is left
      as it is. */
  function StepOf(n: Nic, irq: nat): (nat, Run) -> Run
  {
    (e: nat, x: Run) =>
      if Valid(n) && e < |n.eqs| && Reached(n, irq)(e, x) then IrqStep(n, irq, e, x) else x
  }

  /** A step that services the wired positions and skips the others,
      iterated over the first `e` positions, is the fold of the service
      over the wired positions. */
  lemma {:induction false} IterateIsFold(n: Nic, irq: nat, f: (nat, Run) -> Run, g: (Run, nat) -> Run,
                                         inv: (nat, Run) -> bool, base: Run, e: nat)
    requires e <= |n.eqs| && inv(0, base)
    requires forall i: nat, x :: i < e && inv(i, x) ==> inv(i + 1, f(i, x))
    requires forall i: nat, x :: i < e && inv(i, x) ==> f(i, x) == (if n.eqs[i].irq == Some(irq) then g(x, i) else x)
    ensures inv(e, Iterate(f, base, e))
    ensures Iterate(f, base, e) == FoldOver(g, base, Wired(n, irq, e))
    decreases e
  {
    if e > 0 {
      IterateIsFold(n, irq, f, g, inv, base, e - 1);
      var x := Iterate(f, base, e - 1);
      assert Iterate(f, base, e) == f(e - 1, x);
      WiredStep(n, irq, e);
      if n.eqs[e - 1].irq == Some(irq) {
        FoldOverSnoc(g, base, Wired(n, irq, e - 1), e - 1);
      }
    }
  }

  /** `StepOf` services a wired queue, skips the others, and keeps
      `Reached`. */
  lemma StepOfServices(n: Nic, irq: nat, e: nat, x: Run)
    requires Valid(n) && e < |n.eqs| && Reached(n, irq)(e, x)
    ensures Reached(n, irq)(e + 1, StepOf(n, irq)(e, x))
    ensures StepOf(n, irq)(e, x) == (if n.eqs[e].irq == Some(irq) then ServiceNext(x, e) else x)
  {
    if n.eqs[e].irq == Some(irq) {
      IrqStepServices(n, irq, e, x);
    }
  }

  lemma StepOfAll(n: Nic, irq: nat, e: nat)
    requires Valid(n) && e <= |n.eqs|
    ensures Reached(n, irq)(0, Ok((n, [])))
    ensures forall i: nat, x :: i < e && Reached(n, irq)(i, x) ==> Reached(n, irq)(i + 1, StepOf(n, irq)(i, x))
    ensures forall i: nat, x :: i < e && Reached(n, irq)(i, x) ==>
      StepOf(n, irq)(i, x) == (if n.eqs[i].irq == Some(irq) then ServiceNext(x, i) else x)
  {
    ServicedNone(n);
    assert n.(eqs := n.eqs) == n;
    forall i: nat, x | i < e && Reached(n, irq)(i, x)
      ensures Reached(n, irq)(i + 1, StepOf(n, irq)(i, x))
      ensures StepOf(n, irq)(i, x) == (if n.eqs[i].irq == Some(irq) then ServiceNext(x, i) else x)
    {
      StepOfServices(n, irq, i, x);
    }
  }

  lemma WiredStep(n: Nic, irq: nat, e: nat)
    requires 0 < e <= |n.eqs|
    ensures n.eqs[e - 1].irq == Some(irq) ==> Wired(n, irq, e) == Wired(n, irq, e - 1) + [e - 1]
    ensures n.eqs[e - 1].irq != Some(irq) ==> Wired(n, irq, e) == Wired(n, irq, e - 1)
  {
    assert Wired(n, irq, e - 1) + [] == Wired(n, irq, e - 1);
  }

  /** A step on an event queue wired to `irq` is its service after the
      earlier ones. */
  lemma IrqStepServices(n: Nic, irq: nat, e: nat, prev: Run)
    requires Valid(n) && e < |n.eqs| && n.eqs[e].irq == Some(irq)
    requires prev.Ok? ==> Progress(n, prev.value.0, irq, e) && Armed(n, irq, e, prev.value.1)
    ensures IrqStep(n, irq, e, prev) == ServiceNext(prev, e)
  {
    if prev.Ok? {
      assert prev.value.0.eqs[e] == n.eqs[e] && EqsValid(n);
    }
  }
}

=== FILE: eq.dfy ===
/** `Eq`: an event queue.

    The hardware reports completions on a completion queue by writing an
    event record into an event queue and raising the event queue's
    interrupt.  Each event names its source completion queue; the driver
    hands completion events (type 0) to the handler of the completion queue
    registered under that number in the event queue's `cq_table`. */
module EventQueue {
  import opened Common
  import Bits
  import Ring
  import Csr
  import Resource

  const EVENT_SIZE: nat := 32
  const EVENT_TYPE_CPL: nat := 0x0000

  /** One 32-byte event record as `process_eq` unpacks it: its type, its
      source (a completion queue number) and its last 32-bit word, whose
      bit 31 is the phase bit. */
  datatype Event = Event(evType: nat, source: nat, tail: nat)

  /** The driver's view of one event queue.  `regs` is present exactly while
      the queue is open; the buffer, geometry and consumer pointer stay
      behind after `close`. */
  datatype Eq = Eq(
    regs: Option<Resource.Window>,
    eqn: Option<nat>,
    geom: Ring.Geometry,
    irq: Option<nat>,
    cqTable: set<nat>,
    cons: nat,
    buf: seq<Event>,
    enabled: bool)

  /** A freshly constructed `Eq`. */
  function NewEq(): (e: Eq)
    ensures !IsOpen(e) && !e.enabled && e.eqn.None? && e.irq.None?
    ensures e.cqTable == {} && e.cons == 0 && e.buf == []
  {
    Eq(None, None, Ring.Geometry(0, 0, 0, 0), None, {}, 0, [], false)
  }

  predicate IsOpen(eq: Eq)
  {
    eq.regs.Some?
  }

  /** What an open event queue always satisfies. */
  predicate Valid(eq: Eq)
  {
    IsOpen(eq) ==> eq.geom.Valid() && |eq.buf| == eq.geom.size && eq.eqn.Some? && eq.irq.Some?
  }

  /** The phase-carrying last word of every slot. */
  function Tails(buf: seq<Event>): (r: seq<nat>)
    ensures |r| == |buf| && forall i :: 0 <= i < |buf| ==> r[i] == buf[i].tail
  {
    seq(|buf|, i requires 0 <= i < |buf| => buf[i].tail)
  }

  function ZeroEvents(n: nat): (r: seq<Event>)
    ensures |r| == n && forall i :: 0 <= i < n ==> r[i] == Event(0, 0, 0)
  {
    seq(n, i => Event(0, 0, 0))
  }

  /** The number of events waiting: valid records from the consumer pointer on. */
  function Pending(eq: Eq): nat
    requires IsOpen(eq) && Valid(eq)
  {
    Ring.DrainEnd(eq.geom, Tails(eq.buf), eq.cons) - eq.cons
  }

  /** A zeroed buffer holds no valid event at any pointer in its first pass. */
  lemma ZeroedIsEmpty(g: Ring.Geometry, buf: seq<Event>)
    requires g.Valid() && buf == ZeroEvents(g.size)
    ensures Ring.DrainEnd(g, Tails(buf), 0) == 0
  {
    var tails := Tails(buf);
    assert !Ring.SlotValid(g, tails[Ring.Index(g, 0)], 0) by {
      Bits.AndSingleBit(0, Ring.PHASE_BIT);
    }
    Ring.DrainEndUnique(g, tails, 0, 0);
  }

  /** The register writes of `open`: disabled while it is programmed,
      enabled last. */
  function OpenWrites(g: Ring.Geometry, irq: nat, dma: nat): (w: seq<RegWrite>)
    ensures |w| == 8
    ensures w[0] == Write32(Csr.EQ_CTRL_STATUS_REG, Csr.EQ_CMD_SET_ENABLE)
    ensures w[1] == Write32(Csr.EQ_BASE_ADDR_VF_REG, dma % 0x1_0000_0000 - dma % 0x1000)
    ensures w[2] == Write32(Csr.EQ_BASE_ADDR_VF_REG + 4, dma / 0x1_0000_0000)
    ensures w[3] == Write32(Csr.EQ_CTRL_STATUS_REG, Csr.Cmd(Csr.EQ_CMD_SET_SIZE, g.logSize))
    ensures w[4] == Write32(Csr.EQ_CTRL_STATUS_REG, Csr.Cmd(Csr.EQ_CMD_SET_IRQN, irq))
    ensures w[5] == Write32(Csr.EQ_CTRL_STATUS_REG, Csr.EQ_CMD_SET_PROD_PTR)
    ensures w[6] == Write32(Csr.EQ_CTRL_STATUS_REG, Csr.EQ_CMD_SET_CONS_PTR)
    ensures w[7] == Write32(Csr.EQ_CTRL_STATUS_REG, Csr.EQ_CMD_SET_ENABLE + 1)
  {
    [Write32(Csr.EQ_CTRL_STATUS_REG, Csr.FlagCmd(Csr.EQ_CMD_SET_ENABLE, false))]
    + Csr.BaseAddrWrites(Csr.EQ_BASE_ADDR_VF_REG, dma)
    + [ Write32(Csr.EQ_CTRL_STATUS_REG, Csr.Cmd(Csr.EQ_CMD_SET_SIZE, g.logSize)),
        Write32(Csr.EQ_CTRL_STATUS_REG, Csr.Cmd(Csr.EQ_CMD_SET_IRQN, irq)),
        Write32(Csr.EQ_CTRL_STATUS_REG, Csr.PtrCmd(Csr.EQ_CMD_SET_PROD_PTR, 0)),
        Write32(Csr.EQ_CTRL_STATUS_REG, Csr.PtrCmd(Csr.EQ_CMD_SET_CONS_PTR, 0)),
        Write32(Csr.EQ_CTRL_STATUS_REG, Csr.FlagCmd(Csr.EQ_CMD_SET_ENABLE, true)) ]
  }

  /** `open(irq, size)`: claim an index and its registers, size and zero the
      buffer, then program the queue while it is disabled and enable it
      last. */
  function Open(eq: Eq, pool: Resource.Pool, irq: nat, req: nat, dma: nat)
    : (r: Result<(Eq, Resource.Pool, seq<RegWrite>)>)
    ensures IsOpen(eq) ==> r == Err(AlreadyOpen)
    ensures !IsOpen(eq) && |pool.freeList| == 0 ==> r == Err(ResourceExhausted)
    ensures !IsOpen(eq) && |pool.freeList| > 0 && req == 0 ==> r == Err(BadSize)
    ensures r.Ok? <==> !IsOpen(eq) && |pool.freeList| > 0 && req > 0
    ensures r.Ok? ==> var (eq', pool', w) := r.value;
      && IsOpen(eq') && Valid(eq') && eq'.enabled
      && eq'.eqn.value in pool.freeList
      && multiset(pool'.freeList) + multiset{eq'.eqn.value} == multiset(pool.freeList)
      && (Resource.Sorted(pool.freeList) ==> forall y :: y in pool.freeList ==> eq'.eqn.value <= y)
      && (Resource.Valid(pool) ==> Resource.Valid(pool'))
      && eq'.geom.size <= req < 2 * eq'.geom.size
      && eq'.irq == Some(irq) && eq'.cqTable == {} && eq'.cons == 0
      && Pending(eq') == 0
      && w == OpenWrites(eq'.geom, irq, dma)
  {
    if IsOpen(eq) then Err(AlreadyOpen)
    else match Resource.Claim(pool)
      case Err(e) => Err(e)
      case Ok((pool', eqn, win)) =>
        match Ring.Geom(req)
        case Err(e) => Err(e)
        case Ok(g) =>
          var buf := ZeroEvents(g.size);
          ZeroedIsEmpty(g, buf);
          var eq' := Eq(Some(win), Some(eqn), g, Some(irq), {}, 0, buf, true);
          Ok((eq', pool', OpenWrites(g, irq, dma)))
  }

  /** `close()`: a no-op on a queue that is not open; otherwise disable the
      hardware queue and return the index to the pool.  The table of
      attached completion queues is left as it is. */
  function Close(eq: Eq, pool: Resource.Pool): (r: (Eq, Resource.Pool, seq<RegWrite>))
    ensures !IsOpen(eq) ==> r == (eq, pool, [])
    ensures IsOpen(eq) && eq.eqn.Some? ==> var (eq', pool', w) := r;
      && !IsOpen(eq') && !eq'.enabled && eq'.eqn.None? && eq'.irq.None?
      && eq'.cqTable == eq.cqTable
      && multiset(pool'.freeList) == multiset(pool.freeList) + multiset{eq.eqn.value}
      && (Resource.Valid(pool) && eq.eqn.value < pool.count ==> Resource.Valid(pool'))
      && w == [Write32(Csr.EQ_CTRL_STATUS_REG, Csr.EQ_CMD_SET_ENABLE)]
  {
    if !IsOpen(eq) then (eq, pool, [])
    else
      var pool' := if eq.eqn.Some? then Resource.Free(pool, eq.eqn.value) else pool;
      (eq.(regs := None, irq := None, enabled := false, eqn := None), pool',
       [Write32(Csr.EQ_CTRL_STATUS_REG, Csr.FlagCmd(Csr.EQ_CMD_SET_ENABLE, false))])
  }

  /** `attach_cq(cq)`: register a completion queue under its number. */
  function Attach(eq: Eq, cqn: nat): (eq': Eq)
    ensures eq'.cqTable == eq.cqTable + {cqn}
    ensures eq' == eq.(cqTable := eq'.cqTable)
  {
    eq.(cqTable := eq.cqTable + {cqn})
  }

  /** `detach_cq(cq)`: `del cq_table[cqn]`, a `KeyError` when absent. */
  function Detach(eq: Eq, cqn: nat): (r: Result<Eq>)
    ensures r.Err? <==> cqn !in eq.cqTable
    ensures r.Err? ==> r.error == UnknownCq
    ensures r.Ok? ==> r.value.cqTable == eq.cqTable - {cqn}
    ensures r.Ok? ==> r.value == eq.(cqTable := r.value.cqTable)
  {
    if cqn !in eq.cqTable then Err(UnknownCq)
    else Ok(eq.(cqTable := eq.cqTable - {cqn}))
  }

  /** Detaching undoes attaching a number that was not registered. */
  lemma DetachUndoesAttach(eq: Eq, cqn: nat)
    requires cqn !in eq.cqTable
    ensures Detach(Attach(eq, cqn), cqn) == Ok(eq)
  {
    assert eq.cqTable + {cqn} - {cqn} == eq.cqTable;
  }

  /** `arm()`: request an interrupt for the next event; nothing when the
      queue is not open. */
  function Arm(eq: Eq): (w: seq<RegWrite>)
    ensures IsOpen(eq) <==> |w| == 1
    ensures IsOpen(eq) ==> w == [Write32(Csr.EQ_CTRL_STATUS_REG, Csr.EQ_CMD_SET_ARM + 1)]
  {
    if IsOpen(eq) then [Write32(Csr.EQ_CTRL_STATUS_REG, Csr.FlagCmd(Csr.EQ_CMD_SET_ARM, true))]
    else []
  }

  /** `write_cons_ptr()`: report the consumer pointer's low 16 bits. */
  function WriteConsPtr(eq: Eq): (w: RegWrite)
    ensures w.Write32? && w.offset == Csr.EQ_CTRL_STATUS_REG
    ensures w.value / 0x1_0000 == Csr.EQ_CMD_SET_CONS_PTR / 0x1_0000
    ensures w.value % 0x1_0000 == eq.cons % 0x1_0000
  {
    Write32(Csr.EQ_CTRL_STATUS_REG, Csr.PtrCmd(Csr.EQ_CMD_SET_CONS_PTR, eq.cons))
  }

  /** The source numbers of the completion events among the records from
      pointer `k` up to `e`, in order: the reference for what gets
      dispatched. */
  function Sources(eq: Eq, k: nat, e: nat): (r: seq<nat>)
    requires IsOpen(eq) && Valid(eq)
    decreases e - k
  {
    if k >= e then []
    else
      var ev := eq.buf[Ring.Index(eq.geom, k)];
      (if ev.evType == EVENT_TYPE_CPL then [ev.source] else []) + Sources(eq, k + 1, e)
  }

  /** The handlers `process_eq` runs, in order, and whether it stopped at a
      completion event whose source is not in `cq_table` (a `KeyError`
      after the earlier handlers already ran). */
  datatype Scan = Scan(cqns: seq<nat>, unknown: bool)

  /** Dispatch of the records from `k` up to `e`. */
  function Dispatch(eq: Eq, k: nat, e: nat): (r: Scan)
    requires IsOpen(eq) && Valid(eq)
    ensures r.cqns <= Sources(eq, k, e)
    ensures forall c :: c in r.cqns ==> c in eq.cqTable
    ensures !r.unknown <==> forall c :: c in Sources(eq, k, e) ==> c in eq.cqTable
    ensures !r.unknown ==> r.cqns == Sources(eq, k, e)
    ensures r.unknown ==>
      |r.cqns| < |Sources(eq, k, e)| && Sources(eq, k, e)[|r.cqns|] !in eq.cqTable
    decreases e - k
  {
    if k >= e then Scan([], false)
    else
      var ev := eq.buf[Ring.Index(eq.geom, k)];
      var rest := Dispatch(eq, k + 1, e);
      if ev.evType == EVENT_TYPE_CPL then
        if ev.source !in eq.cqTable then Scan([], true)
        else Scan([ev.source] + rest.cqns, rest.unknown)
      else rest
  }

  /** Outcome of `process_eq`: the handlers to run in order, whether it then
      failed on an unknown completion queue, and on success the updated
      queue and the consumer pointer write. */
  datatype Processed = Processed(cqns: seq<nat>, unknown: bool, eq: Eq, writes: seq<RegWrite>)

  /** `process_eq()`: consume every valid event from the consumer pointer on;
      a completion event runs its CQ's handler and then re-arms that CQ.
      On success the new consumer pointer is written to the hardware. */
  function ProcessEq(eq: Eq): (r: Processed)
    requires IsOpen(eq) && Valid(eq)
    ensures var e := Ring.DrainEnd(eq.geom, Tails(eq.buf), eq.cons);
      && r.cqns <= Sources(eq, eq.cons, e)
      && (r.unknown ==> r.eq == eq && r.writes == [])
      && (!r.unknown ==> r.cqns == Sources(eq, eq.cons, e))
      && (!r.unknown ==> r.eq == eq.(cons := e) && r.writes == [WriteConsPtr(r.eq)])
      && (!r.unknown <==> forall c :: c in Sources(eq, eq.cons, e) ==> c in eq.cqTable)
  {
    var e := Ring.DrainEnd(eq.geom, Tails(eq.buf), eq.cons);
    var s := Dispatch(eq, eq.cons, e);
    if s.unknown then Processed(s.cqns, true, eq, [])
    else
      var eq' := eq.(cons := e);
      Processed(s.cqns, false, eq', [WriteConsPtr(eq')])
  }

  /** After a successful pass the queue is drained: nothing is pending, and
      the consumer advanced by exactly the number of valid events. */
  lemma ProcessEqDrains(eq: Eq)
    requires IsOpen(eq) && Valid(eq)
    requires !ProcessEq(eq).unknown
    ensures ProcessEq(eq).eq.cons == eq.cons + Pending(eq)
    ensures Pending(ProcessEq(eq).eq) == 0
  {
    var eq' := ProcessEq(eq).eq;
    var e := eq'.cons;
    Ring.DrainEndUnique(eq.geom, Tails(eq.buf), e, e);
  }

  /** Every consumed slot held a valid record, and the slot where the pass
      stopped did not. */
  lemma ProcessEqConsumesValidRun(eq: Eq, k: nat)
    requires IsOpen(eq) && Valid(eq)
    requires !ProcessEq(eq).unknown
    requires eq.cons <= k < ProcessEq(eq).eq.cons
    ensures Ring.SlotValid(eq.geom, eq.buf[Ring.Index(eq.geom, k)].tail, k)
    ensures !Ring.SlotValid(eq.geom, eq.buf[Ring.Index(eq.geom, ProcessEq(eq).eq.cons)].tail, ProcessEq(eq).eq.cons)
  {
    var tails := Tails(eq.buf);
    assert tails[Ring.Index(eq.geom, k)] == eq.buf[Ring.Index(eq.geom, k)].tail;
  }
}

=== FILE: iface.dfy ===
/** `Interface`: what the net devices of one interface share.

    The interface owns the event queues, the index pools of the completion,
    transmit and receive queues, the queue objects created from them, the
    net devices (one per port, in port order), the schedulers and the pool
    of scheduler ports.  The driver's packet allocator is carried along, so
    that one value holds everything an operation on a net device touches.
    Objects that refer to one another in the driver are linked here by
    position: a ring's `ndev` is the position of its net device, a net
    device's `txq`/`rxq` hold positions in `txqs`/`rxqs`. */
module Interface {
  import opened Common
  import Resource
  import EventQueue
  import CompletionQueue
  import Queues
  import Completion
  import Packets
  import Scheduler
  import Bits

  /** The ring size `NetDev.open` asks for, for rings and their completion
      queues alike, and the descriptor block size of every ring. */
  const RING_SIZE: nat := 1024
  const DESC_BLOCK_SIZE: nat := 4

  /** Each net device uses at most this many queues of each direction. */
  const MAX_QUEUES_PER_DEV: nat := 4

  // ---------------------------------------------------------------------
  // The scheduler port pool

  /** A `SchedulerPort`: a port of the scheduler at position `sched`. */
  datatype PortRef = PortRef(sched: nat, index: nat)

  /** `sched_ports` (every registered port) and `free_sched_ports`. */
  datatype PortPool = PortPool(all: seq<PortRef>, free: seq<PortRef>)

  predicate Distinct<T(==)>(s: seq<T>)
  {
    forall i, j :: 0 <= i < j < |s| ==> s[i] != s[j]
  }

  /** Each port is registered once and queued at most once, and only
      registered ports are queued. */
  predicate PoolValid(p: PortPool)
  {
    Distinct(p.all) && Distinct(p.free) && forall k :: 0 <= k < |p.free| ==> p.free[k] in p.all
  }

  function EmptyPool(): (p: PortPool)
    ensures PoolValid(p) && p.all == [] && p.free == []
  {
    PortPool([], [])
  }

  /** `register_sched_port`: the port becomes known and free.  Nothing
      checks that it was not registered before. */
  function RegisterPort(p: PortPool, sp: PortRef): (p': PortPool)
    ensures p'.all == p.all + [sp] && p'.free == p.free + [sp]
    ensures PoolValid(p) && sp !in p.all ==> PoolValid(p')
  {
    PortPool(p.all + [sp], p.free + [sp])
  }

  /** Registering the ports of a scheduler one after another, as the
      scheduler's `init` does. */
  function RegisterAll(p: PortPool, sps: seq<PortRef>): (p': PortPool)
    ensures p'.all == p.all + sps && p'.free == p.free + sps
    ensures PoolValid(p) && Distinct(p.all + sps) ==> PoolValid(p')
    decreases |sps|
  {
    if |sps| == 0 then p
    else
      var p1 := RegisterPort(p, sps[0]);
      assert p.all + sps == p1.all + sps[1..];
      assert p.free + sps == p1.free + sps[1..];
      assert Distinct(p.all + sps) ==> sps[0] !in p.all by {
        if Distinct(p.all + sps) {
          forall i | 0 <= i < |p.all| ensures p.all[i] != sps[0] {
            assert (p.all + sps)[i] == p.all[i];
            assert (p.all + sps)[|p.all|] == sps[0];
          }
        }
      }
      assert Distinct(p.all + sps) ==> Distinct(p1.all) by {
        assert forall i :: 0 <= i < |p1.all| ==> p1.all[i] == (p.all + sps)[i];
      }
      RegisterAll(p1, sps[1..])
  }

  /** `alloc_sched_port`: `pop(0)` on the free list. */
  function AllocPort(p: PortPool): (r: Result<(PortPool, PortRef)>)
    ensures r.Err? <==> |p.free| == 0
    ensures r.Err? ==> r.error == ResourceExhausted
    ensures r.Ok? ==> r.value.1 == p.free[0] && r.value.0 == PortPool(p.all, p.free[1..])
    ensures r.Ok? && PoolValid(p) ==> PoolValid(r.value.0) && r.value.1 in p.all && r.value.1 !in r.value.0.free
  {
    if |p.free| == 0 then Err(ResourceExhausted)
    else Ok((PortPool(p.all, p.free[1..]), p.free[0]))
  }

  /** `free_sched_port`: the port must be given, registered and not already
      free; it goes to the back of the free list. */
  function FreePort(p: PortPool, sp: Option<PortRef>): (r: Result<PortPool>)
    ensures r.Ok? <==> sp.Some? && sp.value in p.all && sp.value !in p.free
    ensures sp.None? ==> r == Err(NullSchedPort)
    ensures sp.Some? && sp.value !in p.all ==> r == Err(NotRegistered)
    ensures sp.Some? && sp.value in p.all && sp.value in p.free ==> r == Err(AlreadyFree)
    ensures r.Ok? ==> r.value.all == p.all && r.value.free == p.free + [sp.value]
    ensures r.Ok? && PoolValid(p) ==> PoolValid(r.value)
  {
    if sp.None? then Err(NullSchedPort)
    else if sp.value !in p.all then Err(NotRegistered)
    else if sp.value in p.free then Err(AlreadyFree)
    else Ok(PortPool(p.all, p.free + [sp.value]))
  }

  /** Allocating a port and freeing it again moves it from the front of the
      free list to the back. */
  lemma AllocThenFree(p: PortPool)
    requires PoolValid(p) && |p.free| > 0
    ensures var (p1, sp) := AllocPort(p).value;
      FreePort(p1, Some(sp)) == Ok(PortPool(p.all, p.free[1..] + [p.free[0]]))
  {
  }

  /** A port cannot be freed twice in a row. */
  lemma FreeTwice(p: PortPool, sp: PortRef)
    requires FreePort(p, Some(sp)).Ok?
    ensures FreePort(FreePort(p, Some(sp)).value, Some(sp)) == Err(AlreadyFree)
  {
  }

  /** Ports are handed out in the order they were registered. */
  lemma {:induction false} AllocInOrder(sps: seq<PortRef>, k: nat)
    requires Distinct(sps) && k < |sps|
    ensures AllocPort(Drop(RegisterAll(EmptyPool(), sps), k)) == Ok((PortPool(sps, sps[k + 1..]), sps[k]))
  {
    assert [] + sps == sps;
    var p := RegisterAll(EmptyPool(), sps);
    assert p == PortPool(sps, sps);
    DropFree(p, k);
  }

  /** `k` allocations in a row, the allocated ports discarded. */
  function Drop(p: PortPool, k: nat): (p': PortPool)
    requires k <= |p.free|
  {
    PortPool(p.all, p.free[k..])
  }

  lemma DropFree(p: PortPool, k: nat)
    requires k < |p.free|
    ensures AllocPort(Drop(p, k)) == Ok((Drop(p, k + 1), p.free[k]))
  {
    assert p.free[k..][1..] == p.free[k + 1..];
  }

  // ---------------------------------------------------------------------
  // Per-device queue counts and the receive indirection table

  /** `min(res.get_count() // port_count, 4)`: a port count of 0 divides by
      zero. */
  function QueueCount(res: nat, portCount: nat): (r: Result<nat>)
    ensures r.Err? <==> portCount == 0
    ensures r.Err? ==> r.error == NoPorts
  {
    if portCount == 0 then Err(NoPorts) else Ok(Min(res / portCount, MAX_QUEUES_PER_DEV))
  }

  /** The count is the largest share every port can have at once, capped
      at four. */
  lemma QueueCountFair(res: nat, portCount: nat)
    requires portCount > 0
    ensures var c := QueueCount(res, portCount).value;
      && c <= MAX_QUEUES_PER_DEV
      && c * portCount <= res
      && (c < MAX_QUEUES_PER_DEV ==> res < (c + 1) * portCount)
  {
    var q := res / portCount;
    assert q * portCount + res % portCount == res;
    var c := QueueCount(res, portCount).value;
    assert c <= q;
    assert c * portCount <= q * portCount by {
      Scheduler.MulMonotone(c, q, portCount);
    }
    assert res < (q + 1) * portCount;
  }

  /** `[k % rxq_count for k in range(size)]`: with no receive queues a
      non-empty table divides by zero. */
  function IndirTable(size: nat, rxqCount: nat): (r: Result<seq<nat>>)
    ensures r.Err? <==> size > 0 && rxqCount == 0
    ensures r.Err? ==> r.error == NoRxQueues
    ensures r.Ok? ==> |r.value| == size && forall k :: 0 <= k < size ==> r.value[k] < rxqCount
  {
    if size == 0 then Ok([])
    else if rxqCount == 0 then Err(NoRxQueues)
    else Ok(seq(size, k => k % rxqCount))
  }

  /** The table spreads flows round-robin: its first entries name every
      receive queue in turn, and it repeats with period `rxqCount`. */
  lemma IndirRoundRobin(size: nat, rxqCount: nat)
    requires rxqCount > 0
    ensures var t := IndirTable(size, rxqCount).value;
      && (forall k :: 0 <= k < size && k < rxqCount ==> t[k] == k)
      && (forall k :: 0 <= k && k + rxqCount < size ==> t[k + rxqCount] == t[k])
  {
    forall k | 0 <= k && k + rxqCount < size
      ensures (k + rxqCount) % rxqCount == k % rxqCount
    {
      Bits.DivModUnique(k + rxqCount, rxqCount, k / rxqCount + 1, k % rxqCount);
    }
  }

  // ---------------------------------------------------------------------
  // Net devices and the interface

  /** A `NetDev`: its port (also its position among the interface's net
      devices), whether it is up, its scheduler port, its queue counts and
      indirection table, the positions of its rings, and `pkt_rx_queue`. */
  datatype NetDev = NetDev(
    port: nat,
    portUp: bool,
    schedPort: Option<PortRef>,
    txqCount: nat,
    rxqCount: nat,
    indir: seq<nat>,
    txq: seq<nat>,
    rxq: seq<nat>,
    rxPkts: seq<Completion.RxPacket>)

  datatype Nic = Nic(
    eqs: seq<EventQueue.Eq>,
    cqPool: Resource.Pool,
    txqPool: Resource.Pool,
    rxqPool: Resource.Pool,
    cqs: seq<CompletionQueue.Cq>,
    txqs: seq<Queues.Queue>,
    rxqs: seq<Queues.Queue>,
    ndevs: seq<NetDev>,
    ports: PortPool,
    scheds: seq<Scheduler.Sched>,
    portCount: nat,
    maxTxMtu: nat,
    txFifoDepth: nat,
    indirSize: nat,
    pkts: Packets.Packets)

  /** The `NetDev` constructor for port `port`: down, with no rings, its
      queue counts a fair share of the interface's pools and the default
      indirection table. */
  function NewNetDev(n: Nic, port: nat): (r: Result<NetDev>)
    ensures r.Err? <==> n.portCount == 0 || (n.indirSize > 0 && QueueCount(n.rxqPool.count, n.portCount).value == 0)
    ensures r.Ok? ==> var d := r.value;
      && d.port == port && !d.portUp && d.schedPort.None?
      && d.txq == [] && d.rxq == [] && d.rxPkts == []
      && Ok(d.txqCount) == QueueCount(n.txqPool.count, n.portCount)
      && Ok(d.rxqCount) == QueueCount(n.rxqPool.count, n.portCount)
      && Ok(d.indir) == IndirTable(n.indirSize, d.rxqCount)
  {
    match QueueCount(n.txqPool.count, n.portCount)
    case Err(e) => Err(e)
    case Ok(txc) =>
      var rxc := QueueCount(n.rxqPool.count, n.portCount).value;
      match IndirTable(n.indirSize, rxc)
      case Err(e) => Err(e)
      case Ok(t) => Ok(NetDev(port, false, None, txc, rxc, t, [], [], []))
  }

  /** The ring list of one direction. */
  function Rings(n: Nic, kind: Queues.Kind): seq<Queues.Queue>
  {
    if kind == Queues.Tx then n.txqs else n.rxqs
  }

  /** A net device's ring positions of one direction. */
  function DevRings(d: NetDev, kind: Queues.Kind): seq<nat>
  {
    if kind == Queues.Tx then d.txq else d.rxq
  }

  /** Every ring is well formed, of its list's direction, and an open ring
      serves an existing net device. */
  predicate RingsValid(n: Nic, kind: Queues.Kind)
  {
    forall i :: 0 <= i < |Rings(n, kind)| ==>
      && Queues.Valid(Rings(n, kind)[i]) && Rings(n, kind)[i].kind == kind
      && (Queues.IsOpen(Rings(n, kind)[i]) ==> Rings(n, kind)[i].ndev.value < |n.ndevs|)
  }

  /** A net device's rings exist and are open, and its scheduler port is a
      registered one. */
  predicate DevValid(n: Nic, d: NetDev)
  {
    && (forall j :: 0 <= j < |d.txq| ==> d.txq[j] < |n.txqs| && Queues.IsOpen(n.txqs[d.txq[j]]))
    && (forall j :: 0 <= j < |d.rxq| ==> d.rxq[j] < |n.rxqs| && Queues.IsOpen(n.rxqs[d.rxq[j]]))
    && (d.schedPort.Some? ==> d.schedPort.value in n.ports.all)
  }

  predicate DevsValid(n: Nic)
  {
    forall i :: 0 <= i < |n.ndevs| ==> n.ndevs[i].port == i && DevValid(n, n.ndevs[i])
  }

  /** Every event queue is well formed, and only an open one has an
      interrupt assigned. */
  predicate EqsValid(n: Nic)
  {
    forall i :: 0 <= i < |n.eqs| ==>
      EventQueue.Valid(n.eqs[i]) && (n.eqs[i].irq.Some? ==> EventQueue.IsOpen(n.eqs[i]))
  }

  predicate CqsValid(n: Nic)
  {
    forall i :: 0 <= i < |n.cqs| ==> CompletionQueue.Valid(n.cqs[i])
  }

  /** Every registered scheduler port names an existing scheduler, and
      every scheduler's flow-control scale is positive. */
  predicate SchedsValid(n: Nic)
  {
    && PoolValid(n.ports)
    && (forall k :: 0 <= k < |n.ports.all| ==> n.ports.all[k].sched < |n.scheds|)
    && (forall i :: 0 <= i < |n.scheds| ==> n.scheds[i].cfg.fcScale >= 1)
  }

  /** The invariant every operation on the interface keeps. */
  predicate Valid(n: Nic)
  {
    && Packets.Valid(n.pkts)
    && EqsValid(n) && CqsValid(n)
    && RingsValid(n, Queues.Tx) && RingsValid(n, Queues.Rx)
    && DevsValid(n) && SchedsValid(n)
  }

  // ---------------------------------------------------------------------
  // Register traffic

  /** Which register window a write goes to: a queue's (by position in its
      list), a scheduler's queue control window, a port's control block,
      the receive queue map block, or a port's indirection table. */
  datatype Target =
    | EqRegs(eq: nat)
    | CqRegs(cq: nat)
    | TxqRegs(txq: nat)
    | RxqRegs(rxq: nat)
    | SchedQueues(sched: nat)
    | PortCtrl(port: nat)
    | RxQueueMap
    | IndirRegs(port: nat)

  datatype Io = Io(target: Target, w: RegWrite)

  /** The same writes, all sent to one window. */
  function To(t: Target, ws: seq<RegWrite>): (r: seq<Io>)
    ensures |r| == |ws| && forall i :: 0 <= i < |ws| ==> r[i] == Io(t, ws[i])
  {
    seq(|ws|, i requires 0 <= i < |ws| => Io(t, ws[i]))
  }

  function RingRegs(kind: Queues.Kind, pos: nat): Target
  {
    if kind == Queues.Tx then TxqRegs(pos) else RxqRegs(pos)
  }
}

=== FILE: libsched.dfy ===
/** The user-space library's view of a round-robin scheduler
    (`mqnic_sched_open` and `mqnic_sched_close`).

    Pointers are byte addresses.  The library allocates one record per open
    scheduler; `live` counts the records currently allocated, so that
    releasing the partial record on the failure path is visible. */
module SchedLib {
  import opened Common
  import Scheduler

  /** The register block the scheduler is opened from: its type, the base
      address its offsets are relative to, and its registers. */
  datatype Block = Block(rbType: nat, base: nat, regs: Scheduler.Regs)

  /** The interface whose register window bounds the scheduler's. */
  datatype Iface = Iface(regs: nat, regsSize: nat)

  datatype LibSched = LibSched(rbType: nat, regs: nat, offset: nat, queueCount: nat,
                               queueStride: nat, cfg: Scheduler.Config)

  function ReadWord(rb: Block, offset: nat): nat
  {
    Scheduler.Read(rb.regs, offset, Scheduler.WORD)
  }

  /** Where the scheduler's queue control window starts. */
  function QueueWindow(rb: Block): nat
  {
    rb.base + ReadWord(rb, Scheduler.REG_OFFSET)
  }

  /** `mqnic_sched_close`: release the record; closing nothing is a no-op. */
  function Close(live: nat, s: Option<LibSched>): (live': nat)
    requires s.Some? ==> live >= 1
    ensures s.None? <==> live' == live
    ensures s.Some? ==> live' + 1 == live
  {
    if s.None? then live else live - 1
  }

  /** `mqnic_sched_open`: allocate a record (`gotRecord` says whether
      the allocator succeeded), place the queue window at the block's base plus
      its offset register, refuse a window starting at or past the end of
      the interface's registers (releasing the record), and otherwise copy
      the block's geometry and decode its configuration word. */
  function Open(live: nat, gotRecord: bool, iface: Iface, rb: Block): (r: (Option<LibSched>, nat))
    ensures r.0.Some? <==> gotRecord && QueueWindow(rb) < iface.regs + iface.regsSize
    ensures r.0.None? ==> r.1 == live
    ensures r.0.Some? ==> r.1 == live + 1
    ensures r.0.Some? ==> (r.0.value.regs == QueueWindow(rb) && r.0.value.rbType == rb.rbType
      && r.0.value.offset == ReadWord(rb, Scheduler.REG_OFFSET)
      && r.0.value.queueCount == ReadWord(rb, Scheduler.REG_QUEUE_COUNT)
      && r.0.value.queueStride == ReadWord(rb, Scheduler.REG_QUEUE_STRIDE))
    ensures r.0.Some? ==> r.0.value.cfg == Scheduler.DecodeConfig(ReadWord(rb, Scheduler.REG_CFG))
  {
    if !gotRecord then (None, live)
    else
      var partial := LibSched(0, QueueWindow(rb), 0, 0, 0, Scheduler.Config(0, 0, 0, 1));
      if partial.regs >= iface.regs + iface.regsSize then
        (None, Close(live + 1, Some(partial)))
      else
        (Some(partial.(rbType := rb.rbType, offset := ReadWord(rb, Scheduler.REG_OFFSET),
                       queueCount := ReadWord(rb, Scheduler.REG_QUEUE_COUNT),
                       queueStride := ReadWord(rb, Scheduler.REG_QUEUE_STRIDE),
                       cfg := Scheduler.DecodeConfig(ReadWord(rb, Scheduler.REG_CFG)))),
         live + 1)
  }

  /** Opening then closing a scheduler leaves no record behind, whether the
      open succeeded or not; the library keeps no other state. */
  lemma OpenThenClose(live: nat, gotRecord: bool, iface: Iface, rb: Block)
    ensures var (s, l) := Open(live, gotRecord, iface, rb); Close(l, s) == live
  {
  }

  /** The only bound checked is the upper one: a window before the
      interface's registers is accepted. */
  lemma NoLowerBound(live: nat, iface: Iface, rb: Block)
    requires QueueWindow(rb) < iface.regs
    ensures Open(live, true, iface, rb).0.Some?
  {
  }

  /** The library and the kernel driver decode the configuration word alike
      and read the same queue window offset. */
  lemma AgreesWithKernel(live: nat, iface: Iface, rb: Block)
    requires Open(live, true, iface, rb).0.Some?
    ensures Open(live, true, iface, rb).0.value.cfg == Scheduler.Create(rb.regs, true).value.cfg
    ensures Open(live, true, iface, rb).0.value.offset == Scheduler.Create(rb.regs, true).value.hwOffset
  {
  }
}

=== FILE: netdev.dfy ===
/** `NetDev`: bringing a port up (`open`), sending (`start_xmit`) and
    taking received packets (`recv_nowait`).

    `open` is modelled in the order the driver performs it: take a
    scheduler port, create the receive rings then the transmit rings (each
    on a fresh completion queue attached to event queue `k % len(eq)`),
    program receive steering, enable every ring, turn on transmit, program
    the scheduler, and turn on receive. */
module NetDevice {
  import opened Common
  import opened Interface
  import CompletionQueue
  import Queues
  import Completion
  import EventQueue
  import Resource
  import Packets
  import Scheduler
  import Csr
  import Ring
  import Bits

  const PORT_CTRL_REG_TX_CTRL: nat := 0x10
  const PORT_CTRL_REG_RX_CTRL: nat := 0x14
  const PORT_TX_CTRL_EN: nat := 1
  const PORT_RX_CTRL_EN: nat := 1

  const RX_QUEUE_MAP_CH_OFFSET: nat := 0x10
  const RX_QUEUE_MAP_CH_STRIDE: nat := 0x10
  const RX_QUEUE_MAP_CH_REG_RSS_MASK: nat := 0x04
  const RX_QUEUE_MAP_CH_REG_APP_MASK: nat := 0x08

  /** The traffic-class-0 channel limits `open` programs. */
  const OPEN_PKT_BUDGET: nat := 1
  const OPEN_PKT_LIMIT: nat := 0xFFFF

  // ---------------------------------------------------------------------
  // Helpers on the interface value

  function Other(kind: Queues.Kind): Queues.Kind
  {
    if kind == Queues.Tx then Queues.Rx else Queues.Tx
  }

  function Pool(n: Nic, kind: Queues.Kind): Resource.Pool
  {
    if kind == Queues.Tx then n.txqPool else n.rxqPool
  }

  /** The interface with the ring list and index pool of one direction
      replaced. */
  function WithRingList(n: Nic, kind: Queues.Kind, rs: seq<Queues.Queue>, pool: Resource.Pool): (n': Nic)
    ensures Rings(n', kind) == rs && Rings(n', Other(kind)) == Rings(n, Other(kind))
    ensures Pool(n', kind) == pool && Pool(n', Other(kind)) == Pool(n, Other(kind))
    ensures n'.eqs == n.eqs && n'.cqPool == n.cqPool
  {
    if kind == Queues.Tx then n.(txqs := rs, txqPool := pool) else n.(rxqs := rs, rxqPool := pool)
  }

  /** The device with its ring positions of one direction replaced. */
  function WithRings(d: NetDev, kind: Queues.Kind, ps: seq<nat>): (d': NetDev)
    ensures DevRings(d', kind) == ps && DevRings(d', Other(kind)) == DevRings(d, Other(kind))
  {
    if kind == Queues.Tx then d.(txq := ps) else d.(rxq := ps)
  }

  /** `[a, a + 1, ..., a + m - 1]` */
  function Span(a: nat, m: nat): (r: seq<nat>)
    ensures |r| == m && forall j :: 0 <= j < m ==> r[j] == a + j
  {
    seq(m, j requires 0 <= j < m => a + j)
  }

  /** Ring `i` of one direction is an open ring of device `dev`, sized as
      `open` asks. */
  predicate Ready(n: Nic, kind: Queues.Kind, i: nat, dev: nat)
  {
    && i < |Rings(n, kind)|
    && Queues.IsOpen(Rings(n, kind)[i])
    && Rings(n, kind)[i].ndev == Some(dev)
    && Rings(n, kind)[i].geom.size <= RING_SIZE < 2 * Rings(n, kind)[i].geom.size
    && Rings(n, kind)[i].dbs <= DESC_BLOCK_SIZE < 2 * Rings(n, kind)[i].dbs
  }

  /** `n'` is `n` with `m` rings appended to one direction, all given to
      device `dev`; the other direction, the other devices, the scheduler
      state and the interface parameters are untouched. */
  predicate Extended(n: Nic, n': Nic, kind: Queues.Kind, dev: nat, m: nat)
    requires dev < |n.ndevs|
  {
    && |Rings(n', kind)| == |Rings(n, kind)| + m
    && (forall i :: 0 <= i < |Rings(n, kind)| ==> Rings(n', kind)[i] == Rings(n, kind)[i])
    && Rings(n', Other(kind)) == Rings(n, Other(kind))
    && |n'.ndevs| == |n.ndevs|
    && (forall i :: 0 <= i < |n.ndevs| && i != dev ==> n'.ndevs[i] == n.ndevs[i])
    && n'.ndevs[dev] == WithRings(n.ndevs[dev], kind, DevRings(n.ndevs[dev], kind) + Span(|Rings(n, kind)|, m))
    && |n'.eqs| == |n.eqs| && n'.ports == n.ports && n'.scheds == n.scheds
    && n'.maxTxMtu == n.maxTxMtu && n'.txFifoDepth == n.txFifoDepth && n'.indirSize == n.indirSize
  }

  lemma ExtendedNone(n: Nic, kind: Queues.Kind, dev: nat)
    requires dev < |n.ndevs|
    ensures Extended(n, n, kind, dev, 0)
  {
    var d := n.ndevs[dev];
    assert DevRings(d, kind) + Span(|Rings(n, kind)|, 0) == DevRings(d, kind);
    assert WithRings(d, kind, DevRings(d, kind)) == d;
  }

  lemma ExtendedTrans(n: Nic, n1: Nic, n2: Nic, kind: Queues.Kind, dev: nat, m1: nat, m2: nat)
    requires dev < |n.ndevs|
    requires Extended(n, n1, kind, dev, m1) && Extended(n1, n2, kind, dev, m2)
    ensures Extended(n, n2, kind, dev, m1 + m2)
  {
    var a := |Rings(n, kind)|;
    var d := n.ndevs[dev];
    assert Span(a, m1) + Span(a + m1, m2) == Span(a, m1 + m2);
    assert DevRings(n1.ndevs[dev], kind) == DevRings(d, kind) + Span(a, m1);
    assert (DevRings(d, kind) + Span(a, m1)) + Span(a + m1, m2) == DevRings(d, kind) + Span(a, m1 + m2);
    var x := DevRings(d, kind) + Span(a, m1 + m2);
    assert WithRings(WithRings(d, kind, DevRings(d, kind) + Span(a, m1)), kind, x) == WithRings(d, kind, x);
  }

  /** A completion queue freshly opened on event queue `ep` of `n`, with
      that event queue as it is after the attach, `size` entries asked for. */
  predicate CqOpened(n: Nic, ep: nat, size: nat, cq: CompletionQueue.Cq, eq: EventQueue.Eq)
    requires ep < |n.eqs|
  {
    && CompletionQueue.IsOpen(cq) && CompletionQueue.Valid(cq) && cq.src.None? && cq.eq == Some(ep)
    && cq.geom.size <= size < 2 * cq.geom.size
    && eq == EventQueue.Attach(n.eqs[ep], cq.cqn.value)
  }

  /** `create_cq()` followed by `open(eq, size)` on the event queue at
      position `ep` (`open` asks for 1024 entries). */
  method OpenCq(n: Nic, ep: nat, size: nat) returns (r: Result<(CompletionQueue.Cq, Resource.Pool, EventQueue.Eq, seq<RegWrite>)>)
    requires ep < |n.eqs|
    ensures r.Ok? <==> |n.cqPool.freeList| > 0 && n.eqs[ep].eqn.Some? && size > 0
    ensures r.Ok? ==> CqOpened(n, ep, size, r.value.0, r.value.2)
    ensures r.Ok? ==> |r.value.1.freeList| + 1 == |n.cqPool.freeList|
    ensures r.Ok? ==> r.value.3 == CompletionQueue.OpenWrites(r.value.0.geom, n.eqs[ep].eqn.value, 0)
  {
    r := CompletionQueue.Open(CompletionQueue.NewCq(), n.cqPool, n.eqs[ep], ep, size, 0);
    if r.Ok? {
      var (cq', _, eq', _) := r.value;
      assert CompletionQueue.IsOpen(cq') && CompletionQueue.Valid(cq') && cq'.src.None?;
      assert eq' == EventQueue.Attach(n.eqs[ep], cq'.cqn.value);
    }
  }

  /** `create_txq()`/`create_rxq()` followed by `open(ndev, cq, size, dbs)`
      (`open` asks for 1024 entries in blocks of 4). */
  method OpenQueue(kind: Queues.Kind, pool: Resource.Pool, dev: nat, cq: CompletionQueue.Cq, pkts: Packets.Packets,
                   size: nat, dbs: nat)
    returns (r: Result<Queues.Opened>)
    requires Packets.Valid(pkts) && cq.cqn.Some?
    ensures r.Ok? <==> |pool.freeList| > 0 && size > 0 && dbs > 0
    ensures r.Ok? ==> Queues.OpenedFor(r.value, kind, dev, cq, size, dbs)
    ensures r.Ok? ==> Queues.Programmed(r.value, cq, 0, pkts)
    ensures r.Ok? ==> |r.value.pool.freeList| + 1 == |pool.freeList|
  {
    r := Queues.Open(Queues.NewQueue(kind), pool, dev, cq, size, dbs, 0, pkts);
  }

  // ---------------------------------------------------------------------
  // The ring loops, as read from the interface they leave

  /** Completion queue `c` and ring `i` of `n` exist, the queue has a
      number, and it names an event queue that has one. */
  predicate PassShaped(n: Nic, kind: Queues.Kind, c: nat, i: nat)
  {
    && c < |n.cqs| && i < |Rings(n, kind)|
    && n.cqs[c].cqn.Some? && n.cqs[c].eq.Some?
    && n.cqs[c].eq.value < |n.eqs| && n.eqs[n.cqs[c].eq.value].eqn.Some?
  }

  /** Pass `j` of a ring loop whose first pass created completion queue
      `c0` and ring `i0` left them in shape. */
  predicate ShapedAt(n: Nic, kind: Queues.Kind, c0: nat, i0: nat, j: nat)
  {
    PassShaped(n, kind, c0 + j, i0 + j)
  }

  /** What the writes of one pass of a ring loop depend on: the ring's
      direction, the completion queue at position `c` with its number
      `cqn` and the number `eqn` of its event queue, the ring at position
      `i` with its geometry and descriptor block size `2^logDbs`, and the
      refill writes that end a receive ring's `open`. */
  datatype Pass = Pass(kind: Queues.Kind, c: nat, cq: CompletionQueue.Cq, cqn: nat, eqn: nat, i: nat,
                       g: Ring.Geometry, logDbs: nat, refill: seq<RegWrite>)

  /** The pass of a ring loop that created completion queue `c` and ring
      `i`, read from an interface `n` after it. */
  function PassOf(n: Nic, kind: Queues.Kind, c: nat, i: nat): Pass
    requires PassShaped(n, kind, c, i)
  {
    var cq := n.cqs[c];
    var q := Rings(n, kind)[i];
    Pass(kind, c, cq, cq.cqn.value, n.eqs[cq.eq.value].eqn.value, i, q.geom, q.logDbs, Queues.RefillWrites(q))
  }

  /** The writes of one pass: the completion queue opened on its event
      queue and armed, then the ring opened on the completion queue,
      followed by the refill writes. */
  function PassIo(p: Pass): seq<Io>
  {
    To(CqRegs(p.c), CompletionQueue.OpenWrites(p.cq.geom, p.eqn, 0) + CompletionQueue.Arm(p.cq))
    + To(RingRegs(p.kind, p.i), Queues.OpenWrites(p.g, p.logDbs, p.cqn, 0) + p.refill)
  }

  /** The writes of the pass of a ring loop that created completion queue
      `c` and ring `i`, read from an interface `n` after it. */
  function PassWrites(n: Nic, kind: Queues.Kind, c: nat, i: nat): seq<Io>
    requires PassShaped(n, kind, c, i)
  {
    PassIo(PassOf(n, kind, c, i))
  }

  /** The first `m` passes of a ring loop whose first pass created
      completion queue `c0` and ring `i0`, in pass order. */
  function LoopPasses(n: Nic, kind: Queues.Kind, c0: nat, i0: nat, m: nat): seq<Pass>
    requires LoopShaped(n, kind, c0, i0, m)
    decreases m
  {
    if m == 0 then []
    else
      assert ShapedAt(n, kind, c0, i0, m - 1);
      LoopPasses(n, kind, c0, i0, m - 1) + [PassOf(n, kind, c0 + m - 1, i0 + m - 1)]
  }

  /** The writes of a sequence of passes, one pass after the other. */
  function Flatten(ps: seq<Pass>): seq<Io>
    decreases |ps|
  {
    if |ps| == 0 then [] else Flatten(ps[..|ps| - 1]) + PassIo(ps[|ps| - 1])
  }

  /** The writes of the first `m` passes of a ring loop whose first pass
      created completion queue `c0` and ring `i0`, in pass order. */
  function LoopWrites(n: Nic, kind: Queues.Kind, c0: nat, i0: nat, m: nat): seq<Io>
    requires LoopShaped(n, kind, c0, i0, m)
  {
    Flatten(LoopPasses(n, kind, c0, i0, m))
  }

  /** One more pass adds its writes at the end. */
  lemma FlattenSnoc(ps: seq<Pass>, p: Pass)
    ensures Flatten(ps + [p]) == Flatten(ps) + PassIo(p)
  {
    assert (ps + [p])[..|ps|] == ps;
  }

  /** Completion queue `c` and ring `i` are linked as a pass of a ring
      loop leaves them: the queue is open with 1024 entries on event queue
      `ep` and registered in that event queue's table, so that its events
      reach it, and the queue and the ring name each other. */
  predicate Linked(n: Nic, kind: Queues.Kind, c: nat, i: nat, ep: nat)
  {
    && PassShaped(n, kind, c, i)
    && var cq := n.cqs[c]; var q := Rings(n, kind)[i];
    && CompletionQueue.IsOpen(cq) && cq.eq == Some(ep) && cq.geom.size == RING_SIZE
    && cq.cqn.value in n.eqs[ep].cqTable
    && q.index.Some? && q.cq == cq.cqn && cq.src == Some(Queues.Ref(kind, q.index.value))
  }

  /** Pass `j` of a ring loop whose first pass created completion queue
      `c0` and ring `i0` linked them, on event queue `j % len`. */
  predicate LinkedAt(n: Nic, kind: Queues.Kind, c0: nat, i0: nat, len: nat, j: nat)
    requires len > 0
  {
    Linked(n, kind, c0 + j, i0 + j, j % len)
  }

  /** The allocator after `m` passes of a ring loop: each receive ring
      takes 1024 buffers as it is refilled, a transmit ring none. */
  function LoopAllocs(kind: Queues.Kind, p: Packets.Packets, m: nat): Packets.Packets
  {
    if kind == Queues.Rx then Packets.Allocs(p, m * RING_SIZE) else p
  }

  /** The numbers of those completion queues of successive passes `cqs`
      (pass 0 first) that were attached to event queue `e` of `len`. */
  function AttachedTo(cqs: seq<CompletionQueue.Cq>, len: nat, e: nat): set<nat>
    requires len > 0
    decreases |cqs|
  {
    if |cqs| == 0 then {}
    else
      var j := |cqs| - 1;
      AttachedTo(cqs[..j], len, e) + (if j % len == e && cqs[j].cqn.Some? then {cqs[j].cqn.value} else {})
  }

  /** One pass of a ring loop took `n` to `n'`: it appended one completion
      queue, linked to the new ring and attached to event queue `ep`, which
      is the only event queue that changes, and a receive ring took its
      buffers. */
  predicate Added(n: Nic, n': Nic, kind: Queues.Kind, ep: nat)
    requires ep < |n.eqs|
  {
    && |n'.cqs| == |n.cqs| + 1 && n'.cqs[..|n.cqs|] == n.cqs
    && Linked(n', kind, |n.cqs|, |Rings(n, kind)|, ep)
    && n'.eqs == n.eqs[ep := EventQueue.Attach(n.eqs[ep], n'.cqs[|n.cqs|].cqn.value)]
    && n'.pkts == LoopAllocs(kind, n.pkts, 1)
  }

  /** `b` grew from `a` without disturbing what `a` holds: completion
      queues and rings of one direction only appended (rings may change
      their enable flag), event queue numbers kept, tables only grown. */
  predicate Grown(a: Nic, b: Nic, kind: Queues.Kind)
  {
    && |a.cqs| <= |b.cqs| && b.cqs[..|a.cqs|] == a.cqs
    && |Rings(a, kind)| <= |Rings(b, kind)|
    && (forall i :: 0 <= i < |Rings(a, kind)| ==>
          Rings(b, kind)[i] == Rings(a, kind)[i].(enabled := Rings(b, kind)[i].enabled))
    && |b.eqs| == |a.eqs|
    && (forall e :: 0 <= e < |a.eqs| ==> b.eqs[e].eqn == a.eqs[e].eqn && a.eqs[e].cqTable <= b.eqs[e].cqTable)
  }

  /** Growing keeps a link. */
  lemma LinkedKept(a: Nic, b: Nic, kind: Queues.Kind, c: nat, i: nat, ep: nat)
    requires Linked(a, kind, c, i, ep) && Grown(a, b, kind)
    ensures Linked(b, kind, c, i, ep)
  {
    assert b.cqs[c] == a.cqs[c];
    assert b.eqs[ep].eqn == a.eqs[ep].eqn;
  }

  /** Growing keeps a pass as the writes read it. */
  lemma PassOfKept(a: Nic, b: Nic, kind: Queues.Kind, c: nat, i: nat)
    requires PassShaped(a, kind, c, i) && Grown(a, b, kind)
    ensures PassShaped(b, kind, c, i) && PassOf(b, kind, c, i) == PassOf(a, kind, c, i)
  {
    assert b.cqs[c] == a.cqs[c];
    var e := a.cqs[c].eq.value;
    assert b.eqs[e].eqn == a.eqs[e].eqn;
    var q := Rings(a, kind)[i];
    Queues.RefillWritesEnabled(q, Rings(b, kind)[i].enabled);
  }

  /** Growing keeps the shape of every pass of a loop. */
  lemma ShapedKept(a: Nic, b: Nic, kind: Queues.Kind, c0: nat, i0: nat, m: nat)
    requires forall j :: 0 <= j < m ==> ShapedAt(a, kind, c0, i0, j)
    requires Grown(a, b, kind)
    ensures forall j :: 0 <= j < m ==> ShapedAt(b, kind, c0, i0, j)
  {
    forall j | 0 <= j < m ensures ShapedAt(b, kind, c0, i0, j) {
      assert ShapedAt(a, kind, c0, i0, j);
      assert b.cqs[c0 + j] == a.cqs[c0 + j];
      assert b.eqs[a.cqs[c0 + j].eq.value].eqn == a.eqs[a.cqs[c0 + j].eq.value].eqn;
    }
  }

  /** Growing keeps the passes of a whole loop. */
  lemma {:induction false} LoopPassesKept(a: Nic, b: Nic, kind: Queues.Kind, c0: nat, i0: nat, m: nat)
    requires LoopShaped(a, kind, c0, i0, m) && LoopShaped(b, kind, c0, i0, m)
    requires Grown(a, b, kind)
    ensures LoopPasses(b, kind, c0, i0, m) == LoopPasses(a, kind, c0, i0, m)
    decreases m
  {
    if m > 0 {
      LoopPassesKept(a, b, kind, c0, i0, m - 1);
      assert ShapedAt(a, kind, c0, i0, m - 1);
      PassOfKept(a, b, kind, c0 + m - 1, i0 + m - 1);
    }
  }

  /** Growing keeps the writes read back for a whole loop. */
  lemma LoopWritesKept(a: Nic, b: Nic, kind: Queues.Kind, c0: nat, i0: nat, m: nat)
    requires LoopShaped(a, kind, c0, i0, m) && LoopShaped(b, kind, c0, i0, m)
    requires Grown(a, b, kind)
    ensures LoopWrites(b, kind, c0, i0, m) == LoopWrites(a, kind, c0, i0, m)
  {
    LoopPassesKept(a, b, kind, c0, i0, m);
  }

  /** Attaching one more completion queue adds its number to the table of
      the event queue its pass picked, and to no other. */
  lemma AttachedToStep(cqs: seq<CompletionQueue.Cq>, cq: CompletionQueue.Cq, len: nat, e: nat)
    requires len > 0
    ensures AttachedTo(cqs + [cq], len, e) ==
      AttachedTo(cqs, len, e) + (if |cqs| % len == e && cq.cqn.Some? then {cq.cqn.value} else {})
  {
    assert (cqs + [cq])[..|cqs|] == cqs;
  }

  // ---------------------------------------------------------------------
  // Creating the rings

  /** Going from `n` to `n'` used `m` completion queue indices and `m`
      ring indices of one direction, and changed no event queue's number. */
  predicate Spent(n: Nic, n': Nic, kind: Queues.Kind, m: nat)
  {
    && |n'.cqPool.freeList| + m == |n.cqPool.freeList|
    && |Pool(n', kind).freeList| + m == |Pool(n, kind).freeList|
    && Pool(n', Other(kind)) == Pool(n, Other(kind))
    && |n'.eqs| == |n.eqs| && (forall i :: 0 <= i < |n.eqs| ==> n'.eqs[i].eqn == n.eqs[i].eqn)
  }

  /** `count` passes of a ring loop find what they need: an event queue
      list to pick from, an opened event queue at every position
      `k % len(eq)` they pick, and enough free completion queue and ring
      indices. */
  predicate RingsFit(n: Nic, kind: Queues.Kind, count: nat)
  {
    count > 0 ==>
      && |n.eqs| > 0 && |n.cqPool.freeList| >= count && |Pool(n, kind).freeList| >= count
      && forall k :: 0 <= k < count ==> n.eqs[k % |n.eqs|].eqn.Some?
  }

  /** One pass of the ring loops of `open`: create a completion queue on
      event queue `k % len(eq)` (a division by zero when there are none),
      open it with 1024 entries and arm it, then create a ring on it with
      1024 entries and blocks of 4 descriptors, and give the ring to the
      device.  A DMA address of 0 stands for the buffers' addresses. */
  method OpenRing(n: Nic, dev: nat, kind: Queues.Kind, k: nat) returns (r: Result<(Nic, seq<Io>)>)
    requires Valid(n) && dev < |n.ndevs|
    ensures |n.eqs| == 0 ==> r == Err(NoEventQueue)
    ensures r.Ok? <==>
      |n.eqs| > 0 && |n.cqPool.freeList| > 0 && n.eqs[k % |n.eqs|].eqn.Some? && |Pool(n, kind).freeList| > 0
    ensures r.Ok? ==> var n' := r.value.0;
      && Valid(n') && Extended(n, n', kind, dev, 1) && Ready(n', kind, |Rings(n, kind)|, dev)
      && Spent(n, n', kind, 1) && Added(n, n', kind, k % |n.eqs|)
    ensures r.Ok? ==> (PassShaped(r.value.0, kind, |n.cqs|, |Rings(n, kind)|)
      && r.value.1 == PassWrites(r.value.0, kind, |n.cqs|, |Rings(n, kind)|))
  {
    if |n.eqs| == 0 {
      return Err(NoEventQueue);
    }
    var ep := k % |n.eqs|;
    var c := OpenCq(n, ep, RING_SIZE);
    if c.Err? {
      return Err(c.error);
    }
    var (cq, cqPool, eq, w1) := c.value;
    var o := OpenQueue(kind, Pool(n, kind), dev, cq, n.pkts, RING_SIZE, DESC_BLOCK_SIZE);
    if o.Err? {
      return Err(o.error);
    }
    var n2 := RingAdded(n, dev, kind, ep, cqPool, eq, cq, o.value);
    var w := To(CqRegs(|n.cqs|), w1 + CompletionQueue.Arm(cq)) + To(RingRegs(kind, |Rings(n, kind)|), o.value.writes);
    PassLogged(n, n2, kind, ep, cq, w1, o.value);
    r := Ok((n2, w));
  }

  /** The writes one pass issues are those read back from the interface
      it leaves. */
  lemma PassLogged(n: Nic, n2: Nic, kind: Queues.Kind, ep: nat, cq: CompletionQueue.Cq, w1: seq<RegWrite>,
                   o: Queues.Opened)
    requires ep < |n.eqs| && n.eqs[ep].eqn.Some? && Added(n, n2, kind, ep)
    requires n2.cqs[|n.cqs|] == o.cq && o.cq == cq.(src := o.cq.src) && cq.cqn.Some?
    requires Rings(n2, kind)[|Rings(n, kind)|] == o.q
    requires w1 == CompletionQueue.OpenWrites(cq.geom, n.eqs[ep].eqn.value, 0)
    requires Queues.Programmed(o, cq, 0, n.pkts)
    ensures PassShaped(n2, kind, |n.cqs|, |Rings(n, kind)|)
    ensures To(CqRegs(|n.cqs|), w1 + CompletionQueue.Arm(cq)) + To(RingRegs(kind, |Rings(n, kind)|), o.writes)
            == PassWrites(n2, kind, |n.cqs|, |Rings(n, kind)|)
  {
    assert n2.eqs[ep].eqn == n.eqs[ep].eqn;
  }

  /** The interface after one pass of a ring loop: event queue `ep` with
      the new completion queue attached, the completion queue's index taken
      from `cqPool`, the new completion queue and ring appended, the
      allocator as the ring's refill left it, and the ring's position given
      to device `dev`. */
  function RingAdded(n: Nic, dev: nat, kind: Queues.Kind, ep: nat, cqPool: Resource.Pool, eq: EventQueue.Eq,
                     cq: CompletionQueue.Cq, o: Queues.Opened): (n2: Nic)
    requires Valid(n) && dev < |n.ndevs| && ep < |n.eqs| && n.eqs[ep].eqn.Some?
    requires |cqPool.freeList| + 1 == |n.cqPool.freeList| && |o.pool.freeList| + 1 == |Pool(n, kind).freeList|
    requires CqOpened(n, ep, RING_SIZE, cq, eq)
    requires Queues.OpenedFor(o, kind, dev, cq, RING_SIZE, DESC_BLOCK_SIZE)
    requires o.pkts == Queues.RefillAllocs(o.q, n.pkts)
    ensures Valid(n2) && Extended(n, n2, kind, dev, 1) && Ready(n2, kind, |Rings(n, kind)|, dev)
    ensures Spent(n, n2, kind, 1) && Added(n, n2, kind, ep)
    ensures n2.cqPool == cqPool && n2.cqs == n.cqs + [o.cq] && Rings(n2, kind) == Rings(n, kind) + [o.q]
  {
    var d := n.ndevs[dev];
    var n1 := n.(eqs := n.eqs[ep := eq], cqPool := cqPool, cqs := n.cqs + [o.cq], pkts := o.pkts,
                 ndevs := n.ndevs[dev := WithRings(d, kind, DevRings(d, kind) + [|Rings(n, kind)|])]);
    var n2 := WithRingList(n1, kind, Rings(n, kind) + [o.q], o.pool);
    RingAddedHolds(n, dev, kind, ep, cqPool, eq, cq, o, n2);
    n2
  }

  /** What `RingAdded` builds has the properties it promises. */
  lemma RingAddedHolds(n: Nic, dev: nat, kind: Queues.Kind, ep: nat, cqPool: Resource.Pool, eq: EventQueue.Eq,
                       cq: CompletionQueue.Cq, o: Queues.Opened, n2: Nic)
    requires Valid(n) && dev < |n.ndevs| && ep < |n.eqs| && n.eqs[ep].eqn.Some?
    requires |cqPool.freeList| + 1 == |n.cqPool.freeList| && |o.pool.freeList| + 1 == |Pool(n, kind).freeList|
    requires CqOpened(n, ep, RING_SIZE, cq, eq)
    requires Queues.OpenedFor(o, kind, dev, cq, RING_SIZE, DESC_BLOCK_SIZE)
    requires o.pkts == Queues.RefillAllocs(o.q, n.pkts)
    requires var d := n.ndevs[dev];
      n2 == WithRingList(n.(eqs := n.eqs[ep := eq], cqPool := cqPool, cqs := n.cqs + [o.cq], pkts := o.pkts,
                            ndevs := n.ndevs[dev := WithRings(d, kind, DevRings(d, kind) + [|Rings(n, kind)|])]),
                         kind, Rings(n, kind) + [o.q], o.pool)
    ensures Valid(n2) && Extended(n, n2, kind, dev, 1) && Ready(n2, kind, |Rings(n, kind)|, dev)
    ensures Spent(n, n2, kind, 1) && Added(n, n2, kind, ep)
    ensures n2.cqPool == cqPool && n2.cqs == n.cqs + [o.cq] && Rings(n2, kind) == Rings(n, kind) + [o.q]
  {
    var i := |Rings(n, kind)|;
    assert [i] == Span(i, 1);
    assert kind == Queues.Tx || kind == Queues.Rx;
    OpenRingValid(n, n2, kind, dev, ep, o.q);
    AddedHolds(n, n2, kind, dev, ep, cq, o);
  }

  /** The sizes `open` asks for are powers of two, so they are met
      exactly. */
  lemma RingSizeExact(g: Ring.Geometry)
    requires g.Valid() && g.size <= RING_SIZE < 2 * g.size
    ensures g.size == RING_SIZE
  {
    assert Bits.Pow2(10) == RING_SIZE;
    Ring.PowerOfTwoExact(g, 10);
  }

  /** What one pass changes makes up `Added`. */
  lemma AddedHolds(n: Nic, n2: Nic, kind: Queues.Kind, dev: nat, ep: nat, cq: CompletionQueue.Cq, o: Queues.Opened)
    requires ep < |n.eqs| && |n2.eqs| == |n.eqs| && CqOpened(n, ep, RING_SIZE, cq, n2.eqs[ep]) && n.eqs[ep].eqn.Some?
    requires Queues.OpenedFor(o, kind, dev, cq, RING_SIZE, DESC_BLOCK_SIZE)
    requires o.pkts == Queues.RefillAllocs(o.q, n.pkts)
    requires n2.cqs == n.cqs + [o.cq] && Rings(n2, kind) == Rings(n, kind) + [o.q]
    requires n2.eqs == n.eqs[ep := n2.eqs[ep]] && n2.pkts == o.pkts
    ensures Added(n, n2, kind, ep)
  {
    RingSizeExact(cq.geom);
    RingSizeExact(o.q.geom);
    var c := |n.cqs|;
    var i := |Rings(n, kind)|;
    assert n2.cqs[..c] == n.cqs;
    assert n2.cqs[c] == o.cq && Rings(n2, kind)[i] == o.q;
    assert PassShaped(n2, kind, c, i);
    assert Linked(n2, kind, c, i, ep);
    PassAllocs(o.q, kind, n.pkts);
  }

  /** A ring of 1024 entries is refilled exactly when it receives, taking
      1024 buffers, which is what one pass of a loop allocates. */
  lemma PassAllocs(q: Queues.Queue, kind: Queues.Kind, p: Packets.Packets)
    requires q.kind == kind && q.geom.size == RING_SIZE
    ensures Queues.RefillAllocs(q, p) == LoopAllocs(kind, p, 1)
  {
    assert Queues.Refilled(q) <==> kind == Queues.Rx;
  }

  /** What `OpenRing` changes keeps the interface invariant. */
  lemma OpenRingValid(n: Nic, n2: Nic, kind: Queues.Kind, dev: nat, ep: nat, q: Queues.Queue)
    requires Valid(n) && dev < |n.ndevs| && ep < |n.eqs|
    requires Packets.Valid(n2.pkts)
    requires |n2.eqs| == |n.eqs| && (forall i :: 0 <= i < |n.eqs| && i != ep ==> n2.eqs[i] == n.eqs[i])
    requires n2.eqs[ep] == n.eqs[ep].(cqTable := n2.eqs[ep].cqTable)
    requires |n2.cqs| == |n.cqs| + 1 && (forall i :: 0 <= i < |n.cqs| ==> n2.cqs[i] == n.cqs[i])
    requires CompletionQueue.Valid(n2.cqs[|n.cqs|])
    requires Rings(n2, kind) == Rings(n, kind) + [q] && Rings(n2, Other(kind)) == Rings(n, Other(kind))
    requires Queues.IsOpen(q) && Queues.Valid(q) && q.kind == kind && q.ndev == Some(dev)
    requires |n2.ndevs| == |n.ndevs| && (forall i :: 0 <= i < |n.ndevs| && i != dev ==> n2.ndevs[i] == n.ndevs[i])
    requires n2.ndevs[dev] == WithRings(n.ndevs[dev], kind, DevRings(n.ndevs[dev], kind) + [|Rings(n, kind)|])
    requires n2.ports == n.ports && n2.scheds == n.scheds
    ensures Valid(n2)
  {
    assert RingsValid(n2, kind) && RingsValid(n2, Other(kind)) by {
      assert kind == Queues.Tx || kind == Queues.Rx;
    }
    assert Rings(n2, Queues.Tx) == n2.txqs && Rings(n2, Queues.Rx) == n2.rxqs;
    forall i | 0 <= i < |n2.ndevs| ensures n2.ndevs[i].port == i && DevValid(n2, n2.ndevs[i]) {
      var d := n.ndevs[i];
      assert DevValid(n, d);
      if i == dev {
        var d2 := n2.ndevs[i];
        assert DevRings(d2, kind) == DevRings(d, kind) + [|Rings(n, kind)|];
        assert DevRings(d2, Other(kind)) == DevRings(d, Other(kind));
        assert kind == Queues.Tx || kind == Queues.Rx;
      }
    }
  }

  /** Appending a ready ring keeps the earlier rings ready. */
  lemma ReadyKept(n: Nic, n1: Nic, n2: Nic, kind: Queues.Kind, dev: nat)
    requires dev < |n1.ndevs|
    requires forall i :: |Rings(n, kind)| <= i < |Rings(n1, kind)| ==> Ready(n1, kind, i, dev)
    requires Extended(n1, n2, kind, dev, 1) && Ready(n2, kind, |Rings(n1, kind)|, dev)
    ensures forall i :: |Rings(n, kind)| <= i < |Rings(n2, kind)| ==> Ready(n2, kind, i, dev)
  {
    forall i | |Rings(n, kind)| <= i < |Rings(n2, kind)| ensures Ready(n2, kind, i, dev) {
      if i < |Rings(n1, kind)| {
        assert Ready(n1, kind, i, dev);
        assert Rings(n2, kind)[i] == Rings(n1, kind)[i];
      }
    }
  }

  /** After `m` passes of a ring loop started on `n`, `n'` holds one new
      completion queue per pass, linked to the pass's ring and attached to
      event queue `j % len(eq)` for pass `j`; every event queue's table
      grew by exactly the queues attached to it; and receive rings took
      their buffers. */
  predicate Looped(n: Nic, n': Nic, kind: Queues.Kind, m: nat)
  {
    && (m > 0 ==> |n.eqs| > 0)
    && |n'.cqs| == |n.cqs| + m && n'.cqs[..|n.cqs|] == n.cqs
    && |n'.eqs| == |n.eqs|
    && (m > 0 ==> forall j :: 0 <= j < m ==> LinkedAt(n', kind, |n.cqs|, |Rings(n, kind)|, |n.eqs|, j))
    && (forall e :: 0 <= e < |n.eqs| ==>
          n'.eqs[e] == n.eqs[e].(cqTable := n.eqs[e].cqTable + AttachedTo(n'.cqs[|n.cqs|..], |n.eqs|, e)))
    && n'.pkts == LoopAllocs(kind, n.pkts, m)
  }

  /** One ring loop of `open`: `count` passes. */
  method OpenRings(n: Nic, dev: nat, kind: Queues.Kind, count: nat) returns (r: Result<(Nic, seq<Io>)>)
    requires Valid(n) && dev < |n.ndevs|
    ensures count > 0 && |n.eqs| == 0 ==> r == Err(NoEventQueue)
    ensures r.Ok? <==> RingsFit(n, kind, count)
    ensures r.Ok? ==> Valid(r.value.0) && Spent(n, r.value.0, kind, count)
    ensures r.Ok? ==> LoopResult(n, r.value.0, kind, dev, count, r.value.1)
  {
    var cur := n;
    var io := [];
    RingsOpenedNone(n, kind, dev);
    for k := 0 to count
      invariant LoopState(n, cur, kind, dev, k, io)
    {
      var step := OpenRing(cur, dev, kind, k);
      if step.Err? {
        RingsShort(n, cur, kind, k, count);
        return Err(step.error);
      }
      var (next, w) := step.value;
      LoopStateStep(n, cur, next, kind, dev, k, io, w);
      cur, io := next, io + w;
    }
    r := Ok((cur, io));
  }

  /** What a ring loop of `count` passes on `n` leaves: the interface `n'`
      with its rings ready and linked, and the writes `io` it issued. */
  predicate LoopResult(n: Nic, n': Nic, kind: Queues.Kind, dev: nat, count: nat, io: seq<Io>)
  {
    && dev < |n.ndevs| && Extended(n, n', kind, dev, count)
    && (forall i :: |Rings(n, kind)| <= i < |Rings(n', kind)| ==> Ready(n', kind, i, dev))
    && Looped(n, n', kind, count)
    && (forall j :: 0 <= j < count ==> ShapedAt(n', kind, |n.cqs|, |Rings(n, kind)|, j))
    && io == LoopWrites(n', kind, |n.cqs|, |Rings(n, kind)|, count)
  }

  /** Where a ring loop stands after `k` passes: the interface `cur` and
      the writes `io` issued so far. */
  predicate LoopState(n: Nic, cur: Nic, kind: Queues.Kind, dev: nat, k: nat, io: seq<Io>)
  {
    && dev < |n.ndevs| && RingsOpened(n, cur, kind, dev, k)
    && (forall j :: 0 <= j < k ==> ShapedAt(cur, kind, |n.cqs|, |Rings(n, kind)|, j))
    && io == LoopWrites(cur, kind, |n.cqs|, |Rings(n, kind)|, k)
  }

  /** A successful pass moves a ring loop on by one. */
  lemma LoopStateStep(n: Nic, cur: Nic, next: Nic, kind: Queues.Kind, dev: nat, k: nat, io: seq<Io>, w: seq<Io>)
    requires LoopState(n, cur, kind, dev, k, io) && dev < |cur.ndevs|
    requires |cur.eqs| > 0 && cur.eqs[k % |cur.eqs|].eqn.Some?
    requires Valid(next) && Extended(cur, next, kind, dev, 1) && Ready(next, kind, |Rings(cur, kind)|, dev)
    requires Spent(cur, next, kind, 1) && Added(cur, next, kind, k % |cur.eqs|)
    requires PassShaped(next, kind, |cur.cqs|, |Rings(cur, kind)|)
    requires w == PassWrites(next, kind, |cur.cqs|, |Rings(cur, kind)|)
    ensures LoopState(n, next, kind, dev, k + 1, io + w)
  {
    RingsOpenedStep(n, cur, next, kind, dev, k);
    AddedGrows(cur, next, kind, k % |cur.eqs|);
    ShapedStep(n, cur, next, kind, k);
    LoopWritesKept(cur, next, kind, |n.cqs|, |Rings(n, kind)|, k);
    LoopLogged(n, cur, next, kind, k, io, w);
  }

  /** What the first `k` passes of a ring loop leave behind. */
  predicate RingsOpened(n: Nic, cur: Nic, kind: Queues.Kind, dev: nat, k: nat)
    requires dev < |n.ndevs|
  {
    && Valid(cur) && Extended(n, cur, kind, dev, k) && Spent(n, cur, kind, k)
    && (k > 0 ==> |n.eqs| > 0)
    && (forall j :: 0 <= j < k ==> n.eqs[j % |n.eqs|].eqn.Some?)
    && (forall i :: |Rings(n, kind)| <= i < |Rings(cur, kind)| ==> Ready(cur, kind, i, dev))
    && Looped(n, cur, kind, k)
  }

  lemma RingsOpenedNone(n: Nic, kind: Queues.Kind, dev: nat)
    requires Valid(n) && dev < |n.ndevs|
    ensures RingsOpened(n, n, kind, dev, 0)
  {
    ExtendedNone(n, kind, dev);
    assert n.cqs[..|n.cqs|] == n.cqs;
    forall e | 0 <= e < |n.eqs| ensures n.eqs[e] == n.eqs[e].(cqTable := n.eqs[e].cqTable + AttachedTo(n.cqs[|n.cqs|..], |n.eqs|, e)) {
      assert n.cqs[|n.cqs|..] == [];
    }
    assert Packets.Allocs(n.pkts, 0 * RING_SIZE) == n.pkts;
  }

  lemma RingsOpenedStep(n: Nic, cur: Nic, next: Nic, kind: Queues.Kind, dev: nat, k: nat)
    requires dev < |n.ndevs| && RingsOpened(n, cur, kind, dev, k)
    requires |cur.eqs| > 0 && cur.eqs[k % |cur.eqs|].eqn.Some?
    requires Valid(next) && Extended(cur, next, kind, dev, 1) && Ready(next, kind, |Rings(cur, kind)|, dev)
    requires Spent(cur, next, kind, 1) && Added(cur, next, kind, k % |cur.eqs|)
    ensures RingsOpened(n, next, kind, dev, k + 1)
  {
    ExtendedTrans(n, cur, next, kind, dev, k, 1);
    ReadyKept(n, cur, next, kind, dev);
    assert n.eqs[k % |n.eqs|].eqn.Some?;
    AddedGrows(cur, next, kind, k % |cur.eqs|);
    LoopedStep(n, cur, next, kind, k);
  }

  /** `cur` grows into `next` when a pass adds to it. */
  lemma AddedGrows(cur: Nic, next: Nic, kind: Queues.Kind, ep: nat)
    requires ep < |cur.eqs| && Added(cur, next, kind, ep)
    requires |Rings(cur, kind)| <= |Rings(next, kind)|
    requires forall i :: 0 <= i < |Rings(cur, kind)| ==> Rings(next, kind)[i] == Rings(cur, kind)[i]
    ensures Grown(cur, next, kind)
  {
  }

  lemma LoopedStep(n: Nic, cur: Nic, next: Nic, kind: Queues.Kind, k: nat)
    requires Looped(n, cur, kind, k) && |n.eqs| > 0 && |Rings(cur, kind)| == |Rings(n, kind)| + k
    requires Grown(cur, next, kind) && Added(cur, next, kind, k % |n.eqs|)
    ensures Looped(n, next, kind, k + 1)
  {
    var c0 := |n.cqs|;
    assert next.cqs[..c0] == n.cqs by {
      assert next.cqs[..|cur.cqs|] == cur.cqs;
    }
    LinksStep(n, cur, next, kind, k);
    TablesStep(n, cur, next, kind, k);
    LoopAllocsStep(kind, n.pkts, k);
  }

  /** The links of the earlier passes survive a pass, which adds its own. */
  lemma LinksStep(n: Nic, cur: Nic, next: Nic, kind: Queues.Kind, k: nat)
    requires |n.eqs| > 0 && |cur.cqs| == |n.cqs| + k && |Rings(cur, kind)| == |Rings(n, kind)| + k
    requires forall j :: 0 <= j < k ==> LinkedAt(cur, kind, |n.cqs|, |Rings(n, kind)|, |n.eqs|, j)
    requires Grown(cur, next, kind) && Linked(next, kind, |cur.cqs|, |Rings(cur, kind)|, k % |n.eqs|)
    ensures forall j :: 0 <= j < k + 1 ==> LinkedAt(next, kind, |n.cqs|, |Rings(n, kind)|, |n.eqs|, j)
  {
    var c0, i0, len := |n.cqs|, |Rings(n, kind)|, |n.eqs|;
    forall j | 0 <= j < k + 1 ensures LinkedAt(next, kind, c0, i0, len, j) {
      if j < k {
        assert LinkedAt(cur, kind, c0, i0, len, j);
        LinkedKept(cur, next, kind, c0 + j, i0 + j, j % len);
      }
    }
  }

  /** After a pass, each event queue's table holds what it held before the
      loop plus the completion queues of the passes so far attached to it. */
  lemma TablesStep(n: Nic, cur: Nic, next: Nic, kind: Queues.Kind, k: nat)
    requires |n.eqs| > 0 && |cur.cqs| == |n.cqs| + k && |cur.eqs| == |n.eqs|
    requires forall e :: 0 <= e < |n.eqs| ==>
      cur.eqs[e] == n.eqs[e].(cqTable := n.eqs[e].cqTable + AttachedTo(cur.cqs[|n.cqs|..], |n.eqs|, e))
    requires |next.cqs| == |cur.cqs| + 1 && next.cqs[..|cur.cqs|] == cur.cqs
    requires next.cqs[|cur.cqs|].cqn.Some?
    requires next.eqs == cur.eqs[k % |n.eqs| := EventQueue.Attach(cur.eqs[k % |n.eqs|], next.cqs[|cur.cqs|].cqn.value)]
    ensures forall e :: 0 <= e < |n.eqs| ==>
      next.eqs[e] == n.eqs[e].(cqTable := n.eqs[e].cqTable + AttachedTo(next.cqs[|n.cqs|..], |n.eqs|, e))
  {
    var c0, len := |n.cqs|, |n.eqs|;
    var cq := next.cqs[|cur.cqs|];
    assert next.cqs[c0..] == cur.cqs[c0..] + [cq] by {
      assert next.cqs == cur.cqs + [cq];
    }
    forall e | 0 <= e < len
      ensures next.eqs[e] == n.eqs[e].(cqTable := n.eqs[e].cqTable + AttachedTo(next.cqs[c0..], len, e))
    {
      AttachedToStep(cur.cqs[c0..], cq, len, e);
    }
  }

  /** One more pass allocates one more ring's worth. */
  lemma LoopAllocsStep(kind: Queues.Kind, p: Packets.Packets, k: nat)
    ensures LoopAllocs(kind, LoopAllocs(kind, p, k), 1) == LoopAllocs(kind, p, k + 1)
  {
    if kind == Queues.Rx {
      assert (k + 1) * 1024 == k * 1024 + 1024;
      Packets.AllocsAdd(p, k * RING_SIZE, RING_SIZE);
    }
  }

  /** The log of the passes so far, read back from the interface after one
      more pass, is unchanged, and the new pass's writes follow it. */
  lemma LoopLogged(n: Nic, cur: Nic, next: Nic, kind: Queues.Kind, k: nat, io: seq<Io>, w: seq<Io>)
    requires |cur.cqs| == |n.cqs| + k && |Rings(cur, kind)| == |Rings(n, kind)| + k
    requires forall j :: 0 <= j < k + 1 ==> ShapedAt(next, kind, |n.cqs|, |Rings(n, kind)|, j)
    requires io == LoopWrites(next, kind, |n.cqs|, |Rings(n, kind)|, k)
    requires PassShaped(next, kind, |cur.cqs|, |Rings(cur, kind)|)
    requires w == PassWrites(next, kind, |cur.cqs|, |Rings(cur, kind)|)
    ensures io + w == LoopWrites(next, kind, |n.cqs|, |Rings(n, kind)|, k + 1)
  {
    LoopWritesSnoc(next, kind, |n.cqs|, |Rings(n, kind)|, k, |cur.cqs|, |Rings(cur, kind)|);
  }

  /** Growing keeps the shape of the earlier passes of a loop, and the
      pass that grew it adds its own. */
  lemma ShapedStep(n: Nic, cur: Nic, next: Nic, kind: Queues.Kind, k: nat)
    requires |cur.cqs| == |n.cqs| + k && |Rings(cur, kind)| == |Rings(n, kind)| + k
    requires forall j :: 0 <= j < k ==> ShapedAt(cur, kind, |n.cqs|, |Rings(n, kind)|, j)
    requires Grown(cur, next, kind) && PassShaped(next, kind, |cur.cqs|, |Rings(cur, kind)|)
    ensures forall j :: 0 <= j < k + 1 ==> ShapedAt(next, kind, |n.cqs|, |Rings(n, kind)|, j)
  {
    ShapedKept(cur, next, kind, |n.cqs|, |Rings(n, kind)|, k);
  }

  /** A loop's writes are those of its first passes followed by its last,
      which created completion queue `c` and ring `i`. */
  lemma LoopWritesSnoc(n: Nic, kind: Queues.Kind, c0: nat, i0: nat, k: nat, c: nat, i: nat)
    requires forall j :: 0 <= j < k + 1 ==> ShapedAt(n, kind, c0, i0, j)
    requires c == c0 + k && i == i0 + k
    ensures PassShaped(n, kind, c, i)
    ensures LoopWrites(n, kind, c0, i0, k + 1) == LoopWrites(n, kind, c0, i0, k) + PassWrites(n, kind, c, i)
  {
    assert ShapedAt(n, kind, c0, i0, k);
    FlattenSnoc(LoopPasses(n, kind, c0, i0, k), PassOf(n, kind, c, i));
  }

  /** A pass of the ring loop that fails shows the loop could not fit. */
  lemma RingsShort(n: Nic, cur: Nic, kind: Queues.Kind, k: nat, count: nat)
    requires k < count && Spent(n, cur, kind, k)
    requires !(|cur.eqs| > 0 && |cur.cqPool.freeList| > 0 && cur.eqs[k % |cur.eqs|].eqn.Some?
               && |Pool(cur, kind).freeList| > 0)
    ensures !RingsFit(n, kind, count)
  {
    if |n.eqs| > 0 {
      var j := k % |n.eqs|;
      assert n.eqs[j].eqn == cur.eqs[j].eqn;
    }
  }

  // ---------------------------------------------------------------------
  // The scheduler port

  /** `alloc_sched_port()`: the device takes the first free scheduler
      port; popping an empty list fails. */
  function TakeSchedPort(n: Nic, dev: nat): (r: Result<Nic>)
    requires Valid(n) && dev < |n.ndevs|
    ensures r.Err? <==> |n.ports.free| == 0
    ensures r.Err? ==> r.error == ResourceExhausted
    ensures r.Ok? ==> Valid(r.value)
    ensures r.Ok? ==> r.value == n.(ports := PortPool(n.ports.all, n.ports.free[1..]),
                       ndevs := n.ndevs[dev := n.ndevs[dev].(schedPort := Some(n.ports.free[0]))])
  {
    match AllocPort(n.ports)
    case Err(e) => Err(e)
    case Ok((ports, sp)) =>
      var n' := n.(ports := ports, ndevs := n.ndevs[dev := n.ndevs[dev].(schedPort := Some(sp))]);
      DevUpdateValid(n, n', dev);
      Ok(n')
  }

  /** Changing one device's scheduler port (to a registered one), its
      indirection table or its up flag, and taking ports off the free list,
      keeps the interface invariant. */
  lemma DevUpdateValid(n: Nic, n': Nic, dev: nat)
    requires Valid(n) && dev < |n.ndevs|
    requires n' == n.(ports := n'.ports, ndevs := n'.ndevs)
    requires n'.ports.all == n.ports.all && PoolValid(n'.ports)
    requires |n'.ndevs| == |n.ndevs| && forall i :: 0 <= i < |n.ndevs| && i != dev ==> n'.ndevs[i] == n.ndevs[i]
    requires n'.ndevs[dev].port == n.ndevs[dev].port
    requires n'.ndevs[dev].txq == n.ndevs[dev].txq && n'.ndevs[dev].rxq == n.ndevs[dev].rxq
    requires n'.ndevs[dev].schedPort.Some? ==> n'.ndevs[dev].schedPort.value in n.ports.all
    ensures Valid(n')
  {
    assert Rings(n', Queues.Tx) == Rings(n, Queues.Tx) && Rings(n', Queues.Rx) == Rings(n, Queues.Rx);
    forall i | 0 <= i < |n'.ndevs| ensures n'.ndevs[i].port == i && DevValid(n', n'.ndevs[i]) {
      assert DevValid(n, n.ndevs[i]);
    }
  }

  // ---------------------------------------------------------------------
  // Receive steering

  /** A register of port `port`'s channel in the receive queue map block. */
  function RxMapReg(port: nat, reg: nat): nat
  {
    RX_QUEUE_MAP_CH_OFFSET + RX_QUEUE_MAP_CH_STRIDE * port + reg
  }

  /** Every entry of table `t` names one of the device's receive rings,
      and that ring has a hardware index. */
  predicate Steerable(n: Nic, d: NetDev, t: seq<nat>)
  {
    forall k :: 0 <= k < |t| ==> t[k] < |d.rxq| && d.rxq[t[k]] < |n.rxqs| && n.rxqs[d.rxq[t[k]]].index.Some?
  }

  /** The hardware index of the receive ring table entry `k` selects. */
  function Target(n: Nic, d: NetDev, t: seq<nat>, k: nat): nat
    requires Steerable(n, d, t) && k < |t|
  {
    n.rxqs[d.rxq[t[k]]].index.value
  }

  /** `update_rx_queue_map_indir_table`: hash every flow (RSS mask all
      ones), ignore the application's steering (mask 0), and point entry
      `k` of the port's indirection table at the ring the table names. */
  function SteerWrites(n: Nic, d: NetDev, t: seq<nat>): (ws: seq<Io>)
    requires Steerable(n, d, t)
    ensures |ws| == |t| + 2
    ensures ws[0].target == RxQueueMap && ws[0].w.offset == 0x14 + 0x10 * d.port && ws[0].w.value == 0xFFFF_FFFF
    ensures ws[1].target == RxQueueMap && ws[1].w.offset == 0x18 + 0x10 * d.port && ws[1].w.value == 0
    ensures forall k :: 0 <= k < |t| ==>
      ws[k + 2] == Io(IndirRegs(d.port), Write32(4 * k, n.rxqs[d.rxq[t[k]]].index.value))
  {
    [ Io(RxQueueMap, Write32(RxMapReg(d.port, RX_QUEUE_MAP_CH_REG_RSS_MASK), 0xFFFF_FFFF)),
      Io(RxQueueMap, Write32(RxMapReg(d.port, RX_QUEUE_MAP_CH_REG_APP_MASK), 0)) ]
    + seq(|t|, k requires 0 <= k < |t| => Io(IndirRegs(d.port), Write32(4 * k, Target(n, d, t, k))))
  }

  /** The steering writes depend on the rings only through their hardware
      indices. */
  lemma SteerWritesSame(n: Nic, d: NetDev, n': Nic, d': NetDev, t: seq<nat>)
    requires Steerable(n, d, t) && d'.rxq == d.rxq && d'.port == d.port
    requires |n'.rxqs| == |n.rxqs| && forall i :: 0 <= i < |n.rxqs| ==> n'.rxqs[i].index == n.rxqs[i].index
    ensures Steerable(n', d', t) && SteerWrites(n', d', t) == SteerWrites(n, d, t)
  {
    assert Steerable(n', d', t) by {
      forall k | 0 <= k < |t| ensures n'.rxqs[d'.rxq[t[k]]].index == n.rxqs[d.rxq[t[k]]].index {
      }
    }
  }

  /** The steering part of `open`: rebuild the default table `k % rxq_count`
      (failing with no receive rings, as the modulo does) and program it. */
  method Steer(n: Nic, dev: nat) returns (r: Result<(Nic, seq<Io>)>)
    requires Valid(n) && dev < |n.ndevs| && |n.ndevs[dev].rxq| >= n.ndevs[dev].rxqCount
    ensures r.Err? <==> n.indirSize > 0 && n.ndevs[dev].rxqCount == 0
    ensures r.Err? ==> r.error == NoRxQueues
    ensures r.Ok? ==> var (n', ws) := r.value; var d := n.ndevs[dev];
      && |n'.ndevs| == |n.ndevs| && n' == n.(ndevs := n.ndevs[dev := d.(indir := n'.ndevs[dev].indir)])
      && Valid(n') && Ok(n'.ndevs[dev].indir) == IndirTable(n.indirSize, d.rxqCount)
      && Steerable(n, d, n'.ndevs[dev].indir)
      && ws == SteerWrites(n, d, n'.ndevs[dev].indir)
  {
    var d := n.ndevs[dev];
    var table := IndirTable(n.indirSize, d.rxqCount);
    if table.Err? {
      return Err(table.error);
    }
    var t := table.value;
    SteerableTable(n, dev, t);
    var n' := n.(ndevs := n.ndevs[dev := d.(indir := t)]);
    DevUpdateValid(n, n', dev);
    r := Ok((n', SteerWrites(n, d, t)));
  }

  lemma SteerableTable(n: Nic, dev: nat, t: seq<nat>)
    requires Valid(n) && dev < |n.ndevs| && |n.ndevs[dev].rxq| >= n.ndevs[dev].rxqCount
    requires Ok(t) == IndirTable(n.indirSize, n.ndevs[dev].rxqCount)
    ensures Steerable(n, n.ndevs[dev], t)
  {
    var d := n.ndevs[dev];
    assert DevValid(n, d);
    assert RingsValid(n, Queues.Rx) && Rings(n, Queues.Rx) == n.rxqs;
    forall k | 0 <= k < |t| ensures t[k] < |d.rxq| && d.rxq[t[k]] < |n.rxqs| && n.rxqs[d.rxq[t[k]]].index.Some? {
      assert Queues.Valid(n.rxqs[d.rxq[t[k]]]);
    }
  }

  // ---------------------------------------------------------------------
  // Enabling the rings

  /** `n'` is `n` with only the enable flags of one direction's rings
      changed. */
  predicate OnlyEnabled(n: Nic, n': Nic, kind: Queues.Kind)
  {
    && n' == WithRingList(n, kind, Rings(n', kind), Pool(n, kind))
    && |Rings(n', kind)| == |Rings(n, kind)|
    && forall i :: 0 <= i < |Rings(n, kind)| ==>
         Rings(n', kind)[i] == Rings(n, kind)[i].(enabled := Rings(n', kind)[i].enabled)
  }

  /** The enable command to the window of ring `p` of one direction. */
  function EnableCmd(kind: Queues.Kind, p: nat): Io
  {
    Io(RingRegs(kind, p), Write32(Csr.QUEUE_CTRL_STATUS_REG, Csr.QUEUE_CMD_SET_ENABLE + 1))
  }

  /** `for q in rings: await q.enable()`, in list order, on the ring list
      `rs` with `ps` the positions of the device's rings. */
  function EnableList(rs: seq<Queues.Queue>, ps: seq<nat>): (r: (seq<Queues.Queue>, seq<RegWrite>))
    requires forall j :: 0 <= j < |ps| ==> ps[j] < |rs| && Queues.IsOpen(rs[ps[j]])
    ensures |r.0| == |rs| && |r.1| == |ps|
    ensures forall i :: 0 <= i < |rs| ==> r.0[i] == rs[i].(enabled := rs[i].enabled || i in ps)
    ensures forall j :: 0 <= j < |ps| ==> r.1[j] == Write32(Csr.QUEUE_CTRL_STATUS_REG, Csr.QUEUE_CMD_SET_ENABLE + 1)
    decreases |ps|
  {
    if ps == [] then (rs, [])
    else
      var (q, w) := Queues.Enable(rs[ps[0]]).value;
      var (rs', ws) := EnableList(rs[ps[0] := q], ps[1..]);
      assert forall k :: k in ps <==> k == ps[0] || k in ps[1..];
      (rs', w + ws)
  }

  /** The enable loop of `open` for one direction of the device: the
      device's rings get their enable flag, each with one enable command to
      its window. */
  method EnableRings(n: Nic, kind: Queues.Kind, ps: seq<nat>) returns (r: (Nic, seq<Io>))
    requires forall j :: 0 <= j < |ps| ==> ps[j] < |Rings(n, kind)| && Queues.IsOpen(Rings(n, kind)[ps[j]])
    ensures OnlyEnabled(n, r.0, kind)
    ensures forall i :: 0 <= i < |Rings(n, kind)| ==>
      Rings(r.0, kind)[i].enabled == (Rings(n, kind)[i].enabled || i in ps)
    ensures |r.1| == |ps|
    ensures forall j :: 0 <= j < |ps| ==> r.1[j] == EnableCmd(kind, ps[j])
  {
    var (rs, ws) := EnableList(Rings(n, kind), ps);
    r := (WithRingList(n, kind, rs, Pool(n, kind)),
          seq(|ps|, j requires 0 <= j < |ps| => Io(RingRegs(kind, ps[j]), ws[j])));
  }

  /** Changing enable flags keeps the interface invariant. */
  lemma OnlyEnabledValid(n: Nic, n': Nic, kind: Queues.Kind)
    requires Valid(n) && OnlyEnabled(n, n', kind)
    ensures Valid(n')
  {
    assert kind == Queues.Tx || kind == Queues.Rx;
    assert Rings(n', Other(kind)) == Rings(n, Other(kind));
    forall i | 0 <= i < |Rings(n', kind)|
      ensures Queues.Valid(Rings(n', kind)[i]) && Queues.IsOpen(Rings(n', kind)[i]) == Queues.IsOpen(Rings(n, kind)[i])
    {
      assert Queues.Valid(Rings(n, kind)[i]);
    }
    assert RingsValid(n', kind);
    forall j | 0 <= j < |n'.ndevs| ensures n'.ndevs[j].port == j && DevValid(n', n'.ndevs[j]) {
      assert DevValid(n, n.ndevs[j]);
    }
  }

  /** `n'` is `n` with every ring of device `d` enabled and nothing else
      changed. */
  predicate EnabledAll(n: Nic, n': Nic, d: NetDev)
  {
    && n' == n.(rxqs := n'.rxqs, txqs := n'.txqs)
    && |n'.rxqs| == |n.rxqs| && |n'.txqs| == |n.txqs|
    && (forall i :: 0 <= i < |n.rxqs| ==> n'.rxqs[i] == n.rxqs[i].(enabled := n.rxqs[i].enabled || i in d.rxq))
    && (forall i :: 0 <= i < |n.txqs| ==> n'.txqs[i] == n.txqs[i].(enabled := n.txqs[i].enabled || i in d.txq))
  }

  /** The two enable loops of `open`: the device's receive rings, then its
      transmit rings, one command each in list order. */
  method EnableAll(n: Nic, dev: nat) returns (r: (Nic, seq<Io>))
    requires Valid(n) && dev < |n.ndevs|
    ensures Valid(r.0) && EnabledAll(n, r.0, n.ndevs[dev])
    ensures var d := n.ndevs[dev];
      && |r.1| == |d.rxq| + |d.txq|
      && (forall j :: 0 <= j < |d.rxq| ==> r.1[j] == EnableCmd(Queues.Rx, d.rxq[j]))
      && (forall j :: 0 <= j < |d.txq| ==> r.1[|d.rxq| + j] == EnableCmd(Queues.Tx, d.txq[j]))
  {
    var d := n.ndevs[dev];
    assert DevValid(n, d);
    var e5 := EnableRings(n, Queues.Rx, d.rxq);
    var (n5, io5) := e5;
    OnlyEnabledValid(n, n5, Queues.Rx);
    assert n5.txqs == n.txqs;
    var e6 := EnableRings(n5, Queues.Tx, d.txq);
    var (n6, io6) := e6;
    OnlyEnabledValid(n5, n6, Queues.Tx);
    assert n6.rxqs == n5.rxqs;
    r := (n6, io5 + io6);
  }

  // ---------------------------------------------------------------------
  // The scheduler

  /** `for q in txq: await sched_port.enable_queue(q.index)`: two
      commands per ring, to the scheduler's queue window. */
  function QueueWrites(n: Nic, ps: seq<nat>, sp: PortRef): (ws: seq<Io>)
    requires forall j :: 0 <= j < |ps| ==> ps[j] < |n.txqs| && n.txqs[ps[j]].index.Some?
  {
    seq(2 * |ps|, k requires 0 <= k < 2 * |ps| =>
      Io(SchedQueues(sp.sched), Scheduler.PortEnableQueue(sp.index, n.txqs[ps[k / 2]].index.value)[k % 2]))
  }

  /** Ring `j` of the list gets the queue-enable command and then the
      port-enable command, in that order. */
  lemma QueueWritesAt(n: Nic, ps: seq<nat>, sp: PortRef, j: nat)
    requires forall j :: 0 <= j < |ps| ==> ps[j] < |n.txqs| && n.txqs[ps[j]].index.Some?
    requires j < |ps|
    ensures var ws := QueueWrites(n, ps, sp); var idx := n.txqs[ps[j]].index.value;
      && |ws| == 2 * |ps|
      && ws[2 * j] == Io(SchedQueues(sp.sched), Scheduler.PortEnableQueue(sp.index, idx)[0])
      && ws[2 * j + 1] == Io(SchedQueues(sp.sched), Scheduler.PortEnableQueue(sp.index, idx)[1])
  {
    assert (2 * j) / 2 == j && (2 * j) % 2 == 0;
    assert (2 * j + 1) / 2 == j && (2 * j + 1) % 2 == 1;
  }

  /** Traffic class 0's channel as `open` programs it: destination
      `port << 4`, a budget of one packet and one MTU, a limit of 0xFFFF
      packets and the FIFO depth in bytes, then enabled. */
  function ProgramChannel(s: Scheduler.Sched, ch: nat, port: nat, mtu: nat, depth: nat): (s': Scheduler.Sched)
    requires s.cfg.fcScale >= 1
    ensures s'.cfg == s.cfg && s'.enableCount == s.enableCount
    ensures s'.queueCount == s.queueCount && s'.hwOffset == s.hwOffset
    ensures Scheduler.Balanced(s) ==> Scheduler.Balanced(s')
  {
    var s1 := Scheduler.SetChannel(s, Scheduler.Dest, ch, port * 16);
    var s2 := Scheduler.SetChannel(s1, Scheduler.PktBudget, ch, OPEN_PKT_BUDGET);
    var s3 := Scheduler.SetChannel(s2, Scheduler.DataBudget, ch, mtu);
    var s4 := Scheduler.SetChannel(s3, Scheduler.PktLimit, ch, OPEN_PKT_LIMIT);
    var s5 := Scheduler.SetChannel(s4, Scheduler.DataLimit, ch, depth);
    Scheduler.SetChannel(s5, Scheduler.ChCtrl, ch, 1)
  }

  /** The values `open` programs fit their registers. */
  predicate ChannelFits(cfg: Scheduler.Config, port: nat, mtu: nat, depth: nat)
    requires cfg.fcScale >= 1
  {
    && port * 16 < Scheduler.HALF
    && Scheduler.Encode(cfg, Scheduler.DataBudget, mtu) < Scheduler.HALF
    && Scheduler.Encode(cfg, Scheduler.DataLimit, depth) < Scheduler.WORD
  }

  /** The channel reads back through the `get_ch_*` accessors as `open`
      set it; the byte counts are rounded up to the flow-control scale. */
  predicate ChannelSet(s: Scheduler.Sched, ch: nat, port: nat, mtu: nat, depth: nat)
    requires s.cfg.fcScale >= 1
  {
    && Scheduler.GetChannel(s, Scheduler.Dest, ch) == port * 16
    && Scheduler.GetChannel(s, Scheduler.PktBudget, ch) == OPEN_PKT_BUDGET
    && mtu <= Scheduler.GetChannel(s, Scheduler.DataBudget, ch) < mtu + s.cfg.fcScale
    && Scheduler.GetChannel(s, Scheduler.PktLimit, ch) == OPEN_PKT_LIMIT
    && depth <= Scheduler.GetChannel(s, Scheduler.DataLimit, ch) < depth + s.cfg.fcScale
    && Scheduler.GetChannel(s, Scheduler.ChCtrl, ch) == 1
  }

  /** Enabling the scheduler touches only its control register. */
  lemma EnableKeepsChannel(s: Scheduler.Sched, f: Scheduler.ChField, ch: nat)
    ensures Scheduler.GetChannel(Scheduler.Enable(s), f, ch) == Scheduler.GetChannel(s, f, ch)
  {
    Scheduler.ChRegUnique(f, ch, f, ch);
  }

  /** After the channel programming and the scheduler enable, the channel
      reads back what `open` set, and every other channel is untouched. */
  lemma {:induction false} ProgramChannelReadsBack(s: Scheduler.Sched, ch: nat, port: nat, mtu: nat, depth: nat)
    requires s.cfg.fcScale >= 1 && ChannelFits(s.cfg, port, mtu, depth)
    ensures ChannelSet(Scheduler.Enable(ProgramChannel(s, ch, port, mtu, depth)), ch, port, mtu, depth)
  {
    var s1 := Scheduler.SetChannel(s, Scheduler.Dest, ch, port * 16);
    var s2 := Scheduler.SetChannel(s1, Scheduler.PktBudget, ch, OPEN_PKT_BUDGET);
    var s3 := Scheduler.SetChannel(s2, Scheduler.DataBudget, ch, mtu);
    var s4 := Scheduler.SetChannel(s3, Scheduler.PktLimit, ch, OPEN_PKT_LIMIT);
    var s5 := Scheduler.SetChannel(s4, Scheduler.DataLimit, ch, depth);
    var s6 := Scheduler.SetChannel(s5, Scheduler.ChCtrl, ch, 1);
    var s7 := Scheduler.Enable(s6);
    Scheduler.SetThenGet(s, Scheduler.Dest, ch, port * 16);
    Scheduler.SetThenGet(s1, Scheduler.PktBudget, ch, OPEN_PKT_BUDGET);
    Scheduler.SetThenGet(s2, Scheduler.DataBudget, ch, mtu);
    Scheduler.SetThenGet(s3, Scheduler.PktLimit, ch, OPEN_PKT_LIMIT);
    Scheduler.SetThenGet(s4, Scheduler.DataLimit, ch, depth);
    Scheduler.SetThenGet(s5, Scheduler.ChCtrl, ch, 1);
    KeptThrough(s1, ch, Scheduler.Dest, Scheduler.PktBudget, OPEN_PKT_BUDGET, Scheduler.DataBudget, mtu,
                Scheduler.PktLimit, OPEN_PKT_LIMIT, Scheduler.DataLimit, depth, Scheduler.ChCtrl, 1);
    KeptThrough(s2, ch, Scheduler.PktBudget, Scheduler.DataBudget, mtu, Scheduler.PktLimit, OPEN_PKT_LIMIT,
                Scheduler.DataLimit, depth, Scheduler.ChCtrl, 1, Scheduler.ChCtrl, 1);
    Scheduler.SetKeepsOthers(s3, Scheduler.PktLimit, ch, OPEN_PKT_LIMIT, Scheduler.DataBudget, ch);
    Scheduler.SetKeepsOthers(s4, Scheduler.DataLimit, ch, depth, Scheduler.DataBudget, ch);
    Scheduler.SetKeepsOthers(s5, Scheduler.ChCtrl, ch, 1, Scheduler.DataBudget, ch);
    Scheduler.SetKeepsOthers(s4, Scheduler.DataLimit, ch, depth, Scheduler.PktLimit, ch);
    Scheduler.SetKeepsOthers(s5, Scheduler.ChCtrl, ch, 1, Scheduler.PktLimit, ch);
    Scheduler.SetKeepsOthers(s5, Scheduler.ChCtrl, ch, 1, Scheduler.DataLimit, ch);
    EnableKeepsChannel(s6, Scheduler.Dest, ch);
    EnableKeepsChannel(s6, Scheduler.PktBudget, ch);
    EnableKeepsChannel(s6, Scheduler.DataBudget, ch);
    EnableKeepsChannel(s6, Scheduler.PktLimit, ch);
    EnableKeepsChannel(s6, Scheduler.DataLimit, ch);
    EnableKeepsChannel(s6, Scheduler.ChCtrl, ch);
  }

  /** Field `f` of channel `ch`, as set in `s`, survives four later sets of
      other fields of the same channel (the last set may repeat the one
      before it). */
  lemma KeptThrough(s: Scheduler.Sched, ch: nat, f: Scheduler.ChField,
                    f1: Scheduler.ChField, v1: nat, f2: Scheduler.ChField, v2: nat,
                    f3: Scheduler.ChField, v3: nat, f4: Scheduler.ChField, v4: nat,
                    f5: Scheduler.ChField, v5: nat)
    requires s.cfg.fcScale >= 1
    requires f != f1 && f != f2 && f != f3 && f != f4 && f != f5
    ensures var t1 := Scheduler.SetChannel(s, f1, ch, v1);
      var t2 := Scheduler.SetChannel(t1, f2, ch, v2);
      var t3 := Scheduler.SetChannel(t2, f3, ch, v3);
      var t4 := Scheduler.SetChannel(t3, f4, ch, v4);
      var t5 := Scheduler.SetChannel(t4, f5, ch, v5);
      Scheduler.GetChannel(t5, f, ch) == Scheduler.GetChannel(s, f, ch)
  {
    var t1 := Scheduler.SetChannel(s, f1, ch, v1);
    var t2 := Scheduler.SetChannel(t1, f2, ch, v2);
    var t3 := Scheduler.SetChannel(t2, f3, ch, v3);
    var t4 := Scheduler.SetChannel(t3, f4, ch, v4);
    Scheduler.SetKeepsOthers(s, f1, ch, v1, f, ch);
    Scheduler.SetKeepsOthers(t1, f2, ch, v2, f, ch);
    Scheduler.SetKeepsOthers(t2, f3, ch, v3, f, ch);
    Scheduler.SetKeepsOthers(t3, f4, ch, v4, f, ch);
    Scheduler.SetKeepsOthers(t4, f5, ch, v5, f, ch);
  }

  /** Programming one channel leaves every other channel reading as
      before. */
  lemma {:induction false} ProgramChannelKeepsOthers(s: Scheduler.Sched, ch: nat, port: nat, mtu: nat, depth: nat,
                                                   f: Scheduler.ChField, ch2: nat)
    requires s.cfg.fcScale >= 1 && ch2 != ch
    ensures Scheduler.GetChannel(Scheduler.Enable(ProgramChannel(s, ch, port, mtu, depth)), f, ch2)
         == Scheduler.GetChannel(s, f, ch2)
  {
    var s1 := Scheduler.SetChannel(s, Scheduler.Dest, ch, port * 16);
    var s2 := Scheduler.SetChannel(s1, Scheduler.PktBudget, ch, OPEN_PKT_BUDGET);
    var s3 := Scheduler.SetChannel(s2, Scheduler.DataBudget, ch, mtu);
    var s4 := Scheduler.SetChannel(s3, Scheduler.PktLimit, ch, OPEN_PKT_LIMIT);
    var s5 := Scheduler.SetChannel(s4, Scheduler.DataLimit, ch, depth);
    var s6 := Scheduler.SetChannel(s5, Scheduler.ChCtrl, ch, 1);
    Scheduler.SetKeepsOthers(s, Scheduler.Dest, ch, port * 16, f, ch2);
    Scheduler.SetKeepsOthers(s1, Scheduler.PktBudget, ch, OPEN_PKT_BUDGET, f, ch2);
    Scheduler.SetKeepsOthers(s2, Scheduler.DataBudget, ch, mtu, f, ch2);
    Scheduler.SetKeepsOthers(s3, Scheduler.PktLimit, ch, OPEN_PKT_LIMIT, f, ch2);
    Scheduler.SetKeepsOthers(s4, Scheduler.DataLimit, ch, depth, f, ch2);
    Scheduler.SetKeepsOthers(s5, Scheduler.ChCtrl, ch, 1, f, ch2);
    EnableKeepsChannel(s6, f, ch2);
  }

  /** A registered scheduler port names an existing scheduler, whose
      flow-control scale is positive. */
  lemma PortSched(n: Nic, sp: PortRef)
    requires Valid(n) && sp in n.ports.all
    ensures sp.sched < |n.scheds| && n.scheds[sp.sched].cfg.fcScale >= 1
  {
    var k :| 0 <= k < |n.ports.all| && n.ports.all[k] == sp;
  }

  /** What programming channel `ch` and enabling the scheduler leave:
      the geometry kept, one more enable (the control register reading 1
      if it tracked the count before), the channel reading back what was
      set when the values fit, and every other channel untouched. */
  ghost predicate SchedProgrammed(s: Scheduler.Sched, s': Scheduler.Sched, ch: nat, port: nat, mtu: nat, depth: nat)
    requires s.cfg.fcScale >= 1
  {
    && s'.cfg == s.cfg && s'.queueCount == s.queueCount && s'.hwOffset == s.hwOffset
    && s'.enableCount == s.enableCount + 1
    && (Scheduler.Balanced(s) ==> Scheduler.Balanced(s') && Scheduler.Read(s'.regs, Scheduler.REG_CTRL, Scheduler.WORD) == 1)
    && (ChannelFits(s.cfg, port, mtu, depth) ==> ChannelSet(s', ch, port, mtu, depth))
    && (forall f: Scheduler.ChField, ch2: nat :: ch2 != ch ==>
          Scheduler.GetChannel(s', f, ch2) == Scheduler.GetChannel(s, f, ch2))
  }

  /** Traffic class 0's channel of scheduler port `spIndex`, programmed
      for `port`, then `sched_port.enable()`. */
  method ProgramSched(s: Scheduler.Sched, spIndex: nat, port: nat, mtu: nat, depth: nat) returns (s': Scheduler.Sched)
    requires s.cfg.fcScale >= 1
    ensures SchedProgrammed(s, s', Scheduler.Channel(s.cfg, spIndex, 0), port, mtu, depth)
  {
    var ch := Scheduler.Channel(s.cfg, spIndex, 0);
    s' := Scheduler.Enable(ProgramChannel(s, ch, port, mtu, depth));
    if ChannelFits(s.cfg, port, mtu, depth) {
      ProgramChannelReadsBack(s, ch, port, mtu, depth);
    }
    forall f: Scheduler.ChField, ch2: nat | ch2 != ch
      ensures Scheduler.GetChannel(s', f, ch2) == Scheduler.GetChannel(s, f, ch2)
    {
      ProgramChannelKeepsOthers(s, ch, port, mtu, depth, f, ch2);
    }
  }

  /** The scheduler part of `open`: enable every transmit ring of the
      device on its scheduler port, program traffic class 0's channel and
      enable the scheduler. */
  method Schedule(n: Nic, dev: nat) returns (r: (Nic, seq<Io>))
    requires Valid(n) && dev < |n.ndevs| && n.ndevs[dev].schedPort.Some?
    requires n.ndevs[dev].schedPort.value.sched < |n.scheds|
    ensures Valid(r.0)
    ensures var d := n.ndevs[dev]; var sp := d.schedPort.value; var s := n.scheds[sp.sched];
      && s.cfg.fcScale >= 1
      && |r.0.scheds| == |n.scheds| && r.0 == n.(scheds := n.scheds[sp.sched := r.0.scheds[sp.sched]])
      && SchedProgrammed(s, r.0.scheds[sp.sched], Scheduler.Channel(s.cfg, sp.index, 0), d.port, n.maxTxMtu, n.txFifoDepth)
      && (forall j :: 0 <= j < |d.txq| ==> d.txq[j] < |n.txqs| && n.txqs[d.txq[j]].index.Some?)
      && r.1 == QueueWrites(n, d.txq, sp)
  {
    var d := n.ndevs[dev];
    var sp := d.schedPort.value;
    assert DevValid(n, d);
    assert RingsValid(n, Queues.Tx) && Rings(n, Queues.Tx) == n.txqs;
    assert forall j :: 0 <= j < |d.txq| ==> Queues.Valid(n.txqs[d.txq[j]]);
    var s := n.scheds[sp.sched];
    var s' := ProgramSched(s, sp.index, d.port, n.maxTxMtu, n.txFifoDepth);
    var n' := n.(scheds := n.scheds[sp.sched := s']);
    assert forall i :: 0 <= i < |n'.scheds| ==> n'.scheds[i].cfg.fcScale >= 1;
    SchedUpdateValid(n, n');
    r := (n', QueueWrites(n, d.txq, sp));
  }

  /** Replacing schedulers by ones with a positive flow-control scale
      keeps the interface invariant. */
  lemma SchedUpdateValid(n: Nic, n': Nic)
    requires Valid(n) && n' == n.(scheds := n'.scheds) && |n'.scheds| == |n.scheds|
    requires forall i :: 0 <= i < |n'.scheds| ==> n'.scheds[i].cfg.fcScale >= 1
    ensures Valid(n')
  {
    assert Rings(n', Queues.Tx) == Rings(n, Queues.Tx) && Rings(n', Queues.Rx) == Rings(n, Queues.Rx);
    forall i | 0 <= i < |n'.ndevs| ensures n'.ndevs[i].port == i && DevValid(n', n'.ndevs[i]) {
      assert DevValid(n, n.ndevs[i]);
    }
  }

  // ---------------------------------------------------------------------
  // open

  /** What the ring phase of `open` leaves: the device holds the first free
      scheduler port and `rxq_count` new receive rings and `txq_count` new
      transmit rings, all ready; nothing else of the device, no other
      device, no scheduler and no parameter changes. */
  predicate RingsUp(n: Nic, n': Nic, dev: nat)
    requires dev < |n.ndevs|
  {
    var d := n.ndevs[dev];
    && |n.ports.free| > 0
    && n'.ports == PortPool(n.ports.all, n.ports.free[1..])
    && |n'.ndevs| == |n.ndevs|
    && (forall i :: 0 <= i < |n.ndevs| && i != dev ==> n'.ndevs[i] == n.ndevs[i])
    && |n'.rxqs| == |n.rxqs| + d.rxqCount && |n'.txqs| == |n.txqs| + d.txqCount
    && (forall i :: 0 <= i < |n.rxqs| ==> n'.rxqs[i] == n.rxqs[i])
    && (forall i :: 0 <= i < |n.txqs| ==> n'.txqs[i] == n.txqs[i])
    && n'.ndevs[dev] == d.(schedPort := Some(n.ports.free[0]),
                           rxq := d.rxq + Span(|n.rxqs|, d.rxqCount),
                           txq := d.txq + Span(|n.txqs|, d.txqCount))
    && (forall i :: |n.rxqs| <= i < |n'.rxqs| ==> Ready(n', Queues.Rx, i, dev))
    && (forall i :: |n.txqs| <= i < |n'.txqs| ==> Ready(n', Queues.Tx, i, dev))
    && n'.scheds == n.scheds
    && n'.maxTxMtu == n.maxTxMtu && n'.txFifoDepth == n.txFifoDepth && n'.indirSize == n.indirSize
  }

  /** The ring phase of `open` finds what it needs: a free scheduler
      port, an open event queue at every position `k % len(eq)` either
      loop visits, a completion queue index for every ring, and ring
      indices for each direction. */
  predicate CanBringUp(n: Nic, dev: nat)
    requires dev < |n.ndevs|
  {
    var d := n.ndevs[dev];
    && |n.ports.free| > 0
    && RingsFit(n, Queues.Rx, d.rxqCount) && RingsFit(n, Queues.Tx, d.txqCount)
    && |n.cqPool.freeList| >= d.rxqCount + d.txqCount
  }

  /** After the receive loop has spent its indices, the transmit loop fits
      exactly when the whole ring phase does. */
  lemma TxFitsAfterRx(n: Nic, n2: Nic, dev: nat)
    requires dev < |n.ndevs| && |n.ports.free| > 0
    requires RingsFit(n, Queues.Rx, n.ndevs[dev].rxqCount)
    requires Spent(n, n2, Queues.Rx, n.ndevs[dev].rxqCount)
    ensures RingsFit(n2, Queues.Tx, n.ndevs[dev].txqCount) <==> CanBringUp(n, dev)
  {
    var c := n.ndevs[dev].txqCount;
    if c > 0 && |n.eqs| > 0 {
      assert forall k :: 0 <= k < c ==> n2.eqs[k % |n2.eqs|].eqn == n.eqs[k % |n.eqs|].eqn;
    }
  }

  /** The first half of `open`: take a scheduler port, then create the
      receive rings, then the transmit rings. */
  method BringUpRings(n: Nic, dev: nat) returns (r: Result<(Nic, seq<Io>)>)
    requires Valid(n) && dev < |n.ndevs|
    ensures |n.ports.free| == 0 ==> r == Err(ResourceExhausted)
    ensures |n.ports.free| > 0 && n.ndevs[dev].rxqCount + n.ndevs[dev].txqCount > 0 && |n.eqs| == 0
      ==> r == Err(NoEventQueue)
    ensures r.Ok? <==> CanBringUp(n, dev)
    ensures r.Ok? ==> Valid(r.value.0) && RingsUp(n, r.value.0, dev)
    ensures r.Ok? ==> RingsLinked(n, r.value.0, dev) && r.value.1 == RingPhaseWrites(n, r.value.0, dev)
  {
    var a := TakeSchedPort(n, dev);
    if a.Err? {
      return Err(a.error);
    }
    r := RingLoops(n, a.value, dev);
  }

  /** The two ring loops of `open`, run on `n1`, which is `n` once the
      device took its scheduler port. */
  method RingLoops(n: Nic, n1: Nic, dev: nat) returns (r: Result<(Nic, seq<Io>)>)
    requires Valid(n) && dev < |n.ndevs| && |n.ports.free| > 0 && Valid(n1)
    requires n1 == n.(ports := PortPool(n.ports.all, n.ports.free[1..]),
                      ndevs := n.ndevs[dev := n.ndevs[dev].(schedPort := Some(n.ports.free[0]))])
    ensures n.ndevs[dev].rxqCount + n.ndevs[dev].txqCount > 0 && |n.eqs| == 0 ==> r == Err(NoEventQueue)
    ensures r.Ok? <==> CanBringUp(n, dev)
    ensures r.Ok? ==> Valid(r.value.0) && RingsUp(n, r.value.0, dev)
    ensures r.Ok? ==> RingsLinked(n, r.value.0, dev) && r.value.1 == RingPhaseWrites(n, r.value.0, dev)
  {
    var d := n.ndevs[dev];
    var rx := OpenRings(n1, dev, Queues.Rx, d.rxqCount);
    if rx.Err? {
      return Err(rx.error);
    }
    var (n2, io2) := rx.value;
    TxFitsAfterRx(n, n2, dev);
    var tx := OpenRings(n2, dev, Queues.Tx, d.txqCount);
    if tx.Err? {
      return Err(tx.error);
    }
    var (n3, io3) := tx.value;
    RingPhaseComposed(n, n1, n2, io2, n3, io3, dev);
    r := Ok((n3, io2 + io3));
  }

  /** The port step and the two ring loops of `open`, each as its contract
      describes it, make up the ring phase. */
  lemma RingPhaseComposed(n: Nic, n1: Nic, n2: Nic, io2: seq<Io>, n3: Nic, io3: seq<Io>, dev: nat)
    requires Valid(n) && dev < |n.ndevs| && |n.ports.free| > 0
    requires n1 == n.(ports := PortPool(n.ports.all, n.ports.free[1..]),
                      ndevs := n.ndevs[dev := n.ndevs[dev].(schedPort := Some(n.ports.free[0]))])
    requires LoopResult(n1, n2, Queues.Rx, dev, n.ndevs[dev].rxqCount, io2)
    requires Valid(n3) && LoopResult(n2, n3, Queues.Tx, dev, n.ndevs[dev].txqCount, io3)
    ensures Valid(n3) && RingsUp(n, n3, dev)
    ensures RingsLinked(n, n3, dev) && io2 + io3 == RingPhaseWrites(n, n3, dev)
  {
    assert Rings(n1, Queues.Rx) == n.rxqs && n1.cqs == n.cqs;
    RingPhaseDone(n, n1, n2, n3, dev);
    RingPhaseLinked(n, n1, n2, n3, dev);
    LoopGrown(n2, n3, Queues.Tx, dev, n.ndevs[dev].txqCount);
    RingPhaseLogged(n, n2, n3, dev, |n2.cqs|, |Rings(n2, Queues.Tx)|, io2, io3);
  }

  /** What the ring phase of `open` on device `dev` leaves in the
      completion queues, the event queues and the allocator: one new
      completion queue per ring, receive rings first, each linked to its
      ring and attached to event queue `k % len(eq)` for pass `k` of its
      loop; each event queue's table grown by exactly the queues attached
      to it; 1024 buffers taken per receive ring. */
  predicate RingsLinked(n: Nic, n': Nic, dev: nat)
    requires dev < |n.ndevs|
  {
    var c0, rxc, txc, len := |n.cqs|, n.ndevs[dev].rxqCount, n.ndevs[dev].txqCount, |n.eqs|;
    && (rxc + txc > 0 ==> len > 0)
    && |n'.cqs| == c0 + rxc + txc && n'.cqs[..c0] == n.cqs
    && |n'.eqs| == len
    && PhaseShaped(n, n', dev)
    && LoopLinks(n', Queues.Rx, c0, |n.rxqs|, len, rxc)
    && LoopLinks(n', Queues.Tx, c0 + rxc, |n.txqs|, len, txc)
    && (len > 0 ==> forall e :: 0 <= e < len ==>
          n'.eqs[e] == n.eqs[e].(cqTable := n.eqs[e].cqTable + AttachedTo(n'.cqs[c0..c0 + rxc], len, e)
                                              + AttachedTo(n'.cqs[c0 + rxc..], len, e)))
    && n'.pkts == Packets.Allocs(n.pkts, rxc * RING_SIZE)
  }

  /** With `len` event queues to pick from, every pass of an `m`-pass
      ring loop whose first pass created completion queue `c0` and ring
      `i0` has its link. */
  predicate LoopLinks(n: Nic, kind: Queues.Kind, c0: nat, i0: nat, len: nat, m: nat)
  {
    len > 0 ==> forall j :: 0 <= j < m ==> LinkedAt(n, kind, c0, i0, len, j)
  }

  /** Every pass of an `m`-pass ring loop whose first pass created
      completion queue `c0` and ring `i0` has its shape. */
  predicate LoopShaped(n: Nic, kind: Queues.Kind, c0: nat, i0: nat, m: nat)
  {
    forall j :: 0 <= j < m ==> ShapedAt(n, kind, c0, i0, j)
  }

  /** Both ring loops of the ring phase of `open` on device `dev` of `n`,
      read from `n'`, have their shape. */
  predicate PhaseShaped(n: Nic, n': Nic, dev: nat)
    requires dev < |n.ndevs|
  {
    var c0, rxc := |n.cqs|, n.ndevs[dev].rxqCount;
    && LoopShaped(n', Queues.Rx, c0, |n.rxqs|, rxc)
    && LoopShaped(n', Queues.Tx, c0 + rxc, |n.txqs|, n.ndevs[dev].txqCount)
  }

  /** The writes of the ring phase of `open` on device `dev`, read back
      from the interface `n'` it leaves: every pass of the receive loop,
      then every pass of the transmit loop. */
  function RingPhaseWrites(n: Nic, n': Nic, dev: nat): seq<Io>
    requires dev < |n.ndevs| && PhaseShaped(n, n', dev)
  {
    var c0, rxc := |n.cqs|, n.ndevs[dev].rxqCount;
    LoopWrites(n', Queues.Rx, c0, |n.rxqs|, rxc) + LoopWrites(n', Queues.Tx, c0 + rxc, |n.txqs|, n.ndevs[dev].txqCount)
  }

  /** A ring loop leaves the rings of both directions, the earlier
      completion queues and the event queue numbers as they were, and only
      adds to the event queue tables. */
  lemma LoopGrown(a: Nic, b: Nic, kind: Queues.Kind, dev: nat, m: nat)
    requires dev < |a.ndevs| && Looped(a, b, kind, m) && Extended(a, b, kind, dev, m)
    ensures Grown(a, b, Queues.Rx) && Grown(a, b, Queues.Tx)
  {
    assert kind == Queues.Rx || kind == Queues.Tx;
  }

  /** The two ring loops compose to `RingsLinked`. */
  lemma RingPhaseLinked(n: Nic, n1: Nic, n2: Nic, n3: Nic, dev: nat)
    requires dev < |n.ndevs| && |n.ports.free| > 0
    requires n1 == n.(ports := PortPool(n.ports.all, n.ports.free[1..]),
                      ndevs := n.ndevs[dev := n.ndevs[dev].(schedPort := Some(n.ports.free[0]))])
    requires Extended(n1, n2, Queues.Rx, dev, n.ndevs[dev].rxqCount) && Looped(n1, n2, Queues.Rx, n.ndevs[dev].rxqCount)
    requires forall j :: 0 <= j < n.ndevs[dev].rxqCount ==> ShapedAt(n2, Queues.Rx, |n.cqs|, |n.rxqs|, j)
    requires Extended(n2, n3, Queues.Tx, dev, n.ndevs[dev].txqCount) && Looped(n2, n3, Queues.Tx, n.ndevs[dev].txqCount)
    requires forall j :: 0 <= j < n.ndevs[dev].txqCount ==> ShapedAt(n3, Queues.Tx, |n2.cqs|, |n2.txqs|, j)
    ensures RingsLinked(n, n3, dev)
  {
    var c0, rxc, len := |n.cqs|, n.ndevs[dev].rxqCount, |n.eqs|;
    var c1 := |n2.cqs|;
    assert Rings(n1, Queues.Rx) == n.rxqs && Rings(n2, Queues.Tx) == n.txqs;
    LoopGrown(n2, n3, Queues.Tx, dev, n.ndevs[dev].txqCount);
    ShapedKept(n2, n3, Queues.Rx, c0, |n.rxqs|, rxc);
    assert n3.cqs[..c0] == n.cqs by {
      assert n3.cqs[..c1] == n2.cqs;
    }
    if len > 0 {
      forall j | 0 <= j < rxc ensures LinkedAt(n3, Queues.Rx, c0, |n.rxqs|, len, j) {
        assert LinkedAt(n2, Queues.Rx, c0, |n.rxqs|, len, j);
        LinkedKept(n2, n3, Queues.Rx, c0 + j, |n.rxqs| + j, j % len);
      }
      assert n3.cqs[c0..c0 + rxc] == n2.cqs[c0..] by {
        assert n3.cqs[..c1] == n2.cqs;
      }
    }
  }

  /** The writes of the two ring loops are the ring phase's: those of the
      receive loop, read back from the interface `n2` it left, and those
      of the transmit loop, whose first pass created completion queue `c1`
      and ring `t1`. */
  lemma RingPhaseLogged(n: Nic, n2: Nic, n3: Nic, dev: nat, c1: nat, t1: nat, io2: seq<Io>, io3: seq<Io>)
    requires dev < |n.ndevs| && PhaseShaped(n, n3, dev) && Grown(n2, n3, Queues.Rx)
    requires c1 == |n.cqs| + n.ndevs[dev].rxqCount && t1 == |n.txqs|
    requires LoopShaped(n2, Queues.Rx, |n.cqs|, |n.rxqs|, n.ndevs[dev].rxqCount)
    requires io2 == LoopWrites(n2, Queues.Rx, |n.cqs|, |n.rxqs|, n.ndevs[dev].rxqCount)
    requires io3 == LoopWrites(n3, Queues.Tx, c1, t1, n.ndevs[dev].txqCount)
    ensures io2 + io3 == RingPhaseWrites(n, n3, dev)
  {
    LoopPassesKept(n2, n3, Queues.Rx, |n.cqs|, |n.rxqs|, n.ndevs[dev].rxqCount);
  }

  /** The port step and the two ring loops compose to `RingsUp`. */
  lemma RingPhaseDone(n: Nic, n1: Nic, n2: Nic, n3: Nic, dev: nat)
    requires Valid(n) && dev < |n.ndevs| && |n.ports.free| > 0
    requires n1 == n.(ports := PortPool(n.ports.all, n.ports.free[1..]),
                      ndevs := n.ndevs[dev := n.ndevs[dev].(schedPort := Some(n.ports.free[0]))])
    requires Extended(n1, n2, Queues.Rx, dev, n.ndevs[dev].rxqCount)
    requires forall i :: |Rings(n1, Queues.Rx)| <= i < |Rings(n2, Queues.Rx)| ==> Ready(n2, Queues.Rx, i, dev)
    requires Extended(n2, n3, Queues.Tx, dev, n.ndevs[dev].txqCount)
    requires forall i :: |Rings(n2, Queues.Tx)| <= i < |Rings(n3, Queues.Tx)| ==> Ready(n3, Queues.Tx, i, dev)
    ensures RingsUp(n, n3, dev)
  {
    assert Rings(n3, Queues.Rx) == Rings(n2, Queues.Rx) && Rings(n2, Queues.Tx) == Rings(n1, Queues.Tx);
    forall i | |n.rxqs| <= i < |n3.rxqs| ensures Ready(n3, Queues.Rx, i, dev) {
      assert Ready(n2, Queues.Rx, i, dev);
    }
  }

  /** What the second half of `open` leaves besides the scheduler:
      every ring of the device enabled, the default indirection table, the
      device up; the rings change only in their enable flags. */
  predicate Configured(n: Nic, n': Nic, dev: nat)
    requires dev < |n.ndevs|
  {
    var d := n.ndevs[dev];
    && |n'.ndevs| == |n.ndevs|
    && (forall i :: 0 <= i < |n.ndevs| && i != dev ==> n'.ndevs[i] == n.ndevs[i])
    && Ok(n'.ndevs[dev].indir) == IndirTable(n.indirSize, d.rxqCount)
    && n'.ndevs[dev] == d.(indir := n'.ndevs[dev].indir, portUp := true)
    && |n'.rxqs| == |n.rxqs| && |n'.txqs| == |n.txqs|
    && (forall i :: 0 <= i < |n.rxqs| ==> n'.rxqs[i] == n.rxqs[i].(enabled := n'.rxqs[i].enabled))
    && (forall i :: 0 <= i < |n.txqs| ==> n'.txqs[i] == n.txqs[i].(enabled := n'.txqs[i].enabled))
    && (forall j :: 0 <= j < |d.rxq| ==> d.rxq[j] < |n'.rxqs| && n'.rxqs[d.rxq[j]].enabled)
    && (forall j :: 0 <= j < |d.txq| ==> d.txq[j] < |n'.txqs| && n'.txqs[d.txq[j]].enabled)
    && n'.ports == n.ports && n'.eqs == n.eqs && n'.cqs == n.cqs && n'.pkts == n.pkts
  }

  /** Every transmit ring of `d` exists and has a hardware index. */
  predicate TxIndexed(n: Nic, d: NetDev)
  {
    forall j :: 0 <= j < |d.txq| ==> d.txq[j] < |n.txqs| && n.txqs[d.txq[j]].index.Some?
  }

  /** The enable commands of `open`: the device's receive rings, then its
      transmit rings, each in list order. */
  function EnableWrites(d: NetDev): (ws: seq<Io>)
    ensures |ws| == |d.rxq| + |d.txq|
    ensures forall j :: 0 <= j < |d.rxq| ==> ws[j] == EnableCmd(Queues.Rx, d.rxq[j])
    ensures forall j :: 0 <= j < |d.txq| ==> ws[|d.rxq| + j] == EnableCmd(Queues.Tx, d.txq[j])
  {
    seq(|d.rxq|, j requires 0 <= j < |d.rxq| => EnableCmd(Queues.Rx, d.rxq[j]))
    + seq(|d.txq|, j requires 0 <= j < |d.txq| => EnableCmd(Queues.Tx, d.txq[j]))
  }

  /** The writes of the second half of `open` for device `d` of `n`, in the
      order issued: the masks and the indirection table, one enable per
      ring, transmit on, the scheduler's queue commands, and receive on. */
  function ConfigWrites(n: Nic, d: NetDev): seq<Io>
    requires d.schedPort.Some? && Steerable(n, d, d.indir) && TxIndexed(n, d)
  {
    SteerWrites(n, d, d.indir) + EnableWrites(d) + [TxOn(d.port)] + QueueWrites(n, d.txq, d.schedPort.value)
    + [RxOn(d.port)]
  }

  /** The log `io` ends with the configuration writes of device `dev`,
      read against the rings and the table as they are in `n'`. */
  predicate ConfigLogged(n': Nic, dev: nat, io: seq<Io>)
    requires dev < |n'.ndevs|
  {
    var d' := n'.ndevs[dev];
    && d'.schedPort.Some? && Steerable(n', d', d'.indir) && TxIndexed(n', d')
    && |ConfigWrites(n', d')| <= |io|
    && io[|io| - |ConfigWrites(n', d')|..] == ConfigWrites(n', d')
  }

  /** The four state steps of the second half of `open` compose to
      `Configured`. */
  lemma ConfiguredHolds(n: Nic, t: seq<nat>, n4: Nic, n6: Nic, n7: Nic, n8: Nic, dev: nat)
    requires dev < |n.ndevs|
    requires Ok(t) == IndirTable(n.indirSize, n.ndevs[dev].rxqCount)
    requires n4 == n.(ndevs := n.ndevs[dev := n.ndevs[dev].(indir := t)])
    requires EnabledAll(n4, n6, n.ndevs[dev])
    requires forall j :: 0 <= j < |n.ndevs[dev].rxq| ==> n.ndevs[dev].rxq[j] < |n.rxqs|
    requires forall j :: 0 <= j < |n.ndevs[dev].txq| ==> n.ndevs[dev].txq[j] < |n.txqs|
    requires n7 == n6.(scheds := n7.scheds)
    requires n8 == n7.(ndevs := n7.ndevs[dev := n7.ndevs[dev].(portUp := true)])
    ensures Configured(n, n8, dev)
  {
  }

  /** The scheduler's queue commands depend on the rings only through
      their hardware indices. */
  lemma QueueWritesSame(n: Nic, n': Nic, ps: seq<nat>, sp: PortRef)
    requires forall j :: 0 <= j < |ps| ==> ps[j] < |n.txqs| && n.txqs[ps[j]].index.Some?
    requires |n'.txqs| == |n.txqs| && forall i :: 0 <= i < |n.txqs| ==> n'.txqs[i].index == n.txqs[i].index
    ensures forall j :: 0 <= j < |ps| ==> ps[j] < |n'.txqs| && n'.txqs[ps[j]].index.Some?
    ensures QueueWrites(n', ps, sp) == QueueWrites(n, ps, sp)
  {
    assert forall j :: 0 <= j < |ps| ==> n'.txqs[ps[j]].index == n.txqs[ps[j]].index;
  }

  /** Transmit on, and receive on, for a port. */
  function TxOn(port: nat): Io
  {
    Io(PortCtrl(port), Write32(PORT_CTRL_REG_TX_CTRL, PORT_TX_CTRL_EN))
  }

  function RxOn(port: nat): Io
  {
    Io(PortCtrl(port), Write32(PORT_CTRL_REG_RX_CTRL, PORT_RX_CTRL_EN))
  }

  /** The steps of the second half of `open`, from `n`: the indirection
      table `t` and its steering writes `io4` (giving `n4`), the ring
      enables `io56` (giving `n6`), the scheduler programming `io7` (giving
      `n7`), the port marked up (giving `n8`), and `io` the whole log with
      transmit on before the scheduler and receive on last. */
  predicate ConfigureSteps(n: Nic, dev: nat, t: seq<nat>, n4: Nic, io4: seq<Io>, n6: Nic, io56: seq<Io>,
                           n7: Nic, io7: seq<Io>, n8: Nic, io: seq<Io>)
  {
    && Valid(n) && dev < |n.ndevs| && n.ndevs[dev].schedPort.Some?
    && Ok(t) == IndirTable(n.indirSize, n.ndevs[dev].rxqCount)
    && n4 == n.(ndevs := n.ndevs[dev := n.ndevs[dev].(indir := t)])
    && Steerable(n, n.ndevs[dev], t) && io4 == SteerWrites(n, n.ndevs[dev], t)
    && EnabledAll(n4, n6, n4.ndevs[dev])
    && (var d := n4.ndevs[dev];
        && |io56| == |d.rxq| + |d.txq|
        && (forall j :: 0 <= j < |d.rxq| ==> io56[j] == EnableCmd(Queues.Rx, d.rxq[j]))
        && (forall j :: 0 <= j < |d.txq| ==> io56[|d.rxq| + j] == EnableCmd(Queues.Tx, d.txq[j])))
    && Valid(n7) && dev < |n6.ndevs| && n6.ndevs[dev].schedPort.Some?
    && (var d := n6.ndevs[dev]; var sp := d.schedPort.value;
        && |n7.scheds| == |n6.scheds| && sp.sched < |n6.scheds| && n7 == n6.(scheds := n6.scheds[sp.sched := n7.scheds[sp.sched]])
        && (forall j :: 0 <= j < |d.txq| ==> d.txq[j] < |n6.txqs| && n6.txqs[d.txq[j]].index.Some?)
        && io7 == QueueWrites(n6, d.txq, sp))
    && n8 == n7.(ndevs := n7.ndevs[dev := n7.ndevs[dev].(portUp := true)])
    && io == io4 + io56 + [TxOn(n.ndevs[dev].port)] + io7 + [RxOn(n.ndevs[dev].port)]
  }

  /** The steps of the second half of `open` compose: the final state is
      valid and configured, and the log holds every write. */
  lemma ConfigureDone(n: Nic, dev: nat, t: seq<nat>, n4: Nic, io4: seq<Io>, n6: Nic, io56: seq<Io>,
                      n7: Nic, io7: seq<Io>, n8: Nic, io: seq<Io>)
    requires ConfigureSteps(n, dev, t, n4, io4, n6, io56, n7, io7, n8, io)
    ensures Valid(n8) && Configured(n, n8, dev)
    ensures dev < |n8.ndevs| && ConfigLogged(n8, dev, io) && io == ConfigWrites(n8, n8.ndevs[dev])
  {
    ConfigureState(n, dev, t, n4, io4, n6, io56, n7, io7, n8, io);
    ConfigureLog(n, dev, t, n4, io4, n6, io56, n7, io7, n8, io);
  }

  /** The state half of `ConfigureDone`. */
  lemma ConfigureState(n: Nic, dev: nat, t: seq<nat>, n4: Nic, io4: seq<Io>, n6: Nic, io56: seq<Io>,
                       n7: Nic, io7: seq<Io>, n8: Nic, io: seq<Io>)
    requires ConfigureSteps(n, dev, t, n4, io4, n6, io56, n7, io7, n8, io)
    ensures Valid(n8) && Configured(n, n8, dev)
  {
    DevUpdateValid(n7, n8, dev);
    assert DevValid(n, n.ndevs[dev]);
    ConfiguredHolds(n, t, n4, n6, n7, n8, dev);
  }

  /** The log half of `ConfigureDone`: the writes are `ConfigWrites` of the
      final state. */
  lemma ConfigureLog(n: Nic, dev: nat, t: seq<nat>, n4: Nic, io4: seq<Io>, n6: Nic, io56: seq<Io>,
                     n7: Nic, io7: seq<Io>, n8: Nic, io: seq<Io>)
    requires ConfigureSteps(n, dev, t, n4, io4, n6, io56, n7, io7, n8, io)
    requires Configured(n, n8, dev)
    ensures dev < |n8.ndevs| && ConfigLogged(n8, dev, io) && io == ConfigWrites(n8, n8.ndevs[dev])
  {
    var d := n.ndevs[dev];
    var sp := d.schedPort.value;
    var d8 := n8.ndevs[dev];
    assert d8 == d.(indir := t, portUp := true);
    SteerWritesSame(n, d, n8, d8, t);
    assert n8.txqs == n6.txqs;
    QueueWritesSame(n6, n8, d8.txq, sp);
    assert io56 == EnableWrites(d8);
    assert io[|io| - |io|..] == io;
  }

  /** The second half of `open`, once the rings exist: steering, the ring
      enables (receive then transmit), transmit on, the scheduler, and
      receive on last. */
  method Configure(n: Nic, dev: nat) returns (r: Result<(Nic, seq<Io>)>)
    requires Valid(n) && dev < |n.ndevs| && n.ndevs[dev].schedPort.Some?
    requires |n.ndevs[dev].rxq| >= n.ndevs[dev].rxqCount
    ensures r.Err? <==> n.indirSize > 0 && n.ndevs[dev].rxqCount == 0
    ensures r.Err? ==> r.error == NoRxQueues
    ensures r.Ok? ==> Valid(r.value.0) && Configured(n, r.value.0, dev)
    ensures r.Ok? ==> dev < |r.value.0.ndevs| && ConfigLogged(r.value.0, dev, r.value.1)
    ensures r.Ok? ==> r.value.1 == ConfigWrites(r.value.0, r.value.0.ndevs[dev])
    ensures r.Ok? ==> var d := n.ndevs[dev]; var sp := d.schedPort.value;
      && sp.sched < |n.scheds| && n.scheds[sp.sched].cfg.fcScale >= 1
      && |r.value.0.scheds| == |n.scheds| && r.value.0.scheds == n.scheds[sp.sched := r.value.0.scheds[sp.sched]]
      && SchedProgrammed(n.scheds[sp.sched], r.value.0.scheds[sp.sched], Scheduler.Channel(n.scheds[sp.sched].cfg, sp.index, 0),
                         d.port, n.maxTxMtu, n.txFifoDepth)
  {
    var d := n.ndevs[dev];
    var sp := d.schedPort.value;
    assert DevValid(n, d);
    PortSched(n, sp);
    var st := Steer(n, dev);
    if st.Err? {
      return Err(st.error);
    }
    var (n4, io4) := st.value;
    var d4 := n4.ndevs[dev];
    var e6 := EnableAll(n4, dev);
    var (n6, io56) := e6;
    var s7 := Schedule(n6, dev);
    var (n7, io7) := s7;
    var n8 := n7.(ndevs := n7.ndevs[dev := n7.ndevs[dev].(portUp := true)]);
    var io := io4 + io56 + [TxOn(d.port)] + io7 + [RxOn(d.port)];
    ConfigureDone(n, dev, d4.indir, n4, io4, n6, io56, n7, io7, n8, io);
    r := Ok((n8, io));
  }

  /** What a successful `open` of a down device leaves: the device holds
      the first free scheduler port and its new rings, all open, sized as
      asked and enabled; it is up with the default indirection table; no
      other device changes and older rings change at most in their enable
      flag; its scheduler is programmed. */
  ghost predicate Opened(n: Nic, n': Nic, dev: nat)
    requires dev < |n.ndevs|
  {
    var d := n.ndevs[dev];
    && |n.ports.free| > 0
    && n'.ports == PortPool(n.ports.all, n.ports.free[1..])
    && |n'.ndevs| == |n.ndevs|
    && (forall i :: 0 <= i < |n.ndevs| && i != dev ==> n'.ndevs[i] == n.ndevs[i])
    && var d' := n'.ndevs[dev]; var sp := n.ports.free[0];
    && d' == d.(schedPort := Some(sp), rxq := d.rxq + Span(|n.rxqs|, d.rxqCount),
                txq := d.txq + Span(|n.txqs|, d.txqCount), indir := d'.indir, portUp := true)
    && Ok(d'.indir) == IndirTable(n.indirSize, d.rxqCount)
    && |n'.rxqs| == |n.rxqs| + d.rxqCount && |n'.txqs| == |n.txqs| + d.txqCount
    && (forall i :: 0 <= i < |n.rxqs| ==> n'.rxqs[i] == n.rxqs[i].(enabled := n'.rxqs[i].enabled))
    && (forall i :: 0 <= i < |n.txqs| ==> n'.txqs[i] == n.txqs[i].(enabled := n'.txqs[i].enabled))
    && (forall i :: |n.rxqs| <= i < |n'.rxqs| ==> Ready(n', Queues.Rx, i, dev))
    && (forall i :: |n.txqs| <= i < |n'.txqs| ==> Ready(n', Queues.Tx, i, dev))
    && (forall j :: 0 <= j < |d'.rxq| ==> d'.rxq[j] < |n'.rxqs| && n'.rxqs[d'.rxq[j]].enabled)
    && (forall j :: 0 <= j < |d'.txq| ==> d'.txq[j] < |n'.txqs| && n'.txqs[d'.txq[j]].enabled)
    && sp.sched < |n.scheds| && n.scheds[sp.sched].cfg.fcScale >= 1
    && |n'.scheds| == |n.scheds| && n'.scheds == n.scheds[sp.sched := n'.scheds[sp.sched]]
    && SchedProgrammed(n.scheds[sp.sched], n'.scheds[sp.sched], Scheduler.Channel(n.scheds[sp.sched].cfg, sp.index, 0),
                       d.port, n.maxTxMtu, n.txFifoDepth)
    && RingsLinked(n, n', dev)
  }

  /** The two halves of `open` compose to `Opened`. */
  lemma OpenedFrom(n: Nic, m: Nic, n': Nic, dev: nat)
    requires dev < |n.ndevs| && dev < |m.ndevs|
    requires RingsUp(n, m, dev) && Configured(m, n', dev) && m.ndevs[dev].schedPort.Some?
    requires RingsLinked(n, n', dev)
    requires var sp := m.ndevs[dev].schedPort.value;
      && sp.sched < |m.scheds| && m.scheds[sp.sched].cfg.fcScale >= 1
      && |n'.scheds| == |m.scheds| && n'.scheds == m.scheds[sp.sched := n'.scheds[sp.sched]]
      && SchedProgrammed(m.scheds[sp.sched], n'.scheds[sp.sched], Scheduler.Channel(m.scheds[sp.sched].cfg, sp.index, 0),
                         m.ndevs[dev].port, m.maxTxMtu, m.txFifoDepth)
    ensures Opened(n, n', dev)
  {
    forall i | |n.rxqs| <= i < |n'.rxqs| ensures Ready(n', Queues.Rx, i, dev) {
      assert Ready(m, Queues.Rx, i, dev);
    }
    forall i | |n.txqs| <= i < |n'.txqs| ensures Ready(n', Queues.Tx, i, dev) {
      assert Ready(m, Queues.Tx, i, dev);
    }
  }

  /** The configuration writes still end the log behind the writes of the
      ring phase. */
  lemma LoggedBehind(n': Nic, dev: nat, pre: seq<Io>, io: seq<Io>)
    requires dev < |n'.ndevs| && ConfigLogged(n', dev, io)
    ensures ConfigLogged(n', dev, pre + io)
  {
    var c := |ConfigWrites(n', n'.ndevs[dev])|;
    assert (pre + io)[|pre + io| - c..] == io[|io| - c..];
  }

  /** `NetDev.open`: nothing to do on a device that is up; otherwise the
      ring phase then the configuration phase, failing without a free
      scheduler port, without an event queue to attach rings to, with an
      exhausted index pool, or with an indirection table but no receive
      ring. */
  method Open(n: Nic, dev: nat) returns (r: Result<(Nic, seq<Io>)>)
    requires Valid(n) && dev < |n.ndevs|
    ensures r.Ok? ==> Valid(r.value.0)
    ensures n.ndevs[dev].portUp ==> r == Ok((n, []))
    ensures !n.ndevs[dev].portUp && |n.ports.free| == 0 ==> r == Err(ResourceExhausted)
    ensures var d := n.ndevs[dev];
      !d.portUp && |n.ports.free| > 0 && d.rxqCount + d.txqCount > 0 && |n.eqs| == 0 ==> r == Err(NoEventQueue)
    ensures !n.ndevs[dev].portUp && n.indirSize > 0 && n.ndevs[dev].rxqCount == 0 ==> r.Err?
    ensures !n.ndevs[dev].portUp ==>
      (r.Ok? <==> CanBringUp(n, dev) && !(n.indirSize > 0 && n.ndevs[dev].rxqCount == 0))
    ensures r.Ok? && !n.ndevs[dev].portUp ==> dev < |r.value.0.ndevs| && Opened(n, r.value.0, dev)
    ensures r.Ok? && !n.ndevs[dev].portUp ==> dev < |r.value.0.ndevs| && ConfigLogged(r.value.0, dev, r.value.1)
    ensures r.Ok? && !n.ndevs[dev].portUp ==> dev < |r.value.0.ndevs| && OpenLogged(n, r.value.0, dev, r.value.1)
  {
    if n.ndevs[dev].portUp {
      return Ok((n, []));
    }
    r := OpenDown(n, dev);
  }

  /** `open` on a device that is down: the ring phase, then the
      configuration phase. */
  method OpenDown(n: Nic, dev: nat) returns (r: Result<(Nic, seq<Io>)>)
    requires Valid(n) && dev < |n.ndevs| && !n.ndevs[dev].portUp
    ensures r.Ok? ==> Valid(r.value.0)
    ensures |n.ports.free| == 0 ==> r == Err(ResourceExhausted)
    ensures var d := n.ndevs[dev];
      |n.ports.free| > 0 && d.rxqCount + d.txqCount > 0 && |n.eqs| == 0 ==> r == Err(NoEventQueue)
    ensures n.indirSize > 0 && n.ndevs[dev].rxqCount == 0 ==> r.Err?
    ensures r.Ok? <==> CanBringUp(n, dev) && !(n.indirSize > 0 && n.ndevs[dev].rxqCount == 0)
    ensures r.Ok? ==> dev < |r.value.0.ndevs| && Opened(n, r.value.0, dev)
    ensures r.Ok? ==> dev < |r.value.0.ndevs| && ConfigLogged(r.value.0, dev, r.value.1)
    ensures r.Ok? ==> dev < |r.value.0.ndevs| && OpenLogged(n, r.value.0, dev, r.value.1)
  {
    var a := BringUpRings(n, dev);
    if a.Err? {
      return Err(a.error);
    }
    var (m, ioA) := a.value;
    RingsUpConfigurable(n, m, dev);
    var b := Configure(m, dev);
    if b.Err? {
      return Err(b.error);
    }
    var (n', ioB) := b.value;
    OpenComposed(n, m, ioA, n', ioB, dev);
    r := Ok((n', ioA + ioB));
  }

  /** After the ring phase the device holds a scheduler port and at
      least as many receive rings as it asked for, which is what the
      configuration phase needs. */
  lemma RingsUpConfigurable(n: Nic, m: Nic, dev: nat)
    requires dev < |n.ndevs| && RingsUp(n, m, dev)
    ensures dev < |m.ndevs| && m.ndevs[dev].schedPort.Some?
    ensures |m.ndevs[dev].rxq| >= m.ndevs[dev].rxqCount == n.ndevs[dev].rxqCount
    ensures m.indirSize == n.indirSize
  {
  }

  /** The ring phase and the configuration phase of `open` compose: the
      state is `Opened`, and the log is the ring phase's writes followed
      by the configuration's. */
  lemma OpenComposed(n: Nic, m: Nic, ioA: seq<Io>, n': Nic, ioB: seq<Io>, dev: nat)
    requires dev < |n.ndevs| && dev < |m.ndevs|
    requires RingsUp(n, m, dev) && RingsLinked(n, m, dev) && ioA == RingPhaseWrites(n, m, dev)
    requires m.ndevs[dev].schedPort.Some? && Configured(m, n', dev)
    requires dev < |n'.ndevs| && ConfigLogged(n', dev, ioB) && ioB == ConfigWrites(n', n'.ndevs[dev])
    requires var sp := m.ndevs[dev].schedPort.value;
      && sp.sched < |m.scheds| && m.scheds[sp.sched].cfg.fcScale >= 1
      && |n'.scheds| == |m.scheds| && n'.scheds == m.scheds[sp.sched := n'.scheds[sp.sched]]
      && SchedProgrammed(m.scheds[sp.sched], n'.scheds[sp.sched], Scheduler.Channel(m.scheds[sp.sched].cfg, sp.index, 0),
                         m.ndevs[dev].port, m.maxTxMtu, m.txFifoDepth)
    ensures Opened(n, n', dev) && ConfigLogged(n', dev, ioA + ioB) && OpenLogged(n, n', dev, ioA + ioB)
  {
    ConfigureKeepsRings(n, m, n', dev);
    OpenedFrom(n, m, n', dev);
    LoggedBehind(n', dev, ioA, ioB);
  }

  /** The log of a successful `open` of device `dev` of `n` that left
      `n'`: the ring phase's writes, then the configuration's, both read
      back from `n'`. */
  ghost predicate OpenLogged(n: Nic, n': Nic, dev: nat, io: seq<Io>)
    requires dev < |n.ndevs| && dev < |n'.ndevs|
  {
    var d' := n'.ndevs[dev];
    && PhaseShaped(n, n', dev) && d'.schedPort.Some? && Steerable(n', d', d'.indir) && TxIndexed(n', d')
    && io == RingPhaseWrites(n, n', dev) + ConfigWrites(n', d')
  }

  /** The configuration phase changes the rings only in their enable
      flags and leaves the completion queues, the event queues and the
      allocator alone, so the ring phase reads the same from after it. */
  lemma ConfigureKeepsRings(n: Nic, m: Nic, n': Nic, dev: nat)
    requires dev < |n.ndevs| && dev < |m.ndevs| && RingsLinked(n, m, dev) && Configured(m, n', dev)
    ensures RingsLinked(n, n', dev) && RingPhaseWrites(n, n', dev) == RingPhaseWrites(n, m, dev)
  {
    ConfiguredGrown(m, n', dev);
    PhaseKept(n, m, n', dev);
  }

  lemma ConfiguredGrown(m: Nic, n': Nic, dev: nat)
    requires dev < |m.ndevs| && Configured(m, n', dev)
    ensures Grown(m, n', Queues.Rx) && Grown(m, n', Queues.Tx)
    ensures n'.cqs == m.cqs && n'.eqs == m.eqs && n'.pkts == m.pkts
  {
    assert Rings(m, Queues.Rx) == m.rxqs && Rings(m, Queues.Tx) == m.txqs;
    assert Rings(n', Queues.Rx) == n'.rxqs && Rings(n', Queues.Tx) == n'.txqs;
  }

  /** Growing both directions without touching the completion queues,
      the event queues or the allocator keeps what the ring phase left. */
  lemma PhaseKept(n: Nic, m: Nic, n': Nic, dev: nat)
    requires dev < |n.ndevs| && RingsLinked(n, m, dev)
    requires Grown(m, n', Queues.Rx) && Grown(m, n', Queues.Tx)
    requires n'.cqs == m.cqs && n'.eqs == m.eqs && n'.pkts == m.pkts
    ensures RingsLinked(n, n', dev) && RingPhaseWrites(n, n', dev) == RingPhaseWrites(n, m, dev)
  {
    PhaseShapesKept(n, m, n', dev);
    PhaseLinksKept(n, m, n', dev);
  }

  lemma PhaseShapesKept(n: Nic, m: Nic, n': Nic, dev: nat)
    requires dev < |n.ndevs| && PhaseShaped(n, m, dev)
    requires Grown(m, n', Queues.Rx) && Grown(m, n', Queues.Tx)
    ensures PhaseShaped(n, n', dev) && RingPhaseWrites(n, n', dev) == RingPhaseWrites(n, m, dev)
  {
    LoopShapeKept(m, n', Queues.Rx, |n.cqs|, |n.rxqs|, n.ndevs[dev].rxqCount);
    LoopShapeKept(m, n', Queues.Tx, |n.cqs| + n.ndevs[dev].rxqCount, |n.txqs|, n.ndevs[dev].txqCount);
  }

  /** Growing keeps the shape and the writes of a loop. */
  lemma LoopShapeKept(a: Nic, b: Nic, kind: Queues.Kind, c0: nat, i0: nat, m: nat)
    requires Grown(a, b, kind) && LoopShaped(a, kind, c0, i0, m)
    ensures LoopShaped(b, kind, c0, i0, m)
    ensures LoopPasses(b, kind, c0, i0, m) == LoopPasses(a, kind, c0, i0, m)
  {
    ShapedKept(a, b, kind, c0, i0, m);
    LoopPassesKept(a, b, kind, c0, i0, m);
  }

  lemma PhaseLinksKept(n: Nic, m: Nic, n': Nic, dev: nat)
    requires dev < |n.ndevs|
    requires LoopLinks(m, Queues.Rx, |n.cqs|, |n.rxqs|, |n.eqs|, n.ndevs[dev].rxqCount)
    requires LoopLinks(m, Queues.Tx, |n.cqs| + n.ndevs[dev].rxqCount, |n.txqs|, |n.eqs|, n.ndevs[dev].txqCount)
    requires Grown(m, n', Queues.Rx) && Grown(m, n', Queues.Tx)
    ensures LoopLinks(n', Queues.Rx, |n.cqs|, |n.rxqs|, |n.eqs|, n.ndevs[dev].rxqCount)
    ensures LoopLinks(n', Queues.Tx, |n.cqs| + n.ndevs[dev].rxqCount, |n.txqs|, |n.eqs|, n.ndevs[dev].txqCount)
  {
    var c0, rxc, txc, len := |n.cqs|, n.ndevs[dev].rxqCount, n.ndevs[dev].txqCount, |n.eqs|;
    LinksKept(m, n', Queues.Rx, c0, |n.rxqs|, len, rxc);
    LinksKept(m, n', Queues.Tx, c0 + rxc, |n.txqs|, len, txc);
  }

  /** Growing keeps the links of a loop. */
  lemma LinksKept(a: Nic, b: Nic, kind: Queues.Kind, c0: nat, i0: nat, len: nat, m: nat)
    requires Grown(a, b, kind) && LoopLinks(a, kind, c0, i0, len, m)
    ensures LoopLinks(b, kind, c0, i0, len, m)
  {
    if len > 0 {
      forall j | 0 <= j < m ensures LinkedAt(b, kind, c0, i0, len, j) {
        assert LinkedAt(a, kind, c0, i0, len, j);
        LinkedKept(a, b, kind, c0 + j, i0 + j, j % len);
      }
    }
  }


  // ---------------------------------------------------------------------
  // start_xmit

  /** The ring `start_xmit` was asked for, 0 when none was named. */
  function RingArg(ring: Option<int>): int
  {
    if ring.Some? then ring.value else 0
  }

  /** `self.txq[ring_index]`: a Python list index, so `-len <= k < len`
      is accepted and a negative index counts from the end. */
  function TxRing(d: NetDev, ring: Option<int>): (r: Option<nat>)
    ensures r.Some? <==> -|d.txq| <= RingArg(ring) < |d.txq|
    ensures r.Some? ==> r.value < |d.txq| && r.value == RingArg(ring) % |d.txq|
  {
    var k := RingArg(ring);
    if 0 <= k < |d.txq| then Some(k)
    else if -|d.txq| <= k < 0 then Some(|d.txq| + k)
    else None
  }

  /** What `start_xmit` did: nothing on a port that is down, nothing yet on
      a full ring (the driver waits for it to drain), or a packet posted,
      leaving the new interface state and the producer-pointer write. */
  datatype XmitResult = PortDown | RingFull | Posted(n: Nic, io: Io, pkt: nat)

  /** `NetDev.start_xmit`: refuse a packet not shorter than the maximum
      transmit MTU, pick the ring, and hand the packet to it. */
  function StartXmit(n: Nic, dev: nat, data: seq<Byte>, ring: Option<int>, start: Option<nat>, off: Option<nat>)
    : (r: Result<XmitResult>)
    requires Valid(n) && dev < |n.ndevs|
    ensures !n.ndevs[dev].portUp ==> r == Ok(PortDown)
    ensures n.ndevs[dev].portUp && |data| >= n.maxTxMtu ==> r == Err(TooLong)
    ensures n.ndevs[dev].portUp && |data| < n.maxTxMtu ==> (r == Err(NoSuchRing) <==> TxRing(n.ndevs[dev], ring).None?)
    ensures var d := n.ndevs[dev]; var p := TxRing(d, ring);
      d.portUp && |data| < n.maxTxMtu && p.Some? ==>
        && d.txq[p.value] < |n.txqs| && Queues.IsOpen(n.txqs[d.txq[p.value]]) && Queues.Valid(n.txqs[d.txq[p.value]])
        && var q := n.txqs[d.txq[p.value]];
        && (r == Ok(RingFull) <==> Ring.Full(q.geom, q.prod, q.cons))
        && (r.Err? <==> Queues.Xmit(q, n.pkts, data, start, off).Err?)
        && (r.Err? ==> Queues.Xmit(q, n.pkts, data, start, off) == Err(r.error))
    ensures r.Ok? && r.value.Posted? ==> var d := n.ndevs[dev]; var i := d.txq[TxRing(d, ring).value];
      var Posted(n', io, pkt) := r.value;
      && Valid(n') && i < |n.txqs| && |n'.txqs| == |n.txqs| && Queues.IsOpen(n.txqs[i]) && Queues.Valid(n.txqs[i])
      && n' == n.(txqs := n.txqs[i := n'.txqs[i]], pkts := n'.pkts)
      && Queues.Xmit(n.txqs[i], n.pkts, data, start, off) == Ok(Queues.Sent(n'.txqs[i], n'.pkts, pkt, io.w))
      && io.target == RingRegs(Queues.Tx, i)
  {
    var d := n.ndevs[dev];
    if !d.portUp then Ok(PortDown)
    else if |data| >= n.maxTxMtu then Err(TooLong)
    else match TxRing(d, ring)
      case None => Err(NoSuchRing)
      case Some(p) =>
        var i := d.txq[p];
        DevRingValid(n, dev, p);
        var q := n.txqs[i];
        match Queues.Xmit(q, n.pkts, data, start, off)
        case Err(e) => Err(e)
        case Ok(Blocked) => Ok(RingFull)
        case Ok(Sent(q', pkts', pkt, w)) =>
          var n' := n.(txqs := n.txqs[i := q'], pkts := pkts');
          XmitValid(n, i, q', pkts');
          Ok(Posted(n', Io(RingRegs(Queues.Tx, i), w), pkt))
  }

  /** A device's transmit ring is an open, well-formed ring. */
  lemma DevRingValid(n: Nic, dev: nat, p: nat)
    requires Valid(n) && dev < |n.ndevs| && p < |n.ndevs[dev].txq|
    ensures n.ndevs[dev].txq[p] < |n.txqs|
    ensures Queues.IsOpen(n.txqs[n.ndevs[dev].txq[p]]) && Queues.Valid(n.txqs[n.ndevs[dev].txq[p]])
  {
    assert DevValid(n, n.ndevs[dev]);
    assert RingsValid(n, Queues.Tx) && Rings(n, Queues.Tx) == n.txqs;
  }

  /** Replacing one open transmit ring by the same ring with new contents,
      and the buffer pool by a valid one, keeps the interface invariant. */
  lemma XmitValid(n: Nic, i: nat, q': Queues.Queue, pkts': Packets.Packets)
    requires Valid(n) && i < |n.txqs| && Queues.IsOpen(n.txqs[i])
    requires var q := n.txqs[i];
      q' == q.(packets := q'.packets, bytes := q'.bytes, info := q'.info, descs := q'.descs, prod := q'.prod)
    requires Queues.IsOpen(q') && Queues.Valid(q') && Packets.Valid(pkts')
    ensures Valid(n.(txqs := n.txqs[i := q'], pkts := pkts'))
  {
    var n' := n.(txqs := n.txqs[i := q'], pkts := pkts');
    assert Rings(n', Queues.Rx) == Rings(n, Queues.Rx);
    assert RingsValid(n, Queues.Tx) && Rings(n, Queues.Tx) == n.txqs;
    assert RingsValid(n', Queues.Tx);
    forall j | 0 <= j < |n'.ndevs| ensures n'.ndevs[j].port == j && DevValid(n', n'.ndevs[j]) {
      assert DevValid(n, n.ndevs[j]);
    }
  }

  /** Once `open` has succeeded with at least one transmit ring, a packet
      shorter than the MTU sent without naming a ring reaches ring 0: the
      port is up and the ring exists. */
  lemma XmitAfterOpen(n: Nic, n': Nic, dev: nat, data: seq<Byte>, start: Option<nat>, off: Option<nat>)
    requires dev < |n.ndevs| && Opened(n, n', dev) && Valid(n')
    requires n.ndevs[dev].txqCount > 0 && |data| < n'.maxTxMtu
    ensures var r := StartXmit(n', dev, data, None, start, off);
      && r != Ok(PortDown) && r != Err(NoSuchRing)
      && TxRing(n'.ndevs[dev], None) == Some(0)
  {
    var d' := n'.ndevs[dev];
    assert |d'.txq| >= n.ndevs[dev].txqCount;
  }

  /** A negative ring number names the same ring as its distance from the
      end of the list. */
  lemma {:induction false} NegativeRing(d: NetDev, k: int)
    requires 0 < k <= |d.txq|
    ensures TxRing(d, Some(-k)) == TxRing(d, Some(|d.txq| - k)) == Some(|d.txq| - k)
  {
  }

  // ---------------------------------------------------------------------
  // recv_nowait

  /** `NetDev.recv_nowait`: the oldest received packet, or nothing. */
  function RecvNowait(n: Nic, dev: nat): (r: (Option<Completion.RxPacket>, Nic))
    requires dev < |n.ndevs|
    ensures var ps := n.ndevs[dev].rxPkts; var n' := r.1;
      && |n'.ndevs| == |n.ndevs| && n' == n.(ndevs := n.ndevs[dev := n.ndevs[dev].(rxPkts := n'.ndevs[dev].rxPkts)])
      && (r.0.None? <==> ps == [])
      && (r.0.Some? ==> ps == [r.0.value] + n'.ndevs[dev].rxPkts)
      && (r.0.None? ==> n' == n)
    ensures Valid(n) ==> Valid(r.1)
  {
    var d := n.ndevs[dev];
    if d.rxPkts == [] then (None, n)
    else
      var n' := n.(ndevs := n.ndevs[dev := d.(rxPkts := d.rxPkts[1..])]);
      assert Valid(n) ==> Valid(n') by {
        if Valid(n) {
          DevUpdateValid(n, n', dev);
        }
      }
      (Some(d.rxPkts[0]), n')
  }

  /** `k` calls of `recv_nowait`, collecting what they return. */
  function Drain(n: Nic, dev: nat, k: nat): (r: (seq<Completion.RxPacket>, Nic))
    requires dev < |n.ndevs|
    ensures |r.1.ndevs| == |n.ndevs|
    decreases k
  {
    if k == 0 then ([], n)
    else
      var (p, n1) := RecvNowait(n, dev);
      var (ps, n2) := Drain(n1, dev, k - 1);
      (if p.Some? then [p.value] + ps else ps, n2)
  }

  /** Packets come out in the order they were queued: draining as many
      packets as the queue's first part holds returns that part and leaves
      the rest. */
  lemma {:induction false} RecvInOrder(n: Nic, dev: nat, ps: seq<Completion.RxPacket>, qs: seq<Completion.RxPacket>)
    requires dev < |n.ndevs| && n.ndevs[dev].rxPkts == ps + qs
    ensures Drain(n, dev, |ps|).0 == ps
    ensures Drain(n, dev, |ps|).1 == n.(ndevs := n.ndevs[dev := n.ndevs[dev].(rxPkts := qs)])
    decreases |ps|
  {
    if ps == [] {
      assert n.ndevs[dev].(rxPkts := qs) == n.ndevs[dev];
      assert n.ndevs[dev := n.ndevs[dev]] == n.ndevs;
    } else {
      var (p, n1) := RecvNowait(n, dev);
      assert n1.ndevs[dev].rxPkts == ps[1..] + qs;
      RecvInOrder(n1, dev, ps[1..], qs);
    }
  }

  /** Once the queue is empty, `recv_nowait` returns nothing and changes
      nothing, however often it is called. */
  lemma {:induction false} DrainEmpty(n: Nic, dev: nat, k: nat)
    requires dev < |n.ndevs| && n.ndevs[dev].rxPkts == []
    ensures Drain(n, dev, k) == ([], n)
    decreases k
  {
    if k > 0 {
      DrainEmpty(n, dev, k - 1);
    }
  }
}

=== FILE: packets.dfy ===
/** The driver's packet-buffer allocator and the packets it hands around.

    Every descriptor slot of a transmit or receive ring owns at most one
    packet buffer of `pkt_buf_size` bytes.  Buffers are never returned to
    the DMA pool: `free_pkt` queues them for reuse and `alloc_pkt` takes the
    oldest queued buffer before it allocates a new one.  A buffer is named
    here by the order in which it was first allocated. */
module Packets {
  import opened Common

  const PKT_BUF_SIZE: nat := 16384

  /** `allocated_packets` (buffers `0 .. count-1`), the FIFO
      `free_packets`, and the bytes each buffer holds. */
  datatype Packets = Packets(count: nat, free: seq<nat>, mem: map<nat, seq<Byte>>)

  /** Every buffer ever allocated has its full-size contents, and only
      allocated buffers are queued for reuse. */
  predicate Valid(p: Packets)
  {
    && (forall id :: 0 <= id < p.count ==> id in p.mem && |p.mem[id]| == PKT_BUF_SIZE)
    && (forall k :: 0 <= k < |p.free| ==> p.free[k] < p.count)
  }

  function Zeros(n: nat): (r: seq<Byte>)
    ensures |r| == n && forall i :: 0 <= i < n ==> r[i] == 0
  {
    if n == 0 then [] else Zeros(n - 1) + [0]
  }

  function NewPackets(): (p: Packets)
    ensures Valid(p) && p.count == 0 && p.free == []
  {
    Packets(0, [], map[])
  }

  /** `alloc_pkt`: the oldest freed buffer if there is one, otherwise a
      buffer never handed out before. */
  function Alloc(p: Packets): (r: (Packets, nat))
    ensures |p.free| > 0 ==> r.1 == p.free[0] && r.0.free == p.free[1..]
    ensures |p.free| > 0 ==> r.0.count == p.count && r.0.mem == p.mem
    ensures |p.free| == 0 ==> r.1 == p.count && r.0.count == p.count + 1
    ensures |p.free| == 0 ==> r.0.free == [] && r.1 in r.0.mem && r.0.mem[r.1] == Zeros(PKT_BUF_SIZE)
    ensures Valid(p) ==> Valid(r.0) && r.1 < r.0.count
  {
    if |p.free| > 0 then (p.(free := p.free[1..]), p.free[0])
    else
      var id := p.count;
      (Packets(id + 1, [], p.mem[id := Zeros(PKT_BUF_SIZE)]), id)
  }

  /** `free_pkt`: `assert pkt is not None` and `assert pkt in
      allocated_packets`, then queue the buffer for reuse.  Nothing checks
      whether the buffer is already queued. */
  function Free(p: Packets, pkt: Option<nat>): (r: Result<Packets>)
    ensures r.Err? <==> pkt.None? || pkt.value >= p.count
    ensures pkt.None? ==> r == Err(NullPacket)
    ensures pkt.Some? && pkt.value >= p.count ==> r == Err(ForeignPacket)
    ensures r.Ok? ==> r.value.free == p.free + [pkt.value]
    ensures r.Ok? ==> r.value.count == p.count && r.value.mem == p.mem
    ensures r.Ok? && Valid(p) ==> Valid(r.value)
  {
    if pkt.None? then Err(NullPacket)
    else if pkt.value >= p.count then Err(ForeignPacket)
    else Ok(p.(free := p.free + [pkt.value]))
  }

  /** Freed buffers come back in the order they were freed: after freeing
      `x` into an allocator with nothing queued, the next allocation returns
      `x` and leaves the allocator as it was. */
  lemma FreeThenAllocReturnsIt(p: Packets, x: nat)
    requires x < p.count && p.free == []
    ensures Free(p, Some(x)).Ok?
    ensures Alloc(Free(p, Some(x)).value) == (p, x)
  {
  }

  /** A buffer freed behind others waits its turn: the queue is first in,
      first out. */
  lemma {:induction false} AllocDrainsInOrder(p: Packets, k: nat)
    requires k < |p.free|
    ensures AllocN(p, k + 1).1 == p.free[k]
    ensures AllocN(p, k + 1).0.free == p.free[k + 1..]
    decreases k
  {
    if k > 0 {
      var (p1, _) := Alloc(p);
      AllocDrainsInOrder(p1, k - 1);
      assert p1.free[k - 1..] == p.free[k..];
      AllocNShift(p, k);
    }
  }

  /** `k` successive allocations; the buffer handed out last. */
  function AllocN(p: Packets, k: nat): (Packets, nat)
    requires k >= 1
    decreases k
  {
    if k == 1 then Alloc(p) else AllocN(Alloc(p).0, k - 1)
  }

  /** `k` successive `alloc_pkt` calls: the allocator they leave. */
  function Allocs(p: Packets, k: nat): (r: Packets)
    ensures Valid(p) ==> Valid(r) && r.count >= p.count
    decreases k
  {
    if k == 0 then p else Allocs(Alloc(p).0, k - 1)
  }

  /** `a` allocations followed by `b` more are `a + b` allocations. */
  lemma {:induction false} AllocsAdd(p: Packets, a: nat, b: nat)
    ensures Allocs(Allocs(p, a), b) == Allocs(p, a + b)
    decreases a
  {
    if a > 0 {
      AllocsAdd(Alloc(p).0, a - 1, b);
    }
  }

  lemma AllocNShift(p: Packets, k: nat)
    requires k >= 1
    ensures AllocN(p, k + 1) == AllocN(Alloc(p).0, k)
  {
  }

  /** Nothing guards against a double free: freeing the same buffer twice
      is accepted and queues it twice, so two later allocations can hand out
      the same buffer. */
  lemma DoubleFreeAccepted(p: Packets, x: nat)
    requires x < p.count && p.free == []
    ensures Free(p, Some(x)).Ok? && Free(Free(p, Some(x)).value, Some(x)).Ok?
    ensures AllocN(Free(Free(p, Some(x)).value, Some(x)).value, 1).1 == x
    ensures AllocN(Free(Free(p, Some(x)).value, Some(x)).value, 2).1 == x
  {
    var q := Free(Free(p, Some(x)).value, Some(x)).value;
    assert q.free == [x, x];
    AllocDrainsInOrder(q, 1);
  }

  /** `pkt[offset:offset+len(data)] = data` on a buffer's memory. */
  function Store(p: Packets, pkt: nat, offset: nat, data: seq<Byte>): (r: Packets)
    requires Valid(p) && pkt < p.count && offset + |data| <= PKT_BUF_SIZE
    ensures Valid(r) && r.count == p.count && r.free == p.free
    ensures |r.mem[pkt]| == |p.mem[pkt]|
    ensures r.mem[pkt][..offset] == p.mem[pkt][..offset]
    ensures r.mem[pkt][offset..offset + |data|] == data
    ensures r.mem[pkt][offset + |data|..] == p.mem[pkt][offset + |data|..]
    ensures forall id :: id in p.mem && id != pkt ==> id in r.mem && r.mem[id] == p.mem[id]
  {
    var before := p.mem[pkt];
    var after := before[..offset] + data + before[offset + |data|..];
    assert after[offset..offset + |data|] == data;
    p.(mem := p.mem[pkt := after])
  }

  /** `pkt[:length]`: a slice of a buffer, clipped at its end as Python
      slices are. */
  function Prefix(p: Packets, pkt: nat, length: nat): (r: seq<Byte>)
    requires Valid(p) && pkt < p.count
    ensures |r| == Min(length, PKT_BUF_SIZE)
    ensures r == p.mem[pkt][..|r|]
  {
    p.mem[pkt][..Min(length, PKT_BUF_SIZE)]
  }
}

=== FILE: queues.dfy ===
/** `Txq` and `Rxq`: the transmit and receive descriptor rings.

    Both classes share their layout and most of their code: a ring of
    `size` descriptor blocks, each of `desc_block_size` 16-byte descriptors,
    and a parallel array (`tx_info`/`rx_info`) naming the packet buffer each
    slot owns.  The driver produces descriptors at `prod_ptr`; completions
    release the owned buffers, and the consumer pointer then advances over
    the slots that no longer own one. */
module Queues {
  import opened Common
  import Bits
  import Ring
  import Csr
  import Resource
  import Packets
  import CompletionQueue

  const DESC_SIZE: nat := 16
  /** A descriptor other than the last of its block covers at most 4 KiB. */
  const SEG_MAX: nat := 4096
  /** The first transmit descriptor of a multi-descriptor block carries at
      most 42 bytes of the packet. */
  const TX_HEAD_MAX: nat := 42
  /** Transmit data starts 10 bytes into its packet buffer. */
  const TX_DATA_OFFSET: nat := 10
  /** A receive ring is refilled only when at least 8 slots are free. */
  const RX_REFILL_MIN: nat := 8

  datatype Kind = Tx | Rx

  /** A descriptor's address field: 0 for an empty segment, otherwise an
      offset into one packet buffer. */
  datatype Addr = NoAddr | BufAddr(pkt: nat, offset: nat)

  /** One descriptor: a length and an address. */
  datatype Seg = Seg(len: nat, addr: Addr)

  /** One descriptor block: the checksum command of its first descriptor
      (always 0 on receive) and its segments. */
  datatype DescBlock = DescBlock(csumCmd: nat, segs: seq<Seg>)

  /** The driver's view of one transmit or receive ring.  `ndev` is the
      port of the net device it serves and `cq` the number of its
      completion queue. */
  datatype Queue = Queue(
    kind: Kind,
    regs: Option<Resource.Window>,
    index: Option<nat>,
    geom: Ring.Geometry,
    logDbs: nat,
    dbs: nat,
    ndev: Option<nat>,
    cq: Option<nat>,
    prod: nat,
    cons: nat,
    info: seq<Option<nat>>,
    descs: seq<DescBlock>,
    packets: nat,
    bytes: nat,
    enabled: bool)

  function NewQueue(kind: Kind): (q: Queue)
    ensures q.kind == kind && !IsOpen(q) && !q.enabled && q.index.None?
    ensures q.ndev.None? && q.cq.None? && q.prod == 0 && q.cons == 0 && q.info == []
    ensures q.packets == 0 && q.bytes == 0
  {
    Queue(kind, None, None, Ring.Geometry(0, 0, 0, 0), 0, 0, None, None, 0, 0, [], [], 0, 0, false)
  }

  predicate IsOpen(q: Queue)
  {
    q.regs.Some?
  }

  /** The slots from the producer pointer up to one ring ahead of the
      consumer own no buffer. */
  predicate Unowned(q: Queue)
    requires q.geom.Valid() && |q.info| == q.geom.size
  {
    forall k: nat | q.prod <= k < q.cons + q.geom.size :: q.info[Ring.Index(q.geom, k)].None?
  }

  /** What an open ring always satisfies: at most one ring of descriptors
      in flight, and nothing owned ahead of the producer. */
  predicate Valid(q: Queue)
  {
    IsOpen(q) ==>
      && q.geom.Valid() && q.dbs == Bits.Pow2(q.logDbs)
      && |q.info| == q.geom.size && |q.descs| == q.geom.size
      && q.index.Some? && q.cq.Some? && q.ndev.Some?
      && q.cons <= q.prod <= q.cons + q.geom.size
      && Unowned(q)
  }

  /** Every buffer a slot owns was handed out by the allocator. */
  predicate OwnsAllocated(info: seq<Option<nat>>, pkts: Packets.Packets)
  {
    forall i :: 0 <= i < |info| && info[i].Some? ==> info[i].value < pkts.count
  }

  /** Two pointers less than one ring apart name different slots. */
  lemma IndexDistinct(g: Ring.Geometry, a: nat, b: nat)
    requires g.Valid() && a < b < a + g.size
    ensures Ring.Index(g, a) != Ring.Index(g, b)
  {
    Bits.ResiduesDiffer(a, b, g.size);
  }

  /** Every slot is named by exactly one pointer of any window of one ring. */
  lemma IndexCovers(g: Ring.Geometry, lo: nat, i: nat) returns (k: nat)
    requires g.Valid() && i < g.size
    ensures lo <= k < lo + g.size && Ring.Index(g, k) == i
  {
    var r := lo % g.size;
    k := if i >= r then lo - r + i else lo - r + g.size + i;
    assert lo == (lo / g.size) * g.size + r;
    if i >= r {
      Bits.DivModUnique(k, g.size, lo / g.size, i);
    } else {
      Bits.DivModUnique(k, g.size, lo / g.size + 1, i);
    }
  }

  // ---------------------------------------------------------------------
  // Descriptor segments
  // ---------------------------------------------------------------------

  /** Descriptors `k .. dbs-1` of a block describing bytes `offset ..
      length` of a buffer whose described data starts at `base`: each
      descriptor but the last takes up to 4 KiB, the last takes the rest,
      and an empty one carries address 0. */
  function Segs(pkt: nat, base: nat, length: nat, offset: nat, k: nat, dbs: nat): (r: seq<Seg>)
    requires offset <= length && k <= dbs
    ensures |r| == dbs - k
    ensures k < dbs ==> Total(r) == length - offset
    decreases dbs - k
  {
    if k >= dbs then []
    else
      var seg := if k < dbs - 1 then Min(length - offset, SEG_MAX) else length - offset;
      var head := Seg(seg, if seg != 0 then BufAddr(pkt, base + offset) else NoAddr);
      var rest := Segs(pkt, base, length, offset + seg, k + 1, dbs);
      assert k + 1 == dbs ==> seg == length - offset;
      [head] + rest
  }

  /** The shape of a descriptor block over bytes `lo .. hi` of buffer
      `pkt`: no descriptor but the last exceeds 4 KiB, a descriptor is
      empty exactly when it has no address, and every address lies in that
      range of that buffer. */
  predicate Shaped(r: seq<Seg>, pkt: nat, lo: nat, hi: nat)
  {
    && (forall j :: 0 <= j < |r| - 1 ==> r[j].len <= SEG_MAX)
    && (forall j :: 0 <= j < |r| ==> (r[j].len == 0 <==> r[j].addr.NoAddr?))
    && (forall j :: 0 <= j < |r| && r[j].addr.BufAddr? ==>
          r[j].addr.pkt == pkt && lo <= r[j].addr.offset && r[j].addr.offset + r[j].len <= hi)
  }

  /** Every block `Segs` builds has that shape. */
  lemma {:induction false} SegsShape(pkt: nat, base: nat, length: nat, offset: nat, k: nat, dbs: nat)
    requires offset <= length && k <= dbs
    ensures Shaped(Segs(pkt, base, length, offset, k, dbs), pkt, base + offset, base + length)
    decreases dbs - k
  {
    if k < dbs {
      var seg := SegsHead(pkt, base, length, offset, k, dbs);
      var rest := Segs(pkt, base, length, offset + seg, k + 1, dbs);
      SegsShape(pkt, base, length, offset + seg, k + 1, dbs);
      assert Shaped(rest, pkt, base + (offset + seg), base + length);
      ShapedCons(Seg(seg, if seg != 0 then BufAddr(pkt, base + offset) else NoAddr),
                 rest, pkt, base + offset, base + (offset + seg), base + length);
    }
  }

  /** A well-shaped head in front of a well-shaped run is well shaped. */
  lemma ShapedCons(head: Seg, rest: seq<Seg>, pkt: nat, lo: nat, mid: nat, hi: nat)
    requires lo <= mid && Shaped(rest, pkt, mid, hi)
    requires rest != [] ==> head.len <= SEG_MAX
    requires head.len == 0 <==> head.addr.NoAddr?
    requires head.addr.BufAddr? ==> head.addr.pkt == pkt && lo <= head.addr.offset && head.addr.offset + head.len <= hi
    ensures Shaped([head] + rest, pkt, lo, hi)
  {
    var r := [head] + rest;
    assert forall j :: 1 <= j < |r| ==> r[j] == rest[j - 1];
  }

  /** The number of bytes a run of descriptors covers. */
  function Total(segs: seq<Seg>): nat
  {
    if segs == [] then 0 else segs[0].len + Total(segs[1..])
  }

  /** Every segment with an address lies inside a buffer of `n` bytes. */
  predicate InBounds(n: nat, segs: seq<Seg>)
  {
    segs == [] || ((segs[0].addr.BufAddr? ==> segs[0].addr.offset + segs[0].len <= n) && InBounds(n, segs[1..]))
  }

  /** What the hardware reads when it follows a run of descriptors into
      one buffer: the described bytes, segment after segment. */
  function Gather(mem: seq<Byte>, segs: seq<Seg>): (r: seq<Byte>)
    requires InBounds(|mem|, segs)
  {
    if segs == [] then []
    else
      var s := segs[0];
      (if s.addr.BufAddr? then mem[s.addr.offset..s.addr.offset + s.len] else [])
        + Gather(mem, segs[1..])
  }

  /** Gathering the descriptors of `Segs` gives back exactly the bytes
      they were built from: the segments are contiguous, in order, and
      cover the data once. */
  lemma {:induction false} SegsGather(mem: seq<Byte>, pkt: nat, base: nat, length: nat, offset: nat, k: nat, dbs: nat)
    requires offset <= length && k < dbs && base + length <= |mem|
    ensures InBounds(|mem|, Segs(pkt, base, length, offset, k, dbs))
    ensures Gather(mem, Segs(pkt, base, length, offset, k, dbs)) == mem[base + offset..base + length]
    decreases dbs - k
  {
    var seg := SegsHead(pkt, base, length, offset, k, dbs);
    var head := Seg(seg, if seg != 0 then BufAddr(pkt, base + offset) else NoAddr);
    var rest := Segs(pkt, base, length, offset + seg, k + 1, dbs);
    if k + 1 < dbs {
      SegsGather(mem, pkt, base, length, offset + seg, k + 1, dbs);
    }
    assert InBounds(|mem|, rest) && Gather(mem, rest) == mem[base + offset + seg..base + length];
    GatherCons(mem, head, rest);
    SliceSplit(mem, base + offset, base + offset + seg, base + length);
  }

  /** The first descriptor of a run, and the run after it. */
  lemma SegsHead(pkt: nat, base: nat, length: nat, offset: nat, k: nat, dbs: nat) returns (seg: nat)
    requires offset <= length && k < dbs
    ensures offset + seg <= length && (k + 1 == dbs ==> offset + seg == length)
    ensures k + 1 < dbs ==> seg <= SEG_MAX
    ensures Segs(pkt, base, length, offset, k, dbs)
      == [Seg(seg, if seg != 0 then BufAddr(pkt, base + offset) else NoAddr)]
         + Segs(pkt, base, length, offset + seg, k + 1, dbs)
    ensures k + 1 == dbs ==> Segs(pkt, base, length, offset + seg, k + 1, dbs) == []
  {
    seg := if k < dbs - 1 then Min(length - offset, SEG_MAX) else length - offset;
  }

  /** Gathering a run of descriptors one at a time. */
  lemma GatherCons(mem: seq<Byte>, head: Seg, rest: seq<Seg>)
    requires head.addr.BufAddr? ==> head.addr.offset + head.len <= |mem|
    requires InBounds(|mem|, rest)
    ensures InBounds(|mem|, [head] + rest)
    ensures Gather(mem, [head] + rest)
      == (if head.addr.BufAddr? then mem[head.addr.offset..head.addr.offset + head.len] else [])
         + Gather(mem, rest)
  {
    assert ([head] + rest)[0] == head && ([head] + rest)[1..] == rest;
  }

  lemma SliceSplit<T>(s: seq<T>, a: nat, b: nat, c: nat)
    requires a <= b <= c <= |s|
    ensures s[a..c] == s[a..b] + s[b..c]
  {
  }

  /** The descriptor block `start_xmit` writes for a `length`-byte packet
      stored at offset 10 of buffer `pkt`: with more than one descriptor the
      first takes at most 42 bytes, the rest follow `Segs`. */
  function TxSegs(pkt: nat, length: nat, dbs: nat): (r: seq<Seg>)
    requires dbs >= 1
    ensures |r| == dbs && Total(r) == length
    ensures dbs > 1 ==> r[0].len == Min(length, TX_HEAD_MAX)
    ensures Shaped(r, pkt, TX_DATA_OFFSET, TX_DATA_OFFSET + length)
  {
    var first := if dbs > 1 then Min(length, TX_HEAD_MAX) else length;
    var head := Seg(first, if first != 0 then BufAddr(pkt, TX_DATA_OFFSET) else NoAddr);
    var rest := Segs(pkt, TX_DATA_OFFSET, length, first, 1, dbs);
    SegsShape(pkt, TX_DATA_OFFSET, length, first, 1, dbs);
    assert dbs == 1 ==> rest == [];
    var r := [head] + rest;
    assert r[1..] == rest;
    assert forall j :: 1 <= j < |r| ==> r[j] == rest[j - 1];
    r
  }

  /** The transmit descriptors describe exactly the packet data stored at
      offset 10 of the buffer. */
  lemma TxSegsGather(mem: seq<Byte>, pkt: nat, length: nat, dbs: nat)
    requires dbs >= 1 && TX_DATA_OFFSET + length <= |mem|
    ensures InBounds(|mem|, TxSegs(pkt, length, dbs))
    ensures Gather(mem, TxSegs(pkt, length, dbs)) == mem[TX_DATA_OFFSET..TX_DATA_OFFSET + length]
  {
    var r := TxSegs(pkt, length, dbs);
    var first := if dbs > 1 then Min(length, TX_HEAD_MAX) else length;
    var head := Seg(first, if first != 0 then BufAddr(pkt, TX_DATA_OFFSET) else NoAddr);
    var rest := Segs(pkt, TX_DATA_OFFSET, length, first, 1, dbs);
    assert r == [head] + rest;
    if dbs > 1 {
      SegsGather(mem, pkt, TX_DATA_OFFSET, length, first, 1, dbs);
    }
    assert InBounds(|mem|, rest) && Gather(mem, rest) == mem[TX_DATA_OFFSET + first..TX_DATA_OFFSET + length];
    GatherCons(mem, head, rest);
    SliceSplit(mem, TX_DATA_OFFSET, TX_DATA_OFFSET + first, TX_DATA_OFFSET + length);
  }

  /** The descriptor block of a receive slot: the whole 16 KiB buffer. */
  function RxSegs(pkt: nat, dbs: nat): (r: seq<Seg>)
    requires dbs >= 1
    ensures |r| == dbs && Total(r) == Packets.PKT_BUF_SIZE
    ensures Shaped(r, pkt, 0, Packets.PKT_BUF_SIZE)
  {
    SegsShape(pkt, 0, Packets.PKT_BUF_SIZE, 0, 0, dbs);
    Segs(pkt, 0, Packets.PKT_BUF_SIZE, 0, 0, dbs)
  }

  /** A receive block lets the hardware fill every byte of its buffer. */
  lemma RxSegsGather(mem: seq<Byte>, pkt: nat, dbs: nat)
    requires dbs >= 1 && |mem| == Packets.PKT_BUF_SIZE
    ensures InBounds(|mem|, RxSegs(pkt, dbs))
    ensures Gather(mem, RxSegs(pkt, dbs)) == mem
  {
    SegsGather(mem, pkt, 0, Packets.PKT_BUF_SIZE, 0, 0, dbs);
  }

  // ---------------------------------------------------------------------
  // Ring pointers
  // ---------------------------------------------------------------------

  /** The consumer pointer after cleanup: from `cons` it passes every slot
      that no longer owns a buffer and stops at the producer pointer or at
      the first slot still owned. */
  function Advance(g: Ring.Geometry, info: seq<Option<nat>>, cons: nat, prod: nat): (c: nat)
    requires g.Valid() && |info| == g.size && cons <= prod
    ensures cons <= c <= prod
    ensures forall k: nat | cons <= k < c :: info[Ring.Index(g, k)].None?
    ensures c == prod || info[Ring.Index(g, c)].Some?
    decreases prod - cons
  {
    if cons == prod || info[Ring.Index(g, cons)].Some? then cons
    else Advance(g, info, cons + 1, prod)
  }

  /** The cleanup pointer is the only one with that property. */
  lemma AdvanceUnique(g: Ring.Geometry, info: seq<Option<nat>>, cons: nat, prod: nat, c: nat)
    requires g.Valid() && |info| == g.size && cons <= c <= prod
    requires forall k: nat | cons <= k < c :: info[Ring.Index(g, k)].None?
    requires c == prod || info[Ring.Index(g, c)].Some?
    ensures c == Advance(g, info, cons, prod)
  {
    var a := Advance(g, info, cons, prod);
    if c < a {
      assert false;
    } else if a < c {
      assert false;
    }
  }

  /** Releasing buffers and then cleaning up keeps a ring valid: a slot that
      re-enters the window ahead of the producer was passed by cleanup, so
      it owns nothing. */
  lemma AdvanceKeepsValid(q: Queue, info: seq<Option<nat>>)
    requires IsOpen(q) && Valid(q) && |info| == q.geom.size
    requires forall i :: 0 <= i < |info| && q.info[i].None? ==> info[i].None?
    ensures Valid(q.(info := info, cons := Advance(q.geom, info, q.cons, q.prod)))
  {
    var c := Advance(q.geom, info, q.cons, q.prod);
    var q' := q.(info := info, cons := c);
    forall k: nat | q'.prod <= k < q'.cons + q'.geom.size
      ensures info[Ring.Index(q.geom, k)].None?
    {
      if k >= q.cons + q.geom.size {
        Ring.PhaseOpposite(q.geom, k - q.geom.size);
      }
    }
  }

  /** `read_cons_ptr()`: take the hardware's 16-bit consumer pointer. */
  function ReadConsPtr(q: Queue, val: nat): (q': Queue)
    ensures q' == q.(cons := q'.cons)
    ensures q.cons <= q'.cons < q.cons + Ring.PTR_SPAN
    ensures q'.cons % Ring.PTR_SPAN == (val / Ring.PTR_SPAN) % Ring.PTR_SPAN
  {
    q.(cons := Ring.ReadConsPtr(q.cons, val))
  }

  /** `write_prod_ptr()`: report the producer pointer's low 16 bits. */
  function WriteProdPtr(q: Queue): (w: RegWrite)
    ensures w.Write32? && w.offset == Csr.QUEUE_CTRL_STATUS_REG
    ensures w.value / 0x1_0000 == Csr.QUEUE_CMD_SET_PROD_PTR / 0x1_0000
    ensures w.value % 0x1_0000 == q.prod % 0x1_0000
  {
    Write32(Csr.QUEUE_CTRL_STATUS_REG, Csr.PtrCmd(Csr.QUEUE_CMD_SET_PROD_PTR, q.prod))
  }

  // ---------------------------------------------------------------------
  // Lifecycle
  // ---------------------------------------------------------------------

  /** What `open` and its refill produce. */
  datatype Opened = Opened(q: Queue, pool: Resource.Pool, cq: CompletionQueue.Cq,
                           pkts: Packets.Packets, writes: seq<RegWrite>)

  /** The register writes of `open`, before any refill: the ring stays
      disabled; `enable` turns it on later. */
  function OpenWrites(g: Ring.Geometry, logDbs: nat, cqn: nat, dma: nat): (w: seq<RegWrite>)
    ensures |w| == 7
    ensures w[0] == Write32(Csr.QUEUE_CTRL_STATUS_REG, Csr.QUEUE_CMD_SET_ENABLE)
    ensures w[1] == Write32(Csr.QUEUE_BASE_ADDR_VF_REG, dma % 0x1_0000_0000 - dma % 0x1000)
    ensures w[2] == Write32(Csr.QUEUE_BASE_ADDR_VF_REG + 4, dma / 0x1_0000_0000)
    ensures w[3] == Write32(Csr.QUEUE_CTRL_STATUS_REG, Csr.QueueSizeCmd(logDbs, g.logSize))
    ensures w[4] == Write32(Csr.QUEUE_CTRL_STATUS_REG, Csr.Cmd(Csr.QUEUE_CMD_SET_CQN, cqn))
    ensures w[5] == Write32(Csr.QUEUE_CTRL_STATUS_REG, Csr.QUEUE_CMD_SET_PROD_PTR)
    ensures w[6] == Write32(Csr.QUEUE_CTRL_STATUS_REG, Csr.QUEUE_CMD_SET_CONS_PTR)
  {
    [Write32(Csr.QUEUE_CTRL_STATUS_REG, Csr.FlagCmd(Csr.QUEUE_CMD_SET_ENABLE, false))]
    + Csr.BaseAddrWrites(Csr.QUEUE_BASE_ADDR_VF_REG, dma)
    + [ Write32(Csr.QUEUE_CTRL_STATUS_REG, Csr.QueueSizeCmd(logDbs, g.logSize)),
        Write32(Csr.QUEUE_CTRL_STATUS_REG, Csr.Cmd(Csr.QUEUE_CMD_SET_CQN, cqn)),
        Write32(Csr.QUEUE_CTRL_STATUS_REG, Csr.PtrCmd(Csr.QUEUE_CMD_SET_PROD_PTR, 0)),
        Write32(Csr.QUEUE_CTRL_STATUS_REG, Csr.PtrCmd(Csr.QUEUE_CMD_SET_CONS_PTR, 0)) ]
  }

  /** The handle a completion queue keeps on the ring it serves. */
  function Ref(kind: Kind, index: nat): QueueRef
  {
    if kind == Tx then TxRef(index) else RxRef(index)
  }

  /** What a successful `open(ndev, cq, req, dbsReq)` leaves behind, as
      seen from outside the ring: an open, consistent ring of the given
      kind for device `ndev`, sized to the largest powers of two not above
      the requests, serving on `cq`, which now points back at it. */
  predicate OpenedFor(o: Opened, kind: Kind, ndev: nat, cq: CompletionQueue.Cq, req: nat, dbsReq: nat)
  {
    && IsOpen(o.q) && Valid(o.q) && Packets.Valid(o.pkts)
    && o.q.kind == kind && o.q.ndev == Some(ndev) && o.q.cq == cq.cqn
    && o.q.geom.size <= req < 2 * o.q.geom.size
    && o.q.dbs <= dbsReq < 2 * o.q.dbs
    && o.cq == cq.(src := Some(Ref(kind, o.q.index.value)))
  }

  /** What `open` wrote and allocated: the programming writes for the
      ring's sizes and completion queue, then the refill's; the allocator
      as the refill left it. */
  predicate Programmed(o: Opened, cq: CompletionQueue.Cq, dma: nat, pkts: Packets.Packets)
  {
    && cq.cqn.Some?
    && o.writes == OpenWrites(o.q.geom, o.q.logDbs, cq.cqn.value, dma) + RefillWrites(o.q)
    && o.pkts == RefillAllocs(o.q, pkts)
  }

  /** `open(ndev, cq, size, desc_block_size)`: claim an index, size the ring
      and its descriptor blocks, take over the completion queue, program
      the hardware and, for a receive ring, fill it with buffers. */
  function Open(q: Queue, pool: Resource.Pool, ndev: nat, cq: CompletionQueue.Cq, req: nat, dbsReq: nat,
                dma: nat, pkts: Packets.Packets): (r: Result<Opened>)
    requires Packets.Valid(pkts)
    ensures IsOpen(q) ==> r == Err(AlreadyOpen)
    ensures !IsOpen(q) && |pool.freeList| == 0 ==> r == Err(ResourceExhausted)
    ensures !IsOpen(q) && |pool.freeList| > 0 && (req == 0 || dbsReq == 0) ==> r == Err(BadSize)
    ensures !IsOpen(q) && |pool.freeList| > 0 && req > 0 && dbsReq > 0 && cq.cqn.None? ==> r == Err(NotOpen)
    ensures r.Ok? <==> !IsOpen(q) && |pool.freeList| > 0 && req > 0 && dbsReq > 0 && cq.cqn.Some?
    ensures r.Ok? ==> var o := r.value;
      && IsOpen(o.q) && Valid(o.q) && Packets.Valid(o.pkts) && OwnsAllocated(o.q.info, o.pkts)
      && o.q.kind == q.kind && o.q.enabled == q.enabled
      && o.q.index.value in pool.freeList
      && multiset(o.pool.freeList) + multiset{o.q.index.value} == multiset(pool.freeList)
      && |o.pool.freeList| + 1 == |pool.freeList|
      && (Resource.Valid(pool) ==> Resource.Valid(o.pool))
      && o.q.geom.size <= req < 2 * o.q.geom.size
      && o.q.dbs <= dbsReq < 2 * o.q.dbs
      && o.q.ndev == Some(ndev) && o.q.cq == cq.cqn && o.q.cons == 0
      && o.cq == cq.(src := Some(Ref(q.kind, o.q.index.value)))
      && (q.kind == Tx || o.q.geom.size < RX_REFILL_MIN ==> o.q.prod == 0 && o.pkts == pkts)
      && (q.kind == Rx && o.q.geom.size >= RX_REFILL_MIN ==> o.q.prod == o.q.geom.size)
      && OpenedFor(o, q.kind, ndev, cq, req, dbsReq)
      && Programmed(o, cq, dma, pkts)
  {
    if IsOpen(q) then Err(AlreadyOpen)
    else match Resource.Claim(pool)
      case Err(e) => Err(e)
      case Ok((pool', index, win)) =>
        match Setup(q, win, index, ndev, cq, req, dbsReq, dma, pkts)
        case Err(e) => Err(e)
        case Ok((q', cq', pkts', w)) => Ok(Opened(q', pool', cq', pkts', w))
  }

  /** `open` once the index is claimed: size the ring, take over the
      completion queue, program the hardware disabled, and refill a
      receive ring.  The writes start with the disable command. */
  function Setup(q: Queue, win: Resource.Window, index: nat, ndev: nat, cq: CompletionQueue.Cq,
                 req: nat, dbsReq: nat, dma: nat, pkts: Packets.Packets)
    : (r: Result<(Queue, CompletionQueue.Cq, Packets.Packets, seq<RegWrite>)>)
    requires Packets.Valid(pkts)
    ensures r.Err? <==> req == 0 || dbsReq == 0 || cq.cqn.None?
    ensures r.Err? ==> r.error == (if req == 0 || dbsReq == 0 then BadSize else NotOpen)
    ensures r.Ok? ==> var o := Opened(r.value.0, Resource.Pool(0, 0, [], map[]), r.value.1, r.value.2, r.value.3);
      && IsOpen(o.q) && Valid(o.q) && Packets.Valid(o.pkts) && OwnsAllocated(o.q.info, o.pkts)
      && o.q.kind == q.kind && o.q.enabled == q.enabled && o.q.index == Some(index)
      && o.q.geom.size <= req < 2 * o.q.geom.size
      && o.q.dbs <= dbsReq < 2 * o.q.dbs
      && o.q.ndev == Some(ndev) && o.q.cq == cq.cqn && o.q.cons == 0
      && o.cq == cq.(src := Some(Ref(q.kind, index)))
      && (q.kind == Tx || o.q.geom.size < RX_REFILL_MIN ==> o.q.prod == 0 && o.pkts == pkts)
      && (q.kind == Rx && o.q.geom.size >= RX_REFILL_MIN ==> o.q.prod == o.q.geom.size)
      && |o.writes| >= 7 && o.writes[0] == Write32(Csr.QUEUE_CTRL_STATUS_REG, Csr.QUEUE_CMD_SET_ENABLE)
      && Programmed(o, cq, dma, pkts)
  {
    match Ring.Geom(req)
    case Err(e) => Err(e)
    case Ok(g) =>
      match Ring.Geom(dbsReq)
      case Err(e) => Err(e)
      case Ok(d) =>
        if cq.cqn.None? then Err(NotOpen)
        else
          var q1 := Fresh(q, win, index, g, d, ndev, cq.cqn.value);
          var (q2, pkts2, w2) := Populate(q1, pkts);
          Ok((q2, cq.(src := Some(Ref(q.kind, index))), pkts2, OpenWrites(g, d.logSize, cq.cqn.value, dma) + w2))
  }

  /** The last step of `open`: a receive ring is refilled, a transmit ring
      is left empty. */
  function Populate(q: Queue, pkts: Packets.Packets): (r: (Queue, Packets.Packets, seq<RegWrite>))
    requires IsOpen(q) && Valid(q) && Packets.Valid(pkts) && q.prod == 0 && q.cons == 0
    requires forall i :: 0 <= i < |q.info| ==> q.info[i].None?
    ensures r.2 == RefillWrites(r.0) && r.1 == RefillAllocs(q, pkts)
    ensures var (q', pkts', _) := r;
      && IsOpen(q') && Valid(q') && Packets.Valid(pkts') && OwnsAllocated(q'.info, pkts')
      && q' == q.(prod := q'.prod, info := q'.info, descs := q'.descs)
      && (q.kind == Tx || q.geom.size < RX_REFILL_MIN ==> q'.prod == 0 && pkts' == pkts)
      && (q.kind == Rx && q.geom.size >= RX_REFILL_MIN ==> q'.prod == q.geom.size)
  {
    assert OwnsAllocated(q.info, pkts);
    if q.kind == Tx then (q, pkts, []) else Refill(q, pkts)
  }

  /** Whether `open` refills the ring: only a receive ring, and only when
      its free slots (all of them) reach the refill threshold. */
  predicate Refilled(q: Queue)
  {
    q.kind == Rx && q.geom.size >= RX_REFILL_MIN
  }

  /** The writes of the refill at the end of `open`: the new producer
      pointer of a refilled ring, nothing otherwise. */
  function RefillWrites(q: Queue): seq<RegWrite>
  {
    if Refilled(q) then [WriteProdPtr(q)] else []
  }

  /** The refill writes do not depend on the enable flag. */
  lemma RefillWritesEnabled(q: Queue, b: bool)
    ensures RefillWrites(q.(enabled := b)) == RefillWrites(q)
  {
  }

  /** The allocator after the refill at the end of `open`: one `alloc_pkt`
      per slot of a refilled ring, untouched otherwise. */
  function RefillAllocs(q: Queue, pkts: Packets.Packets): Packets.Packets
  {
    if Refilled(q) then Packets.Allocs(pkts, q.geom.size) else pkts
  }

  /** The state `open` sets up before any refill: both pointers at 0 and
      no slot owning a buffer. */
  function Fresh(q: Queue, win: Resource.Window, index: nat, g: Ring.Geometry, d: Ring.Geometry,
                 ndev: nat, cqn: nat): (q1: Queue)
    requires g.Valid() && d.Valid()
    ensures IsOpen(q1) && Valid(q1) && q1.prod == 0 && q1.cons == 0
    ensures q1.kind == q.kind && q1.enabled == q.enabled && q1.geom == g && q1.dbs == d.size
    ensures q1.index == Some(index) && q1.ndev == Some(ndev) && q1.cq == Some(cqn)
    ensures forall i :: 0 <= i < |q1.info| ==> q1.info[i].None?
  {
    Queue(q.kind, Some(win), Some(index), g, d.logSize, d.size, Some(ndev), Some(cqn),
          0, 0, seq(g.size, _ => None), seq(g.size, _ => DescBlock(0, [])),
          q.packets, q.bytes, q.enabled)
  }

  /** `close()`: nothing when not open; otherwise disable the ring, release
      the completion queue and return the index.  Owned buffers stay
      owned: `free_buf` is the caller's job. */
  function Close(q: Queue, pool: Resource.Pool, cq: CompletionQueue.Cq)
    : (r: (Queue, Resource.Pool, CompletionQueue.Cq, seq<RegWrite>))
    requires Valid(q)
    ensures !IsOpen(q) ==> r == (q, pool, cq, [])
    ensures IsOpen(q) ==> var (q', pool', cq', w) := r;
      && !IsOpen(q') && !q'.enabled && q'.index.None? && q'.cq.None? && q'.ndev.None?
      && q'.info == q.info && q'.prod == q.prod && q'.cons == q.cons
      && cq' == cq.(src := None)
      && multiset(pool'.freeList) == multiset(pool.freeList) + multiset{q.index.value}
      && (Resource.Valid(pool) && q.index.value < pool.count ==> Resource.Valid(pool'))
      && w == [Write32(Csr.QUEUE_CTRL_STATUS_REG, Csr.QUEUE_CMD_SET_ENABLE)]
  {
    if !IsOpen(q) then (q, pool, cq, [])
    else
      var (q1, w) := Disable(q);
      (q1.(regs := None, index := None, cq := None, ndev := None), Resource.Free(pool, q.index.value),
       cq.(src := None), w)
  }

  /** `enable()`: only an open ring can be enabled. */
  function Enable(q: Queue): (r: Result<(Queue, seq<RegWrite>)>)
    ensures r.Err? <==> !IsOpen(q)
    ensures r.Err? ==> r.error == NotOpen
    ensures r.Ok? ==>
      r.value.0 == q.(enabled := true)
      && r.value.1 == [Write32(Csr.QUEUE_CTRL_STATUS_REG, Csr.QUEUE_CMD_SET_ENABLE + 1)]
  {
    if !IsOpen(q) then Err(NotOpen)
    else Ok((q.(enabled := true), [Write32(Csr.QUEUE_CTRL_STATUS_REG, Csr.FlagCmd(Csr.QUEUE_CMD_SET_ENABLE, true))]))
  }

  /** `disable()`: nothing when not open. */
  function Disable(q: Queue): (r: (Queue, seq<RegWrite>))
    ensures !IsOpen(q) ==> r == (q, [])
    ensures IsOpen(q) ==>
      r.0 == q.(enabled := false)
      && r.1 == [Write32(Csr.QUEUE_CTRL_STATUS_REG, Csr.QUEUE_CMD_SET_ENABLE)]
  {
    if !IsOpen(q) then (q, [])
    else (q.(enabled := false), [Write32(Csr.QUEUE_CTRL_STATUS_REG, Csr.FlagCmd(Csr.QUEUE_CMD_SET_ENABLE, false))])
  }

  /** Enabling and then disabling an open ring leaves it as it was apart
      from the flag, with the two commands differing only in bit 0. */
  lemma EnableThenDisable(q: Queue)
    requires IsOpen(q)
    ensures Enable(q).Ok? && Disable(Enable(q).value.0).0 == q.(enabled := false)
    ensures Enable(q).value.1[0].value == Disable(Enable(q).value.0).1[0].value + 1
  {
  }

  // ---------------------------------------------------------------------
  // Buffers
  // ---------------------------------------------------------------------

  /** `free_desc(index)`: give the slot's buffer back to the allocator. */
  function FreeDesc(q: Queue, pkts: Packets.Packets, i: nat): (r: Result<(Queue, Packets.Packets)>)
    requires i < |q.info|
    ensures r.Err? <==> q.info[i].None? || q.info[i].value >= pkts.count
    ensures r.Ok? ==>
      r.value.0 == q.(info := q.info[i := None])
      && r.value.1 == pkts.(free := pkts.free + [q.info[i].value])
  {
    match Packets.Free(pkts, q.info[i])
    case Err(e) => Err(e)
    case Ok(p') => Ok((q.(info := q.info[i := None]), p'))
  }

  /** Every slot from `cons` up to `prod` owns an allocated buffer. */
  predicate AllOwned(q: Queue, pkts: Packets.Packets)
    requires q.geom.Valid() && |q.info| == q.geom.size
  {
    forall k: nat | q.cons <= k < q.prod ::
      q.info[Ring.Index(q.geom, k)].Some? && q.info[Ring.Index(q.geom, k)].value < pkts.count
  }

  /** The buffers owned by the slots from `cons` up to `prod`, in ring order. */
  function InFlight(q: Queue): (r: seq<Option<nat>>)
    requires q.geom.Valid() && |q.info| == q.geom.size && q.cons <= q.prod
    ensures |r| == q.prod - q.cons
  {
    seq(q.prod - q.cons, j requires 0 <= j < q.prod - q.cons => q.info[Ring.Index(q.geom, q.cons + j)])
  }

  function Wrap(s: seq<nat>): (r: seq<Option<nat>>)
    ensures |r| == |s| && forall j :: 0 <= j < |s| ==> r[j] == Some(s[j])
  {
    seq(|s|, j requires 0 <= j < |s| => Some(s[j]))
  }

  /** `free_buf()`: release the buffer of every slot between the consumer
      and producer pointers, in ring order, leaving the ring empty. */
  function FreeBuf(q: Queue, pkts: Packets.Packets): (r: Result<(Queue, Packets.Packets)>)
    requires IsOpen(q) && Valid(q)
    ensures r.Ok? <==> AllOwned(q, pkts)
    ensures r.Err? ==> r.error == NullPacket || r.error == ForeignPacket
    ensures r.Ok? ==> var (q', pkts') := r.value;
      && IsOpen(q') && Valid(q') && q'.cons == q'.prod == q.prod
      && (forall i :: 0 <= i < |q'.info| ==> q'.info[i].None?)
      && pkts'.count == pkts.count && pkts'.mem == pkts.mem
      && |pkts'.free| >= |pkts.free| && pkts'.free[..|pkts.free|] == pkts.free
      && Wrap(pkts'.free[|pkts.free|..]) == InFlight(q)
    decreases q.prod - q.cons
  {
    if q.cons == q.prod then
      EmptyUnowned(q);
      assert pkts.free[|pkts.free|..] == [];
      Ok((q, pkts))
    else
      var i := Ring.Index(q.geom, q.cons);
      match FreeDesc(q, pkts, i)
      case Err(e) => Err(e)
      case Ok((q1, p1)) =>
        var q2 := q1.(cons := q.cons + 1);
        FreeBufStep(q, q2);
        var r := FreeBuf(q2, p1);
        FreeBufOwned(q, pkts, q2, p1, r.Ok?);
        if r.Ok? then
          FreeBufOrder(q, q2, pkts.free, p1.free, r.value.1.free);
          r
        else r
  }

  /** An open ring with nothing in flight owns no buffer at all. */
  lemma EmptyUnowned(q: Queue)
    requires IsOpen(q) && Valid(q) && q.cons == q.prod
    ensures forall i :: 0 <= i < |q.info| ==> q.info[i].None?
  {
    forall i | 0 <= i < |q.info|
      ensures q.info[i].None?
    {
      var k := IndexCovers(q.geom, q.cons, i);
    }
  }

  /** One step of `free_buf` frees the oldest in-flight buffer first. */
  lemma FreeBufOrder(q: Queue, q2: Queue, f0: seq<nat>, f1: seq<nat>, f2: seq<nat>)
    requires q.geom.Valid() && |q.info| == q.geom.size && q.cons < q.prod
    requires q2.geom == q.geom && |q2.info| == |q.info| && q2.cons == q.cons + 1 && q2.prod == q.prod
    requires forall k: nat | q2.cons <= k < q2.prod ::
      q2.info[Ring.Index(q.geom, k)] == q.info[Ring.Index(q.geom, k)]
    requires q.info[Ring.Index(q.geom, q.cons)].Some?
    requires f1 == f0 + [q.info[Ring.Index(q.geom, q.cons)].value]
    requires |f2| >= |f1| && f2[..|f1|] == f1 && Wrap(f2[|f1|..]) == InFlight(q2)
    ensures |f2| >= |f0| && f2[..|f0|] == f0 && Wrap(f2[|f0|..]) == InFlight(q)
  {
    assert f2[..|f0|] == f1[..|f0|];
    var a := Wrap(f2[|f0|..]);
    var b := InFlight(q);
    forall j | 0 <= j < |b|
      ensures a[j] == b[j]
    {
      if j > 0 {
        assert f2[|f0| + j] == f2[|f1|..][j - 1];
        assert Wrap(f2[|f1|..])[j - 1] == InFlight(q2)[j - 1];
      } else {
        assert f2[|f0|] == f1[|f0|];
      }
    }
  }

  lemma FreeBufStep(q: Queue, q2: Queue)
    requires IsOpen(q) && Valid(q) && q.cons < q.prod
    requires q2 == q.(info := q.info[Ring.Index(q.geom, q.cons) := None], cons := q.cons + 1)
    ensures IsOpen(q2) && Valid(q2)
    ensures forall k: nat | q2.cons <= k < q2.prod ::
      q2.info[Ring.Index(q.geom, k)] == q.info[Ring.Index(q.geom, k)]
  {
    forall k: nat | q2.prod <= k < q2.cons + q2.geom.size
      ensures q2.info[Ring.Index(q.geom, k)].None?
    {
      if k == q.cons + q.geom.size {
        Ring.PhaseOpposite(q.geom, q.cons);
      }
    }
    forall k: nat | q2.cons <= k < q2.prod
      ensures q2.info[Ring.Index(q.geom, k)] == q.info[Ring.Index(q.geom, k)]
    {
      IndexDistinct(q.geom, q.cons, k);
    }
  }

  lemma FreeBufOwned(q: Queue, pkts: Packets.Packets, q2: Queue, p1: Packets.Packets, restOk: bool)
    requires IsOpen(q) && Valid(q) && q.cons < q.prod
    requires q2.geom == q.geom && |q2.info| == |q.info| && q2.cons == q.cons + 1 && q2.prod == q.prod
    requires forall k: nat | q2.cons <= k < q2.prod ::
      q2.info[Ring.Index(q.geom, k)] == q.info[Ring.Index(q.geom, k)]
    requires q.info[Ring.Index(q.geom, q.cons)].Some? && q.info[Ring.Index(q.geom, q.cons)].value < pkts.count
    requires p1.count == pkts.count
    ensures AllOwned(q, pkts) <==> AllOwned(q2, p1)
  {
  }

  // ---------------------------------------------------------------------
  // Transmit
  // ---------------------------------------------------------------------

  /** `0x8000 | (csum_offset << 8) | csum_start` when both are given, else 0. */
  function CsumCmd(start: Option<nat>, off: Option<nat>): (r: nat)
    ensures start.None? || off.None? ==> r == 0
    ensures start.Some? && off.Some? && off.value < 0x80 && start.value < 0x100 ==>
      r == 0x8000 + off.value * 0x100 + start.value
  {
    if start.Some? && off.Some? then
      CsumCmdValue(start.value, off.value);
      Bits.Or(Bits.Or(0x8000, Bits.Shl(off.value, 8)), start.value)
    else 0
  }

  lemma CsumCmdValue(start: nat, off: nat)
    ensures off < 0x80 && start < 0x100 ==>
      Bits.Or(Bits.Or(0x8000, Bits.Shl(off, 8)), start) == 0x8000 + off * 0x100 + start
  {
    if off < 0x80 && start < 0x100 {
      Bits.Pow2Values();
      Bits.HalfOfPow2(16);
      Bits.OrDisjoint(0x8000, off * 0x100, 15);
      Bits.DivModUnique(0x8000 + off * 0x100, 0x100, 0x80 + off, 0);
      Bits.OrDisjoint(0x8000 + off * 0x100, start, 8);
    }
  }

  /** The checksum command can be read back: bit 15 enables it, bits 8-14
      hold the offset and bits 0-7 the start. */
  lemma CsumCmdFields(start: nat, off: nat)
    requires off < 0x80 && start < 0x100
    ensures CsumCmd(Some(start), Some(off)) < 0x1_0000
    ensures Bits.Field(CsumCmd(Some(start), Some(off)), 15, 1) == 1
    ensures Bits.Field(CsumCmd(Some(start), Some(off)), 8, 7) == off
    ensures Bits.Field(CsumCmd(Some(start), Some(off)), 0, 8) == start
  {
    var r := CsumCmd(Some(start), Some(off));
    Bits.Pow2Values();
    Bits.HalfOfPow2(16);
    Bits.HalfOfPow2(8);
    Bits.DivModUnique(r, 0x100, 0x80 + off, start);
    Bits.DivModUnique(0x80 + off, 0x80, 1, off);
    Bits.DivModUnique(r, 0x8000, 1, off * 0x100 + start);
    Bits.DivModUnique(r, 1, r, 0);
    Bits.DivModUnique(1, 2, 0, 1);
  }

  /** Outcome of `start_xmit` on one ring: sent, or waiting for the ring to
      drain below its full mark. */
  datatype XmitOutcome = Sent(q: Queue, pkts: Packets.Packets, pkt: nat, write: RegWrite) | Blocked

  /** The ring part of `start_xmit`: take a buffer, copy the packet in at
      offset 10, describe it in the producer slot's descriptor block, and
      advance the producer pointer.  A ring at its full mark blocks. */
  function Xmit(q: Queue, pkts: Packets.Packets, data: seq<Byte>, start: Option<nat>, off: Option<nat>)
    : (r: Result<XmitOutcome>)
    requires IsOpen(q) && Valid(q) && Packets.Valid(pkts)
    ensures Ring.Full(q.geom, q.prod, q.cons) <==> r == Ok(Blocked)
    ensures r != Err(SlotBusy)
    ensures r.Err? <==>
      !Ring.Full(q.geom, q.prod, q.cons)
      && (TX_DATA_OFFSET + |data| > Packets.PKT_BUF_SIZE || CsumCmd(start, off) >= 0x1_0000)
    ensures r.Err? ==> r.error == TooLong || r.error == FieldOverflow
    ensures r.Ok? && r.value.Sent? ==> var Sent(q', pkts', pkt, w) := r.value;
      var i := Ring.Index(q.geom, q.prod);
      && IsOpen(q') && Valid(q') && Packets.Valid(pkts')
      && (OwnsAllocated(q.info, pkts) ==> OwnsAllocated(q'.info, pkts'))
      && pkt == Packets.Alloc(pkts).1
      && q' == q.(packets := q'.packets, bytes := q'.bytes, info := q'.info, descs := q'.descs, prod := q'.prod)
      && q'.prod == q.prod + 1 && q'.cons == q.cons
      && q'.packets == q.packets + 1 && q'.bytes == q.bytes + |data|
      && q'.info == q.info[i := Some(pkt)]
      && |q'.descs| == |q.descs| && (forall j :: 0 <= j < |q.descs| && j != i ==> q'.descs[j] == q.descs[j])
      && q'.descs[i].csumCmd == CsumCmd(start, off)
      && pkt < pkts'.count && InBounds(|pkts'.mem[pkt]|, q'.descs[i].segs)
      && Gather(pkts'.mem[pkt], q'.descs[i].segs) == data
      && (forall id :: id in pkts.mem && id != pkt ==> id in pkts'.mem && pkts'.mem[id] == pkts.mem[id])
      && w == WriteProdPtr(q')
  {
    if Ring.Full(q.geom, q.prod, q.cons) then Ok(Blocked)
    else
      var i := Ring.Index(q.geom, q.prod);
      if q.info[i].Some? then
        assert false;
        Err(SlotBusy)
      else if TX_DATA_OFFSET + |data| > Packets.PKT_BUF_SIZE then Err(TooLong)
      else
        var csum := CsumCmd(start, off);
        if csum >= 0x1_0000 then Err(FieldOverflow)
        else
          var (q', pkts', pkt) := Enqueue(q, pkts, data, csum);
          EnqueueStores(pkts, data, q.dbs);
          Ok(Sent(q', pkts', pkt, WriteProdPtr(q')))
  }

  /** The producer slot is free and the packet fits: fill the slot and
      advance the producer pointer. */
  function Enqueue(q: Queue, pkts: Packets.Packets, data: seq<Byte>, csum: nat)
    : (r: (Queue, Packets.Packets, nat))
    requires IsOpen(q) && Valid(q) && Packets.Valid(pkts)
    requires !Ring.Full(q.geom, q.prod, q.cons) && TX_DATA_OFFSET + |data| <= Packets.PKT_BUF_SIZE
    ensures var (q', pkts', pkt) := r;
      var i := Ring.Index(q.geom, q.prod);
      && IsOpen(q') && Valid(q') && Packets.Valid(pkts')
      && (OwnsAllocated(q.info, pkts) ==> OwnsAllocated(q'.info, pkts'))
      && pkt == Packets.Alloc(pkts).1
      && q' == q.(packets := q'.packets, bytes := q'.bytes, info := q'.info, descs := q'.descs, prod := q'.prod)
      && q'.prod == q.prod + 1 && q'.cons == q.cons
      && q'.packets == q.packets + 1 && q'.bytes == q.bytes + |data|
      && q'.info == q.info[i := Some(pkt)]
      && |q'.descs| == |q.descs| && (forall j :: 0 <= j < |q.descs| && j != i ==> q'.descs[j] == q.descs[j])
      && q'.descs[i] == DescBlock(csum, TxSegs(pkt, |data|, q.dbs))
      && pkts' == Packets.Store(Packets.Alloc(pkts).0, pkt, TX_DATA_OFFSET, data)
  {
    var i := Ring.Index(q.geom, q.prod);
    var (pkts1, pkt) := Packets.Alloc(pkts);
    var pkts2 := Packets.Store(pkts1, pkt, TX_DATA_OFFSET, data);
    var q' := q.(packets := q.packets + 1, bytes := q.bytes + |data|,
                 info := q.info[i := Some(pkt)],
                 descs := q.descs[i := DescBlock(csum, TxSegs(pkt, |data|, q.dbs))],
                 prod := q.prod + 1);
    XmitKeepsValid(q, q', pkt);
    (q', pkts2, pkt)
  }

  /** The buffer `start_xmit` takes holds the packet at offset 10, its
      descriptors lead the hardware back to exactly those bytes, and no
      other buffer changes. */
  lemma EnqueueStores(pkts: Packets.Packets, data: seq<Byte>, dbs: nat)
    requires Packets.Valid(pkts) && TX_DATA_OFFSET + |data| <= Packets.PKT_BUF_SIZE && dbs >= 1
    ensures var (pkts1, pkt) := Packets.Alloc(pkts);
      var pkts' := Packets.Store(pkts1, pkt, TX_DATA_OFFSET, data);
      && pkt < pkts'.count && InBounds(|pkts'.mem[pkt]|, TxSegs(pkt, |data|, dbs))
      && Gather(pkts'.mem[pkt], TxSegs(pkt, |data|, dbs)) == data
      && (forall id :: id in pkts.mem && id != pkt ==> id in pkts'.mem && pkts'.mem[id] == pkts.mem[id])
  {
    var (pkts1, pkt) := Packets.Alloc(pkts);
    var pkts' := Packets.Store(pkts1, pkt, TX_DATA_OFFSET, data);
    TxSegsGather(pkts'.mem[pkt], pkt, |data|, dbs);
  }

  lemma XmitKeepsValid(q: Queue, q': Queue, pkt: nat)
    requires IsOpen(q) && Valid(q) && !Ring.Full(q.geom, q.prod, q.cons)
    requires |q'.descs| == |q.descs|
    requires q' == q.(packets := q'.packets, bytes := q'.bytes, descs := q'.descs,
                      info := q.info[Ring.Index(q.geom, q.prod) := Some(pkt)], prod := q.prod + 1)
    ensures q.info[Ring.Index(q.geom, q.prod)].None?
    ensures IsOpen(q') && Valid(q')
  {
    assert q.geom.fullSize < q.geom.size;
    forall k: nat | q'.prod <= k < q'.cons + q'.geom.size
      ensures q'.info[Ring.Index(q.geom, k)].None?
    {
      IndexDistinct(q.geom, q.prod, k);
    }
  }

  // ---------------------------------------------------------------------
  // Receive refill
  // ---------------------------------------------------------------------

  /** `prepare_desc(index)` at the producer slot, then `prod_ptr += 1`. */
  function PrepareDesc(q: Queue, pkts: Packets.Packets): (r: (Queue, Packets.Packets))
    requires IsOpen(q) && Valid(q) && Packets.Valid(pkts) && q.prod < q.cons + q.geom.size
    ensures var (q', pkts') := r;
      var i := Ring.Index(q.geom, q.prod);
      && IsOpen(q') && Valid(q') && Packets.Valid(pkts') && pkts'.count >= pkts.count
      && (OwnsAllocated(q.info, pkts) ==> OwnsAllocated(q'.info, pkts'))
      && pkts' == Packets.Alloc(pkts).0
      && q'.prod == q.prod + 1 && q'.cons == q.cons
      && q'.info == q.info[i := Some(Packets.Alloc(pkts).1)]
      && q'.descs == q.descs[i := DescBlock(0, RxSegs(Packets.Alloc(pkts).1, q.dbs))]
      && Posted(q', q.prod)
  {
    var i := Ring.Index(q.geom, q.prod);
    var (pkts1, pkt) := Packets.Alloc(pkts);
    var q' := q.(info := q.info[i := Some(pkt)], descs := q.descs[i := DescBlock(0, RxSegs(pkt, q.dbs))],
                 prod := q.prod + 1);
    forall k: nat | q'.prod <= k < q'.cons + q'.geom.size
      ensures q'.info[Ring.Index(q.geom, k)].None?
    {
      IndexDistinct(q.geom, q.prod, k);
    }
    (q', pkts1)
  }

  /** Slot `k` holds a buffer and the descriptor block that lends all of
      it to the hardware. */
  predicate Posted(q: Queue, k: nat)
    requires q.geom.Valid() && |q.info| == q.geom.size && |q.descs| == q.geom.size && q.dbs >= 1
  {
    var i := Ring.Index(q.geom, k);
    q.info[i].Some? && q.descs[i] == DescBlock(0, RxSegs(q.info[i].value, q.dbs))
  }

  /** Slot `k` of `q'` holds what it held in `q`. */
  predicate Kept(q: Queue, q': Queue, k: nat)
    requires q.geom.Valid() && |q.info| == q.geom.size && |q.descs| == q.geom.size
    requires |q'.info| == q.geom.size && |q'.descs| == q.geom.size
  {
    var i := Ring.Index(q.geom, k);
    q'.info[i] == q.info[i] && q'.descs[i] == q.descs[i]
  }

  /** `n` rounds of `prepare_desc(prod & size_mask); prod += 1`. */
  function Fill(q: Queue, pkts: Packets.Packets, n: nat): (r: (Queue, Packets.Packets))
    requires IsOpen(q) && Valid(q) && Packets.Valid(pkts) && q.prod + n <= q.cons + q.geom.size
    ensures var (q', pkts') := r;
      && IsOpen(q') && Valid(q') && Packets.Valid(pkts') && pkts'.count >= pkts.count
      && (OwnsAllocated(q.info, pkts) ==> OwnsAllocated(q'.info, pkts'))
      && pkts' == Packets.Allocs(pkts, n)
      && q' == q.(prod := q.prod + n, info := q'.info, descs := q'.descs)
      && (forall k: nat | q.cons <= k < q.prod :: Kept(q, q', k))
      && (forall k: nat | q.prod <= k < q.prod + n :: Posted(q', k))
    decreases n
  {
    if n == 0 then (q, pkts)
    else
      var (q1, pkts1) := PrepareDesc(q, pkts);
      var r := Fill(q1, pkts1, n - 1);
      FillStep(q, q1, r.0, n);
      r
  }

  /** One `prepare_desc` in front of the rest of a fill. */
  lemma FillStep(q: Queue, q1: Queue, q': Queue, n: nat)
    requires IsOpen(q) && Valid(q) && q.prod < q.cons + q.geom.size && n >= 1
    requires q1 == q.(info := q1.info, descs := q1.descs, prod := q.prod + 1)
    requires IsOpen(q1) && Valid(q1) && IsOpen(q') && Valid(q') && q'.geom == q.geom && q'.dbs == q.dbs
    requires q1.info == q.info[Ring.Index(q.geom, q.prod) := q1.info[Ring.Index(q.geom, q.prod)]]
    requires q1.descs == q.descs[Ring.Index(q.geom, q.prod) := q1.descs[Ring.Index(q.geom, q.prod)]]
    requires Posted(q1, q.prod)
    requires forall k: nat | q1.cons <= k < q1.prod :: Kept(q1, q', k)
    requires forall k: nat | q1.prod <= k < q1.prod + (n - 1) :: Posted(q', k)
    ensures forall k: nat | q.cons <= k < q.prod :: Kept(q, q', k)
    ensures forall k: nat | q.prod <= k < q.prod + n :: Posted(q', k)
  {
    forall k: nat | q.cons <= k < q.prod
      ensures Kept(q, q', k)
    {
      IndexDistinct(q.geom, k, q.prod);
      assert Kept(q1, q', k);
    }
    assert Kept(q1, q', q.prod);
  }

  /** `refill_buffers()`: with at least 8 free slots, fill every one of them
      with a fresh receive buffer and report the new producer pointer;
      otherwise do nothing. */
  function Refill(q: Queue, pkts: Packets.Packets): (r: (Queue, Packets.Packets, seq<RegWrite>))
    requires IsOpen(q) && Valid(q) && Packets.Valid(pkts)
    ensures var (q', pkts', w) := r;
      var missing := q.geom.size - (q.prod - q.cons);
      && IsOpen(q') && Valid(q') && Packets.Valid(pkts')
      && (OwnsAllocated(q.info, pkts) ==> OwnsAllocated(q'.info, pkts'))
      && (missing < RX_REFILL_MIN ==> q' == q && pkts' == pkts && w == [])
      && (missing >= RX_REFILL_MIN ==>
            && q' == q.(prod := q.cons + q.geom.size, info := q'.info, descs := q'.descs)
            && pkts' == Packets.Allocs(pkts, missing)
            && (forall k: nat | q.cons <= k < q.prod :: Kept(q, q', k))
            && (forall k: nat | q.prod <= k < q'.prod :: Posted(q', k))
            && w == [WriteProdPtr(q')])
  {
    var missing := q.geom.size - (q.prod - q.cons);
    if missing < RX_REFILL_MIN then (q, pkts, [])
    else
      var (q', pkts') := Fill(q, pkts, missing);
      (q', pkts', [WriteProdPtr(q')])
  }

  /** A receive ring of fewer than 8 slots is never refilled. */
  lemma SmallRingNeverRefilled(q: Queue, pkts: Packets.Packets)
    requires IsOpen(q) && Valid(q) && Packets.Valid(pkts) && q.geom.size < RX_REFILL_MIN
    ensures Refill(q, pkts) == (q, pkts, [])
  {
  }
}

=== FILE: regblocks.dfy ===
/** `RegBlockList`: discovery of the self-describing register blocks.

    Every block starts with a 12-byte header `{type, version, next_ptr}`.
    The walk records one block per visited offset and follows `next_ptr`
    until it reads 0.  It refuses a next pointer with either of its two low
    bits set, and one that equals the offset of any block already recorded
    (in this walk or an earlier walk into the same list). */
module RegBlocks {
  import opened Common
  import Bits

  const RB_REG_TYPE: nat := 0x00
  const RB_REG_VER: nat := 0x04
  const RB_REG_NEXT_PTR: nat := 0x08

  const WORD: nat := 0x1_0000_0000

  /** A register window: 32-bit values by byte offset.  An offset with no
      entry reads as zero. */
  type Regs = map<nat, nat>

  function ReadDword(w: Regs, offset: nat): (v: nat)
    ensures v < WORD
  {
    if offset in w then w[offset] % WORD else 0
  }

  datatype RegBlock = RegBlock(rbType: nat, version: nat, offset: nat)

  function BlockAt(w: Regs, offset: nat): RegBlock
  {
    RegBlock(ReadDword(w, offset + RB_REG_TYPE), ReadDword(w, offset + RB_REG_VER), offset)
  }

  function NextPtr(w: Regs, offset: nat): nat
  {
    ReadDword(w, offset + RB_REG_NEXT_PTR)
  }

  function Offsets(bs: seq<RegBlock>): (r: set<nat>)
    ensures forall b :: b in bs ==> b.offset in r
    ensures forall x :: x in r ==> exists b :: b in bs && b.offset == x
  {
    if |bs| == 0 then {}
    else
      assert forall b :: b in bs ==> b in bs[..|bs| - 1] || b == bs[|bs| - 1];
      Offsets(bs[..|bs| - 1]) + {bs[|bs| - 1].offset}
  }

  /** Offsets below 2^32: the only ones a next pointer can name. */
  function LowOffsets(bs: seq<RegBlock>): (r: set<nat>)
    ensures forall x :: x in r ==> x < WORD
  {
    if |bs| == 0 then {}
    else
      var last := bs[|bs| - 1];
      LowOffsets(bs[..|bs| - 1]) + (if last.offset < WORD then {last.offset} else {})
  }

  lemma {:induction false} CardBelow(s: set<nat>, n: nat)
    requires forall x :: x in s ==> x < n
    ensures |s| <= n
  {
    if n > 0 {
      CardBelow(s - {n - 1}, n - 1);
    } else {
      assert s == {};
    }
  }

  /** How far the walk still may go: each step adds a new offset below
      2^32 to the recorded list. */
  function Remaining(acc: seq<RegBlock>, offset: nat): int
  {
    WORD + 1 - |LowOffsets(acc)| - (if offset < WORD && offset !in LowOffsets(acc) then 1 else 0)
  }

  /** Each step of the walk brings it closer to its bound. */
  lemma WalkStep(acc: seq<RegBlock>, b: RegBlock, next: nat)
    requires next < WORD && next !in Offsets(acc + [b])
    ensures 0 <= Remaining(acc + [b], next) < Remaining(acc, b.offset)
  {
    var acc' := acc + [b];
    assert acc'[..|acc'| - 1] == acc;
    var low := LowOffsets(acc);
    var low' := LowOffsets(acc');
    assert next !in low' by {
      if next in low' {
        LowInOffsets(acc', next);
      }
    }
    CardBelow(low' + {next}, WORD);
    assert |low' + {next}| == |low'| + 1;
    if b.offset < WORD && b.offset !in low {
      assert low' == low + {b.offset};
      assert |low'| == |low| + 1;
    } else {
      assert low' == low;
    }
  }

  lemma {:induction false} LowInOffsets(bs: seq<RegBlock>, x: nat)
    requires x in LowOffsets(bs)
    ensures x in Offsets(bs)
  {
    if |bs| > 0 && x !in Offsets(bs[..|bs| - 1]) {
      if x in LowOffsets(bs[..|bs| - 1]) {
        LowInOffsets(bs[..|bs| - 1], x);
      }
    }
  }

  /** `enumerate_reg_blocks(window, offset)` on a list that already holds
      `acc`: the result is the whole list after the walk. */
  function Enumerate(w: Regs, acc: seq<RegBlock>, offset: nat): (r: Result<seq<RegBlock>>)
    ensures r.Err? ==> r.error == NotAligned || r.error == BlockLoop
    ensures r.Ok? ==> |r.value| > |acc| && r.value[..|acc|] == acc
    ensures r.Ok? ==> IsChain(w, acc, r.value[|acc|..], offset)
    decreases Remaining(acc, offset)
  {
    var b := BlockAt(w, offset);
    var next := NextPtr(w, offset);
    if next == 0 then
      assert (acc + [b])[|acc|..] == [b];
      Ok(acc + [b])
    else if Bits.And(next, 3) != 0 then Err(NotAligned)
    else if next in Offsets(acc + [b]) then Err(BlockLoop)
    else
      WalkStep(acc, b, next);
      var r := Enumerate(w, acc + [b], next);
      if r.Ok? then
        OkExtends(w, acc, offset, r.value);
        r
      else r
  }

  lemma OkExtends(w: Regs, acc: seq<RegBlock>, offset: nat, full: seq<RegBlock>)
    requires var next := NextPtr(w, offset);
      next != 0 && Bits.And(next, 3) == 0 && next !in Offsets(acc + [BlockAt(w, offset)])
    requires |full| > |acc + [BlockAt(w, offset)]| && full[..|acc + [BlockAt(w, offset)]|] == acc + [BlockAt(w, offset)]
    requires IsChain(w, acc + [BlockAt(w, offset)], full[|acc + [BlockAt(w, offset)]|..], NextPtr(w, offset))
    ensures |full| > |acc| && full[..|acc|] == acc
    ensures IsChain(w, acc, full[|acc|..], offset)
  {
    var b := BlockAt(w, offset);
    SplitAt(full, acc, b);
    ChainCons(w, acc, b, full[|acc| + 1..]);
  }

  lemma SplitAt(full: seq<RegBlock>, acc: seq<RegBlock>, b: RegBlock)
    requires |full| > |acc| + 1 && full[..|acc| + 1] == acc + [b]
    ensures full[..|acc|] == acc
    ensures full[|acc|..] == [b] + full[|acc| + 1..]
  {
    assert full[..|acc|] == (acc + [b])[..|acc|];
    assert full[|acc|] == (acc + [b])[|acc|];
  }

  /** Block i of the chain carries the header stored at its offset. */
  predicate Header(w: Regs, chain: seq<RegBlock>, i: nat)
    requires i < |chain|
  {
    chain[i] == BlockAt(w, chain[i].offset)
  }

  /** Block i links to block i+1 through a non-zero, 4-byte aligned next
      pointer that names no block recorded so far. */
  predicate Linked(w: Regs, acc: seq<RegBlock>, chain: seq<RegBlock>, i: nat)
    requires i + 1 < |chain|
  {
    var next := NextPtr(w, chain[i].offset);
    && next == chain[i + 1].offset
    && next != 0
    && next % 4 == 0
    && next !in Offsets(acc + chain[..i + 1])
  }

  /** `chain` is exactly what a successful walk from `start` records after
      the blocks in `acc`: headers read at each offset, consecutive blocks
      linked, and a zero next pointer in the last one. */
  predicate IsChain(w: Regs, acc: seq<RegBlock>, chain: seq<RegBlock>, start: nat)
  {
    && |chain| >= 1
    && chain[0].offset == start
    && (forall i: nat | i < |chain| :: Header(w, chain, i))
    && (forall i: nat | i + 1 < |chain| :: Linked(w, acc, chain, i))
    && NextPtr(w, chain[|chain| - 1].offset) == 0
  }

  lemma ChainCons(w: Regs, acc: seq<RegBlock>, b: RegBlock, rest: seq<RegBlock>)
    requires b == BlockAt(w, b.offset)
    requires IsChain(w, acc + [b], rest, NextPtr(w, b.offset))
    requires NextPtr(w, b.offset) != 0
    requires Bits.And(NextPtr(w, b.offset), 3) == 0
    requires NextPtr(w, b.offset) !in Offsets(acc + [b])
    ensures IsChain(w, acc, [b] + rest, b.offset)
  {
    assert Bits.And(NextPtr(w, b.offset), 3) == NextPtr(w, b.offset) % 4 by {
      Bits.AndLowMask(NextPtr(w, b.offset), 2);
    }
    ConsHeaders(w, b, rest);
    ConsLinks(w, acc, b, rest);
  }

  lemma ConsHeaders(w: Regs, b: RegBlock, rest: seq<RegBlock>)
    requires b == BlockAt(w, b.offset)
    requires forall i: nat | i < |rest| :: Header(w, rest, i)
    ensures forall i: nat | i < |[b] + rest| :: Header(w, [b] + rest, i)
  {
    var chain := [b] + rest;
    forall i: nat | i < |chain|
      ensures Header(w, chain, i)
    {
      if i > 0 {
        assert Header(w, rest, i - 1);
      }
    }
  }

  lemma ConsLinks(w: Regs, acc: seq<RegBlock>, b: RegBlock, rest: seq<RegBlock>)
    requires |rest| >= 1 && rest[0].offset == NextPtr(w, b.offset)
    requires forall i: nat | i + 1 < |rest| :: Linked(w, acc + [b], rest, i)
    requires NextPtr(w, b.offset) != 0 && NextPtr(w, b.offset) % 4 == 0
    requires NextPtr(w, b.offset) !in Offsets(acc + [b])
    ensures forall i: nat | i + 1 < |[b] + rest| :: Linked(w, acc, [b] + rest, i)
  {
    var chain := [b] + rest;
    forall i: nat | i + 1 < |chain|
      ensures Linked(w, acc, chain, i)
    {
      if i > 0 {
        LinkUnshift(w, acc, b, rest, i - 1);
      } else {
        assert acc + chain[..1] == acc + [b];
      }
    }
  }

  /** Link i of a tail is link i+1 of the chain with the head put back. */
  lemma LinkUnshift(w: Regs, acc: seq<RegBlock>, b: RegBlock, rest: seq<RegBlock>, i: nat)
    requires i + 1 < |rest| && Linked(w, acc + [b], rest, i)
    ensures Linked(w, acc, [b] + rest, i + 1)
  {
    assert acc + ([b] + rest)[..i + 2] == (acc + [b]) + rest[..i + 1];
  }

  /** A well-formed chain is always found: the walk succeeds and records
      exactly that chain, so the walk fails precisely when no chain exists. */
  lemma {:induction false} ChainIsEnumerated(w: Regs, acc: seq<RegBlock>, chain: seq<RegBlock>, start: nat)
    requires IsChain(w, acc, chain, start)
    ensures Enumerate(w, acc, start) == Ok(acc + chain)
    decreases |chain|, 1
  {
    if |chain| > 1 {
      ChainLinkEnumerated(w, acc, chain, start);
    } else {
      assert Header(w, chain, 0);
      assert acc + [BlockAt(w, start)] == acc + chain;
    }
  }

  lemma {:induction false} ChainLinkEnumerated(w: Regs, acc: seq<RegBlock>, chain: seq<RegBlock>, start: nat)
    requires IsChain(w, acc, chain, start) && |chain| > 1
    ensures Enumerate(w, acc, start) == Ok(acc + chain)
    decreases |chain|, 0
  {
    var next := ChainTail(w, acc, chain, start);
    ChainIsEnumerated(w, acc + [BlockAt(w, start)], chain[1..], next);
    EnumerateStep(w, acc, start, acc + chain);
  }

  /** One accepted link: the walk from `start` ends where the walk from its
      next pointer, with the block at `start` recorded, ends. */
  lemma EnumerateStep(w: Regs, acc: seq<RegBlock>, start: nat, full: seq<RegBlock>)
    requires var next := NextPtr(w, start);
      next != 0 && Bits.And(next, 3) == 0 && next !in Offsets(acc + [BlockAt(w, start)])
    requires Enumerate(w, acc + [BlockAt(w, start)], NextPtr(w, start)) == Ok(full)
    ensures Enumerate(w, acc, start) == Ok(full)
  {
  }

  /** A chain of two or more blocks is its first block, a link the walk
      accepts, and a chain from the next pointer on. */
  lemma ChainTail(w: Regs, acc: seq<RegBlock>, chain: seq<RegBlock>, start: nat) returns (next: nat)
    requires IsChain(w, acc, chain, start) && |chain| > 1
    ensures next == NextPtr(w, start)
    ensures next != 0 && Bits.And(next, 3) == 0 && next !in Offsets(acc + [BlockAt(w, start)])
    ensures IsChain(w, acc + [BlockAt(w, start)], chain[1..], next)
    ensures (acc + [BlockAt(w, start)]) + chain[1..] == acc + chain
  {
    var b := BlockAt(w, start);
    assert Header(w, chain, 0);
    next := NextPtr(w, start);
    assert Linked(w, acc, chain, 0);
    assert acc + chain[..1] == acc + [b];
    assert Bits.And(next, 3) == 0 by {
      Bits.AndLowMask(next, 2);
    }
    var rest := chain[1..];
    forall i: nat | i < |rest|
      ensures Header(w, rest, i)
    {
      assert Header(w, chain, i + 1);
    }
    forall i: nat | i + 1 < |rest|
      ensures Linked(w, acc + [b], rest, i)
    {
      LinkShift(w, acc, chain, i);
    }
  }

  /** Link i+1 of a chain is link i of its tail, with the head recorded. */
  lemma LinkShift(w: Regs, acc: seq<RegBlock>, chain: seq<RegBlock>, i: nat)
    requires i + 2 < |chain| && Linked(w, acc, chain, i + 1)
    ensures Linked(w, acc + [chain[0]], chain[1..], i)
  {
    assert (acc + [chain[0]]) + chain[1..][..i + 1] == acc + chain[..i + 2];
  }

  /** Python's `not version`: no version given, or version 0, matches any. */
  predicate Matches(b: RegBlock, rbType: nat, version: Option<nat>)
  {
    b.rbType == rbType && (version.None? || version.value == 0 || b.version == version.value)
  }

  /** The matching blocks, in discovery order. */
  function Matching(blocks: seq<RegBlock>, rbType: nat, version: Option<nat>): (r: seq<RegBlock>)
    ensures forall b :: b in r <==> b in blocks && Matches(b, rbType, version)
  {
    if |blocks| == 0 then []
    else
      var rest := Matching(blocks[1..], rbType, version);
      assert blocks == [blocks[0]] + blocks[1..];
      if Matches(blocks[0], rbType, version) then [blocks[0]] + rest else rest
  }

  /** `find(rb_type, version, index)`: the index-th match (a negative index
      counts as 0), or `None` when there are not that many. */
  function Find(blocks: seq<RegBlock>, rbType: nat, version: Option<nat>, index: int): (r: Option<RegBlock>)
    ensures var k := if index < 0 then 0 else index;
      var m := Matching(blocks, rbType, version);
      r == if k < |m| then Some(m[k]) else None
  {
    if |blocks| == 0 then None
    else if Matches(blocks[0], rbType, version) then
      if index <= 0 then Some(blocks[0]) else Find(blocks[1..], rbType, version, index - 1)
    else Find(blocks[1..], rbType, version, index)
  }
}

=== FILE: resource.dfy ===
/** `Resource`: the index allocator behind every queue type.

    A pool holds `count` indices.  The free list starts as `0 .. count-1`;
    `alloc` pops the head, `free` appends and re-sorts, so the lowest free
    index is always handed out next.  Each index also owns a register
    sub-window of `stride` bytes at `index * stride`, created on first use
    and cached. */
module Resource {
  import opened Common
  import Bits

  /** A register sub-window: byte offset within the parent window and size. */
  datatype Window = Window(offset: nat, size: nat)

  datatype Pool = Pool(count: nat, stride: nat, freeList: seq<nat>, windows: map<nat, Window>)

  predicate Sorted(s: seq<nat>)
  {
    forall i, j :: 0 <= i < j < |s| ==> s[i] <= s[j]
  }

  /** Every cached window is the one `get_window` would create for its index. */
  predicate WindowsConsistent(p: Pool)
  {
    forall i :: i in p.windows ==> p.windows[i] == Window(i * p.stride, p.stride)
  }

  /** The pool invariant kept by every operation. */
  predicate Valid(p: Pool)
  {
    && Sorted(p.freeList)
    && (forall k :: 0 <= k < |p.freeList| ==> p.freeList[k] < p.count)
    && WindowsConsistent(p)
  }

  /** `list(range(n))` */
  function Range(n: nat): (r: seq<nat>)
    ensures |r| == n
    ensures forall i :: 0 <= i < n ==> r[i] == i
    ensures forall x: nat :: x in r <==> x < n
    ensures Sorted(r)
  {
    if n == 0 then [] else Range(n - 1) + [n - 1]
  }

  /** `Resource(count, parent, stride)` */
  function NewPool(count: nat, stride: nat): (p: Pool)
    ensures Valid(p)
    ensures forall x: nat :: x in p.freeList <==> x < count
    ensures |p.freeList| == count
  {
    Pool(count, stride, Range(count), map[])
  }

  /** `alloc`: pop the head of the free list (an `IndexError` when empty). */
  function Alloc(p: Pool): (r: Result<(Pool, nat)>)
    ensures r.Err? <==> |p.freeList| == 0
    ensures r.Err? ==> r.error == ResourceExhausted
    ensures r.Ok? ==> var (p', x) := r.value;
      && x in p.freeList
      && multiset(p'.freeList) + multiset{x} == multiset(p.freeList)
      && |p'.freeList| + 1 == |p.freeList|
      && (Sorted(p.freeList) ==> forall y :: y in p.freeList ==> x <= y)
      && (Valid(p) ==> Valid(p') && x < p.count)
      && p'.count == p.count && p'.windows == p.windows
  {
    if |p.freeList| == 0 then Err(ResourceExhausted)
    else
      assert p.freeList == [p.freeList[0]] + p.freeList[1..];
      Ok((p.(freeList := p.freeList[1..]), p.freeList[0]))
  }

  /** `alloc` followed by `get_window` for the new index, as every queue's
      `open` does. */
  function Claim(p: Pool): (r: Result<(Pool, nat, Window)>)
    ensures r.Err? <==> |p.freeList| == 0
    ensures r.Err? ==> r.error == ResourceExhausted
    ensures r.Ok? ==> ClaimOk(p, r.value.0, r.value.1, r.value.2)
  {
    var a := Alloc(p);
    if a.Err? then Err(a.error)
    else
      var x := a.value.1;
      var gw := GetWindow(a.value.0, x);
      ClaimKeeps(p, a.value.0, x, gw.0, gw.1);
      Ok((gw.0, x, gw.1))
  }

  /** What a claim hands out: the lowest free index, removed from the
      free list, with its window. */
  predicate ClaimOk(p: Pool, p': Pool, x: nat, w: Window)
  {
    && x in p.freeList
    && multiset(p'.freeList) + multiset{x} == multiset(p.freeList)
    && |p'.freeList| + 1 == |p.freeList|
    && (Sorted(p.freeList) ==> forall y :: y in p.freeList ==> x <= y)
    && (Valid(p) ==> Valid(p') && x < p.count && w == Window(x * p.stride, p.stride))
    && p'.count == p.count
  }

  /** Caching the new index's window keeps what `alloc` established. */
  lemma ClaimKeeps(p: Pool, p1: Pool, x: nat, p2: Pool, w: Window)
    requires Alloc(p).Ok? && Alloc(p).value == (p1, x) && GetWindow(p1, x) == (p2, w)
    ensures ClaimOk(p, p2, x, w)
  {
    assert p2.freeList == p1.freeList && p2.count == p1.count;
    if Valid(p) {
      assert Valid(p1) && WindowsConsistent(p2);
    }
  }

  /** Insertion into a sorted list: what `append` followed by `sort` yields. */
  function Insert(s: seq<nat>, x: nat): (r: seq<nat>)
    ensures multiset(r) == multiset(s) + multiset{x}
    ensures forall k :: 0 <= k < |r| ==> r[k] == x || r[k] in s
  {
    if |s| == 0 then [x]
    else if x <= s[0] then [x] + s
    else
      assert s == [s[0]] + s[1..];
      [s[0]] + Insert(s[1..], x)
  }

  lemma {:induction false} InsertSorted(s: seq<nat>, x: nat)
    ensures Sorted(s) ==> Sorted(Insert(s, x))
  {
    if Sorted(s) && |s| > 0 && x > s[0] {
      var rest := Insert(s[1..], x);
      InsertSorted(s[1..], x);
      forall k | 0 <= k < |rest|
        ensures s[0] <= rest[k]
      {
        if rest[k] != x {
          var i :| 0 <= i < |s[1..]| && s[1..][i] == rest[k];
          assert s[1..][i] == s[i + 1];
        }
      }
    }
  }

  /** `free`: append the index and sort.  Nothing detects a double free: an
      index already on the list is added a second time. */
  function Free(p: Pool, x: nat): (p': Pool)
    ensures multiset(p'.freeList) == multiset(p.freeList) + multiset{x}
    ensures Valid(p) && x < p.count ==> Valid(p')
    ensures p'.count == p.count && p'.windows == p.windows
  {
    InsertSorted(p.freeList, x);
    p.(freeList := Insert(p.freeList, x))
  }

  /** `get_window`: the cached window for `index`, created on first use. */
  function GetWindow(p: Pool, index: nat): (r: (Pool, Window))
    ensures WindowsConsistent(p) ==> r.1 == Window(index * p.stride, p.stride)
    ensures WindowsConsistent(p) ==> WindowsConsistent(r.0)
    ensures index in r.0.windows && r.0.windows[index] == r.1
    ensures r.0.freeList == p.freeList && r.0.count == p.count
    ensures r.0.windows.Keys == p.windows.Keys + {index}
  {
    if index in p.windows then (p, p.windows[index])
    else
      var w := Window(index * p.stride, p.stride);
      (p.(windows := p.windows[index := w]), w)
  }

  /** Two sorted lists with the same elements are the same list: `Insert` is
      therefore exactly Python's `append` + `sort`. */
  lemma {:induction false} SortedUnique(a: seq<nat>, b: seq<nat>)
    requires Sorted(a) && Sorted(b) && multiset(a) == multiset(b)
    ensures a == b
  {
    if |a| > 0 {
      SortedSameHead(a, b);
      MultisetTail(a);
      MultisetTail(b);
      assert Sorted(a[1..]) && Sorted(b[1..]);
      SortedUnique(a[1..], b[1..]);
      assert a == [a[0]] + a[1..] && b == [b[0]] + b[1..];
    } else {
      assert |multiset(b)| == 0;
    }
  }

  /** Two sorted lists with the same elements start alike. */
  lemma SortedSameHead(a: seq<nat>, b: seq<nat>)
    requires Sorted(a) && Sorted(b) && multiset(a) == multiset(b) && |a| > 0
    ensures |b| > 0 && a[0] == b[0]
  {
    assert |b| == |multiset(b)| == |a|;
    assert a[0] in multiset(b) && b[0] in multiset(a);
    var i :| 0 <= i < |b| && b[i] == a[0];
    var j :| 0 <= j < |a| && a[j] == b[0];
    assert b[0] <= b[i] && a[0] <= a[j];
  }

  lemma MultisetTail(a: seq<nat>)
    requires |a| > 0
    ensures multiset(a[1..]) == multiset(a) - multiset{a[0]}
  {
    assert a == [a[0]] + a[1..];
  }

  /** `free(x)` then `alloc()` hands back x, and leaves the free list as it
      was, whenever x is below every free index. */
  lemma FreeThenAlloc(p: Pool, x: nat)
    requires Sorted(p.freeList)
    requires forall y :: y in p.freeList ==> x <= y
    ensures Alloc(Free(p, x)) == Ok((p, x))
  {
    var q := Free(p, x);
    forall k | 0 <= k < |p.freeList|
      ensures x <= p.freeList[k]
    {
      assert p.freeList[k] in p.freeList;
    }
    assert Sorted([x] + p.freeList);
    assert multiset([x] + p.freeList) == multiset(q.freeList);
    SortedUnique([x] + p.freeList, q.freeList);
    assert q.freeList[1..] == p.freeList;
  }

  /** Allocation order is deterministic: from a fresh pool, k allocations hand
      out 0, 1, ..., k-1. */
  lemma {:induction false} FreshPoolAllocatesInOrder(count: nat, stride: nat, k: nat)
    requires k < count
    ensures AllocN(NewPool(count, stride), k + 1).Ok?
    ensures AllocN(NewPool(count, stride), k + 1).value.1 == k
  {
    AllocNFromRange(count, stride, k + 1);
  }

  /** k successive allocations, returning the last index handed out. */
  function AllocN(p: Pool, k: nat): Result<(Pool, nat)>
    requires k >= 1
  {
    if k == 1 then Alloc(p)
    else match AllocN(p, k - 1)
      case Err(e) => Err(e)
      case Ok((p', _)) => Alloc(p')
  }

  lemma {:induction false} AllocNFromRange(count: nat, stride: nat, k: nat)
    requires 1 <= k <= count
    ensures AllocN(NewPool(count, stride), k).Ok?
    ensures AllocN(NewPool(count, stride), k).value.1 == k - 1
    ensures AllocN(NewPool(count, stride), k).value.0.freeList == Range(count)[k..]
  {
    var p := NewPool(count, stride);
    if k > 1 {
      AllocNFromRange(count, stride, k - 1);
    }
  }

  /** Windows of distinct indices do not overlap. */
  lemma WindowsDisjoint(p: Pool, i: nat, j: nat)
    requires WindowsConsistent(p) && i < j
    ensures GetWindow(p, i).1.offset + GetWindow(p, i).1.size <= GetWindow(p, j).1.offset
  {
    Bits.MulAtLeast(j - i, p.stride);
    assert (j - i) * p.stride == j * p.stride - i * p.stride;
  }

  /** `get_window` is idempotent: asking again returns the same window and
      leaves the pool as the first call left it. */
  lemma GetWindowIdempotent(p: Pool, index: nat)
    ensures GetWindow(GetWindow(p, index).0, index) == GetWindow(p, index)
  {
  }
}

=== FILE: ring.dfy ===
/** Ring pointer arithmetic shared by the event, completion, transmit and
    receive queues.

    A queue of `size` slots (a power of two) is driven by two free-running
    pointers, a producer and a consumer; a pointer names slot
    `ptr & size_mask`.  The hardware and the driver exchange only the low 16
    bits of each pointer.  Records written by the hardware carry a phase bit
    (bit 31 of their last 32-bit word) that flips on every pass around the
    ring, so a record is new exactly when its phase bit differs from
    `cons_ptr & size`. */
module Ring {
  import opened Common
  import Bits

  const PTR_MASK: nat := 0xFFFF
  /** Pointers travel as 16-bit values: 2^16. */
  const PTR_SPAN: nat := 0x1_0000
  /** Bit 31 of a record's last word is its phase bit. */
  const PHASE_BIT: nat := 31

  /** The size fields every queue computes from a requested size. */
  datatype Geometry = Geometry(logSize: nat, size: nat, mask: nat, fullSize: nat)
  {
    predicate Valid()
    {
      size == Bits.Pow2(logSize) && mask == size - 1 && fullSize == size / 2
    }
  }

  /** `log_size = req.bit_length() - 1`, `size = 2**log_size`,
      `size_mask = size - 1`, `full_size = size >> 1`.  A request of 0 gives
      `log_size == -1` and a fractional size, which fails as soon as it is
      used. */
  function Geom(req: nat): (r: Result<Geometry>)
    ensures r.Err? <==> req == 0
    ensures r.Err? ==> r.error == BadSize
    ensures r.Ok? ==> r.value.Valid() && r.value.size <= req < 2 * r.value.size
  {
    if req == 0 then Err(BadSize)
    else
      var log := Bits.BitLength(req) - 1;
      var size := Bits.Pow2(log);
      Ok(Geometry(log, size, size - 1, Bits.Shr(size, 1)))
  }

  /** The size chosen is the largest power of two not above the request. */
  lemma GeomIsLargestPowerOfTwo(req: nat, k: nat)
    requires req > 0 && Bits.Pow2(k) <= req
    ensures Geom(req).Ok? && Bits.Pow2(k) <= Geom(req).value.size
  {
    var g := Geom(req).value;
    if k > g.logSize {
      Bits.Pow2Monotone(g.logSize + 1, k);
      assert false;
    } else {
      Bits.Pow2Monotone(k, g.logSize);
    }
  }

  /** A request that is itself a power of two is met exactly. */
  lemma PowerOfTwoExact(g: Geometry, k: nat)
    requires g.Valid() && g.size <= Bits.Pow2(k) < 2 * g.size
    ensures g.size == Bits.Pow2(k)
  {
    if g.logSize < k {
      Bits.Pow2Monotone(g.logSize + 1, k);
      assert false;
    } else {
      Bits.Pow2Monotone(k, g.logSize);
    }
  }

  /** `ptr & size_mask`: the slot a pointer names. */
  function Index(g: Geometry, ptr: nat): (r: nat)
    requires g.Valid()
    ensures r == ptr % g.size && r < g.size
  {
    Bits.AndLowMask(ptr, g.logSize);
    Bits.And(ptr, g.mask)
  }

  /** `empty()`: no entry is outstanding. */
  predicate Empty(prod: nat, cons: nat): (r: bool)
    ensures r <==> prod == cons
  {
    prod == cons
  }

  /** `full()`: `full_size` or more entries are outstanding, so a ring
      counts as full at half its size. */
  predicate Full(g: Geometry, prod: nat, cons: nat): (r: bool)
    ensures r <==> prod - cons >= g.fullSize
    ensures g.Valid() && g.size > 1 ==> (r <==> 2 * (prod - cons) >= g.size)
  {
    prod - cons >= g.fullSize
  }

  /** An empty ring is never full, unless it has a single slot, whose
      `full_size` of zero makes it full from the start. */
  lemma EmptyNotFull(g: Geometry, p: nat)
    requires g.Valid()
    ensures Empty(p, p)
    ensures Full(g, p, p) <==> g.size == 1
  {
  }

  /** While the ring is not full, the slot the producer fills next is none of
      the slots still owned by outstanding entries `cons .. prod-1`. */
  lemma NotFullSlotFree(g: Geometry, prod: nat, cons: nat, k: nat)
    requires g.Valid() && cons <= k < prod && !Full(g, prod, cons)
    ensures Index(g, prod) != Index(g, k)
  {
    var s := g.size;
    var d := prod - k;
    var r := k % s;
    if r + d < s {
      Bits.DivModUnique(prod, s, k / s, r + d);
    } else {
      Bits.DivModUnique(prod, s, k / s + 1, r + d - s);
    }
  }

  /** `bool(ptr & size)`: the phase the consumer expects on this pass. */
  function Phase(g: Geometry, ptr: nat): (r: bool)
    requires g.Valid()
    ensures r <==> (ptr / g.size) % 2 == 1
  {
    Bits.AndSingleBit(ptr, g.logSize);
    Bits.And(ptr, g.size) != 0
  }

  /** A drain loop stops at the record whose phase bit equals the expected
      phase; a record is valid (not yet consumed) when they differ. */
  predicate SlotValid(g: Geometry, tail: nat, ptr: nat): (r: bool)
    requires g.Valid()
    ensures r <==> ((tail / Bits.Pow2(PHASE_BIT)) % 2 == 1) != ((ptr / g.size) % 2 == 1)
  {
    Bits.TestBit(tail, PHASE_BIT) != Phase(g, ptr)
  }

  lemma DivStep(x: nat, d: nat)
    requires d > 0
    ensures (x + d) / d == x / d + 1 && (x + d) % d == x % d
  {
    Bits.DivModUnique(x + d, d, x / d + 1, x % d);
  }

  /** One full pass later the same slot expects the opposite phase, so a
      record valid at `ptr` reads as consumed at `ptr + size`. */
  lemma PhaseFlips(g: Geometry, tail: nat, ptr: nat)
    requires g.Valid()
    ensures Index(g, ptr + g.size) == Index(g, ptr)
    ensures SlotValid(g, tail, ptr) <==> !SlotValid(g, tail, ptr + g.size)
  {
    PhaseOpposite(g, ptr);
  }

  lemma PhaseOpposite(g: Geometry, ptr: nat)
    requires g.Valid()
    ensures Index(g, ptr + g.size) == Index(g, ptr)
    ensures Phase(g, ptr + g.size) == !Phase(g, ptr)
  {
    DivStep(ptr, g.size);
    var q := ptr / g.size;
    assert (q + 1) % 2 == 1 <==> q % 2 == 0;
  }

  /** All slots from `lo` up to `hi` hold valid records. */
  predicate ValidFrom(g: Geometry, tails: seq<nat>, lo: nat, hi: nat)
    requires g.Valid() && |tails| == g.size
  {
    forall k: nat | lo <= k < hi :: SlotValid(g, tails[Index(g, k)], k)
  }

  /** The end of the run of valid records that starts at `ptr`, given that
      the drain started at `start` (with a valid record there unless it is
      `ptr` itself).  `tails` holds the last word of each slot's record. */
  function RunEnd(g: Geometry, tails: seq<nat>, start: nat, ptr: nat): (e: nat)
    requires g.Valid() && |tails| == g.size
    requires start <= ptr <= start + g.size
    requires ptr == start || SlotValid(g, tails[Index(g, start)], start)
    ensures ptr <= e <= start + g.size
    ensures ValidFrom(g, tails, ptr, e)
    ensures !SlotValid(g, tails[Index(g, e)], e)
    decreases start + g.size - ptr
  {
    if !SlotValid(g, tails[Index(g, ptr)], ptr) then ptr
    else
      assert ptr < start + g.size by {
        if ptr == start + g.size {
          PhaseFlips(g, tails[Index(g, start)], start);
          assert false;
        }
      }
      RunEnd(g, tails, start, ptr + 1)
  }

  /** The pointer a drain loop reaches from `cons`: it consumes every valid
      record in order and stops at the first invalid one, at most one full
      ring later. */
  function DrainEnd(g: Geometry, tails: seq<nat>, cons: nat): (e: nat)
    requires g.Valid() && |tails| == g.size
    ensures cons <= e <= cons + g.size
    ensures ValidFrom(g, tails, cons, e)
    ensures !SlotValid(g, tails[Index(g, e)], e)
  {
    RunEnd(g, tails, cons, cons)
  }

  /** The drain end is the only pointer with that property. */
  lemma DrainEndUnique(g: Geometry, tails: seq<nat>, cons: nat, e: nat)
    requires g.Valid() && |tails| == g.size
    requires cons <= e && ValidFrom(g, tails, cons, e)
    requires !SlotValid(g, tails[Index(g, e)], e)
    ensures e == DrainEnd(g, tails, cons)
  {
    var d := DrainEnd(g, tails, cons);
    if e < d {
      assert false;
    } else if d < e {
      assert false;
    }
  }

  /** `cons_ptr += ((val >> 16) - cons_ptr) & 0xFFFF`.  Python's `&` on a
      negative difference gives the non-negative residue, as Dafny's `%`. */
  function ReadConsPtr(cons: nat, val: nat): (r: nat)
    ensures cons <= r < cons + PTR_SPAN
    ensures r % PTR_SPAN == (val / PTR_SPAN) % PTR_SPAN
  {
    Bits.Pow2Values();
    var h := Bits.Shr(val, 16);
    var diff := (h - cons) % PTR_SPAN;
    ResidueStep(cons, h, diff);
    cons + diff
  }

  lemma ResidueStep(cons: nat, h: nat, diff: nat)
    requires diff == (h - cons) % PTR_SPAN
    ensures (cons + diff) % PTR_SPAN == h % PTR_SPAN
  {
    var m := h - cons;
    assert m == (m / PTR_SPAN) * PTR_SPAN + diff;
    assert cons + diff == h - (m / PTR_SPAN) * PTR_SPAN;
    assert h == (h / PTR_SPAN) * PTR_SPAN + h % PTR_SPAN;
    assert cons + diff == (h / PTR_SPAN - m / PTR_SPAN) * PTR_SPAN + h % PTR_SPAN;
    Bits.DivModUnique(cons + diff, PTR_SPAN, h / PTR_SPAN - m / PTR_SPAN, h % PTR_SPAN);
  }

  /** The new consumer pointer is the least value not below the old one
      whose low 16 bits equal the hardware's. */
  lemma ReadConsPtrIsLeast(cons: nat, val: nat, x: nat)
    requires cons <= x && x % PTR_SPAN == (val / PTR_SPAN) % PTR_SPAN
    ensures ReadConsPtr(cons, val) <= x
  {
    var r := ReadConsPtr(cons, val);
    if x < r {
      Bits.ResiduesDiffer(x, r, PTR_SPAN);
      assert false;
    }
  }

  /** Reading the same hardware value twice changes nothing the second time. */
  lemma ReadConsPtrIdempotent(cons: nat, val: nat)
    ensures ReadConsPtr(ReadConsPtr(cons, val), val) == ReadConsPtr(cons, val)
  {
    var r := ReadConsPtr(cons, val);
    ReadConsPtrIsLeast(r, val, r);
  }

  /** The 32-bit word at `MQNIC_QUEUE_PTR_REG`: the producer pointer in bits
      0-15 (`PROD_PTR_REG`, offset 0x10) and the consumer pointer in bits
      16-31 (`CONS_PTR_REG`, offset 0x12). */
  function PtrWord(prod: nat, cons: nat): (w: nat)
    ensures w < Bits.Pow2(32)
    ensures Bits.Field(w, 0, 16) == prod % PTR_SPAN
    ensures Bits.Field(w, 16, 16) == cons % PTR_SPAN
  {
    var w := Bits.Or(Bits.Shl(Bits.And(cons, PTR_MASK), 16), Bits.And(prod, PTR_MASK));
    PtrWordValue(prod, cons);
    PtrWordFields(w, cons % PTR_SPAN, prod % PTR_SPAN);
    w
  }

  lemma PtrWordValue(prod: nat, cons: nat)
    ensures Bits.Or(Bits.Shl(Bits.And(cons, PTR_MASK), 16), Bits.And(prod, PTR_MASK))
      == (cons % PTR_SPAN) * PTR_SPAN + prod % PTR_SPAN
  {
    Bits.Pow2Values();
    Bits.AndLowMask(prod, 16);
    Bits.AndLowMask(cons, 16);
    var hi := Bits.Shl(Bits.And(cons, PTR_MASK), 16);
    assert hi == (cons % PTR_SPAN) * PTR_SPAN;
    assert hi % Bits.Pow2(16) == 0 by {
      Bits.DivModUnique(hi, PTR_SPAN, cons % PTR_SPAN, 0);
    }
    Bits.OrDisjoint(hi, Bits.And(prod, PTR_MASK), 16);
  }

  lemma PtrWordFields(w: nat, c: nat, p: nat)
    requires c < PTR_SPAN && p < PTR_SPAN && w == c * PTR_SPAN + p
    ensures w < Bits.Pow2(32)
    ensures Bits.Field(w, 0, 16) == p
    ensures Bits.Field(w, 16, 16) == c
  {
    Bits.Pow2Values();
    assert Bits.Pow2(0) == 1;
    Bits.DivModUnique(w, PTR_SPAN, c, p);
    Bits.DivModUnique(w, 1, w, 0);
    Bits.DivModUnique(c, PTR_SPAN, 0, c);
  }

  /** `read_cons_ptr` recovers the hardware consumer pointer from the pointer
      register, whatever the producer half holds. */
  lemma ReadConsPtrOfRegister(cons: nat, prod: nat, hwCons: nat)
    ensures ReadConsPtr(cons, PtrWord(prod, hwCons)) % PTR_SPAN == hwCons % PTR_SPAN
  {
    var w := PtrWord(prod, hwCons);
    assert Bits.Field(w, 16, 16) == (w / PTR_SPAN) % PTR_SPAN by {
      Bits.Pow2Values();
    }
  }
}

=== FILE: scheduler.dfy ===
/** The round-robin transmit scheduler: `BaseScheduler`, `SchedulerRoundRobin`
    and `SchedulerPort` of the Python driver, and the kernel driver's
    `mqnic_scheduler_*` functions, which program the same hardware.

    The scheduler's register block holds a global enable register, a
    configuration word and, per channel, a control register and four
    flow-control fields.  A channel is one (port, traffic class) pair.  A
    second window holds one control word per transmit queue: writing it
    issues a command, reading it returns the queue's status bits. */
module Scheduler {
  import opened Common
  import Bits

  // Register block offsets.
  const REG_OFFSET: nat := 0x0C
  const REG_QUEUE_COUNT: nat := 0x10
  const REG_QUEUE_STRIDE: nat := 0x14
  const REG_CTRL: nat := 0x18
  const REG_CFG: nat := 0x1C
  const REG_CH_STRIDE: nat := 0x10
  const REG_CH0_CTRL: nat := 0x20
  const REG_CH0_FC1_DEST: nat := 0x24
  const REG_CH0_FC1_PB: nat := 0x26
  const REG_CH0_FC2_DB: nat := 0x28
  const REG_CH0_FC2_PL: nat := 0x2A
  const REG_CH0_FC3_DL: nat := 0x2C

  // Queue status bits (per port, the port fields sit in byte `port`).
  const PORT_TC: nat := 0x07
  const PORT_EN: nat := 0x08
  const PORT_PAUSE: nat := 0x10
  const PORT_SCHEDULED: nat := 0x20
  const QUEUE_EN: nat := 0x40
  const QUEUE_PAUSE: nat := 0x80
  const QUEUE_ACTIVE: nat := 0x4000

  // Queue commands.
  const CMD_SET_PORT_TC: nat := 0x8001_0000
  const CMD_SET_PORT_ENABLE: nat := 0x8002_0000
  const CMD_SET_PORT_PAUSE: nat := 0x8003_0000
  const CMD_SET_QUEUE_ENABLE: nat := 0x4000_0100
  const CMD_SET_QUEUE_PAUSE: nat := 0x4000_0200

  const MAX_TXQ: nat := 32

  const HALF: nat := 0x1_0000
  const WORD: nat := 0x1_0000_0000

  /** A register window: values by byte offset.  An offset never written
      reads as zero; a read or write of `width` keeps the value modulo
      `width` (2^16 for `read_word`/`iowrite16`, 2^32 for the dword forms). */
  type Regs = map<nat, nat>

  function Read(w: Regs, offset: nat, width: nat): (v: nat)
    requires width >= 1
    ensures v < width
  {
    if offset in w then w[offset] % width else 0
  }

  function Write(w: Regs, offset: nat, width: nat, v: nat): (w': Regs)
    requires width >= 1
    ensures Read(w', offset, width) == v % width
  {
    w[offset := v % width]
  }

  // ---------------------------------------------------------------------
  // Configuration word

  datatype Config = Config(tcCount: nat, portCount: nat, channelCount: nat, fcScale: nat)

  /** `tc_count = val & 0xff`, `port_count = (val >> 8) & 0xff`,
      `channel_count = tc_count * port_count`, `fc_scale = 1 << ((val >> 16) & 0xff)`. */
  function DecodeConfig(val: nat): (c: Config)
    ensures c.tcCount < 0x100 && c.portCount < 0x100
    ensures c.channelCount == c.tcCount * c.portCount
    ensures c.fcScale >= 1
  {
    var tc := Bits.Field(val, 0, 8);
    var port := Bits.Field(val, 8, 8);
    assert tc < 0x100 && port < 0x100 by {
      Bits.Pow2Values();
    }
    Config(tc, port, tc * port, Bits.Pow2(Bits.Field(val, 16, 8)))
  }

  /** The configuration word the hardware reports for the given counts
      and flow-control scale exponent; bits 24 and up are `rest`. */
  function ConfigWord(tc: nat, port: nat, logScale: nat, rest: nat): nat
  {
    tc + 0x100 * port + 0x1_0000 * logScale + 0x100_0000 * rest
  }

  /** Decoding recovers every field of the configuration word, whatever
      its upper byte holds, and the scale is always a power of two. */
  lemma ConfigRoundTrip(tc: nat, port: nat, logScale: nat, rest: nat)
    requires tc < 0x100 && port < 0x100 && logScale < 0x100
    ensures DecodeConfig(ConfigWord(tc, port, logScale, rest))
      == Config(tc, port, tc * port, Bits.Pow2(logScale))
  {
    Bits.Pow2Values();
    var w := ConfigWord(tc, port, logScale, rest);
    assert Bits.Pow2(0) == 1;
    Bits.DivModUnique(w, 1, w, 0);
    Bits.DivModUnique(w, 0x100, port + 0x100 * logScale + 0x1_0000 * rest, tc);
    Bits.DivModUnique(w / 0x100, 0x100, logScale + 0x100 * rest, port);
    Bits.DivModUnique(w, 0x1_0000, logScale + 0x100 * rest, tc + 0x100 * port);
    Bits.DivModUnique(w / 0x1_0000, 0x100, rest, logScale);
  }

  // ---------------------------------------------------------------------
  // Scheduler state, creation and the reference-counted enable

  /** One round-robin scheduler: its register block, where its queue
      control window sits, its geometry and how many users enabled it. */
  datatype Sched = Sched(regs: Regs, hwOffset: nat, queueCount: nat, queueStride: nat,
                         cfg: Config, enableCount: int)

  /** The hardware is enabled exactly while the count is positive. */
  predicate Balanced(s: Sched)
  {
    s.enableCount >= 0 && Read(s.regs, REG_CTRL, WORD) == (if s.enableCount > 0 then 1 else 0)
  }

  /** Python `SchedulerRoundRobin.init`: read the block's registers, clamp
      the queue count to 32, decode the configuration and create one
      scheduler port per hardware port (returned as their indices). */
  function Init(rb: Regs): (r: (Sched, seq<nat>))
    ensures r.0.regs == rb && r.0.enableCount == 0
    ensures r.0.queueCount <= MAX_TXQ
    ensures |r.1| == r.0.cfg.portCount
    ensures forall k | 0 <= k < |r.1| :: r.1[k] == k
    ensures Read(rb, REG_CTRL, WORD) == 0 ==> Balanced(r.0)
  {
    var s := Sched(rb, Read(rb, REG_OFFSET, WORD),
                   Min(Read(rb, REG_QUEUE_COUNT, WORD), MAX_TXQ),
                   Read(rb, REG_QUEUE_STRIDE, WORD),
                   DecodeConfig(Read(rb, REG_CFG, WORD)), 0);
    (s, seq(s.cfg.portCount, k => k))
  }

  /** Kernel `mqnic_create_scheduler`: allocate the record (`gotRecord`
      says whether `kzalloc` succeeded; it fails with `-ENOMEM` otherwise),
      do the same reads without the clamp, then disable the hardware and
      start the count at zero. */
  function Create(rb: Regs, gotRecord: bool): (r: Result<Sched>)
    ensures r.Err? <==> !gotRecord
    ensures r.Err? ==> r.error == OutOfMemory
    ensures r.Ok? ==> Balanced(r.value) && r.value.enableCount == 0
    ensures r.Ok? ==> r.value.cfg == DecodeConfig(Read(rb, REG_CFG, WORD))
  {
    if !gotRecord then Err(OutOfMemory)
    else
      Ok(Sched(Write(rb, REG_CTRL, WORD, 0), Read(rb, REG_OFFSET, WORD),
               Read(rb, REG_QUEUE_COUNT, WORD), Read(rb, REG_QUEUE_STRIDE, WORD),
               DecodeConfig(Read(rb, REG_CFG, WORD)), 0))
  }

  /** The block's registers as `Init` and `Create` find them on a scheduler
      reporting the given offset, queue geometry and configuration. */
  predicate Reports(rb: Regs, offset: nat, queueCount: nat, stride: nat, cfg: nat)
  {
    Read(rb, REG_OFFSET, WORD) == offset && Read(rb, REG_QUEUE_COUNT, WORD) == queueCount
    && Read(rb, REG_QUEUE_STRIDE, WORD) == stride && Read(rb, REG_CFG, WORD) == cfg
  }

  /** What both initialisations read back: the offset and stride
      unchanged, the queue count clamped by Python only, the
      configuration fields. */
  lemma InitReadsConfig(rb: Regs, offset: nat, queueCount: nat, stride: nat,
                        tc: nat, port: nat, logScale: nat)
    requires tc < 0x100 && port < 0x100 && logScale < 0x100
    requires Reports(rb, offset, queueCount, stride, ConfigWord(tc, port, logScale, 0))
    ensures Init(rb).0.hwOffset == offset && Init(rb).0.queueStride == stride
    ensures Init(rb).0.queueCount == (if queueCount <= MAX_TXQ then queueCount else MAX_TXQ)
    ensures Create(rb, true).value.queueCount == queueCount && Create(rb, true).value.hwOffset == offset
    ensures Init(rb).0.cfg == Create(rb, true).value.cfg == Config(tc, port, tc * port, Bits.Pow2(logScale))
    ensures Init(rb).1 == seq(port, k => k)
  {
    ConfigRoundTrip(tc, port, logScale, 0);
  }

  /** Kernel `mqnic_destroy_scheduler`: disable the hardware. */
  function Destroy(s: Sched): (regs: Regs)
    ensures Read(regs, REG_CTRL, WORD) == 0
  {
    Write(s.regs, REG_CTRL, WORD, 0)
  }

  /** `enable`: write 1 to the control register only on the first enable;
      count every call. */
  function Enable(s: Sched): (s': Sched)
    ensures s'.enableCount == s.enableCount + 1
    ensures s'.cfg == s.cfg && s'.queueCount == s.queueCount && s'.hwOffset == s.hwOffset
    ensures Balanced(s) ==> Balanced(s') && Read(s'.regs, REG_CTRL, WORD) == 1
    ensures s.enableCount != 0 ==> s'.regs == s.regs
  {
    var regs := if s.enableCount == 0 then Write(s.regs, REG_CTRL, WORD, 1) else s.regs;
    s.(regs := regs, enableCount := s.enableCount + 1)
  }

  /** `disable`: count down, and write 0 only when the count reaches 0.
      Nothing stops the count from going below zero. */
  function Disable(s: Sched): (s': Sched)
    ensures s'.enableCount == s.enableCount - 1
    ensures s'.cfg == s.cfg && s'.queueCount == s.queueCount && s'.hwOffset == s.hwOffset
    ensures Balanced(s) && s.enableCount > 0 ==> Balanced(s')
    ensures s.enableCount != 1 ==> s'.regs == s.regs
  {
    var n := s.enableCount - 1;
    s.(regs := if n == 0 then Write(s.regs, REG_CTRL, WORD, 0) else s.regs, enableCount := n)
  }

  /** A balanced enable/disable pair leaves the count and the hardware
      state as they were. */
  lemma EnableThenDisable(s: Sched)
    requires Balanced(s)
    ensures Disable(Enable(s)).enableCount == s.enableCount
    ensures Balanced(Disable(Enable(s)))
    ensures Read(Disable(Enable(s)).regs, REG_CTRL, WORD) == Read(s.regs, REG_CTRL, WORD)
  {
  }

  /** A disable without a matching enable drives the count to -1; the next
      enable then only brings it back to 0 and writes nothing, so the
      hardware stays disabled after that enable returns. */
  lemma UnmatchedDisable(s: Sched)
    requires Balanced(s) && s.enableCount == 0
    ensures Disable(s).enableCount == -1 && !Balanced(Disable(s))
    ensures Enable(Disable(s)).enableCount == 0
    ensures Read(Enable(Disable(s)).regs, REG_CTRL, WORD) == 0
  {
  }

  // ---------------------------------------------------------------------
  // Channels and their flow-control registers

  /** `ch = port * tc_count + tc` */
  function Channel(cfg: Config, port: nat, tc: nat): (ch: nat)
    ensures tc < cfg.tcCount ==> ch / cfg.tcCount == port && ch % cfg.tcCount == tc
  {
    var ch := port * cfg.tcCount + tc;
    assert tc < cfg.tcCount ==> ch / cfg.tcCount == port && ch % cfg.tcCount == tc by {
      if tc < cfg.tcCount {
        Bits.DivModUnique(ch, cfg.tcCount, port, tc);
      }
    }
    ch
  }

  /** Distinct (port, traffic class) pairs name distinct channels, and a
      pair within the configured counts names a channel below the
      channel count. */
  lemma ChannelUnique(cfg: Config, p1: nat, t1: nat, p2: nat, t2: nat)
    requires t1 < cfg.tcCount && t2 < cfg.tcCount
    ensures Channel(cfg, p1, t1) == Channel(cfg, p2, t2) <==> p1 == p2 && t1 == t2
    ensures cfg.channelCount == cfg.tcCount * cfg.portCount && p1 < cfg.portCount
      ==> Channel(cfg, p1, t1) < cfg.channelCount
  {
    if cfg.channelCount == cfg.tcCount * cfg.portCount && p1 < cfg.portCount {
      assert (cfg.portCount - p1) * cfg.tcCount >= cfg.tcCount by {
        Bits.MulAtLeast(cfg.portCount - p1, cfg.tcCount);
      }
    }
  }

  /** The per-channel registers. */
  datatype ChField = ChCtrl | Dest | PktBudget | DataBudget | PktLimit | DataLimit

  function FieldOffset(f: ChField): (off: nat)
    ensures REG_CH0_CTRL <= off < REG_CH0_CTRL + REG_CH_STRIDE
  {
    match f
    case ChCtrl => REG_CH0_CTRL
    case Dest => REG_CH0_FC1_DEST
    case PktBudget => REG_CH0_FC1_PB
    case DataBudget => REG_CH0_FC2_DB
    case PktLimit => REG_CH0_FC2_PL
    case DataLimit => REG_CH0_FC3_DL
  }

  /** Control and data limit are 32-bit registers, the others 16-bit. */
  function FieldWidth(f: ChField): (w: nat)
    ensures w == HALF || w == WORD
  {
    if f == ChCtrl || f == DataLimit then WORD else HALF
  }

  /** The byte-count fields are held in units of `fc_scale` bytes. */
  predicate Scaled(f: ChField)
  {
    f == DataBudget || f == DataLimit
  }

  /** `CH0_<field> + ch * CH_STRIDE` */
  function ChReg(f: ChField, ch: nat): nat
  {
    FieldOffset(f) + ch * REG_CH_STRIDE
  }

  /** No two per-channel registers share an address, and none of them is
      one of the block's global registers. */
  lemma ChRegUnique(f1: ChField, ch1: nat, f2: ChField, ch2: nat)
    ensures ChReg(f1, ch1) == ChReg(f2, ch2) <==> f1 == f2 && ch1 == ch2
    ensures ChReg(f1, ch1) > REG_CFG
  {
    if ChReg(f1, ch1) == ChReg(f2, ch2) {
      Bits.DivModUnique(ChReg(f1, ch1), REG_CH_STRIDE, ch1 + 2, FieldOffset(f1) - REG_CH0_CTRL);
      Bits.DivModUnique(ChReg(f2, ch2), REG_CH_STRIDE, ch2 + 2, FieldOffset(f2) - REG_CH0_CTRL);
    }
  }

  /** `(val + fc_scale - 1) // fc_scale`: the least multiple count of
      `scale` covering `v`. */
  function CeilDiv(v: nat, scale: nat): (q: nat)
    requires scale >= 1
    ensures q * scale >= v && q * scale < v + scale
  {
    var q := (v + scale - 1) / scale;
    assert v + scale - 1 == q * scale + (v + scale - 1) % scale;
    q
  }

  /** The register value a set of field `f` to `v` computes (before the
      register width truncates it). */
  function Encode(cfg: Config, f: ChField, v: nat): nat
    requires cfg.fcScale >= 1
  {
    if Scaled(f) then CeilDiv(v, cfg.fcScale) else v
  }

  /** `set_ch_<field>` (Python, by port and traffic class through
      `Channel`) and `mqnic_scheduler_channel_set_<field>`/`_enable`/
      `_disable` (kernel, by channel): write the encoded value to the
      channel's register at the register's width. */
  function SetChannel(s: Sched, f: ChField, ch: nat, v: nat): (s': Sched)
    requires s.cfg.fcScale >= 1
    ensures s'.cfg == s.cfg && s'.enableCount == s.enableCount
    ensures Read(s'.regs, REG_CTRL, WORD) == Read(s.regs, REG_CTRL, WORD)
    ensures Balanced(s) ==> Balanced(s')
  {
    ChRegUnique(f, ch, f, ch);
    s.(regs := Write(s.regs, ChReg(f, ch), FieldWidth(f), Encode(s.cfg, f, v)))
  }

  /** `get_ch_<field>`: read the channel's register, scaled back to bytes
      for the byte-count fields. */
  function GetChannel(s: Sched, f: ChField, ch: nat): (v: nat)
    ensures !Scaled(f) ==> v < FieldWidth(f)
    ensures Scaled(f) && s.cfg.fcScale >= 1 ==>
      v % s.cfg.fcScale == 0 && v < FieldWidth(f) * s.cfg.fcScale
  {
    var e := Read(s.regs, ChReg(f, ch), FieldWidth(f));
    var scale := if Scaled(f) then s.cfg.fcScale else 1;
    assert scale >= 1 ==> (e * scale) % scale == 0 && e * scale < FieldWidth(f) * scale by {
      if scale >= 1 {
        Bits.DivModUnique(e * scale, scale, e, 0);
        MulMonotone(e + 1, FieldWidth(f), scale);
      }
    }
    e * scale
  }

  /** Reading back a field just set: a count field returns the value
      itself, a byte field rounds up to the next multiple of the scale (so
      it reads back at least the value and less than one scale unit more,
      exactly the value when it is a multiple) — as long as the encoded
      value fits the register. */
  lemma {:induction false} SetThenGet(s: Sched, f: ChField, ch: nat, v: nat)
    requires s.cfg.fcScale >= 1
    requires Encode(s.cfg, f, v) < FieldWidth(f)
    ensures !Scaled(f) ==> GetChannel(SetChannel(s, f, ch, v), f, ch) == v
    ensures Scaled(f) ==> v <= GetChannel(SetChannel(s, f, ch, v), f, ch) < v + s.cfg.fcScale
    ensures Scaled(f) ==> (GetChannel(SetChannel(s, f, ch, v), f, ch) == v <==> v % s.cfg.fcScale == 0)
  {
    var g := GetChannel(SetChannel(s, f, ch, v), f, ch);
    var e := Encode(s.cfg, f, v);
    assert g == e * (if Scaled(f) then s.cfg.fcScale else 1);
    if Scaled(f) {
      CeilExact(v, s.cfg.fcScale);
    }
  }

  /** Rounding up to a multiple of `scale` changes nothing exactly when
      `v` already is one. */
  lemma CeilExact(v: nat, scale: nat)
    requires scale >= 1
    ensures CeilDiv(v, scale) * scale == v <==> v % scale == 0
  {
    var e := CeilDiv(v, scale);
    if e * scale == v {
      Bits.DivModUnique(v, scale, e, 0);
    } else if v % scale == 0 {
      assert v == (v / scale) * scale;
      Bits.ResiduesDiffer(v, e * scale, scale);
      Bits.DivModUnique(e * scale, scale, e, 0);
      assert false;
    }
  }

  /** When the encoded value does not fit the register, the set is
      silently truncated and the field reads back less than was set. */
  lemma SetTruncates(s: Sched, f: ChField, ch: nat, v: nat)
    requires s.cfg.fcScale >= 1
    requires Encode(s.cfg, f, v) >= FieldWidth(f)
    ensures GetChannel(SetChannel(s, f, ch, v), f, ch) < v
  {
    var scale := if Scaled(f) then s.cfg.fcScale else 1;
    var e := Encode(s.cfg, f, v);
    assert GetChannel(SetChannel(s, f, ch, v), f, ch) == (e % FieldWidth(f)) * scale;
    TruncatedBelow(e, FieldWidth(f), scale, v);
  }

  /** A register value `e` with `e * scale < v + scale` that overflows a
      register of `width` keeps less than `v` after truncation. */
  lemma TruncatedBelow(e: nat, width: nat, scale: nat, v: nat)
    requires 1 <= width <= e && scale >= 1 && e * scale < v + scale
    ensures (e % width) * scale < v
  {
    var q := e / width;
    var r := e % width;
    assert e == q * width + r;
    assert q >= 1;
    Bits.MulAtLeast(q, width);
    assert r <= e - width;
    assert r * scale <= (e - width) * scale by {
      MulMonotone(r, e - width, scale);
    }
    assert (e - width) * scale == e * scale - width * scale;
    Bits.MulAtLeast(width, scale);
  }

  lemma MulMonotone(a: nat, b: nat, c: nat)
    requires a <= b
    ensures a * c <= b * c
  {
    assert b * c == a * c + (b - a) * c;
  }

  /** Setting one channel field leaves every other field of every channel
      reading as before. */
  lemma SetKeepsOthers(s: Sched, f: ChField, ch: nat, v: nat, f2: ChField, ch2: nat)
    requires s.cfg.fcScale >= 1
    requires f != f2 || ch != ch2
    ensures GetChannel(SetChannel(s, f, ch, v), f2, ch2) == GetChannel(s, f2, ch2)
  {
    ChRegUnique(f, ch, f2, ch2);
  }

  /** With `fc_scale = 64`, a data budget of 9000 bytes is stored as 141
      and reads back as 9024. */
  lemma DataBudgetExample(s: Sched, ch: nat)
    requires s.cfg.fcScale == 64
    ensures Read(SetChannel(s, DataBudget, ch, 9000).regs, ChReg(DataBudget, ch), HALF) == 141
    ensures GetChannel(SetChannel(s, DataBudget, ch, 9000), DataBudget, ch) == 9024
  {
    assert CeilDiv(9000, 64) == 141;
  }

  // ---------------------------------------------------------------------
  // Queue commands

  /** The commands a queue control word accepts. */
  datatype Command =
    | SetPortTc(port: nat, tc: nat)
    | SetPortEnable(port: nat, on: bool)
    | SetPortPause(port: nat, on: bool)
    | SetQueueEnable(on: bool)
    | SetQueuePause(on: bool)

  function Flag(on: bool): nat
  {
    if on then 1 else 0
  }

  /** `op | (port << 8) | value` for port commands, `op | value` for queue
      commands; the traffic class is masked to three bits and the flags are
      0 or 1. */
  function CommandWord(c: Command): nat
  {
    match c
    case SetPortTc(port, tc) => Bits.Or(Bits.Or(CMD_SET_PORT_TC, Bits.Shl(port, 8)), Bits.And(tc, 7))
    case SetPortEnable(port, on) => Bits.Or(Bits.Or(CMD_SET_PORT_ENABLE, Bits.Shl(port, 8)), Flag(on))
    case SetPortPause(port, on) => Bits.Or(Bits.Or(CMD_SET_PORT_PAUSE, Bits.Shl(port, 8)), Flag(on))
    case SetQueueEnable(on) => Bits.Or(CMD_SET_QUEUE_ENABLE, Flag(on))
    case SetQueuePause(on) => Bits.Or(CMD_SET_QUEUE_PAUSE, Flag(on))
  }

  /** The command a control word carries, read field by field: the opcode
      in the upper half (port commands) or the upper three bytes (queue
      commands), the port in bits 8-15, the operand in bits 0-7. */
  function ParseCommand(w: nat): Option<Command>
  {
    var op := w / HALF;
    var port := (w / 0x100) % 0x100;
    var v := w % 0x100;
    if op == CMD_SET_PORT_TC / HALF && v < 8 then Some(SetPortTc(port, v))
    else if op == CMD_SET_PORT_ENABLE / HALF && v < 2 then Some(SetPortEnable(port, v == 1))
    else if op == CMD_SET_PORT_PAUSE / HALF && v < 2 then Some(SetPortPause(port, v == 1))
    else if w / 0x100 == CMD_SET_QUEUE_ENABLE / 0x100 && v < 2 then Some(SetQueueEnable(v == 1))
    else if w / 0x100 == CMD_SET_QUEUE_PAUSE / 0x100 && v < 2 then Some(SetQueuePause(v == 1))
    else None
  }

  /** The command as the hardware receives it: the traffic class keeps
      only its low three bits. */
  function Normal(c: Command): Command
  {
    if c.SetPortTc? then c.(tc := c.tc % 8) else c
  }

  predicate PortInRange(c: Command)
  {
    (c.SetPortTc? || c.SetPortEnable? || c.SetPortPause?) ==> c.port < 0x100
  }

  lemma LowPow2()
    ensures Bits.Pow2(3) == 8 && Bits.Pow2(4) == 16 && Bits.Pow2(6) == 64 && Bits.Pow2(7) == 128
  {
    assert Bits.Pow2(3) == 8;
    assert Bits.Pow2(7) == 128;
  }

  /** A port command word is the sum of its fields, and each field reads
      back from it. */
  lemma PortCmdFields(op: nat, port: nat, v: nat)
    requires port < 0x100 && v < 0x100
    ensures Bits.Or(Bits.Or(op * HALF, Bits.Shl(port, 8)), v) == op * HALF + port * 0x100 + v
    ensures (op * HALF + port * 0x100 + v) / HALF == op
    ensures ((op * HALF + port * 0x100 + v) / 0x100) % 0x100 == port
    ensures (op * HALF + port * 0x100 + v) % 0x100 == v
  {
    var w := op * HALF + port * 0x100 + v;
    PortCmdOr(op, port, v);
    assert w / HALF == op by {
      Bits.DivModUnique(w, HALF, op, port * 0x100 + v);
    }
    assert w % 0x100 == v && w / 0x100 == op * 0x100 + port by {
      assert w == (op * 0x100 + port) * 0x100 + v;
      Bits.DivModUnique(w, 0x100, op * 0x100 + port, v);
    }
    assert (w / 0x100) % 0x100 == port by {
      Bits.DivModUnique(op * 0x100 + port, 0x100, op, port);
    }
  }

  /** The fields of a port command word do not overlap, so OR-ing them
      adds them. */
  lemma PortCmdOr(op: nat, port: nat, v: nat)
    requires port < 0x100 && v < 0x100
    ensures Bits.Or(Bits.Or(op * HALF, Bits.Shl(port, 8)), v) == op * HALF + port * 0x100 + v
  {
    Bits.Pow2Values();
    var hi := op * HALF;
    assert Bits.Shl(port, 8) == port * 0x100;
    assert hi % Bits.Pow2(16) == 0 by {
      Bits.DivModUnique(hi, Bits.Pow2(16), op, 0);
    }
    Bits.OrDisjoint(hi, port * 0x100, 16);
    var mid := hi + port * 0x100;
    assert mid % Bits.Pow2(8) == 0 by {
      assert mid == (op * 0x100 + port) * 0x100;
      Bits.DivModUnique(mid, Bits.Pow2(8), op * 0x100 + port, 0);
    }
    Bits.OrDisjoint(mid, v, 8);
  }

  /** A queue command word is the opcode plus the operand. */
  lemma QueueCmdFields(op: nat, v: nat)
    requires v < 0x100
    ensures Bits.Or(op * 0x100, v) == op * 0x100 + v
    ensures (op * 0x100 + v) / 0x100 == op && (op * 0x100 + v) % 0x100 == v
    ensures (op * 0x100 + v) / HALF == op / 0x100
  {
    Bits.Pow2Values();
    Bits.DivModUnique(op * 0x100, Bits.Pow2(8), op, 0);
    Bits.OrDisjoint(op * 0x100, v, 8);
    Bits.DivModUnique(op * 0x100 + v, 0x100, op, v);
    Bits.DivModUnique(op * 0x100 + v, HALF, op / 0x100, (op % 0x100) * 0x100 + v);
  }

  /** Every command word parses back to the command it encodes, so the
      encoding is unambiguous. */
  lemma ParseCommandWord(c: Command)
    ensures PortInRange(c) ==> ParseCommand(CommandWord(c)) == Some(Normal(c))
  {
    if PortInRange(c) {
      match c
      case SetPortTc(port, tc) => ParsePortTc(port, tc);
      case SetPortEnable(port, on) => ParsePortFlag(c);
      case SetPortPause(port, on) => ParsePortFlag(c);
      case SetQueueEnable(on) => ParseQueueFlag(c);
      case SetQueuePause(on) => ParseQueueFlag(c);
    }
  }

  lemma ParsePortTc(port: nat, tc: nat)
    requires port < 0x100
    ensures ParseCommand(CommandWord(SetPortTc(port, tc))) == Some(SetPortTc(port, tc % 8))
  {
    var op := CMD_SET_PORT_TC / HALF;
    assert Bits.And(tc, 7) == tc % 8 by {
      LowPow2();
      Bits.AndLowMask(tc, 3);
    }
    assert CMD_SET_PORT_TC == op * HALF;
    PortCmdFields(op, port, tc % 8);
  }

  lemma ParsePortFlag(c: Command)
    requires c.SetPortEnable? || c.SetPortPause?
    requires c.port < 0x100
    ensures ParseCommand(CommandWord(c)) == Some(c)
  {
    var op := if c.SetPortEnable? then CMD_SET_PORT_ENABLE else CMD_SET_PORT_PAUSE;
    PortCmdFields(op / HALF, c.port, Flag(c.on));
  }

  lemma ParseQueueFlag(c: Command)
    requires c.SetQueueEnable? || c.SetQueuePause?
    ensures ParseCommand(CommandWord(c)) == Some(c)
  {
    var op := if c.SetQueueEnable? then CMD_SET_QUEUE_ENABLE else CMD_SET_QUEUE_PAUSE;
    QueueCmdFields(op / 0x100, Flag(c.on));
  }

  /** Python `set_queue_ctrl`: a command to queue `queue`'s control word at
      `queue * 4` in the queue window. */
  function QueueCtrl(queue: nat, c: Command): (w: RegWrite)
    ensures w.Write32? && w.offset == queue * 4
    ensures PortInRange(c) ==> ParseCommand(w.value) == Some(Normal(c))
  {
    ParseCommandWord(c);
    Write32(queue * 4, CommandWord(c))
  }

  /** Kernel `mqnic_scheduler_queue_enable`/`_disable`/`_set_pause`: the
      same command words at `queue_stride * queue`.  `set_pause` turns any
      nonzero value into 1. */
  function QueueCtrlStride(s: Sched, queue: nat, c: Command): (w: RegWrite)
    ensures w.Write32? && w.offset == s.queueStride * queue
    ensures PortInRange(c) ==> ParseCommand(w.value) == Some(Normal(c))
    ensures s.queueStride == 4 ==> w == QueueCtrl(queue, c)
  {
    ParseCommandWord(c);
    Write32(s.queueStride * queue, CommandWord(c))
  }

  /** Kernel `mqnic_scheduler_queue_set_pause(sched, queue, val)`. */
  function SetPause(s: Sched, queue: nat, val: int): (w: RegWrite)
    ensures w.offset == s.queueStride * queue
    ensures ParseCommand(w.value) == Some(SetQueuePause(val != 0))
  {
    QueueCtrlStride(s, queue, SetQueuePause(val != 0))
  }

  /** `SchedulerPort.enable_queue`: enable the queue, then enable it on
      this port. */
  function PortEnableQueue(port: nat, queue: nat): (ws: seq<RegWrite>)
    ensures |ws| == 2 && ws[0].offset == queue * 4 && ws[1].offset == queue * 4
    ensures ParseCommand(ws[0].value) == Some(SetQueueEnable(true))
    ensures port < 0x100 ==> ParseCommand(ws[1].value) == Some(SetPortEnable(port, true))
  {
    [QueueCtrl(queue, SetQueueEnable(true)), QueueCtrl(queue, SetPortEnable(port, true))]
  }

  /** `SchedulerPort.disable_queue`: disable the queue on this port, then
      disable the queue. */
  function PortDisableQueue(port: nat, queue: nat): (ws: seq<RegWrite>)
    ensures |ws| == 2 && ws[0].offset == queue * 4 && ws[1].offset == queue * 4
    ensures port < 0x100 ==> ParseCommand(ws[0].value) == Some(SetPortEnable(port, false))
    ensures ParseCommand(ws[1].value) == Some(SetQueueEnable(false))
  {
    [QueueCtrl(queue, SetPortEnable(port, false)), QueueCtrl(queue, SetQueueEnable(false))]
  }

  /** `disable_all_queues`: one disable command per queue, in queue order. */
  function DisableAllQueues(s: Sched): (ws: seq<RegWrite>)
    ensures |ws| == s.queueCount
    ensures forall k | 0 <= k < |ws| ::
      ws[k].offset == k * 4 && ParseCommand(ws[k].value) == Some(SetQueueEnable(false))
  {
    seq(s.queueCount, k requires 0 <= k => QueueCtrl(k, SetQueueEnable(false)))
  }

  // ---------------------------------------------------------------------
  // Queue status

  /** What a queue's control word reports for port 0. */
  datatype QueueStatus = QueueStatus(tc: nat, portEnabled: bool, portPaused: bool, scheduled: bool,
                                     queueEnabled: bool, queuePaused: bool, active: bool)

  /** The status word laid out by the status bit constants. */
  function StatusWord(st: QueueStatus): nat
  {
    st.tc % 8 + 8 * Flag(st.portEnabled) + 16 * Flag(st.portPaused) + 32 * Flag(st.scheduled)
    + 64 * Flag(st.queueEnabled) + 128 * Flag(st.queuePaused) + 0x4000 * Flag(st.active)
  }

  /** Kernel `mqnic_scheduler_queue_get_pause`: `!!(ctrl & (1 << 7))`. */
  function GetPause(ctrl: nat): (r: nat)
    ensures r == 0 || r == 1
    ensures r == 1 <==> (ctrl / 128) % 2 == 1
  {
    LowPow2();
    if Bits.TestBit(ctrl, 7) then 1 else 0
  }

  /** Python `get_queue_port_enable`: the queue-enable bit and the port's
      port-enable bit are both set. */
  function GetQueuePortEnable(ctrl: nat, port: nat): (r: bool)
    ensures r <==> (ctrl / 64) % 2 == 1 && (ctrl / Bits.Pow2(8 * port + 3)) % 2 == 1
  {
    LowPow2();
    Bits.DivPow2(ctrl, 8 * port, 3);
    Bits.TestBit(ctrl, 6) && Bits.TestBit(Bits.Shr(ctrl, 8 * port), 3)
  }

  /** Python `get_queue_port_pause`: the port's pause bit. */
  function GetQueuePortPause(ctrl: nat, port: nat): (r: bool)
    ensures r <==> (ctrl / Bits.Pow2(8 * port + 4)) % 2 == 1
  {
    LowPow2();
    Bits.DivPow2(ctrl, 8 * port, 4);
    Bits.TestBit(Bits.Shr(ctrl, 8 * port), 4)
  }

  /** A word made of a high part, one bit `b` at weight `p` and a low part
      below `p` has `b` as that bit. */
  lemma BitAt(w: nat, p: nat, hi: nat, b: nat, lo: nat)
    requires p >= 1 && b < 2 && lo < p
    requires w == (hi * 2 + b) * p + lo
    ensures (w / p) % 2 == b
  {
    Bits.DivModUnique(w, p, hi * 2 + b, lo);
    Bits.DivModUnique(hi * 2 + b, 2, hi, b);
  }

  /** The status getters read back the fields of the status word:
      `get_pause` the queue-pause flag, `get_queue_port_enable` the
      conjunction of queue- and port-enable, `get_queue_port_pause` the
      port-pause flag. */
  lemma {:induction false} StatusRoundTrip(st: QueueStatus)
    ensures GetPause(StatusWord(st)) == Flag(st.queuePaused)
    ensures GetQueuePortEnable(StatusWord(st), 0) == (st.queueEnabled && st.portEnabled)
    ensures GetQueuePortPause(StatusWord(st), 0) == st.portPaused
  {
    LowPow2();
    assert Bits.Pow2(0) == 1;
    var w := StatusWord(st);
    assert Bits.Shr(w, 0) == w;
    StatusBits(st);
  }

  /** Where each flag sits in the status word. */
  lemma StatusBits(st: QueueStatus)
    ensures (StatusWord(st) / 128) % 2 == Flag(st.queuePaused)
    ensures (StatusWord(st) / 64) % 2 == Flag(st.queueEnabled)
    ensures (StatusWord(st) / 16) % 2 == Flag(st.portPaused)
    ensures (StatusWord(st) / 8) % 2 == Flag(st.portEnabled)
  {
    WordBits(StatusWord(st), st.tc % 8, Flag(st.portEnabled), Flag(st.portPaused), Flag(st.scheduled),
             Flag(st.queueEnabled), Flag(st.queuePaused), Flag(st.active));
  }

  lemma WordBits(w: nat, t: nat, f3: nat, f4: nat, f5: nat, f6: nat, f7: nat, f14: nat)
    requires t < 8 && f3 < 2 && f4 < 2 && f5 < 2 && f6 < 2 && f7 < 2
    requires w == t + 8 * f3 + 16 * f4 + 32 * f5 + 64 * f6 + 128 * f7 + 0x4000 * f14
    ensures (w / 128) % 2 == f7 && (w / 64) % 2 == f6 && (w / 16) % 2 == f4 && (w / 8) % 2 == f3
  {
    BitAt(w, 128, 64 * f14, f7, t + 8 * f3 + 16 * f4 + 32 * f5 + 64 * f6);
    BitAt(w, 64, 128 * f14 + f7, f6, t + 8 * f3 + 16 * f4 + 32 * f5);
    BitAt(w, 16, 512 * f14 + 4 * f7 + 2 * f6 + f5, f4, t + 8 * f3);
    BitAt(w, 8, 1024 * f14 + 8 * f7 + 4 * f6 + 2 * f5 + f4, f3, t);
  }

  /** The hardware trace of a port-enable plus queue-enable on port 0,
      traffic class 0: the status word reads 0x48, which the getter reports
      as enabled. */
  lemma EnabledQueueStatus()
    ensures StatusWord(QueueStatus(0, true, false, false, true, false, false)) == 0x48
    ensures GetQueuePortEnable(0x48, 0)
    ensures GetPause(0x48) == 0
  {
    StatusRoundTrip(QueueStatus(0, true, false, false, true, false, false));
  }
}
